=== FILE: README.md ===
# MiniOS core in Dafny

A model of the core of MiniOS (Lrix), a small teaching kernel for 64-bit RISC-V, together with its user shell and the Python helper that embeds the README into the kernel image. Every operation is a pure function or a method over immutable data. Its contract states what the C (or Python) code promises its callers, and lemmas connect each operation to an inverse, an invariant or an independent reference definition.

The modules follow the source tree:

- `Basics` (basics.dfy) holds `Option`, bytes as a `0..255` newtype, C strings as the NUL-free content before the terminator, and small sequence facts.
- `Numerals` (numerals.dfy) renders and parses decimal and hexadecimal text. `printk`, the scanner, the shell and the README embedder all share it.
- `ReadmeEmbed` (readme_embed.dfy) is the rendering loop of `gen_readme.py`. It maps a byte sequence to the generated C text: the size constant, then `0xhh, ` literals sixteen to an indented line, with a closing newline only after a partial last line. Parsing the text back yields the bytes.
- `KString` (kstring.dfy) covers `memset`, `memcpy`, `memmove` and `memcmp` on a flat byte memory, as loops with invariants.
- `Kmem` (kmem.dfy) is the physical page allocator. It keeps a descriptor array, an intrusive LIFO free list and a free-page counter. `kinit`, `kalloc` and `kfree` keep the three in agreement. `kfree` rejects NULL, out-of-range, misaligned and already-free addresses.
- `Vmm` (vmm.dfy) is the two-level page table. It covers the index macros, `make_entry`, `get_or_create_pte_table`, `vmm_init`, `vmm_map`, `vmm_map_page`, `vmm_unmap` and `vmm_translate`. Tables live in frames taken from `Kmem`. The effect of an operation is stated as the translation it changes and the ones it keeps. `Vmm.Coupled` ties the tables to the allocator: the directory's frame and every table's frame are allocated, and the directory's frame holds no table.
- `Proc` (proc.dfy) covers the FIFO ready queue with its head, tail and count links, the field set-up of `proc_create`, and the selection and state rules of `schedule`.
- `Shell` (shell.dfy) covers the pure helpers of the user shell:
  - `readline` with backspace editing;
  - `parse_args`, `trim_spaces` and `cmd_echo`;
  - the pid printer and `kill`'s parser;
  - `write`'s bounded concatenation;
  - the pipe split.
- `Uart` (printk.dfy) is `printk`'s formatting with `%d %s %p %x %lu %c`, plus `puts`' line-feed expansion. `UartScan` (scan.dfy) is `uart_getline`, the `scank` readers and `scank` itself, over a finite input sequence. `OldUart` (old_uart.dfy) is the older `printk` in `kernel/uart.c`.
- The flat inode file system is split into six modules:
  - `FsLayout` (fs_layout.dfy): the little-endian on-disk encodings and where each inode lives;
  - `FsDisk` (fs_disk.dfy): the bitmap allocator, inode access and `bmap`;
  - `FsFile` (fs_file.dfy): soundness of a file's block map, and `inode_read`;
  - `FsWrite` (fs_write.dfy): `inode_write`;
  - `FsDir` (fs_dir.dfy): the root directory operations;
  - `FsApi` (fs_api.dfy): `ialloc`, the descriptor table and the `fs_*` calls.
- `Syscall` (syscall.dfy) covers `syscall_dispatch`, the descriptor routing of the file handlers, `sys_sbrk`, `kstrcmp` and `sys_exec_lookup`. It works on a kernel state holding the file system, the console output, the current process, the page tables and the frame allocator. User memory is a flat byte sequence.

Integer widths are written out. Each `uint32_t` or `uint64_t` computation that can wrap is reduced modulo 2^32 or 2^64, and an `(int)` cast takes the low 32 bits as a two's complement value. Stating the contracts exposes some behaviour of the code as written:

- `sys_read` and `sys_close` cast the descriptor to `int`, so descriptor `fd + 2^32` reaches the same file. `sys_write` compares the whole 64-bit word and refuses it (`Syscall.DescriptorLow32`).
- `sys_open` also takes its create flag as an `int`, so a flag of 2^32 opens rather than creates.
- In `sys_sbrk`, `(incr + PAGE_SIZE - 1) / PAGE_SIZE` wraps for an increment in the last 4095 values below 2^64. Such a call maps no page and reports success (`Syscall.PagesWrap`).
- When a `vmm_map_page` fails inside `sys_sbrk`, the pages mapped before it stay mapped, while `brk_size` is unchanged.
- `vmm_unmap` with `free_phys` frees whatever frame the entry names. A page mapped onto the directory's own frame with `vmm_map` is freed this way, and the next allocation hands that frame out again (`Vmm.FreedDirectoryReused`).
- `fs_unlink` tests the inode number for 0 after `dir_lookup`. `dir_lookup` never yields inode 0, so that test never fires.
- In the shell's pipe handling, the `invalid commands` branch can never be taken (`Shell.SplitLine`).

## Model

| member | source | states |
|---|---|---|
| ReadmeEmbed.GenerateBody | gen_readme.py:58-66 | the byte-at-a-time loop emits exactly the reference layout: one indented line per chunk of sixteen bytes, each entry `0x` and two lower-case hex digits, and a newline after the sixteenth entry of a line and after a shorter last line |
| ReadmeEmbed.RenderArtifact | gen_readme.py:40-68 | the whole generated file is the fixed banner, notice and include line, the size constant, the array opening, the body and the closing brace |
| ReadmeEmbed.RoundTrip | gen_readme.py:55-68 | reading a generated file back recovers `README_MD_SIZE` as the number of bytes and the array as the bytes themselves, in order |
| ReadmeEmbed.LinesParse | gen_readme.py:58-66 | the array body parses back, entry by entry, into the bytes it was generated from |
| ReadmeEmbed.LineCount | gen_readme.py:59-66 | the body holds ⌈n/16⌉ newlines for n bytes: one per full line and one for a partial last line |
| ReadmeEmbed.BodyLength | gen_readme.py:59-66 | the body is six characters per byte plus five per line (four of indent, one newline) |
| ReadmeEmbed.LastLine | gen_readme.py:63-66 | the last line holds the n mod 16 trailing entries (sixteen when 16 divides n) and ends in exactly one newline |
| ReadmeEmbed.EmptyArtifact | gen_readme.py:55-68 | an empty README yields size 0 and an array that closes right after it opens |
| ReadmeEmbed.ExampleAbc | gen_readme.py:55-66 | the bytes of "ABC" give size 3 and the single line `    0x41, 0x42, 0x43, ` |
| ReadmeEmbed.HexByteIsFixed | gen_readme.py:62 | the `{b:02x}` rendering of a byte is its two-digit zero-padded lower-case hex form |
| ReadmeEmbed.EntryDigits | gen_readme.py:62 | the two hex digits of an entry read back as the byte they render |
| Numerals.DecimalString | kernel/uart/uart.c:346-362 | the `%d`/`%lu` digit loops yield at least one digit, all decimal |
| Numerals.DecimalRoundTrip | kernel/uart/uart.c:346-362 | the decimal digits the loops emit read back as the number they render |
| Numerals.DecimalNoLeadingZero | kernel/uart/uart.c:346-349 | a rendering starts with `0` exactly when the number is zero, so only zero has a leading zero |
| Numerals.HexFixed | kernel/uart/uart.c:380-384 | the nibble loop gives exactly `width` lower-case hex digits |
| Numerals.HexFixedRoundTrip | kernel/uart/uart.c:380-384 | the fixed-width digits read back as the number modulo 16^width |
| Numerals.HexMinimalRoundTrip | kernel/uart/uart.c:399-403 | the hex rendering without leading zeros reads back as the number |
| Numerals.HexMinimalNoLeadingZero | kernel/uart/uart.c:400-401 | the minimal hex rendering starts with `0` only for zero |
| Numerals.StripLeadingZeros | kernel/uart/uart.c:400-401 | stripping keeps at least one character and leaves no leading zero on a result of two or more |
| Numerals.StripShape | kernel/uart/uart.c:400-401 | what stripping drops is a run of `0`s, and what remains is the rest of the string |
| Numerals.HexFixedIsPaddedMinimal | kernel/uart/uart.c:394-403 | the eight-digit buffer is the minimal rendering padded with zeros on the left |
| Numerals.StrippedFixedIsMinimal | kernel/uart/uart.c:399-403 | stripping the eight-digit buffer yields the minimal rendering |
| Uart.Puts | kernel/uart/uart.c:67-74 | `puts` sends one extra character per line feed and puts a carriage return in front of a leading line feed |
| Uart.PutsInverse | kernel/uart/uart.c:67-74 | removing the inserted carriage returns gives back exactly the string `puts` was given |
| Uart.PutsCrBeforeLf | kernel/uart/uart.c:69-71 | every line feed on the wire is immediately preceded by a carriage return |
| Uart.PutsAppend | kernel/uart/uart.c:67-74 | `puts` works character by character, so it distributes over concatenation |
| Uart.ToInt32 | kernel/uart/uart.c:345 | a slot read as `int` lies in the 32-bit range and keeps any value already in range |
| Uart.Signed | kernel/uart/uart.c:344-363 | `%d` writes a minus sign exactly for negative numbers, then the magnitude in decimal without superfluous leading zero |
| Uart.HexWord | kernel/uart/uart.c:390-405 | `%x` writes one to eight lower-case hex digits that read back as the argument modulo 2^32, with a leading `0` only for zero |
| Uart.Pointer | kernel/uart/uart.c:374-389 | `%p` writes `0x` and sixteen lower-case hex digits that read back as the pointer modulo 2^64 |
| Uart.Unsigned | kernel/uart/uart.c:406-424 | `%lu` writes decimal digits that read back as the argument modulo 2^64, with a leading `0` only for zero |
| Uart.Text | kernel/uart/uart.c:365-373 | `%s` writes `(null)` for a NULL pointer and otherwise the string up to, not including, its first NUL: a NUL-free prefix that ends where the string or its NUL does |
| Uart.Convert | kernel/uart/uart.c:343-430 | a conversion is defined exactly when `%s` meets a string and the others meet a number other than `%d` of INT_MIN; `%c` writes one character, the argument modulo 256 |
| Uart.Format | kernel/uart/uart.c:336-436 | a defined rendering consumed no more arguments than were passed; a format ending in a lone `%` is undefined |
| Uart.OtherCopied | kernel/uart/uart.c:431-433 | `%` followed by any character that is neither a conversion nor `l` writes that character and consumes no argument, so `%%` writes one `%` |
| Uart.PlainCopied | kernel/uart/uart.c:337-340 | a format without `%` is copied to the buffer unchanged, whatever the arguments |
| Uart.ExtraArgsIgnored | kernel/uart/uart.c:336-436 | arguments beyond those the conversions consume do not change the output |
| Uart.LiteralPrefix | kernel/uart/uart.c:337-340 | a literal prefix of the format is copied ahead of whatever the rest produces |
| Uart.Printk | kernel/uart/uart.c:328-440 | what reaches the UART is NUL-free, is defined exactly when the rendering is, and reads back (carriage returns removed) as the buffer up to its first NUL |
| UartScan.GetLine | kernel/uart/uart.c:118-130 | the line is a prefix of the input with no carriage return or line feed, at most `maxlen - 1` long; it stops at the first terminator (consumed) or at the length limit, waits for more input otherwise, and returns the empty line for `maxlen <= 1` |
| UartScan.SkipSpace | kernel/uart/uart.c:145-147 | the character found is not whitespace and was consumed |
| UartScan.SkipSpaceStarved | kernel/uart/uart.c:145-147 | skipping whitespace waits for input exactly when everything left is whitespace |
| UartScan.Wrap | kernel/uart/uart.c:168-183 | unsigned arithmetic keeps results below the modulus and leaves smaller values alone |
| UartScan.Digits | kernel/uart/uart.c:158-162 | the digit loop consumes input and, in wrapping arithmetic, stays below the modulus |
| UartScan.DigitsRead | kernel/uart/uart.c:158-162 | digits and a non-digit read as the fold of the digits, with the non-digit consumed |
| UartScan.FoldIsValue | kernel/uart/uart.c:177-180 | the multiply-and-add loop computes the value of the digits, reduced modulo 2^64 where the arithmetic wraps |
| UartScan.SignedDigits | kernel/uart/uart.c:155-164 | `uart_read_int` fails, without consuming, exactly when no digit follows the sign |
| UartScan.ReadInt | kernel/uart/uart.c:141-165 | a finished read of an `int` always consumes input |
| UartScan.ReadUlong | kernel/uart/uart.c:168-183 | an `unsigned long` read is below 2^64 and consumes input |
| UartScan.HexDigits | kernel/uart/uart.c:207-223 | the hex loop needs a first hex digit, fails without consuming otherwise, and yields a value below 2^64 |
| UartScan.ReadHexAsWritten | kernel/uart/uart.c:186-224 | the hex reader as written yields a value below 2^64 and consumes input |
| UartScan.ReadHex | kernel/uart/uart.c:186-224 | the corrected hex reader yields a value below 2^64 and consumes input |
| UartScan.Word | kernel/uart/uart.c:232-238 | the word stored is free of spaces and NUL |
| UartScan.ReadString | kernel/uart/uart.c:227-240 | `uart_read_string` never rejects and consumes input |
| UartScan.SpacesIgnored | kernel/uart/uart.c:145-147 | whitespace ahead of the input changes no reader's outcome |
| UartScan.ReadIntShape | kernel/uart/uart.c:141-165 | digits and a non-digit read as their decimal value, with the non-digit consumed |
| UartScan.ReadIntSignedShape | kernel/uart/uart.c:149-164 | a `-` negates the value of the digits and a `+` keeps it |
| UartScan.IntRoundTrip | kernel/uart/uart.c:141-165 | the `%d` text `printk` writes, followed by a non-digit, reads back as the same `int` |
| UartScan.ReadUlongShape | kernel/uart/uart.c:168-183 | digits and a non-digit read as their value modulo 2^64 |
| UartScan.UlongRoundTrip | kernel/uart/uart.c:168-183 | the `%lu` text `printk` writes reads back as the same 64-bit value |
| UartScan.HexDigitsRead | kernel/uart/uart.c:210-221 | hex digits and a non-hex character read as their value modulo 2^64 |
| UartScan.HexReadersDiffer | kernel/uart/uart.c:193-208 | the reader as written and the corrected one disagree exactly on a lone `0`, which the first rejects and the second reads as zero |
| UartScan.ReadHexPrefixed | kernel/uart/uart.c:193-200 | `0x` or `0X` followed by hex digits reads as the digits' value |
| UartScan.ReadHexPlain | kernel/uart/uart.c:186-224 | hex digits without a superfluous leading zero read as their value |
| UartScan.PointerRoundTrip | kernel/uart/uart.c:186-224 | the `%p` text `printk` writes reads back as the same pointer, with either reader |
| UartScan.HexWordRoundTrip | kernel/uart/uart.c:186-224 | the `%x` text `printk` writes reads back as the same 32-bit value with the corrected reader; the reader as written fails on zero |
| UartScan.HexZeroRejected | kernel/uart/uart.c:193-208 | the reader as written rejects `0` followed by a line feed, and the corrected one reads zero |
| UartScan.WordRead | kernel/uart/uart.c:232-238 | a word without spaces or NUL, followed by a space, reads back as itself |
| UartScan.StringRoundTrip | kernel/uart/uart.c:227-240 | `%s` text that is a non-empty word reads back as itself |
| UartScan.Assigned | kernel/uart/uart.c:248-324 | `scank` counts at most one assignment per conversion |
| UartScan.Conversion | kernel/uart/uart.c:269-320 | exactly `%d %x %p %s %c` and `%lu` read input; anything else is skipped |
| UartScan.SkipDirective | kernel/uart/uart.c:254-260 | the corrected whitespace directive leaves the next non-space character unread |
| UartScan.ScanWith | kernel/uart/uart.c:251-322 | a finished scan never leaves more input than it was given, and stores at most one value per conversion, each conversion taking at least two characters of the format |
| UartScan.LiteralsReadNothing | kernel/uart/uart.c:252-263 | ordinary characters other than whitespace in the format consume no input and assign nothing |
| UartScan.ScanInt | kernel/uart/uart.c:270-275 | a `%d` stores what `uart_read_int` reads and scans on from where it stopped |
| UartScan.ScanSpace | kernel/uart/uart.c:254-262 | a space in the format hands the scan on to the input the directive leaves |
| UartScan.ScanPrintedInt | kernel/uart/uart.c:270-275 | `%d` on printed `%d` text stores the same integer |
| UartScan.ScanSpacedInt | kernel/uart/uart.c:254-275 | with the corrected directive, ` %d` reads back one printed integer |
| UartScan.ScankTwoInts | kernel/uart/uart.c:245-325 | with the corrected directive, `%d %d` reads back two integers printed with one space between them |
| UartScan.ScankAsWrittenDropsDigit | kernel/uart/uart.c:254-260 | as written, the space in `%d %d` swallows the first digit of the second number: `12 34` reads as 12 and 4 |
| UartScan.ScankAsWritten | kernel/uart/uart.c:245-325 | `scank` as written reads the format only up to its NUL, consumes input without ever giving any back, fills at most one pointer per conversion, and counts at most one assignment for each |
| UartScan.Scank | kernel/uart/uart.c:245-325 | the corrected `scank` keeps the same bounds, and on a format with no whitespace and no `x` or `p` it gives exactly the scan of `scank` as written |
| UartScan.ReadersAgree | kernel/uart/uart.c:251-322 | the two corrections change nothing on a format without whitespace directives and without hex conversions |
| OldUart.OldAgrees | kernel/uart.c:73-147 | on formats without `%p` and `%l`, the older `printk` fills the same buffer as the current one |
| OldUart.OldEchoesPointer | kernel/uart.c:138-140 | the older driver copies `%p` as the letter `p` and leaves the argument for the next conversion, where the current one renders a numeric argument as a pointer, goes on with the arguments after it, and is undefined without one |
| OldUart.OldPrintk | kernel/uart.c:73-147 | the older `printk` sends NUL-free text that reads back as its buffer up to the first NUL, and agrees with the current `printk` on formats both support |
| KString.OverwriteIff | kernel/string/string.c:4-32 | a memory is the overwrite of a block exactly when it differs only inside the block and holds the block there |
| KString.ToByte | kernel/string/string.c:7 | `(unsigned char)c` keeps the value modulo 256 |
| KString.Memset | kernel/string/string.c:4-9 | every byte of the block holds the low byte of `c` and nothing outside it changes |
| KString.Memcpy | kernel/string/string.c:11-17 | only the destination changes, and it holds the source bytes whenever the destination does not start inside the source |
| KString.Memmove | kernel/string/string.c:19-32 | only the destination changes, and it holds the original source bytes for every overlap |
| KString.FirstDiff | kernel/string/string.c:36-41 | there is no first difference exactly when the prefixes agree; otherwise it is a differing position after an equal prefix |
| KString.FirstDiffAt | kernel/string/string.c:36-41 | a difference after an equal prefix is the first difference |
| KString.Memcmp | kernel/string/string.c:34-43 | zero exactly when the blocks agree; otherwise the unsigned difference of the first differing pair |
| Kmem.Reserved | kernel/mem/kmem.c:32-35 | the descriptor array never needs more pages than the heap has, and needs at least one page for a non-empty heap |
| Kmem.Range | kernel/mem/kmem.c:53-59 | the free list `kinit` builds visits the pages `lo` to `hi - 1`, in ascending order |
| Kmem.RangeMembers | kernel/mem/kmem.c:53-59 | that list holds each page of the range once and nothing else |
| Kmem.InitFlags | kernel/mem/kmem.c:37-47 | after the first two loops exactly the reserved pages are used, and the free counter equals the number of free descriptors |
| Kmem.BuildFreeList | kernel/mem/kmem.c:53-59 | pushing from the top page down leaves the lowest free page at the head, and the break stops the loop without wrapping below the reserved pages |
| Kmem.Kinit | kernel/mem/kmem.c:13-61 | the allocator starts consistent, with `total_pages` the heap size in pages truncated to 32 bits, every page past the descriptor array free and listed in ascending order, and the descriptor pages used |
| Kmem.Bytes32 | kernel/mem/kmem.c:82-83 | the byte offset `page_index * PAGE_SIZE`, a product of 32-bit unsigned values, is below 2^32 and is the true product whenever that fits |
| Kmem.Kalloc | kernel/mem/kmem.c:66-92 | allocation fails, changing nothing, exactly when the free list is empty; otherwise it returns the heap start plus the 32-bit offset of the head page, marks that page used, drops it from the list, decrements the counter, leaves every other descriptor alone and keeps the allocator consistent; the page cleared is the one at the returned address, every other page's contents kept |
| Kmem.ClearedPage | kernel/mem/kmem.c:82-89 | the page the clearing loop writes is the one at the heap start plus the wrapped 32-bit offset `page_index * PAGE_SIZE`: index modulo 2^20 |
| Kmem.AcceptedPage | kernel/mem/kmem.c:104-123 | an address `kfree` accepts (its upper bound taken modulo 2^32) names a page of the heap that is in use, and is the address `kalloc` gives that page |
| Kmem.PageAddrChecks | kernel/mem/kmem.c:82-117 | in a heap of fewer than 2^20 pages, the address `kalloc` gives a page passes `kfree`'s range and alignment checks and names the same page again |
| Kmem.WideHeapAliases | kernel/mem/kmem.c:82-105 | in a heap of 2^20 + 1 pages, the page with index 2^20 is handed out at the heap start, the address of page 0, whose contents the allocation clears while page 2^20 keeps its own; `kfree` refuses every address from the second page on |
| Kmem.Kfree | kernel/mem/kmem.c:97-132 | a rejected address (NULL, out of range against the 32-bit heap size, misaligned or already free) changes nothing; an accepted one is the address `kalloc` gives its page, is marked free and pushed on the head of the list, and the allocator stays consistent |
| Kmem.KfreeIgnores | kernel/mem/kmem.c:98-123 | `kfree` leaves the allocator unchanged exactly when one of its checks rejects the address |
| Kmem.FreeThenAlloc | kernel/mem/kmem.c:66-132 | after a page is freed the next allocation hands that same page out |
| Kmem.AllocThenFree | kernel/mem/kmem.c:66-132 | in a heap of fewer than 2^20 pages, a page just allocated is accepted by `kfree`, and freeing it restores the descriptors, the list and the counter |
| Kmem.KallocKeepsAccepted | kernel/mem/kmem.c:66-132 | an allocation keeps every freeable page freeable; in a heap of fewer than 2^20 pages it hands out an address no freeable page has, and that address is freeable afterwards unless it is 0 |
| Kmem.KfreeKeepsAccepted | kernel/mem/kmem.c:97-132 | freeing one address keeps every other freeable address freeable |
| Kmem.UsedPages | kernel/mem/kmem.c:147 | `total_pages - free_pages` counts the used descriptors and never wraps |
| Vmm.Trunc32 | kernel/mem/vmm.c:119-120 | `(uint32_t)` leaves a value below 2^32 |
| Vmm.PdeIndex | kernel/mem/vmm.c:7 | the directory index of an address is one of the 1024 slots |
| Vmm.PteIndex | kernel/mem/vmm.c:8 | the table index of an address is one of the 1024 slots |
| Vmm.PageOffset | kernel/mem/vmm.c:9 | the page offset of an address lies within the page |
| Vmm.Decompose | kernel/mem/vmm.c:7-9 | a 32-bit address is its directory index, table index and offset put back together |
| Vmm.SamePage | kernel/mem/vmm.c:7-9 | the addresses of one page share both indices and differ only in the offset |
| Vmm.PageNumberIff | kernel/mem/vmm.c:7-9 | two addresses lie in the same page exactly when both their indices agree |
| Vmm.WithPresent | kernel/mem/vmm.c:132 | `flags \| VMM_P_PRESENT` always has the present bit set |
| Vmm.MakeEntryWord | kernel/mem/vmm.c:37-39 | a made entry keeps the address's frame bits and the flags' low twelve bits, so a present bit in the flags survives |
| Vmm.MakeEntryFrame | kernel/mem/vmm.c:37-39 | an entry made from an aligned 32-bit address names that address's frame |
| Vmm.ZeroTable | kernel/mem/vmm.c:14-18 | a zeroed page is a well-formed table with no present entry |
| Vmm.SetEntry | kernel/mem/vmm.c:132 | writing one table entry keeps the directory and the set of tables |
| Vmm.AddTable | kernel/mem/vmm.c:56-57 | installing a new table makes its directory slot present, writable and user, naming the new table |
| Vmm.SetEntryTranslate | kernel/mem/vmm.c:180-192 | replacing one table entry changes the translation of that entry's page and of no other |
| Vmm.SetEntryTranslateAll | kernel/mem/vmm.c:180-192 | the same, for every address at once |
| Vmm.AddTableTranslate | kernel/mem/vmm.c:48-60 | installing a cleared table changes no translation |
| Vmm.AllocatedFrame | kernel/mem/vmm.c:28-34 | a freshly allocated page is a non-NULL aligned frame below 4 GiB at the head of the free list, holding neither the directory nor a table, and the paging structures stay coupled to the allocator |
| Vmm.FreshFrame | kernel/mem/kmem.c:82-83 | the page `kalloc` returns in a heap that fits below 4 GiB is the aligned, non-NULL frame of the free-list head, and was not in use |
| Vmm.FreedDirectoryReused | kernel/mem/vmm.c:170-172 | freeing the directory's own frame is accepted by `kfree`, breaks the coupling, and the next allocation hands that frame out again |
| Vmm.FrameGivenBack | kernel/mem/vmm.c:143-145 | when `vmm_map` fails, `kfree` of the frame just allocated restores the free list and the page flags and keeps the coupling |
| Vmm.SecondAlloc | kernel/mem/vmm.c:28-34 | a second allocation takes the next page of the free list |
| Vmm.VmmInit | kernel/mem/vmm.c:80-95 | a second `vmm_init` changes nothing; a first one creates the directory exactly when a page is free, in the frame `kalloc` hands out, and then nothing is mapped |
| Vmm.GetOrCreateTable | kernel/mem/vmm.c:48-67 | a present slot yields its table with nothing changed; a missing one is created from a newly allocated, cleared page with PRESENT, RW and USER, failing only when no page is free; no translation changes |
| Vmm.MapEntryTranslate | kernel/mem/vmm.c:131-132 | writing the entry `vmm_map` makes sends the page to the frame and leaves every other page as it was |
| Vmm.Map | kernel/mem/vmm.c:116-135 | `vmm_map` fails, changing nothing, exactly when the directory is missing, either address is misaligned after the cast, or no table can be created; on success the page of `va` translates into the frame of `pa`, every other page as before |
| Vmm.FreeKeepsTables | kernel/mem/vmm.c:170-172 | freeing a frame that holds neither the directory nor a table keeps the paging structures coupled to the allocator |
| Vmm.Unmap | kernel/mem/vmm.c:151-177 | `vmm_unmap` fails, changing nothing, exactly when the directory is missing, the address is misaligned or the page is not mapped; on success the page no longer translates, every other page as before, and the old frame is freed when asked, keeping the coupling unless that frame holds the directory or a table |
| Vmm.MapPage | kernel/mem/vmm.c:138-148 | `vmm_map_page` fails exactly when no page is free, the directory is missing, the address is misaligned, or a table is needed and the frame took the last free page; on failure the mapping and the free list are as before; on success the page translates into the frame at the head of the free list and one or two pages leave the list |
| Proc.EmptyQueue | kernel/proc/proc.c:39-46 | a fresh queue holds no PCB, whatever the links |
| Proc.Enqueue | kernel/proc/proc.c:48-59 | `enqueue` with a NULL queue or PCB changes nothing; otherwise it keeps the links well formed over the same PCBs |
| Proc.Dequeue | kernel/proc/proc.c:61-71 | `dequeue` returns NULL, changing nothing, exactly for a NULL or empty queue; otherwise it returns an existing PCB and keeps the links well formed |
| Proc.ChainAppend | kernel/proc/proc.c:54-56 | linking a new last element after the old tail extends the chain by that element |
| Proc.EnqueueAppends | kernel/proc/proc.c:48-59 | appending a PCB that is not queued yields the queue with that PCB at its end, head, tail and count included |
| Proc.DequeueTakesHead | kernel/proc/proc.c:61-71 | taking from a queue yields nothing from an empty one, otherwise its first PCB, leaving the rest in order with the count one less; taking the last element leaves head and tail NULL |
| Proc.FirstInFirstOut | kernel/proc/proc.c:48-71 | an appended PCB comes out after everything queued before it |
| Proc.HoldsFrame | kernel/proc/proc.c:80 | a new PCB, not yet linked, leaves every queue over the links intact |
| Proc.OwnedAfterKalloc | kernel/proc/proc.c:77-79 | allocating a page keeps every PCB page owned and hands out a page that no PCB holds |
| Proc.OwnedAfterKfree | kernel/proc/proc.c:93-96 | freeing a page that holds no PCB keeps every PCB page owned |
| Proc.StoredName | kernel/proc/proc.c:86-89 | the stored name is a prefix of the given string of at most 19 characters, the whole string when shorter, and empty for NULL |
| Proc.NewPcb | kernel/proc/proc.c:81-109 | a new PCB is READY, its stack top one page above its stack page, and it resumes at the entry point on that stack in machine mode with MPIE set |
| Proc.ProcCreate | kernel/proc/proc.c:73-114 | `proc_create` fails, changing nothing, without a ready queue or a free page; the pid advances by at most one; on failure only the pid may have moved; on success the new PCB gets the old next pid, its fields as `NewPcb` states, a stack page of its own, and the end of the ready queue |
| Proc.CreateWithPage | kernel/proc/proc.c:81-113 | once the PCB page is taken the pid is consumed whether or not the stack allocation succeeds |
| Proc.GiveBack | kernel/proc/proc.c:93-96 | when the stack allocation fails, the PCB page goes back to the allocator and NULL is returned |
| Proc.Finish | kernel/proc/proc.c:97-113 | with both pages allocated, the PCB is filled in and appended to the ready queue |
| Proc.Admit | kernel/proc/proc.c:111 | admitting a PCB adds it and nothing else, keeping the current and idle processes and the pid counter |
| Proc.AdmitAppends | kernel/proc/proc.c:111 | an admitted PCB joins the end of the ready queue |
| Proc.AdmitNext | kernel/proc/proc.c:108-111 | after `proc_create` the new PCB is at the end of the ready queue, the PCB table gains exactly it, and the links stay well formed |
| Proc.SetState | kernel/proc/proc.c:254-274 | setting a state changes that PCB's state and no other PCB |
| Proc.Fallback | kernel/proc/proc.c:221-232 | with an empty queue `schedule` picks either idle or the current process |
| Proc.Schedule | kernel/proc/proc.c:214-287 | after `schedule` there is a current process, it is RUNNING, and the PCBs, idle and pid counter are as before |
| Proc.ScheduleChooses | kernel/proc/proc.c:218-245 | `schedule` picks the queue head; with an empty queue it keeps a running non-idle current process, changing nothing, and otherwise picks idle |
| Proc.ScheduleRequeues | kernel/proc/proc.c:218-268 | the queue afterwards is the rest of the old queue, followed by the old process when it was running, is not idle and was switched away from; neither the current nor idle is ever queued |
| Proc.ScheduleStates | kernel/proc/proc.c:261-275 | only the old and the new process change state; an old process switched away from becomes READY if it was RUNNING, idle included, and keeps its state otherwise; a running current process picked again changes nothing |
| Shell.Edited | usr/shell.c:56-63 | the edited line is no longer than the keys typed and holds no line end or erase character |
| Shell.ReadLine | usr/shell.c:42-68 | `readline` returns the empty line for `maxlen <= 1`; otherwise the line is the backspace-edited keys read, at most `maxlen - 1` long, and reading stops exactly at the first failed read or line end, at the end of the input, or when the buffer is full |
| Shell.EditedPlain | usr/shell.c:63 | keys that are neither line ends nor erase characters are stored as typed |
| Shell.TypedLine | usr/shell.c:42-68 | typing a plain line shorter than the buffer and pressing Enter reads back exactly that line, with the Enter consumed |
| Shell.WordAt | usr/shell.c:82-83 | the argument scan takes the longest blank-free prefix, stopping at a blank or the end |
| Shell.Words | usr/shell.c:73-89 | the arguments of a line are non-empty and blank-free |
| Shell.WordAtIs | usr/shell.c:82-83 | a blank-free prefix ended by a blank or the end is the scanned argument |
| Shell.WordsStep | usr/shell.c:81-86 | a word at the front of a line is its first argument, followed by the arguments of the rest |
| Shell.SkipBlanks | usr/shell.c:77-78 | skipping spaces and tabs stops at a non-blank or the end, and does not change the arguments ahead |
| Shell.ScanWord | usr/shell.c:81-83 | scanning a word stops at a blank or the end, and that word is the first argument from there |
| Shell.NextArg | usr/shell.c:76-87 | one round of the loop yields nothing exactly when only blanks are left, and otherwise the first argument from there |
| Shell.ParseArgs | usr/shell.c:73-89 | `parse_args` yields the blank-separated arguments of the line, in order, cut to the first `max_args` |
| Shell.WordsOfJoin | usr/shell.c:73-89 | joining arguments with single spaces and splitting again gives them back |
| Shell.EchoThenParse | usr/shell.c:109-116 | `echo` prints a line whose arguments, split again, are the echoed ones |
| Shell.TrimSpaces | usr/shell.c:96-107 | `trim_spaces` leaves the string with its leading and trailing spaces and tabs removed, and an all-blank string empty |
| Shell.TrimUnique | usr/shell.c:96-107 | there is only one way to trim a string |
| Shell.TrimIdempotent | usr/shell.c:96-107 | a trimmed string trims to itself |
| Shell.TrimEmptyIff | usr/shell.c:96-107 | a string trims to the empty string exactly when it is all blanks |
| Shell.TrimKeepsWords | usr/shell.c:96-107 | trimming does not change the arguments of a string |
| Shell.FirstBar | usr/shell.c:459-465 | the pipe search finds the first `\|`, or the end when there is none |
| Shell.FirstBarIs | usr/shell.c:459-465 | a position with no `\|` before it and a `\|` at it is the first bar |
| Shell.SplitLine | usr/shell.c:459-488 | a line without `\|` is one command of at most eight arguments; otherwise it is cut at the first `\|`, it is invalid syntax exactly when one side is all blanks, each side is split into arguments, and the `invalid commands` branch is never taken |
| Shell.Reverse | usr/shell.c:355-356 | the loop that copies the digit buffer backwards puts the last character first: position `i` of the result holds position `n - 1 - i` of the input |
| Shell.DecimalLength | usr/shell.c:351 | every positive `int` has at most ten decimal digits, so the 32-entry buffer is never the bound that stops the loop |
| Shell.PidString | usr/shell.c:343-358 | the pid printer writes `0` for zero and the decimal digits, most significant first, of a positive pid; a negative pid prints nothing |
| Shell.ParseKill | usr/shell.c:402-418 | `kill`'s parser accepts exactly an optional `-` followed by digits only, and yields their decimal value with the sign |
| Shell.PidRoundTrip | usr/shell.c:343-418 | a pid the shell prints, or its negation, reads back through `kill`'s parser |
| Shell.JoinPrefix | usr/shell.c:272-287 | the text built from the first arguments is a prefix of the text built from all of them |
| Shell.WriteText | usr/shell.c:270-288 | `write` stores the arguments after the file name joined by single spaces, cut to 255 characters |
| FsLayout.Le | kernel/fs/fs.h:53-72 | a little-endian field has exactly its width in bytes |
| FsLayout.LeValue | kernel/fs/fs.h:53-72 | bytes read as a little-endian number stay below 256 to the power of their count |
| FsLayout.LeRoundTrip | kernel/fs/fs.h:53-72 | storing a number into a field and loading it again gives the number reduced to the field's width |
| FsLayout.LeOfValue | kernel/fs/fs.h:53-72 | loading a field and storing it again gives back the same bytes |
| FsLayout.LeExact | kernel/fs/fs.h:53-72 | a value within the field's width survives the round trip unchanged |
| FsLayout.WordAt | kernel/fs/fs.c:139 | a `uint32_t` read from a byte array is below 2^32 |
| FsLayout.SetWord | kernel/fs/fs.c:161 | replacing a word keeps the array's length |
| FsLayout.WordAtSet | kernel/fs/fs.c:157-161 | replacing one word of the indirect block changes that word, to the value reduced to 32 bits, and no other |
| FsLayout.WordsAt | kernel/fs/fs.h:53-67 | each word of a sequence of stored words reads back as its value reduced to 32 bits |
| FsLayout.EncodeSuperblock | kernel/fs/fs.h:54-59 | a superblock takes sixteen bytes |
| FsLayout.DecodeSuperblock | kernel/fs/fs.h:54-59 | the magic and root inode number read from disk are 32-bit values |
| FsLayout.SuperblockRoundTrip | kernel/fs/fs.c:328-373 | a superblock whose fields fit in 32 bits, as `fs_format` writes it, is read back by `fs_init` as written, whatever follows it in the block |
| FsLayout.EncodeDinode | kernel/fs/fs.h:62-67 | an inode takes its fixed size in bytes: type, link count, size, ten direct addresses and the indirect address |
| FsLayout.DecodeDinode | kernel/fs/fs.h:62-67 | every field of an inode read from disk fits its C width |
| FsLayout.DinodeWords | kernel/fs/fs.h:62-67 | the size, the direct addresses and the indirect address sit in consecutive words of the encoding |
| FsLayout.DinodeRoundTrip | kernel/fs/fs.c:82-95 | an inode whose fields fit their widths is read back exactly as it was written |
| FsLayout.EncodeDirent | kernel/fs/fs.h:69-72 | a directory entry takes twenty bytes |
| FsLayout.DecodeDirent | kernel/fs/fs.h:69-72 | an entry read from disk has a 32-bit inode number and a full sixteen-byte name array |
| FsLayout.DirentRoundTrip | kernel/fs/fs.h:69-72 | an entry is read back as written, and every twenty bytes are the encoding of the entry they hold |
| FsLayout.InodeSlotAsWritten | kernel/fs/fs.c:76-78 | the slot the code computes packs inodes back to back from the start of the table, inside the four table blocks |
| FsLayout.StraddlingInodes | kernel/fs/fs.c:76-82 | exactly inodes 10, 20 and 30 run past the end of the 512-byte block buffer in that packing |
| FsLayout.InodeSlot | kernel/fs/fs.c:76-78 | with whole inodes per block, every inode lies inside one block of the table |
| FsLayout.SlotsDisjoint | kernel/fs/fs.c:76-78 | with whole inodes per block, two different inodes never share a byte |
| FsLayout.NameOf | kernel/fs/fs.h:69-72 | the name in an array is the NUL-free prefix before its first NUL |
| FsLayout.NameOfPadded | kernel/fs/fs.c:271-278 | a NUL-free name padded with NULs reads back as itself |
| FsLayout.StoreName | kernel/fs/fs.c:270-278 | `dir_add` fills a sixteen-byte array whose name is the given name cut to fifteen bytes |
| FsLayout.NameCmpZero | kernel/fs/fs.c:61-71 | `namecmp` returns zero exactly when the stored name ends inside the array and equals the name, or fills the array and begins the name |
| FsLayout.StoredNameFound | kernel/fs/fs.c:270-278 | a name `dir_add` stored compares equal under `namecmp` to the name it came from exactly when that name is shorter than sixteen bytes |
| FsDisk.ZeroBlock | kernel/fs/fs.c:148 | a zeroed block holds only zeros |
| FsDisk.BitsOfFromBits | kernel/fs/fs.c:53-55 | taking the bits of the number built from bits gives them back |
| FsDisk.FromBitsOfBits | kernel/fs/fs.c:53-55 | building a number from its low bits gives it back |
| FsDisk.Mark | kernel/fs/fs.c:52-110 | setting or clearing a block's bit, as `balloc` and `b_free` do, gives that bit the value and changes no other byte of the bitmap |
| FsDisk.MarkOther | kernel/fs/fs.c:52-110 | marking one block leaves every other block's bit as it was |
| FsDisk.MarkRestore | kernel/fs/fs.c:46-118 | setting a clear bit and clearing it again gives back the same bitmap |
| FsDisk.AllocMap | kernel/fs/fs.c:105-109 | the bitmap holds one flag for each of the 122 data blocks |
| FsDisk.FirstClear | kernel/fs/fs.c:105-116 | the scan finds the lowest clear flag, or reports that all are set |
| FsDisk.Balloc | kernel/fs/fs.c:101-118 | `balloc` returns a data block whose bit was clear and is now set, writes only the bitmap block, and changes nothing when it fails |
| FsDisk.BallocLowest | kernel/fs/fs.c:101-118 | `balloc` takes the lowest free data block and sets that bit and no other; it fails only when every bit is set |
| FsDisk.BallocFails | kernel/fs/fs.c:101-118 | `balloc` fails exactly when no data block is free |
| FsDisk.BFree | kernel/fs/fs.c:46-59 | `b_free` refuses exactly the blocks outside the data area; otherwise it clears the block's bit and writes only the bitmap block |
| FsDisk.BFreeOthers | kernel/fs/fs.c:46-59 | `b_free` clears only the freed block's bit |
| FsDisk.BFreeUndoesBalloc | kernel/fs/fs.c:46-118 | freeing the block `balloc` just handed out gives back the disk as it was |
| FsDisk.ReadDinode | kernel/fs/fs.c:73-84 | `read_dinode` refuses exactly inode 0 and numbers from `NINODE` on, and an inode it reads, from its slot in the corrected layout of whole inodes per block, fits its field widths |
| FsDisk.WriteDinode | kernel/fs/fs.c:86-99 | `write_dinode` refuses exactly the same numbers, and otherwise writes only the block that holds the inode in the corrected layout |
| FsDisk.ReadAfterWrite | kernel/fs/fs.c:73-99 | in the corrected layout, after `write_dinode` the inode reads back as written and every other inode as before |
| FsDisk.InodesUnchanged | kernel/fs/fs.c:73-84 | writing a block outside the inode table changes no inode |
| FsDisk.Lookup | kernel/fs/fs.c:120-166 | the block a file block maps to without allocation is a 32-bit number |
| FsDisk.IndirectEntry | kernel/fs/fs.c:157-165 | without `alloc`, the indirect block's entry is returned as it is and nothing changes |
| FsDisk.Bmap | kernel/fs/fs.c:120-166 | `bmap` changes only the inode's addresses; without `alloc` it is the plain lookup and changes nothing; past the indirect block it returns 0 and changes nothing |
| FsDisk.BmapExisting | kernel/fs/fs.c:122-165 | with `alloc` set, an already mapped file block is returned as it is and nothing changes |
| FsDisk.ZeroWord | kernel/fs/fs.c:148 | every entry of a freshly zeroed indirect block is absent |
| FsDisk.IndirectEntryAllocates | kernel/fs/fs.c:158-164 | an allocated indirect entry is written into the indirect block |
| FsDisk.BmapAllocates | kernel/fs/fs.c:120-166 | with `alloc` set, a block `bmap` allocates was free, is marked allocated afterwards, and is what a later lookup of the same file block finds |
| FsFile.BallocKeeps | kernel/fs/fs.c:101-118 | `balloc` keeps every allocated block allocated and never hands one of them out |
| FsFile.SoundExtend | kernel/fs/fs.c:120-166 | mapping one more file block to a block that was free keeps the inode's block map sound: allocated, distinct data blocks apart from the indirect block |
| FsFile.BmapDirectStep | kernel/fs/fs.c:122-130 | an allocating `bmap` through a direct address keeps the block map sound |
| FsFile.LookupSetEntry | kernel/fs/fs.c:157-164 | setting one entry of the indirect block remaps that file block and no other |
| FsFile.LookupFreshIndirect | kernel/fs/fs.c:143-151 | a fresh indirect block holding one entry maps that one file block beyond the direct ones |
| FsFile.OldIndirectSound | kernel/fs/fs.c:153-164 | filling an empty entry of the existing indirect block with the block `balloc` returns keeps the map sound |
| FsFile.BmapOldIndirectStep | kernel/fs/fs.c:153-165 | an allocating `bmap` that fills an entry of an existing indirect block keeps the map sound |
| FsFile.TwoBallocs | kernel/fs/fs.c:146-159 | two allocations in a row, the first block zeroed in between, hand out two different blocks that were free and are allocated afterwards |
| FsFile.NewIndirectSound | kernel/fs/fs.c:143-164 | creating the indirect block and filling its entry keeps the map sound |
| FsFile.BmapNewIndirectStep | kernel/fs/fs.c:143-165 | an allocating `bmap` that first creates the indirect block keeps the map sound |
| FsFile.BmapStep | kernel/fs/fs.c:120-166 | an allocating `bmap` keeps a sound map sound: the file block asked for maps to the block returned, every other file block maps where it did, and no block in use changes except the bitmap and the indirect block |
| FsFile.BmapKeepsBytes | kernel/fs/fs.c:120-166 | an allocating `bmap` changes no byte the file already had, nor any byte outside the file block asked for |
| FsFile.ChunkWrite | kernel/fs/fs.c:209-216 | replacing a mapped block changes exactly the bytes of its file block and keeps the map sound |
| FsFile.ReadFrom | kernel/fs/fs.c:177-193 | the copy loop returns no more than the bytes still asked for |
| FsFile.InodeRead | kernel/fs/fs.c:168-194 | `inode_read` refuses an invalid inode number, returns nothing from or past the end of the file, and never more than asked for |
| FsFile.Clamped | kernel/fs/fs.c:174-175 | the count `inode_read` asks for is, without wrap-around, the smaller of `n` and what is left of the file |
| FsFile.CopiedFrom | kernel/fs/fs.c:177-193 | what the copy loop has written to `dst` when it stops is no more than the bytes still asked for |
| FsFile.InodeCopied | kernel/fs/fs.c:168-194 | what `inode_read` has written to `dst` is no more than asked for, and nothing for an invalid inode |
| FsFile.CopiedIsRead | kernel/fs/fs.c:177-193 | when the copy loop succeeds, what it has written to `dst` is what it returns |
| FsFile.InodeCopiedIsRead | kernel/fs/fs.c:168-194 | when `inode_read` succeeds, what it has written to `dst` is what it returns |
| FsFile.CopiedFromBytes | kernel/fs/fs.c:177-193 | every byte the copy loop writes, also before a failed block read, is the file's byte at that position |
| FsFile.CopiedStepBytes | kernel/fs/fs.c:179-190 | one turn of the copy loop writes the file's bytes of the block under the position |
| FsFile.CopiedUnfold | kernel/fs/fs.c:179-190 | one turn of the copy loop copies the rest of the block or of the request, whichever is smaller, then continues |
| FsFile.ReadFromUnfold | kernel/fs/fs.c:179-192 | one turn of the copy loop copies the rest of the block or of the request, whichever is smaller, from the block under the position |
| FsFile.BlockBytes | kernel/fs/fs.c:185-190 | within one block the file's bytes are the block's bytes |
| FsFile.ReadFromBytes | kernel/fs/fs.c:177-193 | every byte the copy loop returns is the file's byte at that position |
| FsFile.ReadFromFull | kernel/fs/fs.c:177-193 | when no byte of the range is missing the copy loop returns all of them |
| FsWrite.WriteChunk | kernel/fs/fs.c:214 | copying into a block puts the data at the offset and keeps every other byte |
| FsWrite.Grown | kernel/fs/fs.c:219-220 | a completed write makes the size the larger of the old size and the end of the write, and changes nothing else of the inode |
| FsWrite.BmapFailShape | kernel/fs/fs.c:143-160 | an allocating `bmap` that returns no block leaves either nothing or a fresh empty indirect block behind |
| FsWrite.EmptyIndirectKeeps | kernel/fs/fs.c:143-151 | a fresh empty indirect block maps nothing, so the file reads as before |
| FsWrite.BmapFailKeeps | kernel/fs/fs.c:206-208 | a `bmap` that yields no block changes no byte of the file and keeps its map sound |
| FsWrite.BmapKeepsMapped | kernel/fs/fs.c:206 | a `bmap` that yields a block keeps every byte the file already had |
| FsWrite.ChunkBytes | kernel/fs/fs.c:209-216 | writing data at a file position inside the block under it puts the data there |
| FsWrite.ChunkKeeps | kernel/fs/fs.c:209-216 | writing a chunk changes no byte of the file outside the chunk |
| FsWrite.WriteStepSound | kernel/fs/fs.c:204-217 | a turn of the write loop keeps the map sound and the inode table as it was |
| FsWrite.WriteStepKeeps | kernel/fs/fs.c:204-217 | a turn of the write loop changes no byte of the file outside its chunk |
| FsWrite.WriteStepBytes | kernel/fs/fs.c:204-217 | a turn of the write loop leaves its chunk in the file |
| FsWrite.LoopStep | kernel/fs/fs.c:203-218 | a turn whose `bmap` yields a block carries the loop's progress over its chunk |
| FsWrite.LoopFail | kernel/fs/fs.c:206-208 | a turn that gives up leaves the map sound and every byte of the file as it was |
| FsWrite.ChunkBound | kernel/fs/fs.c:204-213 | a chunk that stays within the mappable file blocks ends inside the largest file |
| FsWrite.WriteLoop | kernel/fs/fs.c:201-218 | the write loop changes only the inode's addresses; on a sound inode it keeps the map sound and the inode table, changes no byte outside the range, leaves the data in the range when it completes, and cannot complete past the largest file |
| FsWrite.InodesKept | kernel/fs/fs.c:73-84 | a disk that keeps the blocks below the bitmap keeps every inode |
| FsWrite.WriteBackKeeps | kernel/fs/fs.c:219-222 | writing the inode back changes neither its block map nor any byte of the file |
| FsWrite.BytesAtUnique | kernel/fs/fs.c:168-194 | a file holds at most one byte string of a given length at a given place |
| FsWrite.ReadBack | kernel/fs/fs.c:177-193 | reading the bytes of a range that holds `s` yields `s` |
| FsWrite.InodeReadBack | kernel/fs/fs.c:168-194 | `inode_read` of a range just written returns what was written once the size covers it |
| FsWrite.WriteBackFacts | kernel/fs/fs.c:219-223 | a completed copy loop followed by the write-back keeps every promise of `inode_write` |
| FsWrite.InodeWrite | kernel/fs/fs.c:196-224 | `inode_write` refuses an invalid inode number without change; a success writes every byte; a write past the largest file fails; on a sound inode other inodes are kept, a failure keeps the inode, and a success sets the size to the larger of the old size and the end of the write, keeps the map sound and every byte outside the range, and reads back the data written |
| FsDir.ReadEntry | kernel/fs/fs.c:253-255 | a directory entry read succeeds only with a whole 20-byte entry, whose name array has its full length |
| FsDir.EntryAt | kernel/fs/fs.c:252-256 | an entry read at slot `j` comes from a non-negative slot whose offset is a 32-bit value, and is whole |
| FsDir.Directory | kernel/fs/fs.c:250-252 | the directory loops visit exactly `size / 20` entry slots, and only when the directory inode can be read |
| FsDir.ListsSlots | kernel/fs/fs.c:250-255 | a directory lists given entries exactly when every slot its loops visit reads as that entry |
| FsDir.LookupIn | kernel/fs/fs.c:252-261 | the lookup loop only ever answers a non-zero inode number below 2^32 |
| FsDir.DirLookup | kernel/fs/fs.c:245-263 | `dir_lookup` fails on an unreadable root inode and otherwise only answers a non-zero inode number |
| FsDir.LookupInFinds | kernel/fs/fs.c:252-261 | over readable slots, the loop from slot `j` answers the inode of the first matching entry from `j` on, and nothing when none matches |
| FsDir.DirLookupFinds | kernel/fs/fs.c:245-263 | on a listed root directory, `dir_lookup` finds the inode of the first entry in use whose name matches, and fails exactly when no entry matches |
| FsDir.ListIn | kernel/fs/fs.c:543-552 | the listing loop reports no more entries than there is room for, each in use and with a non-empty name |
| FsDir.ListRoot | kernel/fs/fs.c:531-554 | `fs_list_root` fails for a non-positive maximum or an unreadable root, and otherwise reports at most `max` live entries |
| FsDir.ListInLists | kernel/fs/fs.c:543-552 | over readable slots, the listing loop from slot `j` reports the first `room` live entries from `j` on |
| FsDir.ListRootLists | kernel/fs/fs.c:531-554 | on a listed root directory, `fs_list_root` reports the first `max` live entries, in directory order |
| FsDir.StoredIn | kernel/fs/fs.c:543-552 | what the listing loop has stored in `ents` when it stops, also before a failed read, is at most `room` entries, each live and whole |
| FsDir.ReadableFrom | kernel/fs/fs.c:543-546 | the entries read from slot `j` on up to the first failed read: each is the slot's entry, and the slot after them failed |
| FsDir.StoredIsListed | kernel/fs/fs.c:543-552 | when the listing loop succeeds, what it stored is what it reports |
| FsDir.StoredTakes | kernel/fs/fs.c:543-552 | succeeding or not, the listing loop stores the first `room` live entries among those it could read, in order |
| FsDir.Stored | kernel/fs/fs.c:531-554 | what `fs_list_root` has stored in `ents` when it returns, -1 included, is at most `max` live, whole entries, and nothing for a non-positive `max` or a bad root |
| FsDir.StoredListsRoot | kernel/fs/fs.c:531-554 | `fs_list_root` stores the first `max` live entries of the root directory among those read before any failure, and on success reports exactly those |
| FsDir.FindIn | kernel/fs/fs.c:294-307 | the search of `dir_remove_inum` only answers a slot that holds an entry in use naming the target |
| FsDir.FindInFinds | kernel/fs/fs.c:294-307 | over readable slots, the search from slot `j` answers the first entry naming the target from `j` on, and nothing when none does |
| FsDir.FindInFindsFirst | kernel/fs/fs.c:294-307 | on a listed directory the search finds the first entry in use naming the target, and nothing exactly when there is none |
| FsDir.EntryIsRead | kernel/fs/fs.c:253-255 | a directory entry that reads was copied whole by `inode_read` and decoded from what it returned |
| FsDir.EntryBytes | kernel/fs/fs.c:253-255 | a readable directory entry means the file holds that entry's encoding at its offset |
| FsDir.ChunkRead | kernel/fs/fs.c:168-194 | twenty bytes `inode_read` returned, decoded as an entry, are that entry's encoding sitting in the file |
| FsDir.ReadEncoding | kernel/fs/fs.h:69-72 | the bytes an entry was decoded from are exactly its encoding |
| FsDir.EntryReadBack | kernel/fs/fs.c:253-255 | a file holding an entry's encoding at slot `j`, inside its size, reads back that entry there |
| FsDir.BytesKept | kernel/fs/fs.c:196-224 | file bytes outside the range a write covered are still there after it |
| FsDir.SlotKept | kernel/fs/fs.c:196-224 | an entry outside the written range reads the same after the write, while the size still covers it |
| FsDir.SlotWritten | kernel/fs/fs.c:279 | an entry whose encoding was just written reads back as that entry |
| FsDir.Put | kernel/fs/fs.c:279 | the listing after writing `e` over slot `k`, or just past the last slot: `e` at `k`, every other entry unchanged |
| FsDir.EntryWithin | kernel/fs/fs.c:252 | every slot the loop condition admits lies inside the directory's size |
| FsDir.EntriesApart | kernel/fs/fs.c:260 | two different entry slots do not overlap |
| FsDir.SizeAfterPut | kernel/fs/fs.c:219-220 | writing an existing slot keeps the entry count; writing the slot at the end adds one |
| FsDir.OtherKept | kernel/fs/fs.c:302 | an entry other than the one overwritten reads the same after the write |
| FsDir.OthersKept | kernel/fs/fs.c:302 | all entries other than the one overwritten read the same after the write |
| FsDir.ListsKept | kernel/fs/fs.c:252-255 | a change that keeps the directory inode and its bytes keeps what the directory lists |
| FsDir.ListsAfter | kernel/fs/fs.c:279-302 | a directory whose slot `k` now reads `e`, whose other entries were kept and whose size grew to cover `k` lists the same entries with `e` at `k`, as after the writes of `dir_add` and `dir_remove_inum` |
| FsDir.ListsAfterWrite | kernel/fs/fs.c:279-302 | a successful write of an entry's encoding over slot `k`, or just past the last slot, lists the same entries with that entry at `k` |
| FsDir.NewEntry | kernel/fs/fs.c:270-278 | the entry `dir_add` builds has a full-length name array holding the name cut to 15 bytes, NUL-padded |
| FsDir.AppendLists | kernel/fs/fs.c:279 | appending an entry's encoding at the end of a directory of whole entries lists every old entry and then the new one |
| FsDir.DirAdd | kernel/fs/fs.c:265-282 | `dir_add` fails without writing on an unreadable root; on an appendable root it changes no other inode, leaves the root inode alone on failure and appends the new entry on success; a root past the file-size limit makes it fail |
| FsDir.AddedFound | kernel/fs/fs.c:265-282 | an entry added for a name shorter than 16 bytes is found again by `dir_lookup`, as long as no earlier entry matches it |
| FsDir.LongNameLost | kernel/fs/fs.c:256-278 | an entry added for a name of 16 bytes or more is stored cut short and never matches the name it was added under |
| FsDir.Cleared | kernel/fs/fs.c:300-301 | a cleared entry has inode 0 and an empty name, with the rest of the name bytes left as they were |
| FsDir.ClearedIsFree | kernel/fs/fs.c:256 | a cleared entry fails the in-use test, so no name matches it in `dir_lookup` and the listing of `fs_list_root` skips it too |
| FsDir.ClearLists | kernel/fs/fs.c:298-303 | overwriting the first entry naming the target with its cleared form lists the same entries with that one cleared |
| FsDir.DirRemoveInum | kernel/fs/fs.c:286-309 | `dir_remove_inum` fails without writing on an unreadable root or when no entry names the target; on a consistent root it changes no other inode, keeps the root inode on failure and clears exactly the first entry naming the target on success |
| FsDir.NotFound | kernel/fs/fs.c:294-308 | a search that finds nothing means no listing of the directory has an entry in use naming the target |
| FsDir.Found | kernel/fs/fs.c:294-305 | a search that finds slot `k` means every listing of the directory has its first entry naming the target there |
| FsApi.Fresh | kernel/fs/fs.c:232-235 | the inode `ialloc` writes has the kind asked for, one link, size 0 and no blocks |
| FsApi.Kinds | kernel/fs/fs.c:228-231 | the kind of every valid inode, as the on-disk inode table holds it |
| FsApi.FreeInode | kernel/fs/fs.c:228-241 | the search loop of `ialloc` only answers an inode at or past where it started |
| FsApi.Ialloc | kernel/fs/fs.c:226-243 | `ialloc` only ever takes a valid inode number |
| FsApi.FreeInodeLowest | kernel/fs/fs.c:228-241 | the search answers the first inode of kind 0 from its start on, and nothing when every inode is in use |
| FsApi.IallocLowest | kernel/fs/fs.c:226-243 | `ialloc` fails exactly when every inode is in use, and otherwise takes the lowest free one |
| FsApi.IallocWrites | kernel/fs/fs.c:231-239 | the inode `ialloc` takes reads back as a fresh inode of the kind asked for; no other inode and no block outside its part of the inode table changes |
| FsApi.InodeTableKeeps | kernel/fs/fs.c:86-99 | rewriting a block of the inode table keeps a sound file's block map and bytes |
| FsApi.IallocKeepsDirectory | kernel/fs/fs.c:226-243 | after `ialloc`, a directory other than the new inode lists the same entries and stays sound |
| FsApi.FreeSlot | kernel/fs/fs.c:383-384 | the descriptor search only answers an unused entry at or past where it started |
| FsApi.FreeSlotLowest | kernel/fs/fs.c:383-393 | the descriptor search answers the lowest unused entry, and nothing exactly when every entry is in use |
| FsApi.AllocFd | kernel/fs/fs.c:382-394 | `fs_alloc_fd` keeps the table's 16 entries |
| FsApi.AllocFdLowest | kernel/fs/fs.c:382-394 | `fs_alloc_fd` fails exactly when every entry is in use; otherwise it opens the lowest unused entry on the inode at offset 0, returns its index plus 3 and changes no other entry |
| FsApi.AllocFdOk | kernel/fs/fs.c:385-387 | opening an entry keeps the table's fields within their 32-bit members |
| FsApi.Close | kernel/fs/fs.c:444-454 | `fs_close` succeeds exactly on an open descriptor, clears its entry and nothing else, and otherwise returns -1 with nothing changed |
| FsApi.CloseReleases | kernel/fs/fs.c:382-454 | a closed descriptor is refused by a second `fs_close`, and the next `fs_alloc_fd` succeeds with a number no greater |
| FsApi.Open | kernel/fs/fs.c:411-418 | `fs_open` succeeds exactly when the name is given, found in the root directory and a descriptor is free; it then opens the found inode, and a failure changes nothing |
| FsApi.OpenFinds | kernel/fs/fs.c:411-418 | through a listing of the root directory, `fs_open` opens the inode of the first matching entry in use, the one `dir_lookup` finds, and fails when none matches |
| FsApi.Advance | kernel/fs/fs.c:428-440 | a descriptor's offset moves on by the count, wrapping at 2^32 like the `uint32_t` field |
| FsApi.Read | kernel/fs/fs.c:420-430 | `fs_read` refuses a bad descriptor, a closed one, a missing buffer or a negative count with nothing written; otherwise it returns at most `n` bytes, their number, and advances the offset by that number; on a failed block read it returns -1 with the descriptor unchanged and the chunks copied before it in the buffer |
| FsApi.InodeReadClamped | kernel/fs/fs.c:172-175 | when `off` lies inside the file and `off + n` stays below 2^32, `inode_read` is the copy loop over the smaller of `n` and what is left of the file after `off` |
| FsApi.InodeReadIsFile | kernel/fs/fs.c:168-194 | `inode_read` returns the file's own bytes from `off`, never past its end, and all of them up to `n` when none is missing |
| FsApi.ReadGivesFile | kernel/fs/fs.c:420-430 | what `fs_read` puts in the buffer through an open descriptor, on success or after a failed block read, is, by way of `inode_read`, the file's own bytes from the descriptor's offset; on success never past its end, and all up to `n` when none is missing |
| FsApi.InodeCopiedBytes | kernel/fs/fs.c:168-194 | what `inode_read` has written to `dst`, also when it fails, is the file's own bytes from `off`, at most `n` of them |
| FsApi.InodeCopiedClamped | kernel/fs/fs.c:172-175 | without wrap-around, `inode_read` copies with the count cut at the end of the file |
| FsApi.CopiedFromStart | kernel/fs/fs.c:177-193 | what the copy loop writes from its start is the file's own bytes from `off`, at most `n` of them |
| FsApi.Write | kernel/fs/fs.c:432-442 | `fs_write` refuses a bad descriptor, a closed one, a missing buffer or a negative count and changes nothing then; success returns `n` and advances the offset by `n`; a failure keeps the descriptor table; and on a sound file whose range does not wrap, `inode_write` changes no other inode, does not write the inode back on failure, and on success sets the size to cover the range, keeps kind, links and a sound block map, changes no byte of the file outside the range, and reads back the buffer from the range |
| FsApi.Trunc | kernel/fs/fs.c:509-528 | `fs_trunc` succeeds exactly when the name is found and leads to a valid inode, and leaves the root and descriptors alone |
| FsApi.TruncEmpties | kernel/fs/fs.c:507-528 | after `fs_trunc` every read of the file returns no bytes, while it keeps its kind, links and blocks and every other inode is as it was |
| FsApi.ListRootCall | kernel/fs/fs.c:531-554 | `fs_list_root` refuses a missing array, a non-positive maximum or a bad root with nothing stored; otherwise it returns the number of entries it copied out, and the array holds at most `max` entries, each live and whole, also when a failed read makes it return -1 |
| FsApi.ListRootCallLists | kernel/fs/fs.c:531-554 | through a listing of the root directory, `fs_list_root` copies out its first `max` live entries in order and returns their number |
| FsApi.ListRootCallStores | kernel/fs/fs.c:531-554 | succeeding or not, `fs_list_root` leaves in the array the first `max` live entries of the root directory among those it could read, in order |
| FsApi.CreatedFound | kernel/fs/fs.c:396-409 | a name the root directory did not have is found, once its entry is appended, as the new inode |
| FsApi.CreateAdded | kernel/fs/fs.c:403-408 | `ialloc`, `dir_add` and the descriptor chained give a fresh inode, no other inode but the root changed, and on success every listing gains the new entry, which `dir_lookup` then finds |
| FsApi.Create | kernel/fs/fs.c:396-409 | `fs_create` refuses a missing name, a name already present or a full inode table without changing anything; success opens the lowest free inode on a new descriptor; on a consistent root the inode is fresh, the directory gains the entry and the name is found; a failed `dir_add` keeps the descriptors but not the inode |
| FsApi.CreateReleasing | kernel/fs/fs.c:396-409 | `fs_create` giving the inode back: any failure with a descriptor free leaves every inode as it was, and success is as in `fs_create` |
| FsApi.GivenBack | kernel/fs/fs.c:404-407 | writing the taken inode back after a failed `dir_add` leaves every inode as it was before `ialloc` |
| FsApi.FreeBlock | kernel/fs/fs.c:46-59 | freeing a block as `fs_unlink` does changes only the bitmap block |
| FsApi.FreeEach | kernel/fs/fs.c:474-480 | freeing a list of blocks in turn changes only the bitmap block |
| FsApi.FreeEachClears | kernel/fs/fs.c:474-480 | freeing blocks in turn clears the bits of exactly those data blocks and keeps the others |
| FsApi.Entries | kernel/fs/fs.c:485-486 | the indirect block read as its 128 little-endian 32-bit block numbers |
| FsApi.IndirectFreed | kernel/fs/fs.c:482-493 | the indirect part frees nothing exactly when there is no indirect block, and otherwise frees the indirect block itself last |
| FsApi.Release | kernel/fs/fs.c:473-493 | the freeing loops of `fs_unlink` write only the bitmap block |
| FsApi.ReleaseClears | kernel/fs/fs.c:473-493 | the freeing loops of `fs_unlink` change only the bitmap, and clear in it the bits of exactly the data blocks they were handed |
| FsApi.Unlinked | kernel/fs/fs.c:473-498 | freeing the blocks and writing the inode back free changes only the bitmap block and the inode's block of the table |
| FsApi.FreedDinode | kernel/fs/fs.c:494-496 | the inode `fs_unlink` writes back is free, with no links, size or blocks |
| FsApi.UnlinkedFrees | kernel/fs/fs.c:469-498 | before its entry is cleared, an unlinked inode reads back free, no other inode changes, and the bitmap has lost exactly the data blocks the inode held |
| FsApi.UnlinkKeeps | kernel/fs/fs.c:469-498 | unlinking keeps another sound file, such as the root directory, sound and byte for byte as it was when none of its blocks was released |
| FsApi.UnlinkDone | kernel/fs/fs.c:497-504 | the steps of `fs_unlink` chained leave the inode free, change no other inode but the root, and on success clear exactly its first entry |
| FsApi.Unlink | kernel/fs/fs.c:457-505 | `fs_unlink` refuses a missing or unknown name without changing anything; for a valid inode other than the root whose blocks the root does not share, the inode ends free, no other inode but the root changes, and success clears its first directory entry |
| FsApi.UnlinkedGone | kernel/fs/fs.c:457-505 | once `fs_unlink` cleared its entry, a name no other entry matches is no longer found by `dir_lookup`, so `fs_open` of it fails |
| Syscall.U64Of | kernel/syscall/syscall.c:71-93 | the conversion to `uint64_t` keeps values that fit and turns -1 into the all-ones word |
| Syscall.Route | kernel/syscall/syscall.c:246-285 | the dispatcher has no handler exactly for 0, `SYS_KILL`, `SYS_EXEC` and numbers past `SYS_PS` |
| Syscall.Number | kernel/syscall/syscall.h:8-32 | every handler's number lies between 1 and `SYS_PS` |
| Syscall.RouteNumber | kernel/syscall/syscall.c:246-285 | every handler is reached through its own number from the header, and every routed number is that handler's |
| Syscall.Terminated | kernel/syscall/syscall.c:77-125 | the names `sys_open`, `sys_unlink` and `sys_trunc` pass on are the NUL-free run of bytes up to the first NUL |
| Syscall.Str | kernel/syscall/syscall.c:116-118 | a pointer argument names no string exactly when it is NULL, and otherwise the bytes up to the first NUL |
| Syscall.Region | kernel/syscall/syscall.c:59-90 | a buffer argument of `sys_write` or `sys_read` is absent exactly when NULL, and otherwise the bytes it covers |
| Syscall.CharPrinted | kernel/syscall/syscall.c:64-65 | `printk("%c", c)` prints nothing for NUL and otherwise the character, with a line feed expanded to CR LF |
| Syscall.Shown | kernel/syscall/syscall.c:63-66 | the visible characters of a byte string contain no NUL |
| Syscall.EchoPuts | kernel/syscall/syscall.c:63-66 | what `sys_write` prints to the console is the buffer's visible characters put through `puts` |
| Syscall.EchoShows | kernel/syscall/syscall.c:63-66 | a terminal reading each CR LF as a line feed shows exactly the written buffer, less its NUL bytes |
| Syscall.Written | kernel/syscall/syscall.c:63-64 | the console write takes exactly `len` bytes from the buffer |
| Syscall.SysWrite | kernel/syscall/syscall.c:57-73 | descriptors 1 and 2 print the buffer and return `len`; other descriptors outside the file-system range get -1 with nothing changed; file-system descriptors go to `fs_write` with the count taken as an `int`, never print, and on a sound file leave the disk as `fs_write` promises for the `(int)len` bytes at the buffer |
| Syscall.WriteFile | kernel/syscall/syscall.c:69-71 | a file-system descriptor writes `(int)len` bytes of the buffer through `fs_write`: it is refused with nothing changed unless the descriptor is open with a buffer and a non-negative count; on success it returns the count and advances only that descriptor's offset, with 32-bit wrap-around; for a sound file and a write ending below 2^32, a completed write reads the buffer back at the old offset, keeps every other byte and grows the size to cover it, and a failed one keeps the inode; the console, the process and the memory map are untouched |
| Syscall.WriteRegion | kernel/syscall/syscall.c:70-71 | `fs_write` of the `(int)len` bytes at the buffer, widened to 64 bits: refused with nothing changed unless the descriptor is open with a buffer and a non-negative count; on success the count comes back and the offset advances; on a sound file the disk changes as `fs_write` promises |
| Syscall.PrintChar | kernel/syscall/syscall.c:64-65 | printing one byte with `%c` prints nothing exactly for NUL, and otherwise at most two characters, none of them NUL |
| Syscall.Echo | kernel/syscall/syscall.c:63-66 | the console loop prints no NUL and at most two characters per byte |
| Syscall.SysOpen | kernel/syscall/syscall.c:75-85 | a flag whose low 32 bits are zero opens through `fs_open`; any other creates, refusing a missing name, a name already present or a full inode table with nothing changed, keeping the descriptors on failure and otherwise opening the lowest free inode; the descriptor or -1 comes back as a 64-bit word |
| Syscall.SysRead | kernel/syscall/syscall.c:87-95 | `sys_read` refuses a descriptor outside the file-system range after truncating it to `int`; otherwise the bytes `fs_read` copied reach user memory at the buffer, on success and on -1 alike, nothing else in user memory changes, a success returns their number and a failure leaves the kernel state unchanged |
| Syscall.SysReadGivesFile | kernel/syscall/syscall.c:87-95 | the bytes `sys_read` copies into the buffer, whether it then succeeds or fails, are the file's own from the descriptor's offset, and a success returns their number |
| Syscall.SysClose | kernel/syscall/syscall.c:97-103 | `sys_close` succeeds exactly on an open descriptor, after truncating it to `int`, which is then closed; otherwise -1 with nothing changed |
| Syscall.DescriptorLow32 | kernel/syscall/syscall.c:62-99 | `sys_read` and `sys_close` treat a descriptor plus 2^32 like the descriptor itself, while `sys_write` compares the whole 64-bit word and refuses it |
| Syscall.DirentBytes | kernel/fs/fs.h:69-72 | an array of entries takes 20 bytes per entry |
| Syscall.DirentBytesAt | kernel/fs/fs.h:69-72 | entry `i` of the array occupies exactly bytes `20 i` to `20 i + 20`, holding its encoding |
| Syscall.SysLs | kernel/syscall/syscall.c:141-149 | `sys_ls` refuses a NULL array or a count that is not positive as an `int`; otherwise the entries `fs_list_root` stored are in the array, decoded entry by entry, on success and on -1 alike, nothing else in user memory changes, a success returns their number, and no kernel state changes |
| Syscall.SysLsLists | kernel/syscall/syscall.c:141-149 | through a listing of the root directory, `sys_ls` returns the number of its first `max` live entries and the array decodes to them, in order |
| Syscall.SysLsStores | kernel/syscall/syscall.c:141-149 | succeeding or not, the array `sys_ls` fills holds, decoded, the first `max` live entries of the root directory among those that could be read, in order |
| Syscall.EntryBytes | kernel/syscall/syscall.c:143-147 | the twenty bytes of entry `i` in user memory are the same bytes of the copied array |
| Syscall.EntryCopied | kernel/syscall/syscall.c:143-147 | entry `i` of the array in user memory decodes to the `i`-th entry copied |
| Syscall.ArrayHolds | kernel/syscall/syscall.c:143-147 | an array of entries copied into user memory changes nothing outside the array and decodes, entry by entry, to those entries |
| Syscall.SysUnlink | kernel/syscall/syscall.c:114-121 | `sys_unlink` refuses a NULL or unknown name with nothing changed, and otherwise does what `fs_unlink` does |
| Syscall.SysTrunc | kernel/syscall/syscall.c:123-130 | `sys_trunc` succeeds exactly when the name is given and leads to a valid inode; otherwise -1 with nothing changed |
| Syscall.SysTruncEmpties | kernel/syscall/syscall.c:123-130 | after a successful `sys_trunc` every read of the named file returns no bytes |
| Syscall.HeapBase | kernel/syscall/syscall.c:170-182 | a process's heap region starts at `0x80400000 + pid * 8192` |
| Syscall.HeapsApart | kernel/syscall/syscall.c:165-171 | different processes get heap regions that do not overlap |
| Syscall.Started | kernel/syscall/syscall.c:181-185 | a break already set up is kept; one not yet set up starts empty at the process's region |
| Syscall.Break | kernel/syscall/syscall.c:187 | the break is a 64-bit word |
| Syscall.PagesCover | kernel/syscall/syscall.c:191 | without wrap-around, the page count is the least whose pages cover `incr` bytes |
| Syscall.PagesWrap | kernel/syscall/syscall.c:191 | an increment within a page of 2^64 rounds to zero pages |
| Syscall.Grown | kernel/syscall/syscall.c:199 | growing the heap keeps the process's id and heap base |
| Syscall.GrownBreak | kernel/syscall/syscall.c:187-199 | the break moves up by the pages' bytes, modulo 2^64 |
| Syscall.PageVa | kernel/syscall/syscall.c:193 | the address of each page above the break is a 64-bit word |
| Syscall.MappedStays | kernel/mem/vmm.c:138-148 | a successful `vmm_map_page` keeps every translated address translated, and makes the mapped one translate |
| Syscall.PagesStay | kernel/syscall/syscall.c:192-198 | mapping page `i` keeps the pages below it translated and adds page `i` |
| Syscall.SysSbrk | kernel/syscall/syscall.c:173-201 | `sys_sbrk` fails with no current process; otherwise it sets up the break on first use, returns the old break unchanged for 0, and on success returns the old break, grows the break by whole pages and leaves every new page translated; a failure returns -1 and keeps the break; it succeeds whenever the directory exists, the break is page aligned and two free pages per page needed are available |
| Syscall.PageVaAligned | kernel/syscall/syscall.c:192-193 | above a page-aligned break every page's virtual address is page aligned after the 32-bit cast |
| Syscall.BreakAligned | kernel/syscall/syscall.c:181-199 | the break `sys_sbrk` sets up is page aligned, and growing by whole pages keeps it so |
| Syscall.MapPages | kernel/syscall/syscall.c:192-198 | the mapping loop keeps page tables and frames coupled, maps every page when it succeeds, fails without change when no frame is free, and succeeds whenever the directory exists, the break is page aligned and two free pages per page are available |
| Syscall.Compare | kernel/syscall/syscall.c:224-230 | the difference of two bytes taken as `unsigned char` lies between -255 and 255 |
| Syscall.CompareZero | kernel/syscall/syscall.c:224-230 | `kstrcmp` of two strings is zero exactly when they are the same string |
| Syscall.CompareSwap | kernel/syscall/syscall.c:224-230 | swapping `kstrcmp`'s operands negates the result |
| Syscall.Kstrcmp | kernel/syscall/syscall.c:224-230 | the loop of `kstrcmp` computes the difference of the first differing bytes, zero exactly for equal strings |
| Syscall.ExecLookup | kernel/syscall/syscall.c:216-244 | `sys_exec_lookup` answers a program exactly when its table name equals the given name, and -1 for a NULL name or one the table lacks |
| Syscall.Pid | kernel/syscall/syscall.c:25-30 | `sys_getpid` returns a 64-bit word |
| Syscall.ServeFiles | kernel/syscall/syscall.c:57-149 | every file and console handler keeps the kernel valid and leaves the process and page tables alone; only `sys_write` prints and only `sys_read` and `sys_ls` write user memory; `sys_read`, `sys_close`, `sys_ls` and `sys_trunc` give their handler's result, `sys_write` prints on descriptors 1 and 2 and refuses other non-file descriptors, `sys_open` opens or, creating, opens the new inode, and `sys_unlink` refuses an unknown name |
| Syscall.Dispatch | kernel/syscall/syscall.c:246-285 | `syscall_dispatch` returns -1 with nothing changed for a number without a handler and hands the process and time calls to code outside the model; `SYS_READ`, `SYS_CLOSE`, `SYS_LS` and `SYS_TRUNC` give exactly their handler's result; `SYS_WRITE` prints on descriptors 1 and 2 and refuses other non-file descriptors, a creating `SYS_OPEN` that succeeds opens the new inode, `SYS_UNLINK` refuses an unknown name, and `SYS_SBRK` fails without a process, otherwise moves the break by whole pages or keeps it, and grows it whenever enough frames are free; every handler keeps the kernel valid |

## Left out

- The UART hardware (`uart_putc`, `uart_getc`, `uart_getc_blocking`): console output is a character sequence that calls append to, and console input a finite sequence that calls consume. Running out of input where the hardware would block is an explicit outcome.
- The echo of `uart_getc_echo` and of the shell's `readline`: it is output only and does not affect what is read.
- `printk`'s fixed 256-byte buffer: the formatted text is unbounded.
- Uart.Format: `%d` of `INT_MIN` is reported as `None` rather than modelled, because the C code negates it with undefined behaviour. A format that ends in a lone `%` is `None` too: the C code copies the terminating NUL into the buffer and then reads the format past its end.
- UartScan.ReadInt: the value is an unbounded integer. The C loop `val = val * 10 + digit` on an `int` overflows, with undefined behaviour, on digit strings beyond the `int` range; that is not modelled. `UartScan.IntRoundTrip` only concerns values in range.
- Shell.ParseKill: the value is an unbounded integer, so the `int` overflow of the C loop on very long digit strings is not modelled.
- The older `gets` in kernel/uart.c:65-71, which never terminates.
- `gen_readme.py`'s file handling (`read_text`, `mkdir`, `open`) and its UTF-8 decoding: the model starts from the byte sequence.
- The virtio block driver (kernel/fs/blk.c is not part of this model). The disk is a sequence of 128 blocks of 512 bytes. `b_read` and `b_write` refuse a block number of 128 or more with -1, as kernel/fs/fs.c:19-21 does, and the model keeps that failure; a block number below 128 always succeeds, because a failure of the driver itself (`blk_read_sector`, `blk_write_sector`) is not modelled. A sequence indexed by block number is used instead of a map, because the disk has a fixed number of blocks.
- `fs_format` and `fs_init`, which seed the disk from the generated README array and an undeclared `MAXFILE`.
- FsDisk.ReadDinode: reads inode `k` from the corrected slot, with `BSIZE / sizeof(struct dinode)` whole inodes to a block, not from byte `(k-1)·52` of the table as kernel/fs/fs.c:76-78 computes. As written, inodes 10, 20 and 30 straddle two blocks and `memcpy` runs past the 512-byte buffer (`FsLayout.StraddlingInodes`). Other inodes also sit at different offsets, so the model's inode table is not byte for byte the C one.
- FsDisk.WriteDinode: writes to the same corrected slot, for the same reason.
- FsDisk.ReadAfterWrite: holds for the corrected layout. As written, writing inode 10, 20 or 30 overruns the block buffer, and no such promise exists for them.
- Syscall.SysOpen: the create path uses the corrected `FsApi.CreateReleasing`, which gives the inode back when `dir_add` fails. As written, `fs_create` leaves that inode marked in use (`FsApi.Create`), and the model does not carry that leak through `sys_open`.
- `struct dinode` in fs.h has no `indirect` field, although fs.c uses one. The model adds it after the direct addresses, and takes `NINDIRECT` as 128, the number of `uint32_t` values in a block.
- FsDir.DirAdd: the outcome is characterised only on a root inode that is consistent on disk, whose size is a whole number of entries and that can grow by one entry.
- FsDir.DirRemoveInum: success is characterised only on a root inode whose block map is consistent on disk.
- FsApi.Write: the written bytes are characterised only for a file whose block map is consistent and whose offset plus count stays below 2^32.
- FsApi.Create: the new entry and its lookup are characterised only on a consistent root inode (`RootOk`).
- FsApi.Unlink: the effect is characterised only for an inode other than the root whose released blocks the root does not use. A descriptor still open on the unlinked inode is not followed.
- FsApi.Read: which bytes come back is stated (in `FsApi.ReadGivesFile`) only when offset plus count stays below 2^32. Past that, the 32-bit sum in `inode_read` wraps.
- `print_memory_stats`, which only prints. The getters `get_total_pages`, `get_free_pages`, `get_total_memory` and `get_free_memory` are not modelled: each returns a field of the allocator state, or a product of one with the page size. `get_used_pages` is modelled as `Kmem.UsedPages`.
- Kmem.AllocThenFree: stated only for heaps of fewer than 2^20 pages (`Kmem.Addressable`). Beyond that the 32-bit product `page_index * PAGE_SIZE` wraps, and the page `kalloc` hands out can be one `kfree` refuses (`Kmem.WideHeapAliases`).
- Kmem.KallocKeepsAccepted: the new page is freeable, and differs from every freeable page, only for heaps of fewer than 2^20 pages, for the same reason.
- Proc.OwnedAfterKalloc, Proc.ProcCreate, Proc.CreateWithPage: stated for an allocator whose heap has fewer than 2^20 pages, so that page addresses do not wrap.
- Vmm.Map: the heap is assumed to lie above address 0 and below 4 GiB (`Vmm.HeapFits`), so that every frame address fits the 32-bit page-table entries.
- Vmm.Translate: it has no contract of its own. What it returns is stated through the members about the translation an operation changes and the ones it keeps (`Vmm.SetEntryTranslate`, `Vmm.Map`, `Vmm.Unmap`, `Vmm.MapPage`).
- `vmm_handle_page_fault`, `vmm_activate` and the CR3 stubs, which only print or touch hardware.
- The context switch (`switch_context`, `forkret`, `idle_entry`), interrupt enabling, `proc_exit`, `zombies_free` and `scheduler_init`: they concern assembly and concurrency. Only the queue and the selection and state rules of `schedule` are modelled.
- Syscall.Dispatch: `sys_exit`, `sys_uptime`, `sys_sleep`, `sys_fork`, `sys_wait`, `sys_getc` and `sys_ps` are handed to code outside the model (`proc_exit`, the CLINT timer, `proc_fork`, `proc_wait_and_reap`, the console and `proc_dump`).
- Syscall.ExecLookup: it returns the program found rather than its entry address, because function addresses are not modelled.
- The trap handler, the PLIC and `SYS_EXEC`'s special path in kernel/trap/trap.c, which is not part of this model.
- The shell's `execute` (usr/shell.c:183-442) and its system calls: only its pure helpers are modelled.
- KString.Memcpy: the result is not characterised when the destination starts inside the source region, where C leaves `memcpy` undefined. `memmove` covers overlap.

## Findings

| source | as written | input that shows it | evidently intended | confidence | as-written member | corrected member |
|---|---|---|---|---|---|---|
| kernel/uart/uart.c:193-208 | after a leading `0` that is not followed by `x`, the next character replaces it, so a lone `0` is rejected | `"0\n"` (the `%x` rendering of zero, then a line feed) fails to read | the `0` is a hex digit and reads as zero | not executed | UartScan.ReadHexAsWritten, with UartScan.HexZeroRejected and UartScan.HexReadersDiffer | UartScan.ReadHex, with UartScan.HexWordRoundTrip |
| kernel/uart/uart.c:254-260 | a whitespace directive reads one character past the whitespace and drops it | format `"%d %d"` on `"12 34\n"` reads 12 and 4 | the first non-space character stays for the next conversion | not executed | UartScan.ScankAsWritten, with UartScan.ScankAsWrittenDropsDigit | UartScan.Scank, with UartScan.ScankTwoInts |
| kernel/fs/fs.c:76-95 | inode `k` sits at byte `(k-1)·52` of the inode table, cut into 512-byte blocks, so some inodes run past the end of their block | inodes 10, 20 and 30 straddle a block boundary, and `memcpy` reads and writes past the 512-byte buffer | each inode lies inside one block, `BSIZE / sizeof(struct dinode)` to a block | not executed | FsLayout.InodeSlotAsWritten, with FsLayout.StraddlingInodes | FsLayout.InodeSlot, with FsLayout.SlotsDisjoint |
| kernel/fs/fs.c:396-409 | when `dir_add` fails after `ialloc`, `fs_create` returns -1 with the new inode still marked in use | a free inode and a root directory of 70640 bytes, where one more entry passes the 70656-byte file limit | the inode is given back when its entry cannot be added | not executed | FsApi.Create | FsApi.CreateReleasing, with FsApi.GivenBack |

=== FILE: basics.dfy ===
/**
 * Small shared vocabulary: an optional value, integer helpers, the two
 * whitespace classes the kernel distinguishes, and sequence helpers used
 * by more than one component.
 */
module Basics {

  /** A value that may be absent; stands for a C pointer that may be NULL. */
  datatype Option<T> = None | Some(value: T)

  /** An unsigned 8-bit value (`uint8_t`). */
  newtype byte = x: int | 0 <= x < 256

  function Min(a: int, b: int): int {
    if a <= b then a else b
  }

  function Max(a: int, b: int): int {
    if a <= b then b else a
  }

  /** The blank characters the shell splits on (`' '` and `'\t'`). */
  predicate IsBlank(c: char) {
    c == ' ' || c == '\t'
  }

  /** The six characters `isspace` accepts in the C locale. */
  predicate IsSpace(c: char) {
    c == ' ' || c == '\n' || c == '\t' || c == '\r' || c == '\U{000B}' || c == '\U{000C}'
  }

  /** The first `n` elements of `s`, or all of `s` when it is shorter. */
  function Take<T>(s: seq<T>, n: nat): seq<T> {
    if n <= |s| then s[..n] else s
  }

  /** `parts` joined with `sep` between consecutive elements. */
  function Join(parts: seq<string>, sep: string): string {
    if |parts| == 0 then ""
    else if |parts| == 1 then parts[0]
    else parts[0] + sep + Join(parts[1..], sep)
  }

  /** The number of occurrences of `x` in `s`. */
  function Count<T(==)>(s: seq<T>, x: T): nat {
    if |s| == 0 then 0
    else (if s[0] == x then 1 else 0) + Count(s[1..], x)
  }

  lemma {:induction false} CountAppend<T>(a: seq<T>, b: seq<T>, x: T)
    ensures Count(a + b, x) == Count(a, x) + Count(b, x)
  {
    if |a| == 0 {
      assert a + b == b;
    } else {
      assert (a + b)[1..] == a[1..] + b;
      CountAppend(a[1..], b, x);
    }
  }

  lemma EmptyAppend<T>(a: seq<T>, b: seq<T>)
    requires |a| == 0
    ensures a + b == b
  {
  }

  lemma TakeDrop<T>(s: seq<T>, j: nat)
    requires j <= |s|
    ensures s[..j] + s[j..] == s
  {
  }

  lemma TakeSplit<T>(s: seq<T>, j: nat, i: nat)
    requires j <= i <= |s|
    ensures s[..j] + s[j..i] == s[..i]
  {
  }

  /** The three parts of `a + m + c` can be cut back out of it. */
  lemma Frame<T>(a: seq<T>, m: seq<T>, c: seq<T>)
    ensures var s := a + m + c;
      s[..|a|] == a && s[|a|..] == m + c && s[|s| - |c|..] == c && s[|a|..|s| - |c|] == m
  {
    var s := a + m + c;
    assert s[|a|..] == m + c;
  }

  /** Splicing `m` into `s` at `o` keeps every slice that lies wholly before or after it. */
  lemma SpliceOutside<T>(s: seq<T>, o: nat, m: seq<T>, x: nat, n: nat)
    requires o + |m| <= |s| && x + n <= |s| && (x + n <= o || o + |m| <= x)
    ensures (s[..o] + m + s[o + |m|..])[x..x + n] == s[x..x + n]
  {
    var t := s[..o] + m + s[o + |m|..];
    assert |t| == |s|;
    forall i | x <= i < x + n
      ensures t[i] == s[i]
    {
      if i < o {
        assert t[i] == s[..o][i];
      } else {
        assert t[i] == s[o + |m|..][i - o - |m|];
      }
    }
  }

  lemma SplitAppend<T>(a: seq<T>, b: seq<T>)
    ensures (a + b)[..|a|] == a && (a + b)[|a|..] == b
  {
  }

  /** The C string held in a character buffer: everything before the first NUL. */
  function CString(buf: seq<char>): (s: seq<char>)
    ensures '\0' !in s
    ensures s <= buf
    ensures |s| < |buf| ==> buf[|s|] == '\0'
  {
    if |buf| == 0 || buf[0] == '\0' then []
    else [buf[0]] + CString(buf[1..])
  }
}

=== FILE: fs_api.dfy ===
/**
 * The file-system calls the kernel exposes: `ialloc`, the descriptor table
 * (`fs_alloc_fd`, `fs_open`, `fs_read`, `fs_write`, `fs_close`) and the
 * calls on names in the root directory (`fs_create`, `fs_unlink`,
 * `fs_trunc`, `fs_list_root`).
 *
 * The kernel's globals — the disk, the superblock's root inode and the
 * table `fs_fds` — are the state `Fs`; a call returns the new state with
 * the C return value. A C string argument is an `Option`, `None` standing
 * for a NULL pointer; a caller's buffer for reading or listing is only
 * tested for NULL, so it is a `bool`.
 */
module FsApi {
  import opened Basics
  import opened Numerals
  import opened FsLayout
  import opened FsDisk
  import opened FsFile
  import opened FsWrite
  import opened FsDir

  // ------------------------------------------------------------------ ialloc

  /** The inode `ialloc` writes: cleared, then given its kind and one link. */
  function Fresh(kind: nat): (d: Dinode)
    requires kind < 0x1_0000
    ensures Fits(d) && d.kind == kind && d.nlink == 1 && d.size == 0 && d.indirect == 0
    ensures forall i :: 0 <= i < NDIRECT ==> d.addrs[i] == 0
  {
    Dinode(kind, 1, 0, seq(NDIRECT, _ => 0), 0)
  }

  datatype NewInode = NewInode(disk: Disk, inum: nat)

  /** The kind of every inode, as `read_dinode` gives it; slot 0 stands for the invalid inode 0. */
  function Kinds(disk: Disk): (ks: seq<nat>)
    ensures |ks| == NINODE
    ensures forall j :: 0 < j < NINODE ==> ks[j] == ReadDinode(disk, j).value.kind
  {
    seq(NINODE, j => if 0 < j < NINODE then ReadDinode(disk, j).value.kind else 0)
  }

  /** Every inode numbered from `lo` up to `hi` is in use: its kind is not 0. */
  predicate AllUsed(ks: seq<nat>, lo: nat, hi: nat)
    requires hi <= |ks|
  {
    forall j :: lo <= j < hi ==> ks[j] != 0
  }

  /** The search loop of `ialloc` from inode `inum` on: the first inode whose kind is 0. */
  function FreeInode(ks: seq<nat>, inum: nat): (r: Option<nat>)
    requires inum <= |ks|
    ensures r.Some? ==> inum <= r.value < |ks|
    decreases |ks| - inum
  {
    if inum == |ks| then None
    else if ks[inum] == 0 then Some(inum)
    else FreeInode(ks, inum + 1)
  }

  /** `ialloc`: the first free inode, written back as a fresh inode of the given kind. */
  function Ialloc(disk: Disk, kind: nat): (r: Option<NewInode>)
    requires kind < 0x1_0000
    ensures r.Some? ==> ValidInum(r.value.inum)
  {
    match FreeInode(Kinds(disk), 1)
    case None => None
    case Some(inum) => Some(NewInode(WriteDinode(disk, inum, Fresh(kind)).value, inum))
  }

  lemma {:induction false} FreeInodeLowest(ks: seq<nat>, inum: nat)
    requires inum <= |ks|
    ensures var r := FreeInode(ks, inum);
      (r.None? <==> AllUsed(ks, inum, |ks|))
      && (r.Some? ==> ks[r.value] == 0 && AllUsed(ks, inum, r.value))
    decreases |ks| - inum
  {
    if inum < |ks| && ks[inum] != 0 {
      FreeInodeLowest(ks, inum + 1);
    }
  }

  /** `ialloc` fails exactly when every inode is in use; otherwise it takes the lowest free one. */
  lemma IallocLowest(disk: Disk, kind: nat)
    requires kind < 0x1_0000
    ensures Ialloc(disk, kind).None? <==> forall j :: ValidInum(j) ==> ReadDinode(disk, j).value.kind != 0
    ensures Ialloc(disk, kind).Some? ==>
      var a := Ialloc(disk, kind).value;
      ReadDinode(disk, a.inum).value.kind == 0 && forall j :: 0 < j < a.inum ==> ReadDinode(disk, j).value.kind != 0
  {
    var ks := Kinds(disk);
    FreeInodeLowest(ks, 1);
    if FreeInode(ks, 1).None? {
      forall j: nat | ValidInum(j) ensures ReadDinode(disk, j).value.kind != 0 {
        assert ks[j] != 0;
      }
    }
  }

  /** The inode `ialloc` takes reads back as a fresh inode of the kind asked for; no other inode and no block outside its part of the inode table changes. */
  lemma IallocWrites(disk: Disk, kind: nat)
    requires kind < 0x1_0000 && Ialloc(disk, kind).Some?
    ensures var a := Ialloc(disk, kind).value;
      ReadDinode(a.disk, a.inum) == Some(Fresh(kind))
      && (forall j :: j != a.inum ==> ReadDinode(a.disk, j) == ReadDinode(disk, j))
      && a.disk == disk[InodeSlot(a.inum).block := a.disk[InodeSlot(a.inum).block]]
  {
    var a := Ialloc(disk, kind).value;
    assert a.disk == WriteDinode(disk, a.inum, Fresh(kind)).value;
    forall j ensures ReadDinode(a.disk, j) == if j == a.inum then Some(Fresh(kind)) else ReadDinode(disk, j) {
      ReadAfterWrite(disk, a.inum, Fresh(kind), j);
    }
  }

  /**
   * Rewriting a block of the inode table keeps a sound file's map and bytes:
   * its blocks are all data blocks.
   */
  lemma InodeTableKeeps(disk: Disk, disk': Disk, din: Dinode, b: nat)
    requires INODE_START_BLOCK <= b < INODE_START_BLOCK + INODE_BLOCKS && disk' == disk[b := disk'[b]]
    requires Sound(disk, din)
    ensures Sound(disk', din) && KeepsOutside(disk, din, disk', din, 0, 0)
  {
    assert disk'[BITMAP_BLOCK] == disk[BITMAP_BLOCK];
    assert din.indirect != 0 ==> disk'[din.indirect] == disk[din.indirect];
    forall f ensures Lookup(disk', din, f) == Lookup(disk, din, f) {
    }
    forall p: nat ensures ByteAt(disk', din, p) == ByteAt(disk, din, p) {
      var c := Lookup(disk, din, p / BSIZE);
      if c != 0 && c < N_BLOCKS {
        assert p / BSIZE < MAX_FBLK;
        assert disk'[c] == disk[c];
      }
    }
  }

  /** After `ialloc` a directory other than the new inode lists the same entries and is still sound. */
  lemma IallocKeepsDirectory(disk: Disk, kind: nat, root: nat)
    requires kind < 0x1_0000 && Ialloc(disk, kind).Some? && Ialloc(disk, kind).value.inum != root
    requires ValidInum(root) && Sound(disk, ReadDinode(disk, root).value)
    ensures var a := Ialloc(disk, kind).value;
      ReadDinode(a.disk, root) == ReadDinode(disk, root) && Sound(a.disk, ReadDinode(disk, root).value)
      && forall es :: Lists(disk, root, es) ==> Lists(a.disk, root, es)
  {
    var a := Ialloc(disk, kind).value;
    IallocWrites(disk, kind);
    InodeTableKeeps(disk, a.disk, ReadDinode(disk, root).value, InodeSlot(a.inum).block);
    forall es | Lists(disk, root, es) ensures Lists(a.disk, root, es) {
      ListsKept(disk, a.disk, root, es);
    }
  }

  // ------------------------------------------------------ descriptor table

  /** An entry of `fs_fds`: whether it is in use, the inode, and the 32-bit offset. */
  datatype Fd = Fd(used: bool, inum: nat, offset: nat)

  /** The entry `fs_close` leaves behind. */
  const Closed: Fd := Fd(false, 0, 0)

  /** The table has its 16 entries, and their fields fit the 32-bit members of the C struct. */
  predicate FdsOk(fds: seq<Fd>) {
    |fds| == FS_MAX_FILES && forall i :: 0 <= i < |fds| ==> fds[i].inum < U32 && fds[i].offset < U32
  }

  /** The file system's state: the disk, the root directory's inode and the descriptor table. */
  datatype Fs = Fs(disk: Disk, root: nat, fds: seq<Fd>)

  /** A call's new state and its return value. */
  datatype Call = Call(fs: Fs, ret: int)

  /** `fs_read`'s new state, return value and the bytes copied into the caller's buffer. */
  datatype ReadCall = ReadCall(fs: Fs, ret: int, data: seq<byte>)

  /** `fs_list_root`'s return value and the entries copied into the caller's array. */
  datatype ListCall = ListCall(ret: int, ents: seq<Dirent>)

  /** The descriptor numbers the calls accept: the table's indices shifted past stdin, stdout and stderr. */
  predicate InRange(fd: int) {
    FS_FD_BASE <= fd < FS_FD_BASE + FS_MAX_FILES
  }

  /** `fd` names an entry of the table that is in use. */
  predicate IsOpen(fds: seq<Fd>, fd: int)
    requires |fds| == FS_MAX_FILES
  {
    InRange(fd) && fds[fd - FS_FD_BASE].used
  }

  /** The search loop of `fs_alloc_fd` from entry `i` on. */
  function FreeSlot(fds: seq<Fd>, i: nat): (r: Option<nat>)
    ensures r.Some? ==> i <= r.value < |fds| && !fds[r.value].used
    decreases |fds| - i
  {
    if i >= |fds| then None
    else if !fds[i].used then Some(i)
    else FreeSlot(fds, i + 1)
  }

  lemma {:induction false} FreeSlotLowest(fds: seq<Fd>, i: nat)
    ensures FreeSlot(fds, i).None? <==> forall j :: i <= j < |fds| ==> fds[j].used
    ensures FreeSlot(fds, i).Some? ==> forall j :: i <= j < FreeSlot(fds, i).value ==> fds[j].used
    decreases |fds| - i
  {
    if i < |fds| && fds[i].used {
      FreeSlotLowest(fds, i + 1);
    }
  }

  datatype FdAlloc = FdAlloc(fds: seq<Fd>, fd: int)

  /** `fds'` is `fds` with the unused entry behind descriptor `fd` opened on `inum` at offset 0. */
  predicate Opened(fds: seq<Fd>, fds': seq<Fd>, fd: int, inum: nat)
    requires |fds| == FS_MAX_FILES
  {
    InRange(fd) && !fds[fd - FS_FD_BASE].used && fds' == fds[fd - FS_FD_BASE := Fd(true, inum, 0)]
  }

  /** `fs_alloc_fd`: the first unused entry, opened on `inum` at offset 0; -1 when the table is full. */
  function AllocFd(fds: seq<Fd>, inum: nat): (r: FdAlloc)
    requires |fds| == FS_MAX_FILES
    ensures |r.fds| == FS_MAX_FILES
  {
    match FreeSlot(fds, 0)
    case None => FdAlloc(fds, -1)
    case Some(i) => FdAlloc(fds[i := Fd(true, inum, 0)], FS_FD_BASE + i)
  }

  /**
   * `fs_alloc_fd` fails exactly when every entry is in use; otherwise it
   * opens the lowest unused entry on the inode at offset 0 and changes no
   * other entry.
   */
  lemma AllocFdLowest(fds: seq<Fd>, inum: nat)
    requires |fds| == FS_MAX_FILES
    ensures var r := AllocFd(fds, inum);
      (r.fd == -1 <==> forall i :: 0 <= i < |fds| ==> fds[i].used)
      && (r.fd == -1 ==> r.fds == fds)
      && (r.fd != -1 ==> Opened(fds, r.fds, r.fd, inum) && forall i :: 0 <= i < r.fd - FS_FD_BASE ==> fds[i].used)
  {
    FreeSlotLowest(fds, 0);
  }

  /** Opening an entry keeps the table's fields within 32 bits when the inode number fits. */
  lemma AllocFdOk(fds: seq<Fd>, inum: nat)
    requires FdsOk(fds) && inum < U32
    ensures FdsOk(AllocFd(fds, inum).fds)
  {
  }

  // --------------------------------------------------------------- fs_close

  /** `fs_close`: an open descriptor's entry is cleared; any other descriptor is refused. */
  function Close(fs: Fs, fd: int): (r: Call)
    requires |fs.fds| == FS_MAX_FILES
    ensures r.ret == 0 <==> IsOpen(fs.fds, fd)
    ensures r.ret != 0 ==> r == Call(fs, -1)
    ensures r.fs.disk == fs.disk && r.fs.root == fs.root && |r.fs.fds| == FS_MAX_FILES
    ensures r.ret == 0 ==>
      !IsOpen(r.fs.fds, fd) && forall i :: 0 <= i < FS_MAX_FILES && i != fd - FS_FD_BASE ==> r.fs.fds[i] == fs.fds[i]
  {
    if !InRange(fd) || !fs.fds[fd - FS_FD_BASE].used then Call(fs, -1)
    else Call(fs.(fds := fs.fds[fd - FS_FD_BASE := Closed]), 0)
  }

  /**
   * A closed descriptor is refused by a second `fs_close`, and its entry is
   * free again: the next `fs_alloc_fd` succeeds, with a number no greater.
   */
  lemma CloseReleases(fs: Fs, fd: int, inum: nat)
    requires |fs.fds| == FS_MAX_FILES && Close(fs, fd).ret == 0
    ensures Close(Close(fs, fd).fs, fd).ret == -1
    ensures var a := AllocFd(Close(fs, fd).fs.fds, inum); a.fd != -1 && a.fd <= fd
  {
    var fds := Close(fs, fd).fs.fds;
    AllocFdLowest(fds, inum);
    assert !fds[fd - FS_FD_BASE].used;
  }

  // ---------------------------------------------------------------- fs_open

  /** The first free entry of the table exists. */
  predicate HasFree(fds: seq<Fd>) {
    exists i :: 0 <= i < |fds| && !fds[i].used
  }

  /** `fs_open`: the inode the root directory gives for `name`, opened on a new descriptor. */
  function Open(fs: Fs, name: Option<seq<byte>>): (r: Call)
    requires FdsOk(fs.fds) && (name.Some? ==> 0 !in name.value)
    ensures r.fs.disk == fs.disk && r.fs.root == fs.root && FdsOk(r.fs.fds)
    ensures r.ret != -1 <==> name.Some? && DirLookup(fs.disk, fs.root, name.value).Some? && HasFree(fs.fds)
    ensures r.ret == -1 ==> r.fs == fs
    ensures r.ret != -1 ==> Opened(fs.fds, r.fs.fds, r.ret, DirLookup(fs.disk, fs.root, name.value).value)
  {
    if name.None? then Call(fs, -1)
    else match DirLookup(fs.disk, fs.root, name.value)
      case None => Call(fs, -1)
      case Some(inum) =>
        var a := AllocFd(fs.fds, inum);
        AllocFdLowest(fs.fds, inum);
        Call(fs.(fds := a.fds), a.fd)
  }

  /** Through a listing of the root directory: `fs_open` opens the inode of the first entry matching the name, and fails when none does. */
  lemma OpenFinds(fs: Fs, name: seq<byte>, es: seq<Dirent>)
    requires FdsOk(fs.fds) && 0 !in name && Lists(fs.disk, fs.root, es) && HasFree(fs.fds)
    ensures Open(fs, Some(name)).ret == -1 <==> forall k :: 0 <= k < |es| ==> !Matches(es[k], name)
    ensures forall k: nat :: FirstMatch(es, name, k) ==>
      var r := Open(fs, Some(name)); r.fs.fds[r.ret - FS_FD_BASE] == Fd(true, es[k].inum, 0)
  {
    DirLookupFinds(fs.disk, fs.root, es, name);
  }

  // ---------------------------------------------------------------- fs_read

  /** A descriptor's offset moved on by `k` bytes, wrapping like the `uint32_t` field. */
  function Advance(offset: nat, k: nat): (r: nat)
    ensures r < U32
    ensures offset + k < U32 ==> r == offset + k
  {
    (offset + k) % U32
  }

  /**
   * `fs_read`: up to `n` bytes of the descriptor's file from its offset,
   * which then advances by the count returned. `data` is what reached the
   * buffer: the bytes read, or on a failed block read the chunks copied
   * before it.
   */
  function Read(fs: Fs, fd: int, buf: bool, n: int): (r: ReadCall)
    requires FdsOk(fs.fds) && n < 0x8000_0000
    ensures r.fs.disk == fs.disk && r.fs.root == fs.root && FdsOk(r.fs.fds)
    ensures !(IsOpen(fs.fds, fd) && buf && n >= 0) ==> r == ReadCall(fs, -1, [])
    ensures r.ret == -1 ==> r.fs == fs && |r.data| <= Max(n, 0)
    ensures r.ret != -1 ==> 0 <= r.ret == |r.data| <= n
    ensures r.ret != -1 ==>
      var i := fd - FS_FD_BASE;
      r.fs.fds == fs.fds[i := fs.fds[i].(offset := Advance(fs.fds[i].offset, r.ret))]
  {
    if !InRange(fd) || !buf || n < 0 then ReadCall(fs, -1, [])
    else
      var i := fd - FS_FD_BASE;
      var d := fs.fds[i];
      if !d.used then ReadCall(fs, -1, [])
      else match InodeRead(fs.disk, d.inum, d.offset, n)
        case None => ReadCall(fs, -1, InodeCopied(fs.disk, d.inum, d.offset, n))
        case Some(bs) =>
          var fds := if |bs| > 0 then fs.fds[i := d.(offset := Advance(d.offset, |bs|))] else fs.fds;
          ReadCall(fs.(fds := fds), |bs|, bs)
  }

  /**
   * `inode_read` returns the file's own bytes from `off`, never past the end
   * of the file; when none of those bytes is missing it returns all of them
   * up to `n`.
   */
  lemma InodeReadIsFile(disk: Disk, inum: nat, din: Dinode, off: nat, n: nat)
    requires ReadDinode(disk, inum) == Some(din) && off + n < U32
    ensures var r := InodeRead(disk, inum, off, n);
      (r.Some? ==> BytesAt(disk, din, off, r.value) && off + |r.value| <= Max(din.size, off))
      && (Readable(disk, din, off, Min(off + n, din.size)) ==>
            r.Some? && |r.value| == if off >= din.size then 0 else Min(n, din.size - off))
  {
    InodeReadBytes(disk, inum, din, off, n);
    if Readable(disk, din, off, Min(off + n, din.size)) {
      InodeReadFull(disk, inum, din, off, n);
    }
  }

  lemma InodeReadBytes(disk: Disk, inum: nat, din: Dinode, off: nat, n: nat)
    requires ReadDinode(disk, inum) == Some(din) && off + n < U32
    ensures var r := InodeRead(disk, inum, off, n);
      r.Some? ==> BytesAt(disk, din, off, r.value) && off + |r.value| <= Max(din.size, off)
  {
    if off < din.size {
      var n' := Min(n, din.size - off);
      InodeReadClamped(disk, inum, din, off, n);
      ReadFromStart(disk, din, off, n');
    }
  }

  /** What `inode_read` has written, also before a failure, is the file's own bytes from `off`, never past its end. */
  lemma InodeCopiedBytes(disk: Disk, inum: nat, din: Dinode, off: nat, n: nat)
    requires ReadDinode(disk, inum) == Some(din) && off + n < U32
    ensures var c := InodeCopied(disk, inum, off, n);
      BytesAt(disk, din, off, c) && off + |c| <= Max(din.size, off)
  {
    if off < din.size {
      var n' := Min(n, din.size - off);
      InodeCopiedClamped(disk, inum, din, off, n);
      CopiedFromStart(disk, din, off, n');
    }
  }

  /** Inside the file, what `inode_read` writes is the copy loop's over the count clamped to the end of the file. */
  lemma InodeCopiedClamped(disk: Disk, inum: nat, din: Dinode, off: nat, n: nat)
    requires ReadDinode(disk, inum) == Some(din) && off < din.size && off + n < U32
    ensures InodeCopied(disk, inum, off, n) == CopiedFrom(disk, din, off, Min(n, din.size - off), 0)
  {
    var m := Clamped(off, n, din.size);
    assert m == Min(n, din.size - off);
    assert InodeCopied(disk, inum, off, n) == CopiedFrom(disk, din, off, m, 0);
  }

  /** What the copy loop writes from its start is the file's own bytes from `off`, at most `n` of them. */
  lemma CopiedFromStart(disk: Disk, din: Dinode, off: nat, n: nat)
    requires Fits(din) && off + n < U32
    ensures var c := CopiedFrom(disk, din, off, n, 0); BytesAt(disk, din, off, c) && |c| <= n
  {
    CopiedFromBytes(disk, din, off, n, 0);
    assert off + 0 == off;
  }

  /** The copy loop from its start returns the file's own bytes from `off`, at most `n` of them. */
  lemma ReadFromStart(disk: Disk, din: Dinode, off: nat, n: nat)
    requires Fits(din) && off + n < U32
    ensures var r := ReadFrom(disk, din, off, n, 0); r.Some? ==> BytesAt(disk, din, off, r.value) && |r.value| <= n
  {
    ReadFromBytes(disk, din, off, n, 0);
    assert off + 0 == off;
  }

  lemma InodeReadFull(disk: Disk, inum: nat, din: Dinode, off: nat, n: nat)
    requires ReadDinode(disk, inum) == Some(din) && off + n < U32
    requires Readable(disk, din, off, Min(off + n, din.size))
    ensures var r := InodeRead(disk, inum, off, n);
      r.Some? && |r.value| == if off >= din.size then 0 else Min(n, din.size - off)
  {
    if off < din.size {
      var n' := Min(n, din.size - off);
      InodeReadClamped(disk, inum, din, off, n);
      assert off + n' == Min(off + n, din.size);
      ReadFromFull(disk, din, off, n', 0);
    }
  }

  /** Inside the file, `inode_read` is the copy loop over the count clamped to the end of the file. */
  lemma InodeReadClamped(disk: Disk, inum: nat, din: Dinode, off: nat, n: nat)
    requires ReadDinode(disk, inum) == Some(din) && off < din.size && off + n < U32
    ensures InodeRead(disk, inum, off, n) == ReadFrom(disk, din, off, Min(n, din.size - off), 0)
  {
  }

  /**
   * What `fs_read` puts in the buffer through an open descriptor, whether it
   * succeeds or fails part way, is the file's own bytes from the
   * descriptor's offset, never past the end of the file; it returns all of
   * them up to `n` when none is missing; an invalid inode is refused.
   */
  lemma ReadGivesFile(fs: Fs, fd: int, n: int)
    requires FdsOk(fs.fds) && IsOpen(fs.fds, fd) && 0 <= n < 0x8000_0000
    requires fs.fds[fd - FS_FD_BASE].offset + n < U32
    ensures var d := fs.fds[fd - FS_FD_BASE]; var r := Read(fs, fd, true, n);
      (!ValidInum(d.inum) ==> r.ret == -1)
      && (ValidInum(d.inum) ==>
            var din := ReadDinode(fs.disk, d.inum).value;
            BytesAt(fs.disk, din, d.offset, r.data)
            && (r.ret != -1 ==> d.offset + r.ret <= Max(din.size, d.offset))
            && (Readable(fs.disk, din, d.offset, Min(d.offset + n, din.size)) ==>
                  r.ret == if d.offset >= din.size then 0 else Min(n, din.size - d.offset)))
  {
    var d := fs.fds[fd - FS_FD_BASE];
    if ValidInum(d.inum) {
      InodeReadIsFile(fs.disk, d.inum, ReadDinode(fs.disk, d.inum).value, d.offset, n);
      InodeCopiedBytes(fs.disk, d.inum, ReadDinode(fs.disk, d.inum).value, d.offset, n);
    }
  }

  // --------------------------------------------------------------- fs_write

  /**
   * What a write of `src` at `off` into inode `inum` did to the disk: what
   * `inode_write` promises, with `ok` for a completed write. No other inode
   * changes; a failed write keeps the inode; a completed one keeps the map
   * sound, leaves every byte the file had outside `[off, off + |src|)`
   * alone, reads back `src` at `off` and grows the size to cover it.
   */
  ghost predicate Wrote(disk: Disk, disk': Disk, inum: nat, off: nat, src: seq<byte>, ok: bool)
    requires ValidInum(inum)
  {
    WriteOutcome(disk, inum, off, src, WriteResult(disk', if ok then Some(|src|) else None))
  }

  /**
   * `fs_write`: the first `n` bytes of the caller's buffer written at the
   * descriptor's offset, which then advances by `n`. A refused call changes
   * nothing; an invalid inode is refused; a failed write may leave part of
   * the data on disk but keeps the offset.
   */
  method Write(fs: Fs, fd: int, buf: Option<seq<byte>>, n: int) returns (r: Call)
    requires FdsOk(fs.fds) && n < 0x8000_0000
    requires buf.Some? && n >= 0 ==> n <= |buf.value|
    ensures r.fs.root == fs.root && FdsOk(r.fs.fds)
    ensures !(IsOpen(fs.fds, fd) && buf.Some? && n >= 0) ==> r == Call(fs, -1)
    ensures r.ret == -1 ==> r.fs.fds == fs.fds
    ensures r.ret != -1 ==>
      r.ret == n && var i := fd - FS_FD_BASE; r.fs.fds == fs.fds[i := fs.fds[i].(offset := Advance(fs.fds[i].offset, n))]
    ensures IsOpen(fs.fds, fd) && buf.Some? && n >= 0 ==>
      var d := fs.fds[fd - FS_FD_BASE];
      (!ValidInum(d.inum) ==> r == Call(fs, -1))
      && (ValidInum(d.inum) && d.offset + n < U32 && Sound(fs.disk, ReadDinode(fs.disk, d.inum).value) ==>
            Wrote(fs.disk, r.fs.disk, d.inum, d.offset, buf.value[..n], r.ret != -1))
  {
    if !InRange(fd) || buf.None? || n < 0 {
      return Call(fs, -1);
    }
    var i := fd - FS_FD_BASE;
    var d := fs.fds[i];
    if !d.used {
      return Call(fs, -1);
    }
    var src := buf.value[..n];
    var w := InodeWrite(fs.disk, d.inum, d.offset, src);
    if w.count.None? {
      return Call(fs.(disk := w.disk), -1);
    }
    var fds := if n > 0 then fs.fds[i := d.(offset := Advance(d.offset, n))] else fs.fds;
    r := Call(Fs(w.disk, fs.root, fds), n);
  }

  // --------------------------------------------------------------- fs_trunc

  /**
   * `fs_trunc`: the named file's size set to 0; its block pointers stay, so
   * later writes reuse its blocks.
   */
  function Trunc(fs: Fs, name: Option<seq<byte>>): (r: Call)
    requires name.Some? ==> 0 !in name.value
    ensures r.fs.root == fs.root && r.fs.fds == fs.fds
    ensures r.ret == 0 || r == Call(fs, -1)
    ensures r.ret == 0 <==> name.Some? && DirLookup(fs.disk, fs.root, name.value).Some? && ValidInum(DirLookup(fs.disk, fs.root, name.value).value)
  {
    if name.None? then Call(fs, -1)
    else match DirLookup(fs.disk, fs.root, name.value)
      case None => Call(fs, -1)
      case Some(inum) =>
        match ReadDinode(fs.disk, inum)
        case None => Call(fs, -1)
        case Some(din) => Call(fs.(disk := WriteDinode(fs.disk, inum, din.(size := 0)).value), 0)
  }

  /**
   * After `fs_trunc` the file is empty — every read of it returns no bytes —
   * while it keeps its kind, links and blocks, and every other inode is as
   * it was.
   */
  lemma TruncEmpties(fs: Fs, name: seq<byte>)
    requires 0 !in name && Trunc(fs, Some(name)).ret == 0
    ensures var inum := DirLookup(fs.disk, fs.root, name).value; var d := Trunc(fs, Some(name)).fs.disk;
      ReadDinode(d, inum) == Some(ReadDinode(fs.disk, inum).value.(size := 0))
      && (forall j :: j != inum ==> ReadDinode(d, j) == ReadDinode(fs.disk, j))
      && forall off: nat, n: nat :: off < U32 && n < U32 ==> InodeRead(d, inum, off, n) == Some([])
  {
    var inum := DirLookup(fs.disk, fs.root, name).value;
    var din := ReadDinode(fs.disk, inum).value;
    forall j ensures ReadDinode(Trunc(fs, Some(name)).fs.disk, j) == if j == inum then Some(din.(size := 0)) else ReadDinode(fs.disk, j) {
      ReadAfterWrite(fs.disk, inum, din.(size := 0), j);
    }
  }

  // ----------------------------------------------------------- fs_list_root

  /**
   * `fs_list_root`: the live entries of the root directory, at most `max` of
   * them. `ents` is what reached the caller's array: on -1 after a failed
   * read, the entries copied before it.
   */
  function ListRootCall(fs: Fs, ents: bool, max: int): (r: ListCall)
    ensures !ents || max <= 0 || !ValidInum(fs.root) ==> r == ListCall(-1, [])
    ensures |r.ents| <= Max(max, 0) && forall k :: 0 <= k < |r.ents| ==> Live(r.ents[k]) && Whole(r.ents[k])
    ensures r.ret != -1 ==> r.ret == |r.ents|
  {
    if !ents then ListCall(-1, [])
    else match ListRoot(fs.disk, fs.root, max)
      case None => ListCall(-1, Stored(fs.disk, fs.root, max))
      case Some(es) => ListCall(|es|, es)
  }

  /**
   * Whether `fs_list_root` succeeds or stops at a failed read, what it has
   * stored in `ents` is the first `max` live entries of the root directory
   * among those it could read, in order.
   */
  lemma ListRootCallStores(fs: Fs, max: int)
    requires max > 0 && ValidInum(fs.root)
    ensures ListRootCall(fs, true, max).ents == Take(LiveOf(ReadableFrom(Directory(fs.disk, fs.root).value, 0)), max)
  {
    StoredListsRoot(fs.disk, fs.root, max);
  }

  /** Through a listing of the root directory: `fs_list_root` copies out its first `max` live entries, in order, and returns their number. */
  lemma ListRootCallLists(fs: Fs, es: seq<Dirent>, max: int)
    requires Lists(fs.disk, fs.root, es) && max > 0
    ensures ListRootCall(fs, true, max) == ListCall(|Take(LiveOf(es), max)|, Take(LiveOf(es), max))
  {
    ListRootLists(fs.disk, fs.root, es, max);
  }

  // -------------------------------------------------------------- fs_create

  /** The root directory as `fs_create` needs it: appendable, and an inode in use, so that `ialloc` cannot hand it out. */
  ghost predicate RootOk(disk: Disk, root: nat) {
    Appendable(disk, root) && ReadDinode(disk, root).value.kind != 0
  }

  /** A name the root directory did not have is found, after its entry is appended, as the new inode. */
  lemma CreatedFound(disk: Disk, disk': Disk, root: nat, es: seq<Dirent>, name: seq<byte>, inum: nat)
    requires 0 !in name && |name| < FS_NAME_MAX && 0 < inum < U32
    requires DirLookup(disk, root, name).None? && Lists(disk, root, es)
    requires Lists(disk', root, es + [NewEntry(name, inum)])
    ensures DirLookup(disk', root, name) == Some(inum)
  {
    DirLookupFinds(disk, root, es, name);
    AddedFound(disk', root, es, name, inum);
  }

  /**
   * What `fs_create` does to the disk once the name is new and `ialloc`
   * found inode `inum`: the inode is taken as a fresh file whatever the
   * outcome, no inode other than it and the root changes, a root already as
   * large as a file can be makes the call fail, and on success every
   * listing of the root gains the new entry, by which the name (when it
   * fits the name array) now finds the new inode.
   */
  ghost predicate CreatedFile(fs: Fs, name: seq<byte>, inum: nat, r: Call)
    requires 0 !in name && ValidInum(fs.root)
  {
    ReadDinode(r.fs.disk, inum) == Some(Fresh(1))
    && (forall j :: j != inum && j != fs.root ==> ReadDinode(r.fs.disk, j) == ReadDinode(fs.disk, j))
    && (MAX_FBLK * BSIZE < ReadDinode(fs.disk, fs.root).value.size + DIRENT_SIZE ==> r.ret == -1)
    && (r.ret != -1 ==> forall es :: Lists(fs.disk, fs.root, es) ==>
          Lists(r.fs.disk, fs.root, es + [NewEntry(name, inum)])
          && (|name| < FS_NAME_MAX ==> DirLookup(r.fs.disk, fs.root, name) == Some(inum)))
  }

  /** The steps of `fs_create` after `ialloc`, chained: `dir_add` on the disk `ialloc` left, then the descriptor. */
  lemma CreateAdded(fs: Fs, name: seq<byte>, a: NewInode, add: Updated, r: Call)
    requires 0 !in name && RootOk(fs.disk, fs.root) && DirLookup(fs.disk, fs.root, name).None? && Ialloc(fs.disk, 1) == Some(a)
    requires Appendable(a.disk, fs.root) ==> AddOutcome(a.disk, fs.root, name, a.inum, add)
    requires ValidInum(fs.root) && MAX_FBLK * BSIZE < ReadDinode(a.disk, fs.root).value.size + DIRENT_SIZE < U32 ==> !add.ok
    requires r.fs.disk == add.disk && (r.ret != -1 ==> add.ok) && (!add.ok ==> r.ret == -1)
    ensures CreatedFile(fs, name, a.inum, r)
  {
    IallocLowest(fs.disk, 1);
    IallocWrites(fs.disk, 1);
    IallocKeepsDirectory(fs.disk, 1, fs.root);
    assert Appendable(a.disk, fs.root);
    if r.ret != -1 && |name| < FS_NAME_MAX {
      forall es | Lists(fs.disk, fs.root, es) ensures DirLookup(r.fs.disk, fs.root, name) == Some(a.inum) {
        CreatedFound(fs.disk, r.fs.disk, fs.root, es, name, a.inum);
      }
    }
  }

  /**
   * `fs_create`, as written: a name the root directory lacks gets the lowest
   * free inode as a new file, an entry at the end of the directory and a
   * descriptor. When appending the entry fails, it returns -1 with the new
   * inode still taken: nothing gives it back.
   */
  method Create(fs: Fs, name: Option<seq<byte>>) returns (r: Call)
    requires FdsOk(fs.fds) && (name.Some? ==> 0 !in name.value)
    ensures r.fs.root == fs.root && FdsOk(r.fs.fds)
    ensures name.None? || DirLookup(fs.disk, fs.root, name.value).Some? || Ialloc(fs.disk, 1).None? ==> r == Call(fs, -1)
    ensures r.ret == -1 ==> r.fs.fds == fs.fds
    ensures r.ret != -1 ==> name.Some? && Ialloc(fs.disk, 1).Some? && Opened(fs.fds, r.fs.fds, r.ret, Ialloc(fs.disk, 1).value.inum)
    ensures name.Some? && DirLookup(fs.disk, fs.root, name.value).None? && Ialloc(fs.disk, 1).Some? && RootOk(fs.disk, fs.root) ==>
      CreatedFile(fs, name.value, Ialloc(fs.disk, 1).value.inum, r)
  {
    if name.None? || DirLookup(fs.disk, fs.root, name.value).Some? {
      return Call(fs, -1);
    }
    var na := Ialloc(fs.disk, 1);
    if na.None? {
      return Call(fs, -1);
    }
    var a := na.value;
    var add := DirAdd(a.disk, fs.root, name.value, a.inum);
    if !add.ok {
      r := Call(fs.(disk := add.disk), -1);
    } else {
      var fa := AllocFd(fs.fds, a.inum);
      AllocFdLowest(fs.fds, a.inum);
      r := Call(Fs(add.disk, fs.root, fa.fds), fa.fd);
    }
    if RootOk(fs.disk, fs.root) {
      CreateAdded(fs, name.value, a, add, r);
    }
  }

  /**
   * `fs_create` with the inode given back when the entry cannot be added:
   * the inode is written back as it was before `ialloc` took it.
   */
  method CreateReleasing(fs: Fs, name: Option<seq<byte>>) returns (r: Call)
    requires FdsOk(fs.fds) && (name.Some? ==> 0 !in name.value)
    ensures r.fs.root == fs.root && FdsOk(r.fs.fds)
    ensures name.None? || DirLookup(fs.disk, fs.root, name.value).Some? || Ialloc(fs.disk, 1).None? ==> r == Call(fs, -1)
    ensures r.ret == -1 ==> r.fs.fds == fs.fds
    ensures r.ret != -1 ==> name.Some? && Ialloc(fs.disk, 1).Some? && Opened(fs.fds, r.fs.fds, r.ret, Ialloc(fs.disk, 1).value.inum)
    ensures RootOk(fs.disk, fs.root) && HasFree(fs.fds) && r.ret == -1 ==>
      forall j :: ReadDinode(r.fs.disk, j) == ReadDinode(fs.disk, j)
  {
    if name.None? || DirLookup(fs.disk, fs.root, name.value).Some? {
      return Call(fs, -1);
    }
    var na := Ialloc(fs.disk, 1);
    if na.None? {
      return Call(fs, -1);
    }
    var a := na.value;
    var add := DirAdd(a.disk, fs.root, name.value, a.inum);
    if !add.ok {
      var was := ReadDinode(fs.disk, a.inum).value;
      var back := WriteDinode(add.disk, a.inum, was).value;
      if RootOk(fs.disk, fs.root) {
        GivenBack(fs.disk, fs.root, name.value, a, add, back);
      }
      return Call(fs.(disk := back), -1);
    }
    var fa := AllocFd(fs.fds, a.inum);
    AllocFdLowest(fs.fds, a.inum);
    r := Call(Fs(add.disk, fs.root, fa.fds), fa.fd);
  }

  /** Writing the taken inode back as it was, after a failed `dir_add`, leaves every inode as before `ialloc`. */
  lemma GivenBack(disk: Disk, root: nat, name: seq<byte>, a: NewInode, add: Updated, back: Disk)
    requires 0 !in name && RootOk(disk, root) && Ialloc(disk, 1) == Some(a) && !add.ok
    requires Appendable(a.disk, root) ==> AddOutcome(a.disk, root, name, a.inum, add)
    requires back == WriteDinode(add.disk, a.inum, ReadDinode(disk, a.inum).value).value
    ensures forall j :: ReadDinode(back, j) == ReadDinode(disk, j)
  {
    IallocLowest(disk, 1);
    IallocWrites(disk, 1);
    IallocKeepsDirectory(disk, 1, root);
    var was := ReadDinode(disk, a.inum).value;
    forall j ensures ReadDinode(back, j) == ReadDinode(disk, j) {
      ReadAfterWrite(add.disk, a.inum, was, j);
    }
  }

  // -------------------------------------------------------------- fs_unlink

  /** `b_free` as `fs_unlink` calls it, skipping block 0 and ignoring the result: a refused block leaves the disk as it was. */
  function FreeBlock(disk: Disk, b: nat): (d: Disk)
    ensures d == disk[BITMAP_BLOCK := d[BITMAP_BLOCK]]
  {
    if b == 0 then disk
    else match BFree(disk, b)
      case None => disk
      case Some(d) => d
  }

  /** The blocks of `bs` freed in turn. */
  function FreeEach(disk: Disk, bs: seq<nat>): (d: Disk)
    ensures d == disk[BITMAP_BLOCK := d[BITMAP_BLOCK]]
    decreases |bs|
  {
    if |bs| == 0 then disk else FreeEach(FreeBlock(disk, bs[0]), bs[1..])
  }

  /** Freeing the blocks of `bs` in turn clears the bits of exactly those data blocks. */
  lemma {:induction false} FreeEachClears(disk: Disk, bs: seq<nat>, c: nat)
    requires IsDataBlock(c)
    ensures Allocated(FreeEach(disk, bs)[BITMAP_BLOCK], c) <==> Allocated(disk[BITMAP_BLOCK], c) && c !in bs
    decreases |bs|
  {
    if |bs| > 0 {
      var d := FreeBlock(disk, bs[0]);
      FreeEachClears(d, bs[1..], c);
      if IsDataBlock(bs[0]) && c != bs[0] {
        BFreeOthers(disk, bs[0], c);
      }
      assert bs == [bs[0]] + bs[1..];
    }
  }

  /** The 32-bit block numbers an indirect block holds. */
  function Entries(blk: Block): (ws: seq<nat>)
    ensures |ws| == NINDIRECT && forall i :: 0 <= i < NINDIRECT ==> ws[i] == WordAt(blk, i)
  {
    seq(NINDIRECT, i requires 0 <= i < NINDIRECT => WordAt(blk, i))
  }

  /**
   * What `fs_unlink` frees after the direct blocks: when there is an
   * indirect block, the blocks it lists (when it is on the disk; the block
   * is read after the direct blocks were freed), then the indirect block
   * itself.
   */
  function IndirectFreed(d: Disk, din: Dinode): (bs: seq<nat>)
    ensures |bs| == 0 <==> din.indirect == 0
    ensures din.indirect != 0 ==> bs[|bs| - 1] == din.indirect
  {
    if din.indirect == 0 then []
    else (if din.indirect < N_BLOCKS then Entries(d[din.indirect]) else []) + [din.indirect]
  }

  /** Every block number `fs_unlink` hands to `b_free`, in order. */
  function Released(disk: Disk, din: Dinode): (bs: seq<nat>)
    requires Fits(din)
  {
    din.addrs + IndirectFreed(FreeEach(disk, din.addrs), din)
  }

  /** The freeing loops of `fs_unlink`. */
  function Release(disk: Disk, din: Dinode): (d: Disk)
    requires Fits(din)
    ensures d == disk[BITMAP_BLOCK := d[BITMAP_BLOCK]]
  {
    var d1 := FreeEach(disk, din.addrs);
    FreeEach(d1, IndirectFreed(d1, din))
  }

  /**
   * The freeing loops of `fs_unlink` change only the bitmap, and clear in it
   * the bits of exactly the data blocks they were handed.
   */
  lemma ReleaseClears(disk: Disk, din: Dinode)
    requires Fits(din)
    ensures Release(disk, din) == disk[BITMAP_BLOCK := Release(disk, din)[BITMAP_BLOCK]]
    ensures forall c :: IsDataBlock(c) ==>
      (Allocated(Release(disk, din)[BITMAP_BLOCK], c) <==> Allocated(disk[BITMAP_BLOCK], c) && c !in Released(disk, din))
  {
    var d1 := FreeEach(disk, din.addrs);
    forall c | IsDataBlock(c)
      ensures Allocated(Release(disk, din)[BITMAP_BLOCK], c) <==> Allocated(disk[BITMAP_BLOCK], c) && c !in Released(disk, din)
    {
      FreeEachClears(disk, din.addrs, c);
      FreeEachClears(d1, IndirectFreed(d1, din), c);
    }
  }

  /** The inode `fs_unlink` writes back: free, with no links, size or blocks. */
  function FreedDinode(): (d: Dinode)
    ensures Fits(d) && d.kind == 0 && d.nlink == 0 && d.size == 0 && d.indirect == 0
    ensures forall i :: 0 <= i < NDIRECT ==> d.addrs[i] == 0
  {
    Dinode(0, 0, 0, seq(NDIRECT, _ => 0), 0)
  }

  /** The disk after `fs_unlink` freed the inode's blocks and wrote it back free, before its entry is cleared. */
  function Unlinked(disk: Disk, inum: nat): (d: Disk)
    requires ValidInum(inum)
    ensures d == disk[BITMAP_BLOCK := d[BITMAP_BLOCK]][InodeSlot(inum).block := d[InodeSlot(inum).block]]
  {
    WriteDinode(Release(disk, ReadDinode(disk, inum).value), inum, FreedDinode()).value
  }

  /**
   * Before its entry is cleared, an unlinked inode reads back free, no other
   * inode changes, and the bitmap has lost exactly the data blocks the inode
   * held.
   */
  lemma UnlinkedFrees(disk: Disk, inum: nat)
    requires ValidInum(inum)
    ensures var d := Unlinked(disk, inum); var din := ReadDinode(disk, inum).value;
      ReadDinode(d, inum) == Some(FreedDinode())
      && (forall j :: j != inum ==> ReadDinode(d, j) == ReadDinode(disk, j))
      && forall c :: IsDataBlock(c) ==>
           (Allocated(d[BITMAP_BLOCK], c) <==> Allocated(disk[BITMAP_BLOCK], c) && c !in Released(disk, din))
  {
    var din := ReadDinode(disk, inum).value;
    var rel := Release(disk, din);
    ReleaseClears(disk, din);
    forall j ensures ReadDinode(Unlinked(disk, inum), j) == if j == inum then Some(FreedDinode()) else ReadDinode(disk, j) {
      ReadAfterWrite(rel, inum, FreedDinode(), j);
      InodesUnchanged(disk, BITMAP_BLOCK, rel[BITMAP_BLOCK], j);
    }
  }

  /** None of a file's blocks — its mapped blocks and its indirect block — is among `bs`. */
  ghost predicate Untouched(disk: Disk, din: Dinode, bs: seq<nat>)
    requires Fits(din)
  {
    (din.indirect != 0 ==> din.indirect !in bs)
    && forall f :: 0 <= f < MAX_FBLK && Lookup(disk, din, f) != 0 ==> Lookup(disk, din, f) !in bs
  }

  /**
   * Unlinking an inode keeps another sound file — in particular the root
   * directory — sound and byte for byte as it was, as long as none of its
   * blocks was among those released.
   */
  lemma UnlinkKeeps(disk: Disk, inum: nat, rd: Dinode)
    requires ValidInum(inum) && Sound(disk, rd)
    requires Untouched(disk, rd, Released(disk, ReadDinode(disk, inum).value))
    ensures Sound(Unlinked(disk, inum), rd) && KeepsOutside(disk, rd, Unlinked(disk, inum), rd, 0, 0)
  {
    var din := ReadDinode(disk, inum).value;
    var rel := Release(disk, din);
    ReleaseClears(disk, din);
    assert rd.indirect != 0 ==> rel[rd.indirect] == disk[rd.indirect];
    forall f ensures Lookup(rel, rd, f) == Lookup(disk, rd, f) {
    }
    forall p: nat ensures ByteAt(rel, rd, p) == ByteAt(disk, rd, p) {
      var c := Lookup(disk, rd, p / BSIZE);
      if c != 0 && c < N_BLOCKS {
        assert p / BSIZE < MAX_FBLK;
        assert rel[c] == disk[c];
      }
    }
    assert Sound(rel, rd);
    InodeTableKeeps(rel, Unlinked(disk, inum), rd, InodeSlot(inum).block);
  }

  /** The root directory survives unlinking inode `inum`: it is consistent on disk and shares no block with the file. */
  ghost predicate UnlinkSafe(disk: Disk, root: nat, inum: nat)
    requires ValidInum(root) && ValidInum(inum)
  {
    Sound(disk, ReadDinode(disk, root).value)
    && Untouched(disk, ReadDinode(disk, root).value, Released(disk, ReadDinode(disk, inum).value))
  }

  /**
   * What `fs_unlink` does to the disk once the name led to a valid inode
   * other than the root: the inode reads back free whatever the outcome, no
   * other inode but the root changes, a failure leaves the root inode as it
   * was, and on success every listing of the root has its first entry
   * naming the inode cleared.
   */
  ghost predicate UnlinkedFile(fs: Fs, inum: nat, r: Call) {
    ReadDinode(r.fs.disk, inum) == Some(FreedDinode())
    && (forall j :: j != inum && j != fs.root ==> ReadDinode(r.fs.disk, j) == ReadDinode(fs.disk, j))
    && (r.ret == -1 ==> ReadDinode(r.fs.disk, fs.root) == ReadDinode(fs.disk, fs.root))
    && (r.ret == 0 ==> forall es, k: nat :: Lists(fs.disk, fs.root, es) && FirstOf(es, inum, k) ==>
          Lists(r.fs.disk, fs.root, es[k := Cleared(es[k])]))
  }

  /** The steps of `fs_unlink` chained: freeing, writing the inode back, then `dir_remove_inum` on the result. */
  lemma UnlinkDone(fs: Fs, inum: nat, rm: Updated, r: Call)
    requires ValidInum(inum) && ValidInum(fs.root) && inum != fs.root && UnlinkSafe(fs.disk, fs.root, inum)
    requires var d := Unlinked(fs.disk, inum);
      Sound(d, ReadDinode(d, fs.root).value) ==> RemoveOutcome(d, fs.root, inum, rm)
    requires r == Call(fs.(disk := rm.disk), if rm.ok then 0 else -1)
    ensures UnlinkedFile(fs, inum, r)
  {
    var d := Unlinked(fs.disk, inum);
    var rd := ReadDinode(fs.disk, fs.root).value;
    UnlinkedFrees(fs.disk, inum);
    UnlinkKeeps(fs.disk, inum, rd);
    assert ReadDinode(d, fs.root) == Some(rd);
    forall es | Lists(fs.disk, fs.root, es) ensures Lists(d, fs.root, es) {
      ListsKept(fs.disk, d, fs.root, es);
    }
  }

  /**
   * `fs_unlink`: the named file's blocks are freed and its inode written
   * back free; then the first root entry naming the inode is cleared, and
   * the call fails when that does. (`dir_lookup` never yields inode 0, so
   * the source's test for it never fires.)
   */
  method Unlink(fs: Fs, name: Option<seq<byte>>) returns (r: Call)
    requires name.Some? ==> 0 !in name.value
    ensures r.fs.root == fs.root && r.fs.fds == fs.fds
    ensures r.ret == 0 || r.ret == -1
    ensures name.None? || DirLookup(fs.disk, fs.root, name.value).None? ==> r == Call(fs, -1)
    ensures name.Some? && DirLookup(fs.disk, fs.root, name.value).Some? ==>
      var inum := DirLookup(fs.disk, fs.root, name.value).value;
      (!ValidInum(inum) ==> r == Call(fs, -1))
      && (ValidInum(inum) && inum != fs.root && UnlinkSafe(fs.disk, fs.root, inum) ==> UnlinkedFile(fs, inum, r))
  {
    if name.None? {
      return Call(fs, -1);
    }
    var found := DirLookup(fs.disk, fs.root, name.value);
    if found.None? {
      return Call(fs, -1);
    }
    var inum := found.value;
    if ReadDinode(fs.disk, inum).None? {
      return Call(fs, -1);
    }
    var d := Unlinked(fs.disk, inum);
    var rm := DirRemoveInum(d, fs.root, inum);
    r := Call(fs.(disk := rm.disk), if rm.ok then 0 else -1);
    if inum != fs.root && UnlinkSafe(fs.disk, fs.root, inum) {
      UnlinkDone(fs, inum, rm, r);
    }
  }

  /**
   * Once its entry is cleared, a name no other entry matches is no longer
   * found: after `fs_unlink`, `fs_open` of it fails.
   */
  lemma UnlinkedGone(disk: Disk, root: nat, es: seq<Dirent>, k: nat, name: seq<byte>)
    requires 0 !in name && k < |es| && Lists(disk, root, es[k := Cleared(es[k])])
    requires forall i :: 0 <= i < |es| && i != k ==> !Matches(es[i], name)
    ensures DirLookup(disk, root, name).None?
  {
    ClearedIsFree(es[k], name);
    DirLookupFinds(disk, root, es[k := Cleared(es[k])], name);
  }
}

=== FILE: fs_dir.dfy ===
/**
 * The root directory: an array of 20-byte entries stored as the bytes of
 * the root inode. `dir_lookup`, `dir_remove_inum` and `fs_list_root` read
 * it one entry at a time through `inode_read`; `dir_add` appends an entry
 * and `dir_remove_inum` overwrites one, both through `inode_write`.
 *
 * What a directory holds is stated by `Lists(disk, dir, es)`: the inode
 * exists, its size covers exactly `|es|` entries, and reading entry `j`
 * yields `es[j]`. Each loop is related to that sequence of entries.
 */
module FsDir {
  import opened Basics
  import opened Numerals
  import opened FsLayout
  import opened FsDisk
  import opened FsFile
  import opened FsWrite

  /** The 20-byte `inode_read` of the entry at `off`; `None` when it fails or comes back short, which the callers answer with -1. */
  function ReadEntry(disk: Disk, dir: nat, off: nat): (r: Option<Dirent>)
    requires off < U32
    ensures r.Some? ==> Whole(r.value)
  {
    match InodeRead(disk, dir, off, DIRENT_SIZE)
    case None => None
    case Some(bs) => if |bs| == DIRENT_SIZE then Some(DecodeDirent(bs)) else None
  }

  /** Entry `j` of the directory. */
  function EntryAt(disk: Disk, dir: nat, j: int): (r: Option<Dirent>)
    ensures r.Some? ==> 0 <= j && DIRENT_SIZE * j < U32 && Whole(r.value)
  {
    if 0 <= j && DIRENT_SIZE * j < U32 then ReadEntry(disk, dir, DIRENT_SIZE * j) else None
  }

  /** Every entry that was read is whole. */
  predicate Decoded(slots: seq<Option<Dirent>>) {
    forall j :: 0 <= j < |slots| && slots[j].Some? ==> Whole(slots[j].value)
  }

  /**
   * The directory as its loops see it: one slot per whole entry the size
   * covers, each the outcome of reading that entry. The loops' condition
   * `off + sizeof(de) <= din.size` holds exactly for the offsets `20 * j`
   * of these slots.
   */
  function Directory(disk: Disk, dir: nat): (r: Option<seq<Option<Dirent>>>)
    ensures r.Some? <==> ValidInum(dir)
    ensures r.Some? ==> |r.value| == ReadDinode(disk, dir).value.size / DIRENT_SIZE && Decoded(r.value)
  {
    match ReadDinode(disk, dir)
    case None => None
    case Some(din) => Some(seq(din.size / DIRENT_SIZE, j => EntryAt(disk, dir, j)))
  }

  /** Every slot was read, and they hold `es`. */
  predicate Intact(slots: seq<Option<Dirent>>, es: seq<Dirent>) {
    |slots| == |es| && forall j {:trigger slots[j]} :: 0 <= j < |es| ==> slots[j] == Some(es[j])
  }

  /** The directory `dir` holds exactly the entries `es`, in this order, and each of them can be read. */
  ghost predicate Lists(disk: Disk, dir: nat, es: seq<Dirent>) {
    ValidInum(dir) && |es| == ReadDinode(disk, dir).value.size / DIRENT_SIZE
    && forall j {:trigger EntryAt(disk, dir, j)} :: 0 <= j < |es| ==> EntryAt(disk, dir, j) == Some(es[j])
  }

  /** A directory lists `es` exactly when the slots its loops see hold `es`. */
  lemma ListsSlots(disk: Disk, dir: nat, es: seq<Dirent>)
    ensures Lists(disk, dir, es) <==> Directory(disk, dir).Some? && Intact(Directory(disk, dir).value, es)
  {
    if ValidInum(dir) {
      var slots := Directory(disk, dir).value;
      if |es| == |slots| {
        assert forall j :: 0 <= j < |es| ==> slots[j] == EntryAt(disk, dir, j);
      }
    }
  }

  /** An entry in use whose stored name `namecmp` equates with `name`. */
  predicate Matches(e: Dirent, name: seq<byte>) {
    e.inum != 0 && |e.name| == FS_NAME_MAX && SameName(e.name, name)
  }

  /** Entry `k` is the first that matches `name`. */
  predicate FirstMatch(es: seq<Dirent>, name: seq<byte>, k: nat) {
    k < |es| && Matches(es[k], name) && forall i :: 0 <= i < k ==> !Matches(es[i], name)
  }

  /** Entry `k` is the first in use that names inode `target`. */
  predicate FirstOf(es: seq<Dirent>, target: nat, k: nat) {
    k < |es| && target != 0 && es[k].inum == target && forall i :: 0 <= i < k ==> es[i].inum != target
  }

  /** An entry `fs_list_root` reports: in use and with a non-empty name. */
  predicate Live(e: Dirent) {
    e.inum != 0 && |e.name| > 0 && e.name[0] != 0
  }

  /** The entries `fs_list_root` reports, in directory order. */
  function LiveOf(es: seq<Dirent>): (r: seq<Dirent>)
    ensures |r| <= |es|
  {
    if |es| == 0 then []
    else (if Live(es[0]) then [es[0]] else []) + LiveOf(es[1..])
  }

  // ----------------------------------------------------------- dir_lookup

  /** The loop of `dir_lookup` from slot `j`: `None` for a failed read or no match, which are both -1. */
  function LookupIn(slots: seq<Option<Dirent>>, name: seq<byte>, j: nat): (r: Option<nat>)
    requires 0 !in name && Decoded(slots)
    ensures r.Some? ==> 0 < r.value < U32
    decreases |slots| - j
  {
    if j >= |slots| then None
    else match slots[j]
      case None => None
      case Some(de) =>
        if de.inum != 0 && NameCmp(de.name, name) == 0 then Some(de.inum)
        else LookupIn(slots, name, j + 1)
  }

  /** `dir_lookup`: the inode number of the first entry in use whose name compares equal to `name`. */
  function DirLookup(disk: Disk, root: nat, name: seq<byte>): (r: Option<nat>)
    requires 0 !in name
    ensures !ValidInum(root) ==> r.None?
    ensures r.Some? ==> 0 < r.value < U32
  {
    match Directory(disk, root)
    case None => None
    case Some(slots) => LookupIn(slots, name, 0)
  }

  lemma LookupInFinds(slots: seq<Option<Dirent>>, es: seq<Dirent>, name: seq<byte>, j: nat)
    requires 0 !in name && Decoded(slots) && Intact(slots, es) && j <= |es|
    ensures var r := LookupIn(slots, name, j);
      (r.None? <==> forall k :: j <= k < |es| ==> !Matches(es[k], name))
      && (forall k :: j <= k < |es| && Matches(es[k], name) && (forall i :: j <= i < k ==> !Matches(es[i], name)) ==>
            r == Some(es[k].inum))
  {
    LookupInHits(slots, es, name, j);
    forall k | 0 <= k < |es| ensures Hit(es[k], name) <==> Matches(es[k], name) {
      NameCmpZero(es[k].name, name);
    }
  }

  /** The test `dir_lookup` applies to each entry: in use, and `namecmp` answers zero. */
  predicate Hit(e: Dirent, name: seq<byte>)
    requires 0 !in name && |e.name| == FS_NAME_MAX
  {
    e.inum != 0 && NameCmp(e.name, name) == 0
  }

  lemma {:induction false} LookupInHits(slots: seq<Option<Dirent>>, es: seq<Dirent>, name: seq<byte>, j: nat)
    requires 0 !in name && Decoded(slots) && Intact(slots, es) && j <= |es|
    ensures forall k :: 0 <= k < |es| ==> |es[k].name| == FS_NAME_MAX
    ensures var r := LookupIn(slots, name, j);
      (r.None? <==> forall k :: j <= k < |es| ==> !Hit(es[k], name))
      && (forall k :: j <= k < |es| && Hit(es[k], name) && (forall i :: j <= i < k ==> !Hit(es[i], name)) ==>
            r == Some(es[k].inum))
    decreases |es| - j
  {
    assert forall k :: 0 <= k < |es| ==> slots[k] == Some(es[k]);
    if j < |es| {
      LookupInHits(slots, es, name, j + 1);
    }
  }

  /**
   * `dir_lookup` on a listed root directory: it finds the inode of the
   * first matching entry, and fails exactly when no entry matches.
   */
  lemma DirLookupFinds(disk: Disk, root: nat, es: seq<Dirent>, name: seq<byte>)
    requires 0 !in name && Lists(disk, root, es)
    ensures DirLookup(disk, root, name).None? <==> forall k :: 0 <= k < |es| ==> !Matches(es[k], name)
    ensures forall k: nat :: FirstMatch(es, name, k) ==> DirLookup(disk, root, name) == Some(es[k].inum)
  {
    var slots := Directory(disk, root).value;
    ListsSlots(disk, root, es);
    LookupInFinds(slots, es, name, 0);
    assert DirLookup(disk, root, name) == LookupIn(slots, name, 0);
  }

  // -------------------------------------------------------- fs_list_root

  /** The loop of `fs_list_root` from slot `j` with room for `room` more entries. */
  function ListIn(slots: seq<Option<Dirent>>, j: nat, room: nat): (r: Option<seq<Dirent>>)
    requires Decoded(slots)
    ensures r.Some? ==> |r.value| <= room && forall k :: 0 <= k < |r.value| ==> Live(r.value[k]) && Whole(r.value[k])
    decreases |slots| - j
  {
    if j >= |slots| || room == 0 then Some([])
    else match slots[j]
      case None => None
      case Some(de) =>
        var live := de.inum != 0 && de.name[0] != 0;
        match ListIn(slots, j + 1, if live then room - 1 else room)
        case None => None
        case Some(rest) => Some(if live then [de] + rest else rest)
  }

  /**
   * `fs_list_root`: at most `max` entries, each in use and with a non-empty
   * name; `None` is the -1 for a non-positive `max`, a bad root inode or a
   * failed read.
   */
  function ListRoot(disk: Disk, root: nat, max: int): (r: Option<seq<Dirent>>)
    ensures max <= 0 || !ValidInum(root) ==> r.None?
    ensures r.Some? ==> |r.value| <= max && forall k :: 0 <= k < |r.value| ==> Live(r.value[k]) && Whole(r.value[k])
  {
    if max <= 0 then None
    else match Directory(disk, root)
      case None => None
      case Some(slots) => ListIn(slots, 0, max)
  }

  lemma {:induction false} ListInLists(slots: seq<Option<Dirent>>, es: seq<Dirent>, j: nat, room: nat)
    requires Decoded(slots) && Intact(slots, es) && j <= |es|
    ensures ListIn(slots, j, room) == Some(Take(LiveOf(es[j..]), room))
    decreases |es| - j
  {
    if j < |es| && room > 0 {
      var e := es[j];
      assert slots[j] == Some(e);
      assert es[j..] == [e] + es[j + 1..];
      assert LiveOf(es[j..]) == (if Live(e) then [e] else []) + LiveOf(es[j + 1..]);
      ListInLists(slots, es, j + 1, if Live(e) then room - 1 else room);
      var rest := LiveOf(es[j + 1..]);
      var room' := if Live(e) then room - 1 else room;
      assert ListIn(slots, j, room) == if Live(e) then Some([e] + Take(rest, room')) else Some(Take(rest, room'));
      if Live(e) {
        TakeCons(e, rest, room);
      } else {
        assert LiveOf(es[j..]) == rest;
      }
    }
  }

  lemma TakeCons<T>(x: T, s: seq<T>, n: nat)
    requires n > 0
    ensures Take([x] + s, n) == [x] + Take(s, n - 1)
  {
    if n - 1 <= |s| {
      assert ([x] + s)[..n] == [x] + s[..n - 1];
    }
  }

  /** `fs_list_root` on a listed root directory reports the first `max` live entries, in order. */
  lemma ListRootLists(disk: Disk, root: nat, es: seq<Dirent>, max: int)
    requires Lists(disk, root, es) && max > 0
    ensures ListRoot(disk, root, max) == Some(Take(LiveOf(es), max))
  {
    ListsSlots(disk, root, es);
    ListInLists(Directory(disk, root).value, es, 0, max);
  }

  /**
   * What the loop of `fs_list_root` has stored in `ents` from slot `j` on
   * when it stops: the live entries it copied, also those before a read
   * that failed and made it return -1.
   */
  function StoredIn(slots: seq<Option<Dirent>>, j: nat, room: nat): (r: seq<Dirent>)
    requires Decoded(slots)
    ensures |r| <= room && forall k :: 0 <= k < |r| ==> Live(r[k]) && Whole(r[k])
    decreases |slots| - j
  {
    if j >= |slots| || room == 0 then []
    else match slots[j]
      case None => []
      case Some(de) =>
        var live := de.inum != 0 && de.name[0] != 0;
        var rest := StoredIn(slots, j + 1, if live then room - 1 else room);
        if live then [de] + rest else rest
  }

  /** The entries read from slot `j` on, up to the first read that failed. */
  function ReadableFrom(slots: seq<Option<Dirent>>, j: nat): (es: seq<Dirent>)
    ensures es != [] ==> j + |es| <= |slots| && forall k :: 0 <= k < |es| ==> slots[j + k] == Some(es[k])
    ensures j + |es| < |slots| ==> slots[j + |es|].None?
    decreases |slots| - j
  {
    if j >= |slots| then []
    else match slots[j]
      case None => []
      case Some(de) => [de] + ReadableFrom(slots, j + 1)
  }

  /** When the listing loop succeeds, what it stored is what it reports. */
  lemma {:induction false} StoredIsListed(slots: seq<Option<Dirent>>, j: nat, room: nat)
    requires Decoded(slots)
    ensures ListIn(slots, j, room).Some? ==> StoredIn(slots, j, room) == ListIn(slots, j, room).value
    decreases |slots| - j
  {
    if j < |slots| && room > 0 && slots[j].Some? {
      var de := slots[j].value;
      StoredIsListed(slots, j + 1, if Live(de) then room - 1 else room);
    }
  }

  /**
   * Whether it succeeds or stops at a failed read, the listing loop stores
   * the first `room` live entries among those it could read, in order.
   */
  lemma {:induction false} StoredTakes(slots: seq<Option<Dirent>>, j: nat, room: nat)
    requires Decoded(slots)
    ensures StoredIn(slots, j, room) == Take(LiveOf(ReadableFrom(slots, j)), room)
    decreases |slots| - j
  {
    if j < |slots| && slots[j].Some? {
      var e := slots[j].value;
      var rest := ReadableFrom(slots, j + 1);
      assert ReadableFrom(slots, j) == [e] + rest;
      assert ([e] + rest)[1..] == rest;
      assert LiveOf([e] + rest) == (if Live(e) then [e] else []) + LiveOf(rest);
      if room > 0 {
        var room' := if Live(e) then room - 1 else room;
        StoredTakes(slots, j + 1, room');
        if Live(e) {
          TakeCons(e, LiveOf(rest), room);
        }
      }
    }
  }

  /** The entries `fs_list_root` has stored in `ents` when it returns, -1 included. */
  function Stored(disk: Disk, root: nat, max: int): (r: seq<Dirent>)
    ensures |r| <= Max(max, 0) && forall k :: 0 <= k < |r| ==> Live(r[k]) && Whole(r[k])
    ensures max <= 0 || !ValidInum(root) ==> r == []
  {
    if max <= 0 then []
    else match Directory(disk, root)
      case None => []
      case Some(slots) => StoredIn(slots, 0, max)
  }

  /**
   * `fs_list_root` stores in `ents` the first `max` live entries of the
   * root directory among those read before any failure, and when it
   * succeeds it reports exactly those.
   */
  lemma StoredListsRoot(disk: Disk, root: nat, max: int)
    requires max > 0 && ValidInum(root)
    ensures Stored(disk, root, max) == Take(LiveOf(ReadableFrom(Directory(disk, root).value, 0)), max)
    ensures ListRoot(disk, root, max).Some? ==> Stored(disk, root, max) == ListRoot(disk, root, max).value
  {
    var slots := Directory(disk, root).value;
    StoredTakes(slots, 0, max);
    StoredIsListed(slots, 0, max);
  }

  // ------------------------------------------------------ dir_remove_inum

  /** The search loop of `dir_remove_inum` from slot `j`: the first entry in use naming `target`. */
  function FindIn(slots: seq<Option<Dirent>>, target: nat, j: nat): (r: Option<nat>)
    ensures r.Some? ==> r.value < |slots| && slots[r.value].Some? && slots[r.value].value.inum == target && target != 0
    decreases |slots| - j
  {
    if j >= |slots| then None
    else match slots[j]
      case None => None
      case Some(de) =>
        if de.inum == target && de.inum != 0 then Some(j)
        else FindIn(slots, target, j + 1)
  }

  lemma {:induction false} FindInFinds(slots: seq<Option<Dirent>>, es: seq<Dirent>, target: nat, j: nat)
    requires Intact(slots, es) && j <= |es|
    ensures var r := FindIn(slots, target, j);
      ((target == 0 || forall k :: j <= k < |es| ==> es[k].inum != target) ==> r.None?)
      && (forall k :: j <= k < |es| && target != 0 && es[k].inum == target && (forall i :: j <= i < k ==> es[i].inum != target) ==>
            r == Some(k))
    decreases |es| - j
  {
    if j < |es| {
      assert slots[j] == Some(es[j]);
      FindInFinds(slots, es, target, j + 1);
    }
  }

  /** The first index holding `target`, when some index does. */
  lemma FirstIndex(es: seq<Dirent>, target: nat) returns (k: nat)
    requires exists k :: 0 <= k < |es| && es[k].inum == target
    ensures k < |es| && es[k].inum == target && forall i :: 0 <= i < k ==> es[i].inum != target
  {
    k := 0;
    while es[k].inum != target
      invariant k < |es| && forall i :: 0 <= i < k ==> es[i].inum != target
      invariant exists k' :: k <= k' < |es| && es[k'].inum == target
      decreases |es| - k
    {
      k := k + 1;
    }
  }

  /** The search of `dir_remove_inum` on a listed directory finds the first entry naming `target`, and nothing when none does. */
  lemma FindInFindsFirst(slots: seq<Option<Dirent>>, es: seq<Dirent>, target: nat)
    requires Intact(slots, es)
    ensures FindIn(slots, target, 0).None? <==> forall k :: 0 <= k < |es| ==> !FirstOf(es, target, k)
    ensures forall k: nat :: FirstOf(es, target, k) ==> FindIn(slots, target, 0) == Some(k)
  {
    FindInFinds(slots, es, target, 0);
    if target != 0 && exists k :: 0 <= k < |es| && es[k].inum == target {
      var k := FirstIndex(es, target);
      assert FirstOf(es, target, k);
    }
  }

  // --------------------------------------------- writing an entry in place

  /** Entry `j` of a file was read whole by the copy loop of `inode_read`, and decoded from what it returned. */
  lemma EntryIsRead(disk: Disk, dir: nat, din: Dinode, j: nat, e: Dirent)
    requires ReadDinode(disk, dir) == Some(din) && DIRENT_SIZE * j + DIRENT_SIZE <= din.size
    requires EntryAt(disk, dir, j) == Some(e)
    ensures var r := ReadFrom(disk, din, DIRENT_SIZE * j, DIRENT_SIZE, 0);
      r.Some? && |r.value| == DIRENT_SIZE && e == DecodeDirent(r.value)
  {
    DivModUnique(DIRENT_SIZE * j + DIRENT_SIZE, U32, 0, DIRENT_SIZE * j + DIRENT_SIZE);
  }

  /** Reading an entry of a file means the file holds that entry's encoding at its offset. */
  lemma EntryBytes(disk: Disk, dir: nat, din: Dinode, j: nat, e: Dirent)
    requires ReadDinode(disk, dir) == Some(din) && DIRENT_SIZE * j + DIRENT_SIZE <= din.size
    requires EntryAt(disk, dir, j) == Some(e)
    ensures BytesAt(disk, din, DIRENT_SIZE * j, EncodeDirent(e))
  {
    EntryIsRead(disk, dir, din, j, e);
    ChunkRead(disk, din, DIRENT_SIZE * j, ReadFrom(disk, din, DIRENT_SIZE * j, DIRENT_SIZE, 0).value, e);
  }

  /** Twenty bytes the copy loop returned, decoded as `e`, are `e`'s encoding sitting in the file. */
  lemma ChunkRead(disk: Disk, din: Dinode, off: nat, bs: seq<byte>, e: Dirent)
    requires Fits(din) && off + DIRENT_SIZE < U32
    requires ReadFrom(disk, din, off, DIRENT_SIZE, 0) == Some(bs) && |bs| == DIRENT_SIZE && e == DecodeDirent(bs)
    ensures BytesAt(disk, din, off, EncodeDirent(e))
  {
    ReadFromBytes(disk, din, off, DIRENT_SIZE, 0);
    assert BytesAt(disk, din, off + 0, bs);
    ReadEncoding(bs, e);
    BytesAtSame(disk, din, off + 0, bs, off, EncodeDirent(e));
  }

  /** The bytes an entry was decoded from are its encoding. */
  lemma ReadEncoding(bs: seq<byte>, e: Dirent)
    requires |bs| == DIRENT_SIZE && e == DecodeDirent(bs)
    ensures EncodeDirent(e) == bs
  {
    DirentRoundTrip(e, bs);
  }

  lemma BytesAtSame(disk: Disk, din: Dinode, lo: nat, s: seq<byte>, lo': nat, s': seq<byte>)
    requires Fits(din) && BytesAt(disk, din, lo, s) && lo == lo' && s == s'
    ensures BytesAt(disk, din, lo', s')
  {
  }

  /** A file holding an entry's encoding at entry `j`, inside its size, reads back that entry there. */
  lemma EntryReadBack(disk: Disk, dir: nat, din: Dinode, j: nat, e: Dirent)
    requires ReadDinode(disk, dir) == Some(din) && DIRENT_SIZE * j + DIRENT_SIZE <= din.size
    requires Whole(e) && BytesAt(disk, din, DIRENT_SIZE * j, EncodeDirent(e))
    ensures EntryAt(disk, dir, j) == Some(e)
  {
    var off := DIRENT_SIZE * j;
    var bs := EncodeDirent(e);
    assert SrcAt(disk, din, off, bs, 0, |bs|) by {
      forall p: nat | off + 0 <= p < off + |bs| ensures ByteAt(disk, din, p) == Some(bs[p - off]) {
      }
    }
    InodeReadBack(disk, dir, off, bs, din);
    DirentRoundTrip(e, bs);
  }

  /** Bytes a write leaves alone are still there after it. */
  lemma BytesKept(disk: Disk, din: Dinode, disk': Disk, din': Dinode, lo: nat, hi: nat, o: nat, bs: seq<byte>)
    requires Fits(din) && Fits(din') && KeepsOutside(disk, din, disk', din', lo, hi)
    requires BytesAt(disk, din, o, bs) && (o + |bs| <= lo || hi <= o)
    ensures BytesAt(disk', din', o, bs)
  {
    forall p: nat | o <= p < o + |bs| ensures ByteAt(disk', din', p) == Some(bs[p - o]) {
      assert ByteAt(disk, din, p) == Some(bs[p - o]);
    }
  }

  /** An entry outside the written range reads the same after the write, as long as the size still covers it. */
  lemma SlotKept(disk: Disk, disk': Disk, dir: nat, din: Dinode, nd: Dinode, lo: nat, hi: nat, j: nat, x: Dirent)
    requires ReadDinode(disk, dir) == Some(din) && ReadDinode(disk', dir) == Some(nd)
    requires KeepsOutside(disk, din, disk', nd, lo, hi)
    requires EntryAt(disk, dir, j) == Some(x)
    requires DIRENT_SIZE * j + DIRENT_SIZE <= din.size && DIRENT_SIZE * j + DIRENT_SIZE <= nd.size
    requires DIRENT_SIZE * j + DIRENT_SIZE <= lo || hi <= DIRENT_SIZE * j
    ensures EntryAt(disk', dir, j) == Some(x)
  {
    EntryBytes(disk, dir, din, j, x);
    BytesKept(disk, din, disk', nd, lo, hi, DIRENT_SIZE * j, EncodeDirent(x));
    EntryDecoded(disk, dir, j, x);
    EntryReadBack(disk', dir, nd, j, x);
  }

  lemma EntryDecoded(disk: Disk, dir: nat, j: nat, x: Dirent)
    requires EntryAt(disk, dir, j) == Some(x)
    ensures Whole(x)
  {
  }

  /** The entry just written reads back. */
  lemma SlotWritten(disk: Disk, dir: nat, k: nat, e: Dirent)
    requires DIRENT_SIZE * k < U32 && Whole(e)
    requires InodeRead(disk, dir, DIRENT_SIZE * k, DIRENT_SIZE) == Some(EncodeDirent(e))
    ensures EntryAt(disk, dir, k) == Some(e)
  {
    DirentRoundTrip(e, EncodeDirent(e));
  }

  /** The entries of the directory after writing `e` over entry `k`, or just past the last one. */
  function Put(es: seq<Dirent>, k: nat, e: Dirent): (r: seq<Dirent>)
    requires k <= |es|
    ensures |r| == if k < |es| then |es| else |es| + 1
    ensures forall j :: 0 <= j < |r| ==> r[j] == if j == k then e else es[j]
  {
    if k < |es| then es[k := e] else es + [e]
  }

  /** Where entry `k` starts in the directory's bytes. */
  function EntryOffset(k: nat): (off: nat)
    ensures off == DIRENT_SIZE * k
  {
    DIRENT_SIZE * k
  }

  /** Every entry a size of `n` whole entries covers lies inside it. */
  lemma EntryWithin(size: nat, n: nat, j: nat)
    requires n == size / DIRENT_SIZE && j < n
    ensures DIRENT_SIZE * j + DIRENT_SIZE <= size
  {
  }

  /** Two different entries do not overlap. */
  lemma EntriesApart(j: nat, k: nat)
    requires j != k
    ensures DIRENT_SIZE * j + DIRENT_SIZE <= DIRENT_SIZE * k || DIRENT_SIZE * k + DIRENT_SIZE <= DIRENT_SIZE * j
  {
  }

  /** Writing entry `k` (an existing one, or the one at the end) leaves the size covering one entry more only in the second case. */
  lemma SizeAfterPut(size: nat, size': nat, n: nat, k: nat)
    requires n == size / DIRENT_SIZE && k <= n && (k == n ==> DIRENT_SIZE * k == size)
    requires size' == Max(size, DIRENT_SIZE * k + DIRENT_SIZE)
    ensures size' / DIRENT_SIZE == if k < n then n else n + 1
  {
    DivModUnique(size, DIRENT_SIZE, n, size % DIRENT_SIZE);
    if k == n {
      DivModUnique(size', DIRENT_SIZE, n + 1, 0);
    }
  }

  /** Entry `j` of a listed directory, away from entry `k`, reads the same after a write that kept the bytes outside entry `k`. */
  lemma OtherKept(disk: Disk, disk': Disk, dir: nat, din: Dinode, nd: Dinode, es: seq<Dirent>, k: nat, j: nat)
    requires ReadDinode(disk, dir) == Some(din) && ReadDinode(disk', dir) == Some(nd) && Lists(disk, dir, es)
    requires din.size <= nd.size && j < |es| && j != k
    requires KeepsOutside(disk, din, disk', nd, DIRENT_SIZE * k, DIRENT_SIZE * k + DIRENT_SIZE)
    ensures EntryAt(disk', dir, j) == Some(es[j])
  {
    EntryWithin(din.size, |es|, j);
    EntriesApart(j, k);
    SlotKept(disk, disk', dir, din, nd, DIRENT_SIZE * k, DIRENT_SIZE * k + DIRENT_SIZE, j, es[j]);
  }

  /** The entries other than `k` of a listed directory read after a write that kept their bytes as before it. */
  lemma OthersKept(disk: Disk, disk': Disk, dir: nat, din: Dinode, nd: Dinode, es: seq<Dirent>, k: nat)
    requires ReadDinode(disk, dir) == Some(din) && ReadDinode(disk', dir) == Some(nd) && Lists(disk, dir, es)
    requires din.size <= nd.size
    requires KeepsOutside(disk, din, disk', nd, DIRENT_SIZE * k, DIRENT_SIZE * k + DIRENT_SIZE)
    ensures forall j :: 0 <= j < |es| && j != k ==> EntryAt(disk', dir, j) == Some(es[j])
  {
    forall j | 0 <= j < |es| && j != k ensures EntryAt(disk', dir, j) == Some(es[j]) {
      OtherKept(disk, disk', dir, din, nd, es, k, j);
    }
  }

  /** A change that keeps the directory's inode and every byte of its contents keeps the entries it lists. */
  lemma ListsKept(disk: Disk, disk': Disk, dir: nat, es: seq<Dirent>)
    requires Lists(disk, dir, es) && ReadDinode(disk', dir) == ReadDinode(disk, dir)
    requires KeepsOutside(disk, ReadDinode(disk, dir).value, disk', ReadDinode(disk, dir).value, 0, 0)
    ensures Lists(disk', dir, es)
  {
    var din := ReadDinode(disk, dir).value;
    forall j: nat | j < |es| ensures EntryAt(disk', dir, j) == Some(es[j]) {
      EntryWithin(din.size, |es|, j);
      SlotKept(disk, disk', dir, din, din, 0, 0, j, es[j]);
    }
  }

  /**
   * A directory whose entry `k` (or the one just past its last entry) now
   * reads `e`, whose other entries were kept, and whose size grew to cover
   * entry `k`, lists the same entries with `e` at `k`.
   */
  lemma ListsAfter(disk: Disk, disk': Disk, dir: nat, din: Dinode, nd: Dinode, es: seq<Dirent>, k: nat, e: Dirent)
    requires ReadDinode(disk, dir) == Some(din) && ReadDinode(disk', dir) == Some(nd) && Lists(disk, dir, es)
    requires k <= |es| && (k == |es| ==> DIRENT_SIZE * k == din.size)
    requires nd.size == Max(din.size, DIRENT_SIZE * k + DIRENT_SIZE)
    requires forall j :: 0 <= j < |es| && j != k ==> EntryAt(disk', dir, j) == Some(es[j])
    requires EntryAt(disk', dir, k) == Some(e)
    ensures Lists(disk', dir, Put(es, k, e))
  {
    SizeAfterPut(din.size, nd.size, |es|, k);
  }

  /**
   * Writing the encoding of entry `e` over entry `k` of a listed directory,
   * or just past its last entry, lists the same entries with `e` at `k`.
   */
  lemma ListsAfterWrite(disk: Disk, dir: nat, es: seq<Dirent>, k: nat, e: Dirent, r: WriteResult)
    requires ValidInum(dir) && Lists(disk, dir, es)
    requires k <= |es| && (k == |es| ==> DIRENT_SIZE * k == ReadDinode(disk, dir).value.size)
    requires DIRENT_SIZE * k + DIRENT_SIZE < U32 && Whole(e)
    requires WriteOutcome(disk, dir, DIRENT_SIZE * k, EncodeDirent(e), r) && r.count.Some?
    ensures Lists(r.disk, dir, Put(es, k, e))
  {
    var din := ReadDinode(disk, dir).value;
    var nd := ReadDinode(r.disk, dir).value;
    SlotWritten(r.disk, dir, k, e);
    OthersKept(disk, r.disk, dir, din, nd, es, k);
    ListsAfter(disk, r.disk, dir, din, nd, es, k, e);
  }

  // ------------------------------------------------------------- dir_add

  /** What a directory update leaves behind: the disk, and whether it reports success (0) rather than -1. */
  datatype Updated = Updated(disk: Disk, ok: bool)

  /** The entry `dir_add` writes: the inode number and the name cut to `FS_NAME_MAX - 1` bytes, NUL-padded. */
  function NewEntry(name: seq<byte>, inum: nat): (e: Dirent)
    requires 0 !in name
    ensures |e.name| == FS_NAME_MAX && NameOf(e.name) == Take(name, FS_NAME_MAX - 1)
  {
    Dirent(inum, StoreName(name))
  }

  /** A size that is a whole number of entries ends right after the last of them. */
  lemma EndOfEntries(size: nat, n: nat)
    requires n == size / DIRENT_SIZE && size % DIRENT_SIZE == 0
    ensures DIRENT_SIZE * n == size
  {
  }

  /** Appending the encoding of `e` at the end of a directory of whole entries lists one entry more, `e`, for every listing it had. */
  lemma AppendLists(disk: Disk, root: nat, e: Dirent, w: WriteResult)
    requires ValidInum(root) && Whole(e)
    requires ReadDinode(disk, root).value.size % DIRENT_SIZE == 0 && ReadDinode(disk, root).value.size + DIRENT_SIZE < U32
    requires WriteOutcome(disk, root, ReadDinode(disk, root).value.size, EncodeDirent(e), w) && w.count.Some?
    ensures forall es :: Lists(disk, root, es) ==> Lists(w.disk, root, es + [e])
  {
    forall es | Lists(disk, root, es) ensures Lists(w.disk, root, es + [e]) {
      EndOfEntries(ReadDinode(disk, root).value.size, |es|);
      ListsAfterWrite(disk, root, es, |es|, e, w);
    }
  }

  /** A root inode that is consistent on disk, whose size is a whole number of entries, and that can grow by one entry below 4 GiB. */
  ghost predicate Appendable(disk: Disk, root: nat) {
    ValidInum(root)
    && var din := ReadDinode(disk, root).value;
    Sound(disk, din) && din.size % DIRENT_SIZE == 0 && din.size + DIRENT_SIZE < U32
  }

  /**
   * What `dir_add` leaves behind on an appendable root: no other inode
   * changes; failure leaves the root inode as it was; success means every
   * listing of the directory gains the new entry at its end.
   */
  ghost predicate AddOutcome(disk: Disk, root: nat, name: seq<byte>, inum: nat, r: Updated)
    requires 0 !in name
  {
    (forall j :: j != root ==> ReadDinode(r.disk, j) == ReadDinode(disk, j))
    && (!r.ok ==> ReadDinode(r.disk, root) == ReadDinode(disk, root))
    && (r.ok ==> forall es :: Lists(disk, root, es) ==> Lists(r.disk, root, es + [NewEntry(name, inum)]))
  }

  /**
   * `dir_add`: appends an entry for `inum` named `name` at the end of the
   * root directory. On a root inode that is consistent on disk, whose size is a
   * whole number of entries and that can grow by one, success means every listing of
   * the directory gains the new entry at its end; failure leaves the root
   * inode as it was; no other inode changes either way. A directory already
   * as large as a file can be cannot grow.
   */
  method DirAdd(disk: Disk, root: nat, name: seq<byte>, inum: nat) returns (r: Updated)
    requires 0 !in name && inum < U32
    ensures !ValidInum(root) ==> r == Updated(disk, false)
    ensures Appendable(disk, root) ==> AddOutcome(disk, root, name, inum, r)
    ensures ValidInum(root) && MAX_FBLK * BSIZE < ReadDinode(disk, root).value.size + DIRENT_SIZE < U32 ==> !r.ok
  {
    var od := ReadDinode(disk, root);
    if od.None? {
      return Updated(disk, false);
    }
    var e := NewEntry(name, inum);
    var w := InodeWrite(disk, root, od.value.size, EncodeDirent(e));
    r := Updated(w.disk, w.count.Some?);
    if Sound(disk, od.value) && od.value.size % DIRENT_SIZE == 0 && od.value.size + DIRENT_SIZE < U32 && w.count.Some? {
      AppendLists(disk, root, e, w);
    }
  }

  /** An entry `dir_add` wrote for a name shorter than the name array is found by that name, as long as no earlier entry matches it. */
  lemma AddedFound(disk: Disk, root: nat, es: seq<Dirent>, name: seq<byte>, inum: nat)
    requires 0 !in name && |name| < FS_NAME_MAX && 0 < inum < U32
    requires Lists(disk, root, es + [NewEntry(name, inum)])
    requires forall k :: 0 <= k < |es| ==> !Matches(es[k], name)
    ensures DirLookup(disk, root, name) == Some(inum)
  {
    var es' := es + [NewEntry(name, inum)];
    StoredNameFound(name);
    NameCmpZero(StoreName(name), name);
    assert FirstMatch(es', name, |es|);
    DirLookupFinds(disk, root, es', name);
  }

  /** A name of `FS_NAME_MAX` bytes or more is stored cut short, and the entry is then never found by the name it was added under. */
  lemma LongNameLost(name: seq<byte>, inum: nat)
    requires 0 !in name && |name| >= FS_NAME_MAX
    ensures !Matches(NewEntry(name, inum), name)
  {
    StoredNameFound(name);
    NameCmpZero(StoreName(name), name);
  }

  // ----------------------------------------------------- dir_remove_inum

  /** An entry as `dir_remove_inum` leaves it: inode number 0 and an empty name. */
  function Cleared(e: Dirent): (c: Dirent)
    ensures c.inum == 0 && |c.name| == |e.name|
    ensures |e.name| > 0 ==> c.name[0] == 0 && c.name[1..] == e.name[1..]
  {
    Dirent(0, if |e.name| > 0 then e.name[0 := 0] else e.name)
  }

  /** A cleared entry is neither live nor matched by any name. */
  lemma ClearedIsFree(e: Dirent, name: seq<byte>)
    ensures !Live(Cleared(e)) && !Matches(Cleared(e), name)
  {
  }

  /** Overwriting the first entry naming `target` with its cleared form lists the same entries with that one cleared. */
  lemma ClearLists(disk: Disk, root: nat, target: nat, k: nat, off: nat, de: Dirent, w: WriteResult)
    requires ValidInum(root) && off == DIRENT_SIZE * k && off + DIRENT_SIZE < U32 && |de.name| == FS_NAME_MAX
    requires FindIn(Directory(disk, root).value, target, 0) == Some(k) && Directory(disk, root).value[k] == Some(de)
    requires WriteOutcome(disk, root, off, EncodeDirent(Cleared(de)), w) && w.count.Some?
    ensures forall es, i: nat :: Lists(disk, root, es) && FirstOf(es, target, i) ==> Lists(w.disk, root, es[i := Cleared(es[i])])
  {
    var slots := Directory(disk, root).value;
    forall es, i: nat | Lists(disk, root, es) && FirstOf(es, target, i) ensures Lists(w.disk, root, es[i := Cleared(es[i])]) {
      ListsSlots(disk, root, es);
      FindInFindsFirst(slots, es, target);
      assert i == k && slots[k] == Some(es[k]);
      ListsAfterWrite(disk, root, es, k, Cleared(es[k]), w);
    }
  }

  /**
   * What `dir_remove_inum` leaves behind on a consistent root: no other
   * inode changes; failure leaves the root inode as it was; success means
   * every listing of the directory has its first entry naming `target`
   * cleared.
   */
  ghost predicate RemoveOutcome(disk: Disk, root: nat, target: nat, r: Updated) {
    (forall j :: j != root ==> ReadDinode(r.disk, j) == ReadDinode(disk, j))
    && (!r.ok ==> ReadDinode(r.disk, root) == ReadDinode(disk, root))
    && (r.ok ==> forall es, i: nat :: Lists(disk, root, es) && FirstOf(es, target, i) ==> Lists(r.disk, root, es[i := Cleared(es[i])]))
  }

  /**
   * `dir_remove_inum`: clears the first entry in use that names inode
   * `target`. It fails without writing when the root inode is missing, an
   * entry cannot be read, or no entry names `target`. On a root inode that
   * is consistent on disk, success means the directory lists the same
   * entries with that one cleared; failure leaves the root inode as it was;
   * no other inode changes either way.
   */
  method DirRemoveInum(disk: Disk, root: nat, target: nat) returns (r: Updated)
    ensures !ValidInum(root) ==> r == Updated(disk, false)
    ensures forall es :: Lists(disk, root, es) && (forall i :: 0 <= i < |es| ==> !FirstOf(es, target, i)) ==> r == Updated(disk, false)
    ensures ValidInum(root) && Sound(disk, ReadDinode(disk, root).value) ==> RemoveOutcome(disk, root, target, r)
  {
    var od := ReadDinode(disk, root);
    if od.None? {
      return Updated(disk, false);
    }
    var slots := Directory(disk, root).value;
    var found := FindIn(slots, target, 0);
    if found.None? {
      NotFound(disk, root, target);
      return Updated(disk, false);
    }
    var k := found.value;
    EntryWithin(od.value.size, |slots|, k);
    var de := slots[k].value;
    var off := EntryOffset(k);
    var w := InodeWrite(disk, root, off, EncodeDirent(Cleared(de)));
    r := Updated(w.disk, w.count.Some?);
    Found(disk, root, target, k);
    if Sound(disk, od.value) && w.count.Some? {
      ClearLists(disk, root, target, k, off, de, w);
    }
  }

  /** When the search finds nothing, no listing of the directory has an entry in use naming `target`. */
  lemma NotFound(disk: Disk, root: nat, target: nat)
    requires ValidInum(root) && FindIn(Directory(disk, root).value, target, 0).None?
    ensures forall es :: Lists(disk, root, es) ==> forall i :: 0 <= i < |es| ==> !FirstOf(es, target, i)
  {
    forall es | Lists(disk, root, es) ensures forall i :: 0 <= i < |es| ==> !FirstOf(es, target, i) {
      ListsSlots(disk, root, es);
      FindInFindsFirst(Directory(disk, root).value, es, target);
    }
  }

  /** When the search finds entry `k`, every listing of the directory has its first entry naming `target` there. */
  lemma Found(disk: Disk, root: nat, target: nat, k: nat)
    requires ValidInum(root) && FindIn(Directory(disk, root).value, target, 0) == Some(k)
    ensures forall es :: Lists(disk, root, es) ==> FirstOf(es, target, k)
  {
    forall es | Lists(disk, root, es) ensures FirstOf(es, target, k) {
      ListsSlots(disk, root, es);
      FindInFindsFirst(Directory(disk, root).value, es, target);
    }
  }
}

=== FILE: fs_disk.dfy ===
/**
 * The block layer of the file system: the disk as 128 blocks of 512 bytes,
 * the block bitmap with `balloc` and `b_free`, inode access through
 * `read_dinode` and `write_dinode`, and the file-block map `bmap`.
 *
 * The block device is total: a read or write succeeds exactly when the
 * block number is below `N_BLOCKS`, which is the only check `b_read` and
 * `b_write` make before calling the driver.
 */
module FsDisk {
  import opened Basics
  import opened Numerals
  import opened FsLayout

  type Block = b: seq<byte> | |b| == BSIZE witness seq(BSIZE, _ => 0)

  type Disk = d: seq<Block> | |d| == N_BLOCKS witness seq(N_BLOCKS, _ => ZeroBlock())

  function ZeroBlock(): (b: Block)
    ensures forall i :: 0 <= i < BSIZE ==> b[i] == 0
  {
    seq(BSIZE, _ => 0)
  }

  // ------------------------------------------------------------------- bits

  function Pow2(k: nat): (p: nat)
    ensures p >= 1
  {
    if k == 0 then 1 else 2 * Pow2(k - 1)
  }

  /** The `w` low bits of `x`, least significant first. */
  function Bits(x: nat, w: nat): (bs: seq<bool>)
    ensures |bs| == w
  {
    if w == 0 then [] else [x % 2 == 1] + Bits(x / 2, w - 1)
  }

  /** The number whose bits, least significant first, are `bs`. */
  function FromBits(bs: seq<bool>): (x: nat)
    ensures x < Pow2(|bs|)
  {
    if |bs| == 0 then 0 else (if bs[0] then 1 else 0) + 2 * FromBits(bs[1..])
  }

  lemma {:induction false} BitsOfFromBits(bs: seq<bool>)
    ensures Bits(FromBits(bs), |bs|) == bs
  {
    if |bs| > 0 {
      var x := FromBits(bs);
      DivModUnique(x, 2, FromBits(bs[1..]), if bs[0] then 1 else 0);
      BitsOfFromBits(bs[1..]);
      assert [bs[0]] + bs[1..] == bs;
    }
  }

  lemma {:induction false} FromBitsOfBits(x: nat, w: nat)
    requires x < Pow2(w)
    ensures FromBits(Bits(x, w)) == x
  {
    if w > 0 {
      FromBitsOfBits(x / 2, w - 1);
      assert Bits(x, w)[1..] == Bits(x / 2, w - 1);
    }
  }

  // ----------------------------------------------------------------- bitmap

  predicate IsDataBlock(b: nat) {
    DATA_START_BLOCK <= b < N_BLOCKS
  }

  /** Whether the bitmap block marks data block `b` allocated: bit `bi % 8` of byte `bi / 8`, `bi = b - DATA_START_BLOCK`. */
  predicate Allocated(bm: Block, b: nat)
    requires IsDataBlock(b)
  {
    var bi := b - DATA_START_BLOCK;
    Bits(bm[bi / 8] as nat, 8)[bi % 8]
  }

  /** The bitmap with data block `b`'s bit set (`|= mask`) or cleared (`&= ~mask`). */
  function Mark(bm: Block, b: nat, v: bool): (r: Block)
    requires IsDataBlock(b)
    ensures Allocated(r, b) == v
    ensures forall i :: 0 <= i < BSIZE && i != (b - DATA_START_BLOCK) / 8 ==> r[i] == bm[i]
  {
    var bi := b - DATA_START_BLOCK;
    var bits := Bits(bm[bi / 8] as nat, 8)[bi % 8 := v];
    assert Pow2(8) == 256;
    BitsOfFromBits(bits);
    bm[bi / 8 := FromBits(bits) as byte]
  }

  /** Marking one block leaves every other block's bit as it was. */
  lemma MarkOther(bm: Block, b: nat, v: bool, c: nat)
    requires IsDataBlock(b) && IsDataBlock(c) && c != b
    ensures Allocated(Mark(bm, b, v), c) == Allocated(bm, c)
  {
    var bi, ci := b - DATA_START_BLOCK, c - DATA_START_BLOCK;
    if bi / 8 == ci / 8 {
      assert bi % 8 != ci % 8 by {
        assert bi == 8 * (bi / 8) + bi % 8 && ci == 8 * (ci / 8) + ci % 8;
      }
      var bits := Bits(bm[bi / 8] as nat, 8)[bi % 8 := v];
      assert Pow2(8) == 256;
      BitsOfFromBits(bits);
    }
  }

  /** Setting a clear bit and clearing it again gives back the same bitmap. */
  lemma MarkRestore(bm: Block, b: nat)
    requires IsDataBlock(b) && !Allocated(bm, b)
    ensures Mark(Mark(bm, b, true), b, false) == bm
  {
    var bi := b - DATA_START_BLOCK;
    var x := bm[bi / 8] as nat;
    var marked := Bits(x, 8)[bi % 8 := true];
    assert Pow2(8) == 256;
    BitsOfFromBits(marked);
    assert marked[bi % 8 := false] == Bits(x, 8);
    FromBitsOfBits(x, 8);
    assert Mark(Mark(bm, b, true), b, false)[bi / 8] == bm[bi / 8];
  }

  /** The bitmap as one flag per data block, block `DATA_START_BLOCK + i` at index `i`. */
  function AllocMap(bm: Block): (m: seq<bool>)
    ensures |m| == N_BLOCKS - DATA_START_BLOCK
  {
    seq(N_BLOCKS - DATA_START_BLOCK, i requires 0 <= i < N_BLOCKS - DATA_START_BLOCK => Allocated(bm, i + DATA_START_BLOCK))
  }

  /** The lowest index from `i` on whose flag is clear: the scan in `balloc`. */
  function FirstClear(m: seq<bool>, i: nat): (r: Option<nat>)
    requires i <= |m|
    ensures r.Some? ==> i <= r.value < |m| && !m[r.value]
    ensures r.Some? ==> forall j :: i <= j < r.value ==> m[j]
    ensures r.None? ==> forall j :: i <= j < |m| ==> m[j]
    decreases |m| - i
  {
    if i == |m| then None
    else if !m[i] then Some(i)
    else FirstClear(m, i + 1)
  }

  /** A disk after an allocation, and the block allocated if there was one. */
  datatype Alloc = Alloc(disk: Disk, block: Option<nat>)

  /** `balloc`: mark the lowest free data block allocated and return it, or fail when every bit is set. */
  function Balloc(disk: Disk): (r: Alloc)
    ensures r.block.Some? ==> IsDataBlock(r.block.value) && !Allocated(disk[BITMAP_BLOCK], r.block.value)
    ensures r.block.Some? ==> Allocated(r.disk[BITMAP_BLOCK], r.block.value)
    ensures r.block.None? ==> r.disk == disk
    ensures r.disk == disk[BITMAP_BLOCK := r.disk[BITMAP_BLOCK]]
  {
    var bm := disk[BITMAP_BLOCK];
    match FirstClear(AllocMap(bm), 0)
    case None => Alloc(disk, None)
    case Some(i) =>
      var d': Disk := disk[BITMAP_BLOCK := Mark(bm, i + DATA_START_BLOCK, true)];
      Alloc(d', Some(i + DATA_START_BLOCK))
  }

  /**
   * `balloc` takes the lowest data block whose bit is clear and sets that bit
   * and no other; it fails, changing nothing, exactly when every bit is set.
   */
  lemma BallocLowest(disk: Disk, c: nat)
    requires IsDataBlock(c)
    ensures var r, bm := Balloc(disk), disk[BITMAP_BLOCK];
      (r.block.None? ==> Allocated(bm, c))
      && (r.block.Some? ==>
            (c < r.block.value ==> Allocated(bm, c))
            && Allocated(r.disk[BITMAP_BLOCK], c) == (c == r.block.value || Allocated(bm, c)))
  {
    var bm := disk[BITMAP_BLOCK];
    var m := AllocMap(bm);
    var r := Balloc(disk);
    assert m[c - DATA_START_BLOCK] == Allocated(bm, c);
    if r.block.Some? && c != r.block.value {
      MarkOther(bm, r.block.value, true, c);
    }
  }

  /** `balloc` fails exactly when no data block is free. */
  lemma BallocFails(disk: Disk)
    ensures Balloc(disk).block.None? <==> forall c :: IsDataBlock(c) ==> Allocated(disk[BITMAP_BLOCK], c)
  {
    if Balloc(disk).block.None? {
      forall c | IsDataBlock(c) ensures Allocated(disk[BITMAP_BLOCK], c) {
        BallocLowest(disk, c);
      }
    }
  }

  /** `b_free`: clear the bit of a data block; a block outside the data area is refused. */
  function BFree(disk: Disk, b: nat): (r: Option<Disk>)
    ensures r.Some? <==> IsDataBlock(b)
    ensures r.Some? ==> r.value == disk[BITMAP_BLOCK := r.value[BITMAP_BLOCK]]
    ensures r.Some? ==> !Allocated(r.value[BITMAP_BLOCK], b)
  {
    if !IsDataBlock(b) then None
    else
      var d': Disk := disk[BITMAP_BLOCK := Mark(disk[BITMAP_BLOCK], b, false)];
      Some(d')
  }

  /** `b_free` clears only the freed block's bit. */
  lemma BFreeOthers(disk: Disk, b: nat, c: nat)
    requires IsDataBlock(b) && IsDataBlock(c) && c != b
    ensures Allocated(BFree(disk, b).value[BITMAP_BLOCK], c) == Allocated(disk[BITMAP_BLOCK], c)
  {
    MarkOther(disk[BITMAP_BLOCK], b, false, c);
  }

  /** Freeing the block `balloc` just handed out gives back the disk as it was. */
  lemma BFreeUndoesBalloc(disk: Disk)
    requires Balloc(disk).block.Some?
    ensures BFree(Balloc(disk).disk, Balloc(disk).block.value) == Some(disk)
  {
    var a := Balloc(disk);
    var b := a.block.value;
    var bm := disk[BITMAP_BLOCK];
    assert a.disk[BITMAP_BLOCK] == Mark(bm, b, true);
    MarkRestore(bm, b);
    var d' := BFree(a.disk, b).value;
    assert d'[BITMAP_BLOCK] == bm;
    assert d' == disk;
  }

  // ----------------------------------------------------------------- inodes

  /** `read_dinode`: the inode's bytes in its slot of the inode table; inode 0 and numbers from `NINODE` on are refused. */
  function ReadDinode(disk: Disk, inum: nat): (r: Option<Dinode>)
    ensures r.Some? <==> ValidInum(inum)
    ensures r.Some? ==> Fits(r.value)
  {
    if !ValidInum(inum) then None
    else
      var s := InodeSlot(inum);
      Some(DecodeDinode(disk[s.block][s.offset..s.offset + DINODE_SIZE]))
  }

  /** `write_dinode`: the inode's encoding copied into its slot, the rest of the block kept. */
  function WriteDinode(disk: Disk, inum: nat, d: Dinode): (r: Option<Disk>)
    requires |d.addrs| == NDIRECT
    ensures r.Some? <==> ValidInum(inum)
    ensures r.Some? ==> r.value == disk[InodeSlot(inum).block := r.value[InodeSlot(inum).block]]
  {
    if !ValidInum(inum) then None
    else
      var s := InodeSlot(inum);
      var blk := disk[s.block];
      var d': Disk := disk[s.block := blk[..s.offset] + EncodeDinode(d) + blk[s.offset + DINODE_SIZE..]];
      Some(d')
  }

  /** After `write_dinode`, the inode reads back as written and every other inode as before. */
  lemma ReadAfterWrite(disk: Disk, inum: nat, d: Dinode, j: nat)
    requires Fits(d) && WriteDinode(disk, inum, d).Some?
    ensures ReadDinode(WriteDinode(disk, inum, d).value, j) == if j == inum then Some(d) else ReadDinode(disk, j)
  {
    var disk' := WriteDinode(disk, inum, d).value;
    var s := InodeSlot(inum);
    var blk := disk[s.block];
    if j == inum {
      Frame(blk[..s.offset], EncodeDinode(d), blk[s.offset + DINODE_SIZE..]);
      DinodeRoundTrip(d);
    } else if ValidInum(j) {
      var t := InodeSlot(j);
      if t.block == s.block {
        SlotsDisjoint(inum, j);
        SpliceOutside(blk, s.offset, EncodeDinode(d), t.offset, DINODE_SIZE);
      }
    }
  }

  /** A block other than the inode table's leaves every inode as it was. */
  lemma InodesUnchanged(disk: Disk, b: nat, blk: Block, j: nat)
    requires !(INODE_START_BLOCK <= b < INODE_START_BLOCK + INODE_BLOCKS) && b < N_BLOCKS
    ensures ReadDinode(disk[b := blk], j) == ReadDinode(disk, j)
  {
  }

  // ------------------------------------------------------------------- bmap

  /**
   * The disk block holding file block `fblk`, 0 when there is none: a direct
   * address, or the entry of the indirect block when that block exists and
   * can be read.
   */
  function Lookup(disk: Disk, din: Dinode, fblk: nat): (b: nat)
    requires Fits(din)
    ensures b < U32
  {
    if fblk < NDIRECT then din.addrs[fblk]
    else if fblk >= NDIRECT + NINDIRECT || din.indirect == 0 || din.indirect >= N_BLOCKS then 0
    else WordAt(disk[din.indirect], fblk - NDIRECT)
  }

  /** What `bmap` leaves behind: the disk, the in-memory inode, and the block number it returns (0 for none). */
  datatype Mapped = Mapped(disk: Disk, din: Dinode, bno: nat)

  /** The entry for index `idx` of the indirect block `ib`, whose contents are `buf`; allocated when it is 0 and `alloc` is set. */
  function IndirectEntry(disk: Disk, din: Dinode, ib: nat, buf: Block, idx: nat, alloc: bool): (r: Mapped)
    requires ib < N_BLOCKS && idx < NINDIRECT && Fits(din)
    ensures Fits(r.din) && r.bno < U32 && r.din == din
    ensures !alloc ==> r == Mapped(disk, din, WordAt(buf, idx))
  {
    var bno := WordAt(buf, idx);
    if bno == 0 && alloc then
      var a := Balloc(disk);
      match a.block
      case None => Mapped(a.disk, din, 0)
      case Some(b) => Mapped(a.disk[ib := SetWord(buf, idx, b)], din, b)
    else Mapped(disk, din, bno)
  }

  /**
   * `bmap`: the disk block holding block `fblk` of the file, through the
   * direct addresses and then the indirect block. With `alloc` set, a
   * missing block (and a missing indirect block) is allocated on the way.
   */
  function Bmap(disk: Disk, din: Dinode, fblk: nat, alloc: bool): (r: Mapped)
    requires Fits(din)
    ensures Fits(r.din) && r.bno < U32
    ensures r.din == din.(addrs := r.din.addrs, indirect := r.din.indirect)
    ensures !alloc ==> r == Mapped(disk, din, Lookup(disk, din, fblk))
    ensures fblk >= NDIRECT + NINDIRECT ==> r == Mapped(disk, din, 0)
  {
    if fblk < NDIRECT then
      var bno := din.addrs[fblk];
      if bno == 0 && alloc then
        var a := Balloc(disk);
        match a.block
        case None => Mapped(a.disk, din, 0)
        case Some(b) => Mapped(a.disk, din.(addrs := din.addrs[fblk := b]), b)
      else Mapped(disk, din, bno)
    else
      var idx := fblk - NDIRECT;
      if idx >= NINDIRECT then Mapped(disk, din, 0)
      else if din.indirect == 0 then
        if !alloc then Mapped(disk, din, 0)
        else
          var a := Balloc(disk);
          match a.block
          case None => Mapped(a.disk, din, 0)
          case Some(ib) => IndirectEntry(a.disk[ib := ZeroBlock()], din.(indirect := ib), ib, ZeroBlock(), idx, true)
      else if din.indirect >= N_BLOCKS then Mapped(disk, din, 0)
      else IndirectEntry(disk, din, din.indirect, disk[din.indirect], idx, alloc)
  }

  /** With `alloc` set, a file block that is already mapped is returned as it is and nothing changes. */
  lemma BmapExisting(disk: Disk, din: Dinode, fblk: nat)
    requires Fits(din) && Lookup(disk, din, fblk) != 0
    ensures Bmap(disk, din, fblk, true) == Mapped(disk, din, Lookup(disk, din, fblk))
  {
  }

  /** Every block the inode names is either absent (0) or a data block, so writing it never touches the bitmap or the inode table. */
  predicate WellFormed(din: Dinode) {
    Fits(din)
    && (din.indirect == 0 || IsDataBlock(din.indirect))
    && forall i :: 0 <= i < |din.addrs| ==> din.addrs[i] == 0 || IsDataBlock(din.addrs[i])
  }

  /** What an allocating `bmap` promises about the block it allocated. */
  predicate FreshlyMapped(disk: Disk, din: Dinode, fblk: nat, r: Mapped)
    requires Fits(din) && Fits(r.din)
  {
    IsDataBlock(r.bno) && !Allocated(disk[BITMAP_BLOCK], r.bno)
    && Allocated(r.disk[BITMAP_BLOCK], r.bno)
    && Lookup(r.disk, r.din, fblk) == r.bno
  }

  /** Every entry of a freshly zeroed indirect block is absent. */
  lemma ZeroWord(idx: nat)
    requires idx < NINDIRECT
    ensures WordAt(ZeroBlock(), idx) == 0
  {
    var w := ZeroBlock()[4 * idx..4 * idx + 4];
    assert w == [0, 0, 0, 0];
    assert LeValue(w[3..]) == 0;
    assert LeValue(w[2..]) == 0 by { assert w[2..][1..] == w[3..]; }
    assert LeValue(w[1..]) == 0 by { assert w[1..][1..] == w[2..]; }
  }

  /** An allocated indirect entry is written into the indirect block. */
  lemma IndirectEntryAllocates(disk: Disk, din: Dinode, ib: nat, buf: Block, idx: nat)
    requires IsDataBlock(ib) && idx < NINDIRECT && Fits(din) && WordAt(buf, idx) == 0
    ensures var r := IndirectEntry(disk, din, ib, buf, idx, true);
      r.din == din
      && (r.bno != 0 ==>
            IsDataBlock(r.bno) && !Allocated(disk[BITMAP_BLOCK], r.bno)
            && Allocated(r.disk[BITMAP_BLOCK], r.bno)
            && WordAt(r.disk[ib], idx) == r.bno)
  {
    var r := IndirectEntry(disk, din, ib, buf, idx, true);
    if r.bno != 0 {
      WordAtSet(buf, idx, r.bno, idx);
      DivModUnique(r.bno, U32, 0, r.bno);
    }
  }

  lemma BmapDirectAllocates(disk: Disk, din: Dinode, fblk: nat)
    requires Fits(din) && fblk < NDIRECT && din.addrs[fblk] == 0
    ensures var r := Bmap(disk, din, fblk, true);
      r.bno != 0 ==> FreshlyMapped(disk, din, fblk, r)
  {
  }

  lemma BmapOldIndirectAllocates(disk: Disk, din: Dinode, fblk: nat)
    requires WellFormed(din) && NDIRECT <= fblk < NDIRECT + NINDIRECT && din.indirect != 0
    requires Lookup(disk, din, fblk) == 0
    ensures var r := Bmap(disk, din, fblk, true);
      r.bno != 0 ==> FreshlyMapped(disk, din, fblk, r)
  {
    IndirectEntryAllocates(disk, din, din.indirect, disk[din.indirect], fblk - NDIRECT);
  }

  lemma BmapNewIndirectAllocates(disk: Disk, din: Dinode, fblk: nat)
    requires Fits(din) && NDIRECT <= fblk < NDIRECT + NINDIRECT && din.indirect == 0
    ensures var r := Bmap(disk, din, fblk, true);
      r.bno != 0 ==> FreshlyMapped(disk, din, fblk, r)
  {
    var r := Bmap(disk, din, fblk, true);
    if r.bno != 0 {
      var idx := fblk - NDIRECT;
      var a := Balloc(disk);
      var ib := a.block.value;
      var d1 := a.disk[ib := ZeroBlock()];
      assert d1[BITMAP_BLOCK] == a.disk[BITMAP_BLOCK];
      ZeroWord(idx);
      IndirectEntryAllocates(d1, din.(indirect := ib), ib, ZeroBlock(), idx);
      BallocLowest(disk, r.bno);
      assert r.bno != ib;
      MarkOther(disk[BITMAP_BLOCK], ib, true, r.bno);
    }
  }

  /**
   * With `alloc` set, `bmap` returns an existing block unchanged; for a
   * well-formed inode, a block it allocates was free, is marked allocated
   * afterwards, and is what a later lookup of the same file block finds.
   */
  lemma BmapAllocates(disk: Disk, din: Dinode, fblk: nat)
    requires WellFormed(din)
    ensures var r := Bmap(disk, din, fblk, true);
      (Lookup(disk, din, fblk) != 0 ==> r == Mapped(disk, din, Lookup(disk, din, fblk)))
      && (Lookup(disk, din, fblk) == 0 && r.bno != 0 ==> FreshlyMapped(disk, din, fblk, r))
  {
    if Lookup(disk, din, fblk) != 0 {
      BmapExisting(disk, din, fblk);
    } else {
      if fblk < NDIRECT {
        BmapDirectAllocates(disk, din, fblk);
      } else if fblk < NDIRECT + NINDIRECT {
        if din.indirect == 0 {
          BmapNewIndirectAllocates(disk, din, fblk);
        } else {
          BmapOldIndirectAllocates(disk, din, fblk);
        }
      }
    }
  }
}

=== FILE: fs_file.dfy ===
/**
 * Files as byte ranges: `inode_read`, `inode_write` and `ialloc`, and the
 * invariant under which a write can be read back.
 *
 * A file's contents are described byte by byte through `ByteAt`: position
 * `p` lives at offset `p % BSIZE` of the disk block that file block
 * `p / BSIZE` maps to, and is absent when that file block is unmapped or
 * its block number is not on the disk.
 */
module FsFile {
  import opened Basics
  import opened Numerals
  import opened FsLayout
  import opened FsDisk

  /** The number of file blocks `bmap` can reach: the direct ones and one indirect block's worth. */
  const MAX_FBLK: nat := NDIRECT + NINDIRECT

  /**
   * The inode's block map is sound: the indirect block and every mapped data
   * block are allocated data blocks, no data block is also the indirect
   * block, and no two file blocks share a disk block.
   */
  ghost predicate Sound(disk: Disk, din: Dinode) {
    Fits(din)
    && (din.indirect != 0 ==> IsDataBlock(din.indirect) && Allocated(disk[BITMAP_BLOCK], din.indirect))
    && (forall f :: 0 <= f < MAX_FBLK && Lookup(disk, din, f) != 0 ==>
          IsDataBlock(Lookup(disk, din, f)) && Allocated(disk[BITMAP_BLOCK], Lookup(disk, din, f))
          && Lookup(disk, din, f) != din.indirect)
    && (forall f, g :: 0 <= f < g < MAX_FBLK && Lookup(disk, din, f) != 0 ==> Lookup(disk, din, f) != Lookup(disk, din, g))
  }

  /** `disk'` agrees with `disk` on every block in use other than the bitmap and the inode's indirect block. */
  ghost predicate Keeps(disk: Disk, disk': Disk, din: Dinode) {
    forall c ::
      (0 <= c < N_BLOCKS && c != BITMAP_BLOCK && (din.indirect == 0 || c != din.indirect)
       && (c < DATA_START_BLOCK || Allocated(disk[BITMAP_BLOCK], c))) ==> disk'[c] == disk[c]
  }

  /** Byte `p` of the file, or `None` when its block is unmapped or off the disk. */
  function ByteAt(disk: Disk, din: Dinode, p: nat): Option<byte>
    requires Fits(din)
  {
    var b := Lookup(disk, din, p / BSIZE);
    if b == 0 || b >= N_BLOCKS then None else Some(disk[b][p % BSIZE])
  }

  /** `balloc` keeps every allocated block allocated and never hands one of them out. */
  lemma BallocKeeps(disk: Disk, c: nat)
    requires IsDataBlock(c) && Allocated(disk[BITMAP_BLOCK], c)
    ensures Allocated(Balloc(disk).disk[BITMAP_BLOCK], c) && Balloc(disk).block != Some(c)
  {
    BallocLowest(disk, c);
  }

  /** Every data block `disk` marks allocated is still marked in `disk'`. */
  ghost predicate AllocGrows(disk: Disk, disk': Disk) {
    forall c :: IsDataBlock(c) && Allocated(disk[BITMAP_BLOCK], c) ==> Allocated(disk'[BITMAP_BLOCK], c)
  }

  /**
   * Mapping one more file block to a block that was free, and possibly
   * adding an indirect block that was free, keeps a block map sound.
   */
  lemma SoundExtend(disk: Disk, din: Dinode, disk': Disk, din': Dinode, fblk: nat, b: nat)
    requires Sound(disk, din) && Fits(din') && fblk < MAX_FBLK
    requires IsDataBlock(b) && !Allocated(disk[BITMAP_BLOCK], b) && Allocated(disk'[BITMAP_BLOCK], b)
    requires AllocGrows(disk, disk')
    requires Lookup(disk', din', fblk) == b
    requires forall g :: g != fblk ==> Lookup(disk', din', g) == Lookup(disk, din, g)
    requires din'.indirect == din.indirect
      || (din.indirect == 0 && IsDataBlock(din'.indirect) && !Allocated(disk[BITMAP_BLOCK], din'.indirect)
          && Allocated(disk'[BITMAP_BLOCK], din'.indirect) && din'.indirect != b)
    ensures Sound(disk', din')
  {
    forall f | 0 <= f < MAX_FBLK && Lookup(disk', din', f) != 0
      ensures IsDataBlock(Lookup(disk', din', f)) && Allocated(disk'[BITMAP_BLOCK], Lookup(disk', din', f))
        && Lookup(disk', din', f) != din'.indirect
    {
      if f != fblk {
        assert Lookup(disk', din', f) == Lookup(disk, din, f);
      }
    }
    forall f, g | 0 <= f < g < MAX_FBLK && Lookup(disk', din', f) != 0
      ensures Lookup(disk', din', f) != Lookup(disk', din', g)
    {
      if f != fblk && g != fblk {
        assert Lookup(disk', din', f) == Lookup(disk, din, f) && Lookup(disk', din', g) == Lookup(disk, din, g);
      } else if f == fblk {
        assert Lookup(disk', din', g) == Lookup(disk, din, g);
      } else {
        assert Lookup(disk', din', f) == Lookup(disk, din, f);
      }
    }
  }

  /** An allocating `bmap` through a direct address keeps the block map sound. */
  lemma BmapDirectStep(disk: Disk, din: Dinode, fblk: nat)
    requires Sound(disk, din) && fblk < NDIRECT && din.addrs[fblk] == 0
    ensures var r := Bmap(disk, din, fblk, true);
      r.bno != 0 ==>
        Sound(r.disk, r.din) && Lookup(r.disk, r.din, fblk) == r.bno
        && r.din.indirect == din.indirect && Keeps(disk, r.disk, din)
        && forall g :: g != fblk ==> Lookup(r.disk, r.din, g) == Lookup(disk, din, g)
  {
    var r := Bmap(disk, din, fblk, true);
    if r.bno != 0 {
      var b := r.bno;
      assert r.disk[din.indirect] == disk[din.indirect];
      forall g: nat ensures Lookup(r.disk, r.din, g) == if g == fblk then b else Lookup(disk, din, g) {
      }
      forall c | IsDataBlock(c) && Allocated(disk[BITMAP_BLOCK], c) ensures Allocated(r.disk[BITMAP_BLOCK], c) {
        BallocKeeps(disk, c);
      }
      SoundExtend(disk, din, r.disk, r.din, fblk, b);
    }
  }

  /** Setting entry `idx` of the inode's indirect block (as read from `d0`) to `b` remaps that one file block. */
  lemma LookupSetEntry(d: Disk, d0: Disk, din: Dinode, idx: nat, b: nat, g: nat)
    requires Fits(din) && IsDataBlock(din.indirect) && idx < NINDIRECT && b < U32
    ensures Lookup(d[din.indirect := SetWord(d0[din.indirect], idx, b)], din, g)
      == if g == NDIRECT + idx then b else Lookup(d0, din, g)
  {
    if NDIRECT <= g < MAX_FBLK {
      WordAtSet(d0[din.indirect], idx, b, g - NDIRECT);
      DivModUnique(b, U32, 0, b);
    }
  }

  /** A fresh indirect block holding only entry `idx` maps that one file block beyond the direct ones. */
  lemma LookupFreshIndirect(d: Disk, din: Dinode, ib: nat, idx: nat, b: nat, g: nat)
    requires Fits(din) && din.indirect == 0 && IsDataBlock(ib) && idx < NINDIRECT && b < U32
    ensures Lookup(d[ib := SetWord(ZeroBlock(), idx, b)], din.(indirect := ib), g)
      == if g == NDIRECT + idx then b else Lookup(d, din, g)
  {
    if NDIRECT <= g < MAX_FBLK {
      WordAtSet(ZeroBlock(), idx, b, g - NDIRECT);
      DivModUnique(b, U32, 0, b);
      ZeroWord(g - NDIRECT);
    }
  }

  /** What an allocating `bmap` leaves when it fills an empty entry of the existing indirect block. */
  lemma OldIndirectShape(disk: Disk, din: Dinode, fblk: nat)
    requires Fits(din) && NDIRECT <= fblk < MAX_FBLK && IsDataBlock(din.indirect) && Lookup(disk, din, fblk) == 0
    ensures var r, a := Bmap(disk, din, fblk, true), Balloc(disk);
      r.bno != 0 ==>
        a.block.Some?
        && r == Mapped(a.disk[din.indirect := SetWord(disk[din.indirect], fblk - NDIRECT, a.block.value)], din, a.block.value)
  {
  }

  /** Filling entry `fblk` of the existing indirect block with the block `balloc` returns keeps the block map sound. */
  lemma OldIndirectSound(disk: Disk, din: Dinode, fblk: nat, b: nat)
    requires Sound(disk, din) && NDIRECT <= fblk < MAX_FBLK && din.indirect != 0
    requires Lookup(disk, din, fblk) == 0 && Balloc(disk).block == Some(b)
    ensures var disk' := Balloc(disk).disk[din.indirect := SetWord(disk[din.indirect], fblk - NDIRECT, b)];
      Sound(disk', din) && Lookup(disk', din, fblk) == b && Keeps(disk, disk', din)
      && forall g :: g != fblk ==> Lookup(disk', din, g) == Lookup(disk, din, g)
  {
    var a := Balloc(disk);
    var ib := din.indirect;
    var disk' := a.disk[ib := SetWord(disk[ib], fblk - NDIRECT, b)];
    OldIndirectLookups(a.disk, disk, din, fblk, b);
    BallocGrows(disk, disk', ib);
    SoundExtend(disk, din, disk', din, fblk, b);
  }

  /** Setting one entry of the existing indirect block remaps that file block and no other. */
  lemma OldIndirectLookups(d: Disk, disk: Disk, din: Dinode, fblk: nat, b: nat)
    requires Fits(din) && IsDataBlock(din.indirect) && NDIRECT <= fblk < MAX_FBLK && b < U32
    ensures var disk' := d[din.indirect := SetWord(disk[din.indirect], fblk - NDIRECT, b)];
      Lookup(disk', din, fblk) == b && forall g :: g != fblk ==> Lookup(disk', din, g) == Lookup(disk, din, g)
  {
    var disk' := d[din.indirect := SetWord(disk[din.indirect], fblk - NDIRECT, b)];
    forall g: nat ensures Lookup(disk', din, g) == if g == fblk then b else Lookup(disk, din, g) {
      LookupSetEntry(d, disk, din, fblk - NDIRECT, b, g);
    }
  }

  /** `balloc`, followed by a change to a block other than the bitmap, keeps every allocated block allocated. */
  lemma BallocGrows(disk: Disk, disk': Disk, c0: nat)
    requires c0 != BITMAP_BLOCK && c0 < N_BLOCKS && disk' == Balloc(disk).disk[c0 := disk'[c0]]
    ensures AllocGrows(disk, disk')
  {
    forall c | IsDataBlock(c) && Allocated(disk[BITMAP_BLOCK], c) ensures Allocated(disk'[BITMAP_BLOCK], c) {
      BallocKeeps(disk, c);
    }
  }

  /** An allocating `bmap` that fills an entry of an existing indirect block keeps the block map sound. */
  lemma BmapOldIndirectStep(disk: Disk, din: Dinode, fblk: nat)
    requires Sound(disk, din) && NDIRECT <= fblk < MAX_FBLK && din.indirect != 0
    requires Lookup(disk, din, fblk) == 0
    ensures var r := Bmap(disk, din, fblk, true);
      r.bno != 0 ==>
        Sound(r.disk, r.din) && Lookup(r.disk, r.din, fblk) == r.bno
        && r.din == din && Keeps(disk, r.disk, din)
        && forall g :: g != fblk ==> Lookup(r.disk, r.din, g) == Lookup(disk, din, g)
  {
    if Bmap(disk, din, fblk, true).bno != 0 {
      OldIndirectShape(disk, din, fblk);
      OldIndirectSound(disk, din, fblk, Balloc(disk).block.value);
    }
  }

  /** What an allocating `bmap` leaves when it had to create the indirect block first. */
  lemma NewIndirectShape(disk: Disk, din: Dinode, fblk: nat)
    requires Fits(din) && NDIRECT <= fblk < MAX_FBLK && din.indirect == 0
    ensures var r, a := Bmap(disk, din, fblk, true), Balloc(disk);
      r.bno != 0 ==>
        a.block.Some?
        && var ib := a.block.value;
           var a2 := Balloc(a.disk[ib := ZeroBlock()]);
           a2.block.Some?
           && r == Mapped(a2.disk[ib := SetWord(ZeroBlock(), fblk - NDIRECT, a2.block.value)], din.(indirect := ib), a2.block.value)
  {
    ZeroWord(fblk - NDIRECT);
  }

  /** Two allocations in a row, the first block zeroed in between: both blocks were free, differ, and end up allocated. */
  lemma TwoBallocs(disk: Disk, ib: nat, b: nat)
    requires Balloc(disk).block == Some(ib)
    requires Balloc(Balloc(disk).disk[ib := ZeroBlock()]).block == Some(b)
    ensures var d2 := Balloc(Balloc(disk).disk[ib := ZeroBlock()]).disk;
      IsDataBlock(ib) && IsDataBlock(b) && ib != b
      && !Allocated(disk[BITMAP_BLOCK], ib) && !Allocated(disk[BITMAP_BLOCK], b)
      && Allocated(d2[BITMAP_BLOCK], ib) && Allocated(d2[BITMAP_BLOCK], b)
      && AllocGrows(disk, d2)
      && forall c :: 0 <= c < N_BLOCKS && c != BITMAP_BLOCK && c != ib ==> d2[c] == disk[c]
  {
    var a := Balloc(disk);
    var d1 := a.disk[ib := ZeroBlock()];
    assert d1[BITMAP_BLOCK] == a.disk[BITMAP_BLOCK];
    forall c | IsDataBlock(c) && Allocated(disk[BITMAP_BLOCK], c) ensures Allocated(d1[BITMAP_BLOCK], c) {
      BallocKeeps(disk, c);
    }
    forall c | IsDataBlock(c) && Allocated(d1[BITMAP_BLOCK], c) ensures Allocated(Balloc(d1).disk[BITMAP_BLOCK], c) {
      BallocKeeps(d1, c);
    }
  }

  /** Creating an indirect block `ib` and filling its entry for `fblk` with `b` keeps the block map sound. */
  lemma NewIndirectSound(disk: Disk, din: Dinode, fblk: nat, ib: nat, b: nat)
    requires Sound(disk, din) && NDIRECT <= fblk < MAX_FBLK && din.indirect == 0
    requires Balloc(disk).block == Some(ib)
    requires Balloc(Balloc(disk).disk[ib := ZeroBlock()]).block == Some(b)
    ensures var disk' := Balloc(Balloc(disk).disk[ib := ZeroBlock()]).disk[ib := SetWord(ZeroBlock(), fblk - NDIRECT, b)];
      var din' := din.(indirect := ib);
      Sound(disk', din') && Lookup(disk', din', fblk) == b && Keeps(disk, disk', din)
      && forall g :: g != fblk ==> Lookup(disk', din', g) == Lookup(disk, din, g)
  {
    var d2 := Balloc(Balloc(disk).disk[ib := ZeroBlock()]).disk;
    var disk' := d2[ib := SetWord(ZeroBlock(), fblk - NDIRECT, b)];
    var din' := din.(indirect := ib);
    TwoBallocs(disk, ib, b);
    FreshIndirectLookups(disk, d2, din, ib, fblk, b);
    FreshIndirectKeeps(disk, d2, din, ib, SetWord(ZeroBlock(), fblk - NDIRECT, b));
    SoundExtend(disk, din, disk', din', fblk, b);
  }

  /** Through a fresh indirect block holding one entry, only that file block maps anywhere new. */
  lemma FreshIndirectLookups(disk: Disk, d2: Disk, din: Dinode, ib: nat, fblk: nat, b: nat)
    requires Fits(din) && din.indirect == 0 && IsDataBlock(ib) && IsDataBlock(b) && NDIRECT <= fblk < MAX_FBLK
    ensures var disk' := d2[ib := SetWord(ZeroBlock(), fblk - NDIRECT, b)];
      var din' := din.(indirect := ib);
      Lookup(disk', din', fblk) == b && forall g :: g != fblk ==> Lookup(disk', din', g) == Lookup(disk, din, g)
  {
    var disk' := d2[ib := SetWord(ZeroBlock(), fblk - NDIRECT, b)];
    var din' := din.(indirect := ib);
    forall g: nat ensures Lookup(disk', din', g) == if g == fblk then b else Lookup(disk, din, g) {
      LookupFreshIndirect(d2, din, ib, fblk - NDIRECT, b, g);
    }
  }

  /** Changing only blocks that were free, the bitmap aside, keeps every block an inode without an indirect block relies on. */
  lemma FreshIndirectKeeps(disk: Disk, d2: Disk, din: Dinode, ib: nat, blk: Block)
    requires din.indirect == 0 && IsDataBlock(ib) && !Allocated(disk[BITMAP_BLOCK], ib)
    requires forall c :: 0 <= c < N_BLOCKS && c != BITMAP_BLOCK && c != ib ==> d2[c] == disk[c]
    ensures Keeps(disk, d2[ib := blk], din)
  {
  }

  /** An allocating `bmap` that first creates the indirect block keeps the block map sound. */
  lemma BmapNewIndirectStep(disk: Disk, din: Dinode, fblk: nat)
    requires Sound(disk, din) && NDIRECT <= fblk < MAX_FBLK && din.indirect == 0
    ensures var r := Bmap(disk, din, fblk, true);
      r.bno != 0 ==>
        Sound(r.disk, r.din) && Lookup(r.disk, r.din, fblk) == r.bno
        && r.din == din.(indirect := r.din.indirect) && Keeps(disk, r.disk, din)
        && forall g :: g != fblk ==> Lookup(r.disk, r.din, g) == Lookup(disk, din, g)
  {
    if Bmap(disk, din, fblk, true).bno != 0 {
      NewIndirectShape(disk, din, fblk);
      var ib := Balloc(disk).block.value;
      NewIndirectSound(disk, din, fblk, ib, Balloc(Balloc(disk).disk[ib := ZeroBlock()]).block.value);
    }
  }

  /**
   * An allocating `bmap` on a sound inode keeps it sound: the file block it
   * asked for now maps to the block returned, every other file block maps
   * where it did, and no block in use other than the bitmap and the
   * indirect block changes.
   */
  lemma BmapStep(disk: Disk, din: Dinode, fblk: nat)
    requires Sound(disk, din) && fblk < MAX_FBLK
    ensures var r := Bmap(disk, din, fblk, true);
      r.bno != 0 ==>
        Sound(r.disk, r.din) && Lookup(r.disk, r.din, fblk) == r.bno
        && r.din == din.(addrs := r.din.addrs, indirect := r.din.indirect)
        && (din.indirect != 0 ==> r.din.indirect == din.indirect)
        && Keeps(disk, r.disk, din)
        && forall g :: g != fblk ==> Lookup(r.disk, r.din, g) == Lookup(disk, din, g)
  {
    if Lookup(disk, din, fblk) != 0 {
      BmapExisting(disk, din, fblk);
    } else if fblk < NDIRECT {
      BmapDirectStep(disk, din, fblk);
    } else if din.indirect != 0 {
      BmapOldIndirectStep(disk, din, fblk);
    } else {
      BmapNewIndirectStep(disk, din, fblk);
    }
  }

  /** An allocating `bmap` changes no byte of the file outside the file block it was asked for, nor any byte that was already there. */
  lemma BmapKeepsBytes(disk: Disk, din: Dinode, fblk: nat, p: nat)
    requires Sound(disk, din) && fblk < MAX_FBLK && Bmap(disk, din, fblk, true).bno != 0
    requires p / BSIZE != fblk || Lookup(disk, din, fblk) != 0
    ensures var r := Bmap(disk, din, fblk, true); ByteAt(r.disk, r.din, p) == ByteAt(disk, din, p)
  {
    if Lookup(disk, din, fblk) != 0 {
      BmapExisting(disk, din, fblk);
    } else {
      BmapStep(disk, din, fblk);
      var r := Bmap(disk, din, fblk, true);
      assert Lookup(r.disk, r.din, p / BSIZE) == Lookup(disk, din, p / BSIZE);
    }
  }

  /** Replacing the contents of a mapped block changes exactly the bytes of its file block and keeps the map sound. */
  lemma ChunkWrite(disk: Disk, din: Dinode, fblk: nat, blk: Block, p: nat)
    requires Sound(disk, din) && fblk < MAX_FBLK && Lookup(disk, din, fblk) != 0
    ensures var d' := disk[Lookup(disk, din, fblk) := blk];
      Sound(d', din) && d'[..BITMAP_BLOCK] == disk[..BITMAP_BLOCK]
      && (forall g :: Lookup(d', din, g) == Lookup(disk, din, g))
      && ByteAt(d', din, p) == if p / BSIZE == fblk then Some(blk[p % BSIZE]) else ByteAt(disk, din, p)
  {
    var b := Lookup(disk, din, fblk);
    var d' := disk[b := blk];
    assert d'[BITMAP_BLOCK] == disk[BITMAP_BLOCK];
    assert din.indirect != 0 ==> d'[din.indirect] == disk[din.indirect];
    forall g ensures Lookup(d', din, g) == Lookup(disk, din, g) {
    }
    if p / BSIZE != fblk && Lookup(disk, din, p / BSIZE) != 0 {
      assert Lookup(disk, din, p / BSIZE) != b by {
        if p / BSIZE < fblk {
          assert Lookup(disk, din, p / BSIZE) != Lookup(disk, din, fblk);
        }
      }
    }
  }

  // ------------------------------------------------------------ inode_read

  /**
   * The copy loop of `inode_read` from `tot` bytes on, with the byte count
   * already clamped to `n`. The non-allocating `bmap` it calls is `Lookup`
   * (the contract of `Bmap` says so).
   */
  function ReadFrom(disk: Disk, din: Dinode, off: nat, n: nat, tot: nat): (r: Option<seq<byte>>)
    requires Fits(din) && tot <= n
    ensures r.Some? ==> |r.value| <= n - tot
    decreases n - tot
  {
    if tot == n then Some([])
    else
      var pos := (off + tot) % U32;
      var bno := Lookup(disk, din, pos / BSIZE);
      if bno == 0 then Some([])
      else if bno >= N_BLOCKS then None
      else
        var boff := pos % BSIZE;
        var m := Min(BSIZE - boff, n - tot);
        match ReadFrom(disk, din, off, n, tot + m)
        case None => None
        case Some(rest) => Some(disk[bno][boff..boff + m] + rest)
  }

  /**
   * How many bytes `inode_read` asks for from `off < size`: `n`, cut at the
   * end of the file when the uint32 sum `off + n` passes it.
   */
  function Clamped(off: nat, n: nat, size: nat): (m: nat)
    requires off < size
    ensures off + n < U32 ==> m == Min(n, size - off)
  {
    var m := if (off + n) % U32 > size then size - off else n;
    assert off + n < U32 ==> m == Min(n, size - off) by {
      if off + n < U32 { DivModUnique(off + n, U32, 0, off + n); }
    }
    m
  }

  /**
   * `inode_read`: up to `n` bytes from offset `off`, clamped at the file
   * size; a hole ends the read early. `None` is the -1 of an invalid inode
   * number or a block number off the disk.
   */
  function InodeRead(disk: Disk, inum: nat, off: nat, n: nat): (r: Option<seq<byte>>)
    requires off < U32 && n < U32
    ensures !ValidInum(inum) ==> r.None?
    ensures ValidInum(inum) && off >= ReadDinode(disk, inum).value.size ==> r == Some([])
    ensures r.Some? ==> |r.value| <= n
  {
    match ReadDinode(disk, inum)
    case None => None
    case Some(din) =>
      if off >= din.size then Some([])
      else
        var n' := Clamped(off, n, din.size);
        ReadFrom(disk, din, off, n', 0)
  }

  /**
   * What the copy loop has written to `dst` when it stops: all it returns,
   * and, when a block read fails, the chunks it copied before that block.
   */
  function CopiedFrom(disk: Disk, din: Dinode, off: nat, n: nat, tot: nat): (c: seq<byte>)
    requires Fits(din) && tot <= n
    ensures |c| <= n - tot
    decreases n - tot
  {
    if tot == n then []
    else
      var pos := (off + tot) % U32;
      var bno := Lookup(disk, din, pos / BSIZE);
      if bno == 0 || bno >= N_BLOCKS then []
      else
        var boff := pos % BSIZE;
        var m := Min(BSIZE - boff, n - tot);
        disk[bno][boff..boff + m] + CopiedFrom(disk, din, off, n, tot + m)
  }

  /**
   * What `inode_read` has written to `dst` when it returns: the bytes it
   * returns, or on -1 after a failed block read the chunks copied before it.
   */
  function InodeCopied(disk: Disk, inum: nat, off: nat, n: nat): (c: seq<byte>)
    requires off < U32 && n < U32
    ensures |c| <= n
    ensures !ValidInum(inum) ==> c == []
  {
    match ReadDinode(disk, inum)
    case None => []
    case Some(din) =>
      if off >= din.size then []
      else
        var n' := Clamped(off, n, din.size);
        CopiedFrom(disk, din, off, n', 0)
  }

  /** When the copy loop succeeds, what it has written is what it returns. */
  lemma {:induction false} CopiedIsRead(disk: Disk, din: Dinode, off: nat, n: nat, tot: nat)
    requires Fits(din) && tot <= n
    ensures var r := ReadFrom(disk, din, off, n, tot); r.Some? ==> CopiedFrom(disk, din, off, n, tot) == r.value
    decreases n - tot
  {
    if tot < n {
      var pos := (off + tot) % U32;
      var m := Min(BSIZE - pos % BSIZE, n - tot);
      CopiedIsRead(disk, din, off, n, tot + m);
    }
  }

  /** When `inode_read` succeeds, what it has written to `dst` is what it returns. */
  lemma InodeCopiedIsRead(disk: Disk, inum: nat, off: nat, n: nat)
    requires off < U32 && n < U32
    ensures var r := InodeRead(disk, inum, off, n); r.Some? ==> InodeCopied(disk, inum, off, n) == r.value
  {
    if ValidInum(inum) {
      var din := ReadDinode(disk, inum).value;
      if off < din.size {
        var n' := Clamped(off, n, din.size);
        CopiedIsRead(disk, din, off, n', 0);
      }
    }
  }

  /** Every byte the copy loop has written, also before a failure, is the file's byte at that position. */
  lemma {:induction false} CopiedFromBytes(disk: Disk, din: Dinode, off: nat, n: nat, tot: nat)
    requires Fits(din) && tot <= n && off + n < U32
    ensures BytesAt(disk, din, off + tot, CopiedFrom(disk, din, off, n, tot))
    decreases n - tot
  {
    if tot < n {
      var m := Min(BSIZE - (off + tot) % BSIZE, n - tot);
      CopiedFromBytes(disk, din, off, n, tot + m);
      CopiedStepBytes(disk, din, off, n, tot, m, off + (tot + m), CopiedFrom(disk, din, off, n, tot + m));
    }
  }

  /** One turn of `CopiedFromBytes`: the chunk this turn copies, then what the rest of the loop wrote from `next`. */
  lemma CopiedStepBytes(disk: Disk, din: Dinode, off: nat, n: nat, tot: nat, m: nat, next: nat, rest: seq<byte>)
    requires Fits(din) && tot < n && off + n < U32
    requires m == Min(BSIZE - (off + tot) % BSIZE, n - tot) && next == off + tot + m
    requires rest == CopiedFrom(disk, din, off, n, tot + m) && BytesAt(disk, din, next, rest)
    ensures BytesAt(disk, din, off + tot, CopiedFrom(disk, din, off, n, tot))
  {
    var pos := off + tot;
    var bno := Lookup(disk, din, pos / BSIZE);
    CopiedUnfold(disk, din, off, n, tot, bno, m);
    if 0 < bno < N_BLOCKS {
      ChunkThenRest(disk, din, pos, m, next, rest);
    }
  }

  /** One turn of the copy loop as `CopiedFrom` takes it, with the position free of wrap-around. */
  lemma CopiedUnfold(disk: Disk, din: Dinode, off: nat, n: nat, tot: nat, bno: nat, m: nat)
    requires Fits(din) && tot < n && off + n < U32
    requires bno == Lookup(disk, din, (off + tot) / BSIZE) && m == Min(BSIZE - (off + tot) % BSIZE, n - tot)
    ensures var c := CopiedFrom(disk, din, off, n, tot);
      (bno == 0 || bno >= N_BLOCKS ==> c == [])
      && (0 < bno < N_BLOCKS ==>
            c == disk[bno][(off + tot) % BSIZE..(off + tot) % BSIZE + m] + CopiedFrom(disk, din, off, n, tot + m))
  {
    DivModUnique(off + tot, U32, 0, off + tot);
    var pos := (off + tot) % U32;
    assert pos == off + tot;
    assert Lookup(disk, din, pos / BSIZE) == bno;
  }

  /** One turn of the copy loop, with the position free of wrap-around and the block found through `Lookup`. */
  lemma ReadFromUnfold(disk: Disk, din: Dinode, off: nat, n: nat, tot: nat, bno: nat, m: nat)
    requires Fits(din) && tot < n && off + n < U32
    requires bno == Lookup(disk, din, (off + tot) / BSIZE) && m == Min(BSIZE - (off + tot) % BSIZE, n - tot)
    ensures var r := ReadFrom(disk, din, off, n, tot);
      (bno == 0 ==> r == Some([]))
      && (bno >= N_BLOCKS ==> r.None?)
      && (0 < bno < N_BLOCKS ==>
            (r.Some? <==> ReadFrom(disk, din, off, n, tot + m).Some?)
            && (r.Some? ==> r.value == disk[bno][(off + tot) % BSIZE..(off + tot) % BSIZE + m] + ReadFrom(disk, din, off, n, tot + m).value))
  {
    DivModUnique(off + tot, U32, 0, off + tot);
  }

  /** The file holds `s` from position `lo` on. */
  ghost predicate BytesAt(disk: Disk, din: Dinode, lo: nat, s: seq<byte>)
    requires Fits(din)
  {
    forall p: nat :: lo <= p < lo + |s| ==> ByteAt(disk, din, p) == Some(s[p - lo])
  }

  /** No byte of the file in `[lo, hi)` is missing. */
  ghost predicate Readable(disk: Disk, din: Dinode, lo: nat, hi: nat)
    requires Fits(din)
  {
    forall p :: lo <= p < hi ==> ByteAt(disk, din, p).Some?
  }

  lemma BytesAtAppend(disk: Disk, din: Dinode, lo: nat, a: seq<byte>, b: seq<byte>)
    requires Fits(din) && BytesAt(disk, din, lo, a) && BytesAt(disk, din, lo + |a|, b)
    ensures BytesAt(disk, din, lo, a + b)
  {
    forall p: nat | lo <= p < lo + |a + b| ensures ByteAt(disk, din, p) == Some((a + b)[p - lo]) {
      if p >= lo + |a| {
        assert (a + b)[p - lo] == b[p - (lo + |a|)];
      }
    }
  }

  /** Within one block, the file's bytes are the block's bytes. */
  lemma BlockBytes(disk: Disk, din: Dinode, pos: nat, m: nat)
    requires Fits(din) && pos % BSIZE + m <= BSIZE
    requires 0 < Lookup(disk, din, pos / BSIZE) < N_BLOCKS
    ensures BytesAt(disk, din, pos, disk[Lookup(disk, din, pos / BSIZE)][pos % BSIZE..pos % BSIZE + m])
  {
    var chunk := disk[Lookup(disk, din, pos / BSIZE)][pos % BSIZE..pos % BSIZE + m];
    forall p: nat | pos <= p < pos + |chunk| ensures ByteAt(disk, din, p) == Some(chunk[p - pos]) {
      DivModUnique(p, BSIZE, pos / BSIZE, pos % BSIZE + (p - pos));
    }
  }

  /** A block's bytes from `pos` followed by the file's bytes after them (from `next`) are the file's bytes from `pos`. */
  lemma ChunkThenRest(disk: Disk, din: Dinode, pos: nat, m: nat, next: nat, rest: seq<byte>)
    requires Fits(din) && pos % BSIZE + m <= BSIZE && next == pos + m
    requires 0 < Lookup(disk, din, pos / BSIZE) < N_BLOCKS
    requires BytesAt(disk, din, next, rest)
    ensures BytesAt(disk, din, pos, disk[Lookup(disk, din, pos / BSIZE)][pos % BSIZE..pos % BSIZE + m] + rest)
  {
    BlockBytes(disk, din, pos, m);
    BytesAtAppend(disk, din, pos, disk[Lookup(disk, din, pos / BSIZE)][pos % BSIZE..pos % BSIZE + m], rest);
  }

  /** Every byte the copy loop returns is the file's byte at that position. */
  lemma {:induction false} ReadFromBytes(disk: Disk, din: Dinode, off: nat, n: nat, tot: nat)
    requires Fits(din) && tot <= n && off + n < U32
    ensures var r := ReadFrom(disk, din, off, n, tot); r.Some? ==> BytesAt(disk, din, off + tot, r.value)
    decreases n - tot
  {
    if tot < n {
      var m := Min(BSIZE - (off + tot) % BSIZE, n - tot);
      ReadFromBytes(disk, din, off, n, tot + m);
      ReadStepBytes(disk, din, off, n, tot, m, off + (tot + m), ReadFrom(disk, din, off, n, tot + m));
    }
  }

  /** One turn of `ReadFromBytes`: the chunk this turn copies, then what the rest of the loop returns from `next`. */
  lemma ReadStepBytes(disk: Disk, din: Dinode, off: nat, n: nat, tot: nat, m: nat, next: nat, rest: Option<seq<byte>>)
    requires Fits(din) && tot < n && off + n < U32
    requires m == Min(BSIZE - (off + tot) % BSIZE, n - tot) && next == off + tot + m
    requires rest == ReadFrom(disk, din, off, n, tot + m)
    requires rest.Some? ==> BytesAt(disk, din, next, rest.value)
    ensures var r := ReadFrom(disk, din, off, n, tot); r.Some? ==> BytesAt(disk, din, off + tot, r.value)
  {
    var pos := off + tot;
    var bno := Lookup(disk, din, pos / BSIZE);
    ReadFromUnfold(disk, din, off, n, tot, bno, m);
    var r := ReadFrom(disk, din, off, n, tot);
    if 0 < bno < N_BLOCKS && r.Some? {
      ChunkThenRest(disk, din, pos, m, next, rest.value);
    }
  }

  /** When no byte of the range is missing, the copy loop returns all of them. */
  lemma {:induction false} ReadFromFull(disk: Disk, din: Dinode, off: nat, n: nat, tot: nat)
    requires Fits(din) && tot <= n && off + n < U32 && Readable(disk, din, off + tot, off + n)
    ensures var r := ReadFrom(disk, din, off, n, tot); r.Some? && |r.value| == n - tot
    decreases n - tot
  {
    if tot < n {
      var m := Min(BSIZE - (off + tot) % BSIZE, n - tot);
      assert ByteAt(disk, din, off + tot).Some?;
      ReadFromFull(disk, din, off, n, tot + m);
      ReadStepFull(disk, din, off, n, tot, m, ReadFrom(disk, din, off, n, tot + m));
    }
  }

  /** One turn of `ReadFromFull`: a mapped block and a complete rest give a complete read. */
  lemma ReadStepFull(disk: Disk, din: Dinode, off: nat, n: nat, tot: nat, m: nat, rest: Option<seq<byte>>)
    requires Fits(din) && tot < n && off + n < U32
    requires m == Min(BSIZE - (off + tot) % BSIZE, n - tot) && ByteAt(disk, din, off + tot).Some?
    requires rest == ReadFrom(disk, din, off, n, tot + m) && rest.Some? && |rest.value| == n - (tot + m)
    ensures var r := ReadFrom(disk, din, off, n, tot); r.Some? && |r.value| == n - tot
  {
    ReadFromUnfold(disk, din, off, n, tot, Lookup(disk, din, (off + tot) / BSIZE), m);
  }
}

=== FILE: fs_layout.dfy ===
/**
 * The on-disk format of the flat inode file system: the disk geometry, the
 * little-endian encodings of the superblock, inodes and directory entries,
 * where each inode lives in the inode table, and how file names are stored
 * in a directory entry and compared with a name being looked up.
 */
module FsLayout {
  import opened Basics
  import opened Numerals

  const BSIZE: nat := 512
  const N_BLOCKS: nat := 128
  const NINODE: nat := 32
  const SB_BLOCK: nat := 0
  const INODE_START_BLOCK: nat := 1
  const INODE_BLOCKS: nat := 4
  const BITMAP_BLOCK: nat := INODE_START_BLOCK + INODE_BLOCKS
  const DATA_START_BLOCK: nat := BITMAP_BLOCK + 1
  const NDIRECT: nat := 10
  /** Entries of the indirect block, which is read as an array of `uint32_t`. */
  const NINDIRECT: nat := BSIZE / 4
  const FS_MAX_FILES: nat := 16
  const FS_FD_BASE: nat := 3
  /** Bytes of a directory entry's name, the terminating NUL included. */
  const FS_NAME_MAX: nat := 16
  const FSS_MAGIC: nat := 0x4d4f5346

  /** The number of `uint32_t` values. */
  const U32: nat := 0x1_0000_0000
  /** `sizeof(struct dinode)`: two 16-bit fields, the size, the direct addresses and the indirect address. */
  const DINODE_SIZE: nat := 2 + 2 + 4 + 4 * NDIRECT + 4
  /** `sizeof(struct dirent)`: the inode number and the name array. */
  const DIRENT_SIZE: nat := 4 + FS_NAME_MAX
  const SUPERBLOCK_SIZE: nat := 16

  // ------------------------------------------------------- little endian

  function Pow256(k: nat): (p: nat)
    ensures p >= 1
  {
    if k == 0 then 1 else 256 * Pow256(k - 1)
  }

  lemma Pow256Values()
    ensures Pow256(2) == 0x1_0000 && Pow256(4) == U32
  {
    assert Pow256(1) == 256;
    assert Pow256(2) == 0x1_0000;
    assert Pow256(3) == 0x100_0000;
  }

  /** `n` stored little-endian in `width` bytes; a store into a narrower C field keeps the low bytes. */
  function Le(n: nat, width: nat): (bs: seq<byte>)
    ensures |bs| == width
    decreases width
  {
    if width == 0 then [] else [(n % 256) as byte] + Le(n / 256, width - 1)
  }

  /** The number that little-endian bytes hold. */
  function LeValue(bs: seq<byte>): (n: nat)
    ensures n < Pow256(|bs|)
  {
    if |bs| == 0 then 0 else bs[0] as nat + 256 * LeValue(bs[1..])
  }

  /** The low digit and the next `p`-fold digits of `n` in base `x` make up `n` modulo `x * p`. */
  lemma ModOfDiv(n: nat, x: nat, p: nat)
    requires x > 0 && p > 0
    ensures n % x + x * ((n / x) % p) == n % (x * p)
  {
    var q, r := n / x, n % x;
    var a, b := q / p, q % p;
    assert n == x * q + r;
    assert q == p * a + b;
    assert n == (x * p) * a + (x * b + r) by {
      assert x * q == x * (p * a) + x * b;
      assert x * (p * a) == (x * p) * a;
    }
    assert x * b + r < x * p by {
      assert x * b <= x * (p - 1);
    }
    DivModUnique(n, x * p, a, x * b + r);
  }

  /** Storing and loading again gives the value reduced to the field's width. */
  lemma {:induction false} LeRoundTrip(n: nat, width: nat)
    ensures LeValue(Le(n, width)) == n % Pow256(width)
    decreases width
  {
    if width > 0 {
      LeRoundTrip(n / 256, width - 1);
      assert Le(n, width)[1..] == Le(n / 256, width - 1);
      ModOfDiv(n, 256, Pow256(width - 1));
    }
  }

  /** Loading and storing again gives back the same bytes. */
  lemma {:induction false} LeOfValue(bs: seq<byte>)
    ensures Le(LeValue(bs), |bs|) == bs
  {
    if |bs| > 0 {
      var v := LeValue(bs);
      DivModUnique(v, 256, LeValue(bs[1..]), bs[0] as int);
      LeOfValue(bs[1..]);
      assert [bs[0]] + bs[1..] == bs;
    }
  }

  /** A value already within the field's width survives the round trip unchanged. */
  lemma LeExact(n: nat, width: nat)
    requires n < Pow256(width)
    ensures LeValue(Le(n, width)) == n
  {
    LeRoundTrip(n, width);
    DivModUnique(n, Pow256(width), 0, n);
  }

  /** The `uint32_t` at index `i` of a byte array (the target is little-endian). */
  function WordAt(bs: seq<byte>, i: nat): (w: nat)
    requires 4 * i + 4 <= |bs|
    ensures w < U32
  {
    Pow256Values();
    LeValue(bs[4 * i..4 * i + 4])
  }

  /** The byte array with its `uint32_t` at index `i` replaced by `v`. */
  function SetWord(bs: seq<byte>, i: nat, v: nat): (r: seq<byte>)
    requires 4 * i + 4 <= |bs|
    ensures |r| == |bs|
  {
    bs[..4 * i] + Le(v, 4) + bs[4 * i + 4..]
  }

  /** Replacing one word changes that word, to `v` reduced to 32 bits, and no other. */
  lemma WordAtSet(bs: seq<byte>, i: nat, v: nat, j: nat)
    requires 4 * i + 4 <= |bs| && 4 * j + 4 <= |bs|
    ensures WordAt(SetWord(bs, i, v), j) == if j == i then v % U32 else WordAt(bs, j)
  {
    var r := SetWord(bs, i, v);
    if j == i {
      Frame(bs[..4 * i], Le(v, 4), bs[4 * i + 4..]);
      LeRoundTrip(v, 4);
      Pow256Values();
    } else {
      assert r[4 * j..4 * j + 4] == bs[4 * j..4 * j + 4];
    }
  }

  /** Words stored one after another. */
  function Words(ws: seq<nat>): (bs: seq<byte>)
    ensures |bs| == 4 * |ws|
  {
    if |ws| == 0 then [] else Le(ws[0], 4) + Words(ws[1..])
  }

  lemma {:induction false} WordsAt(ws: seq<nat>, i: nat)
    requires i < |ws|
    ensures WordAt(Words(ws), i) == ws[i] % U32
  {
    var head := Le(ws[0], 4);
    assert Words(ws) == head + Words(ws[1..]);
    if i == 0 {
      assert Words(ws)[0..4] == head;
      LeRoundTrip(ws[0], 4);
      Pow256Values();
    } else {
      WordsAt(ws[1..], i - 1);
      WordAtShift(head, Words(ws[1..]), i - 1);
    }
  }

  /** A word behind a prefix of whole words is found that many words further on. */
  lemma WordAtShift(p: seq<byte>, w: seq<byte>, k: nat)
    requires |p| % 4 == 0 && 4 * k + 4 <= |w|
    ensures WordAt(p + w, |p| / 4 + k) == WordAt(w, k)
  {
    assert (p + w)[4 * (|p| / 4 + k)..4 * (|p| / 4 + k) + 4] == w[4 * k..4 * k + 4];
  }

  // ------------------------------------------------------------ structures

  /** `struct superblock`. */
  datatype Superblock = Superblock(magic: nat, nblocks: nat, ninodes: nat, rootInum: nat)

  function EncodeSuperblock(s: Superblock): (bs: seq<byte>)
    ensures |bs| == SUPERBLOCK_SIZE
  {
    Words([s.magic, s.nblocks, s.ninodes, s.rootInum])
  }

  function DecodeSuperblock(bs: seq<byte>): (s: Superblock)
    requires |bs| >= SUPERBLOCK_SIZE
    ensures s.magic < U32 && s.rootInum < U32
  {
    Superblock(WordAt(bs, 0), WordAt(bs, 1), WordAt(bs, 2), WordAt(bs, 3))
  }

  /** A superblock whose fields fit in 32 bits is read back as written, whatever follows it in the block. */
  lemma SuperblockRoundTrip(s: Superblock, tail: seq<byte>)
    requires s.magic < U32 && s.nblocks < U32 && s.ninodes < U32 && s.rootInum < U32
    ensures DecodeSuperblock(EncodeSuperblock(s) + tail) == s
  {
    var ws := [s.magic, s.nblocks, s.ninodes, s.rootInum];
    var bs := EncodeSuperblock(s) + tail;
    forall k | 0 <= k < 4
      ensures WordAt(bs, k) == ws[k]
    {
      WordAtShift([], EncodeSuperblock(s) + tail, k);
      assert bs[4 * k..4 * k + 4] == Words(ws)[4 * k..4 * k + 4];
      WordsAt(ws, k);
      DivModUnique(ws[k], U32, 0, ws[k]);
    }
  }

  /** `struct dinode`; `kind` is 0 for a free inode, 1 for a file and 2 for a directory. */
  datatype Dinode = Dinode(kind: nat, nlink: nat, size: nat, addrs: seq<nat>, indirect: nat)

  /** Every field within its C width, and exactly `NDIRECT` direct addresses. */
  predicate Fits(d: Dinode) {
    d.kind < 0x1_0000 && d.nlink < 0x1_0000 && d.size < U32 && d.indirect < U32
    && |d.addrs| == NDIRECT && forall i :: 0 <= i < |d.addrs| ==> d.addrs[i] < U32
  }

  /** The inode's bytes: type, link count, size, direct addresses, indirect address. */
  function EncodeDinode(d: Dinode): (bs: seq<byte>)
    requires |d.addrs| == NDIRECT
    ensures |bs| == DINODE_SIZE
  {
    Le(d.kind, 2) + Le(d.nlink, 2) + Words([d.size] + d.addrs + [d.indirect])
  }

  function DecodeDinode(bs: seq<byte>): (d: Dinode)
    requires |bs| == DINODE_SIZE
    ensures Fits(d)
  {
    Pow256Values();
    Dinode(LeValue(bs[0..2]), LeValue(bs[2..4]), WordAt(bs, 1),
           seq(NDIRECT, i requires 0 <= i < NDIRECT => WordAt(bs, 2 + i)), WordAt(bs, 2 + NDIRECT))
  }

  /** The words of an encoded inode, counted from its size field. */
  lemma DinodeWords(d: Dinode, k: nat)
    requires Fits(d) && k < NDIRECT + 2
    ensures WordAt(EncodeDinode(d), 1 + k) == ([d.size] + d.addrs + [d.indirect])[k]
  {
    var ws := [d.size] + d.addrs + [d.indirect];
    assert ws[k] < U32 by {
      if 1 <= k <= NDIRECT {
        assert ws[k] == d.addrs[k - 1];
      }
    }
    assert WordAt(EncodeDinode(d), 1 + k) == ws[k] % U32 by {
      var head := Le(d.kind, 2) + Le(d.nlink, 2);
      assert EncodeDinode(d) == head + Words(ws);
      WordAtShift(head, Words(ws), k);
      WordsAt(ws, k);
    }
    DivModUnique(ws[k], U32, 0, ws[k]);
  }

  /** An inode whose fields fit their widths is read back exactly as it was written. */
  lemma DinodeRoundTrip(d: Dinode)
    requires Fits(d)
    ensures DecodeDinode(EncodeDinode(d)) == d
  {
    Pow256Values();
    var bs := EncodeDinode(d);
    var e := DecodeDinode(bs);
    assert e.kind == d.kind && e.nlink == d.nlink by {
      assert bs[0..2] == Le(d.kind, 2) && bs[2..4] == Le(d.nlink, 2);
      LeExact(d.kind, 2);
      LeExact(d.nlink, 2);
    }
    assert e.size == d.size by {
      DinodeWords(d, 0);
    }
    assert e.indirect == d.indirect by {
      DinodeWords(d, NDIRECT + 1);
    }
    assert e.addrs == d.addrs by {
      forall i | 0 <= i < NDIRECT
        ensures e.addrs[i] == d.addrs[i]
      {
        DinodeWords(d, 1 + i);
      }
    }
  }

  /** `struct dirent`: an inode number (0 for an unused entry) and a name array of `FS_NAME_MAX` bytes. */
  datatype Dirent = Dirent(inum: nat, name: seq<byte>)

  /** An entry as it comes off the disk: a 32-bit inode number and a full name array. */
  predicate Whole(e: Dirent) {
    e.inum < U32 && |e.name| == FS_NAME_MAX
  }

  function EncodeDirent(e: Dirent): (bs: seq<byte>)
    requires |e.name| == FS_NAME_MAX
    ensures |bs| == DIRENT_SIZE
  {
    Le(e.inum, 4) + e.name
  }

  function DecodeDirent(bs: seq<byte>): (e: Dirent)
    requires |bs| == DIRENT_SIZE
    ensures Whole(e)
  {
    Pow256Values();
    Dirent(LeValue(bs[..4]), bs[4..])
  }

  /** A directory entry is read back as written, and every 20 bytes are the encoding of the entry they hold. */
  lemma DirentRoundTrip(e: Dirent, bs: seq<byte>)
    requires Whole(e)
    requires |bs| == DIRENT_SIZE
    ensures DecodeDirent(EncodeDirent(e)) == e
    ensures EncodeDirent(DecodeDirent(bs)) == bs
  {
    Pow256Values();
    SplitAppend(Le(e.inum, 4), e.name);
    LeExact(e.inum, 4);
    LeOfValue(bs[..4]);
    assert bs[..4] + bs[4..] == bs;
  }

  // ------------------------------------------------------------ inode table

  /** Where an inode's bytes start: a block of the inode table and an offset in it. */
  datatype Slot = Slot(block: nat, offset: nat)

  /** The `DINODE_SIZE` bytes from the slot's offset lie inside one block buffer. */
  predicate WithinBlock(s: Slot) {
    s.offset + DINODE_SIZE <= BSIZE
  }

  /** The inode numbers `read_dinode` and `write_dinode` accept. */
  predicate ValidInum(inum: nat) {
    0 < inum < NINODE
  }

  /**
   * The slot `read_dinode` and `write_dinode` compute: inodes packed back to
   * back across the whole table, so that some of them cross a block boundary.
   */
  function InodeSlotAsWritten(inum: nat): (s: Slot)
    requires ValidInum(inum)
    ensures INODE_START_BLOCK <= s.block < INODE_START_BLOCK + INODE_BLOCKS
    ensures (s.block - INODE_START_BLOCK) * BSIZE + s.offset == (inum - 1) * DINODE_SIZE
    ensures s.offset < BSIZE
  {
    var idx := inum - 1;
    Slot(INODE_START_BLOCK + (idx * DINODE_SIZE) / BSIZE, (idx * DINODE_SIZE) % BSIZE)
  }

  /** Exactly inodes 10, 20 and 30 run past the end of the 512-byte block buffer. */
  lemma StraddlingInodes(inum: nat)
    requires ValidInum(inum)
    ensures !WithinBlock(InodeSlotAsWritten(inum)) <==> inum == 10 || inum == 20 || inum == 30
  {
    var s := InodeSlotAsWritten(inum);
    var idx := inum - 1;
    if idx < 10 {
      DivModUnique(idx * DINODE_SIZE, BSIZE, 0, idx * DINODE_SIZE);
    } else if idx < 20 {
      DivModUnique(idx * DINODE_SIZE, BSIZE, 1, idx * DINODE_SIZE - BSIZE);
    } else if idx < 30 {
      DivModUnique(idx * DINODE_SIZE, BSIZE, 2, idx * DINODE_SIZE - 2 * BSIZE);
    } else {
      DivModUnique(idx * DINODE_SIZE, BSIZE, 3, idx * DINODE_SIZE - 3 * BSIZE);
    }
  }

  /** Inodes per block when no inode may cross a block boundary. */
  const IPB: nat := BSIZE / DINODE_SIZE

  /** The slot of inode `inum` with `IPB` whole inodes in each block of the table. */
  function InodeSlot(inum: nat): (s: Slot)
    requires ValidInum(inum)
    ensures WithinBlock(s)
    ensures INODE_START_BLOCK <= s.block < INODE_START_BLOCK + INODE_BLOCKS
  {
    var idx := inum - 1;
    Slot(INODE_START_BLOCK + idx / IPB, (idx % IPB) * DINODE_SIZE)
  }

  /** Two different inodes never share a byte of the inode table. */
  lemma SlotsDisjoint(i: nat, j: nat)
    requires ValidInum(i) && ValidInum(j) && i != j
    ensures var a, b := InodeSlot(i), InodeSlot(j);
      a.block != b.block || a.offset + DINODE_SIZE <= b.offset || b.offset + DINODE_SIZE <= a.offset
  {
    assert IPB == 9;
    var x, y := i - 1, j - 1;
    var qx, rx, qy, ry := x / 9, x % 9, y / 9, y % 9;
    assert x == 9 * qx + rx && y == 9 * qy + ry;
    if qx == qy {
      assert rx != ry;
      assert InodeSlot(i).offset == rx * 52 && InodeSlot(j).offset == ry * 52;
    }
  }

  // ------------------------------------------------------------------ names

  function ZeroBytes(k: nat): (z: seq<byte>)
    ensures |z| == k && forall i :: 0 <= i < k ==> z[i] == 0
  {
    seq(k, _ => 0)
  }

  /** The name held in a NUL-terminated array: the bytes before its first NUL. */
  function NameOf(raw: seq<byte>): (s: seq<byte>)
    ensures 0 !in s
    ensures s <= raw
    ensures |s| < |raw| ==> raw[|s|] == 0
  {
    if |raw| == 0 || raw[0] == 0 then [] else [raw[0]] + NameOf(raw[1..])
  }

  lemma {:induction false} NameOfPadded(p: seq<byte>, k: nat)
    requires 0 !in p && k > 0
    ensures NameOf(p + ZeroBytes(k)) == p
  {
    if |p| > 0 {
      assert (p + ZeroBytes(k))[1..] == p[1..] + ZeroBytes(k);
      NameOfPadded(p[1..], k);
      assert [p[0]] + p[1..] == p;
    }
  }

  /** The name array `dir_add` fills: at most `FS_NAME_MAX - 1` bytes of the name, then NULs. */
  function StoreName(name: seq<byte>): (raw: seq<byte>)
    requires 0 !in name
    ensures |raw| == FS_NAME_MAX
    ensures NameOf(raw) == Take(name, FS_NAME_MAX - 1)
  {
    var kept := Take(name, FS_NAME_MAX - 1);
    NameOfPadded(kept, FS_NAME_MAX - |kept|);
    kept + ZeroBytes(FS_NAME_MAX - |kept|)
  }

  /** `namecmp` from position `i` on, with the name being looked up read up to its terminating NUL. */
  function NameCmpFrom(a: seq<byte>, b: seq<byte>, i: nat): int
    requires |a| == FS_NAME_MAX && 0 !in b && i <= |b|
    decreases FS_NAME_MAX - i
  {
    if i >= FS_NAME_MAX then 0
    else
      var ca := a[i];
      var cb := if i < |b| then b[i] else 0;
      if ca != cb then ca as int - cb as int
      else if ca == 0 then 0
      else NameCmpFrom(a, b, i + 1)
  }

  /** `namecmp(a, b)` for a stored name array `a` and a name `b`: zero when they name the same file. */
  function NameCmp(a: seq<byte>, b: seq<byte>): int
    requires |a| == FS_NAME_MAX && 0 !in b
  {
    NameCmpFrom(a, b, 0)
  }

  /**
   * What a zero from `namecmp` means: the stored name ends inside the array
   * and equals `name`, or it fills the whole array and `name` begins with it.
   */
  predicate SameName(stored: seq<byte>, name: seq<byte>)
    requires |stored| == FS_NAME_MAX
  {
    var s := NameOf(stored);
    if |s| < FS_NAME_MAX then s == name else Take(name, FS_NAME_MAX) == stored
  }

  lemma {:induction false} NameCmpFromZero(a: seq<byte>, b: seq<byte>, i: nat)
    requires |a| == FS_NAME_MAX && 0 !in b && i <= |b| && i <= FS_NAME_MAX
    requires a[..i] == b[..i] && 0 !in a[..i]
    ensures NameCmpFrom(a, b, i) == 0 <==> SameName(a, b)
    decreases FS_NAME_MAX - i
  {
    var s := NameOf(a);
    assert |s| >= i;
    assert s[..i] == a[..i];
    if i == FS_NAME_MAX {
      assert s == a;
    } else {
      var cb := if i < |b| then b[i] else 0;
      if a[i] != cb {
        if |s| < FS_NAME_MAX {
          if i < |s| {
            assert s[i] != cb;
            assert i < |b| ==> s[i] != b[i];
          } else {
            assert |s| == i && cb != 0;
          }
        } else {
          assert Take(b, FS_NAME_MAX) != a by {
            if |b| >= FS_NAME_MAX {
              assert b[..FS_NAME_MAX][i] != a[i];
            }
          }
        }
      } else if a[i] == 0 {
        assert |s| == i && |b| == i;
        assert s == a[..i] && b == b[..i];
      } else {
        assert a[..i + 1] == b[..i + 1] by {
          assert a[..i + 1] == a[..i] + [a[i]];
          assert b[..i + 1] == b[..i] + [b[i]];
        }
        NameCmpFromZero(a, b, i + 1);
      }
    }
  }

  /** `namecmp` returns zero exactly for names `SameName` relates. */
  lemma NameCmpZero(a: seq<byte>, b: seq<byte>)
    requires |a| == FS_NAME_MAX && 0 !in b
    ensures NameCmp(a, b) == 0 <==> SameName(a, b)
  {
    NameCmpFromZero(a, b, 0);
  }

  /** A name `dir_add` stored compares equal to the name it came from exactly when it is shorter than `FS_NAME_MAX`. */
  lemma StoredNameFound(name: seq<byte>)
    requires 0 !in name
    ensures NameCmp(StoreName(name), name) == 0 <==> |name| < FS_NAME_MAX
  {
    NameCmpZero(StoreName(name), name);
  }
}

=== FILE: fs_write.dfy ===
/**
 * `inode_write`: the copy loop that maps (allocating on the way) and fills
 * the blocks under a byte range, then the size update and the write-back
 * of the inode.
 *
 * On a sound inode the loop writes exactly the bytes it was given and keeps
 * every byte of the file that was already there outside that range; a
 * failed `bmap` leaves the file's bytes as they were.
 */
module FsWrite {
  import opened Basics
  import opened Numerals
  import opened FsLayout
  import opened FsDisk
  import opened FsFile

  /** `memcpy` of `data` into a block at offset `boff`. */
  function WriteChunk(blk: Block, boff: nat, data: seq<byte>): (r: Block)
    requires boff + |data| <= BSIZE
    ensures forall i :: 0 <= i < |data| ==> r[boff + i] == data[i]
    ensures forall i :: 0 <= i < BSIZE && !(boff <= i < boff + |data|) ==> r[i] == blk[i]
  {
    blk[..boff] + data + blk[boff + |data|..]
  }

  /** The disk after `b_write` of block `b` with `data` copied in at offset `boff`. */
  function Fill(disk: Disk, b: nat, boff: nat, data: seq<byte>): (d: Disk)
    requires b < N_BLOCKS && boff + |data| <= BSIZE
  {
    disk[b := WriteChunk(disk[b], boff, data)]
  }

  /** What the copy loop leaves behind: the disk, the in-memory inode, and whether every chunk was written. */
  datatype Written = Written(disk: Disk, din: Dinode, ok: bool)

  /** The outcome of `inode_write`: the disk afterwards, and the byte count or `None` for -1. */
  datatype WriteResult = WriteResult(disk: Disk, count: Option<nat>)

  /** The inode after a completed copy loop: the size grows to the end of the write, computed in 32 bits. */
  function Grown(din: Dinode, off: nat, n: nat): (r: Dinode)
    requires Fits(din) && off < U32 && n < U32
    ensures Fits(r) && r.size >= din.size && r == din.(size := r.size)
    ensures off + n < U32 ==> r.size == Max(din.size, off + n)
  {
    var end := (off + n) % U32;
    if end > din.size then din.(size := end) else din
  }

  // ---------------------------------------------------------- failed bmap

  /** What an allocating `bmap` that returns no block leaves: nothing, or a fresh empty indirect block. */
  lemma BmapFailShape(disk: Disk, din: Dinode, fblk: nat)
    requires Sound(disk, din) && Bmap(disk, din, fblk, true).bno == 0
    ensures var r, a := Bmap(disk, din, fblk, true), Balloc(disk);
      r == Mapped(disk, din, 0)
      || (fblk < MAX_FBLK && din.indirect == 0 && a.block.Some?
          && r == Mapped(a.disk[a.block.value := ZeroBlock()], din.(indirect := a.block.value), 0))
  {
    if Lookup(disk, din, fblk) != 0 {
      BmapExisting(disk, din, fblk);
    }
  }

  /** A fresh empty indirect block maps nothing, so the file reads as before and the map stays sound. */
  lemma EmptyIndirectKeeps(disk: Disk, din: Dinode, ib: nat)
    requires Sound(disk, din) && din.indirect == 0 && Balloc(disk).block == Some(ib)
    ensures var d', din' := Balloc(disk).disk[ib := ZeroBlock()], din.(indirect := ib);
      Sound(d', din') && d'[..BITMAP_BLOCK] == disk[..BITMAP_BLOCK]
      && forall p: nat :: ByteAt(d', din', p) == ByteAt(disk, din, p)
  {
    var a := Balloc(disk);
    var d' := a.disk[ib := ZeroBlock()];
    var din' := din.(indirect := ib);
    assert d'[BITMAP_BLOCK] == a.disk[BITMAP_BLOCK];
    forall g: nat ensures Lookup(d', din', g) == Lookup(disk, din, g) {
      if NDIRECT <= g < MAX_FBLK {
        ZeroWord(g - NDIRECT);
      }
    }
    forall f | 0 <= f < MAX_FBLK && Lookup(disk, din, f) != 0
      ensures Allocated(d'[BITMAP_BLOCK], Lookup(disk, din, f)) && Lookup(disk, din, f) != ib
    {
      BallocKeeps(disk, Lookup(disk, din, f));
    }
    forall p: nat ensures ByteAt(d', din', p) == ByteAt(disk, din, p) {
      var b := Lookup(disk, din, p / BSIZE);
      if b != 0 && p / BSIZE < MAX_FBLK {
        BallocKeeps(disk, b);
      }
    }
    assert d'[..BITMAP_BLOCK] == disk[..BITMAP_BLOCK];
  }

  /** An allocating `bmap` that returns no block changes no byte of the file and keeps its map sound. */
  lemma BmapFailKeeps(disk: Disk, din: Dinode, fblk: nat)
    requires Sound(disk, din) && Bmap(disk, din, fblk, true).bno == 0
    ensures var r := Bmap(disk, din, fblk, true);
      Sound(r.disk, r.din) && r.disk[..BITMAP_BLOCK] == disk[..BITMAP_BLOCK]
      && forall p: nat :: ByteAt(r.disk, r.din, p) == ByteAt(disk, din, p)
  {
    BmapFailShape(disk, din, fblk);
    var r := Bmap(disk, din, fblk, true);
    if r != Mapped(disk, din, 0) {
      EmptyIndirectKeeps(disk, din, Balloc(disk).block.value);
    }
  }

  // ------------------------------------------------------------ the loop

  /** Every byte of the file in `disk` is still there, unchanged, in `disk'`. */
  ghost predicate KeepsMapped(disk: Disk, din: Dinode, disk': Disk, din': Dinode)
    requires Fits(din) && Fits(din')
  {
    forall p: nat :: ByteAt(disk, din, p).Some? ==> ByteAt(disk', din', p) == ByteAt(disk, din, p)
  }

  /** Every byte of the file in `disk` outside `[lo, hi)` is still there, unchanged, in `disk'`. */
  ghost predicate KeepsOutside(disk: Disk, din: Dinode, disk': Disk, din': Dinode, lo: nat, hi: nat)
    requires Fits(din) && Fits(din')
  {
    forall p: nat :: (p < lo || hi <= p) && ByteAt(disk, din, p).Some? ==> ByteAt(disk', din', p) == ByteAt(disk, din, p)
  }

  /** The file holds `src[lo..hi]` at `off + lo`: each byte of that stretch of `src` sits at its own offset from `off`. */
  ghost predicate SrcAt(disk: Disk, din: Dinode, off: nat, src: seq<byte>, lo: nat, hi: nat)
    requires Fits(din) && lo <= hi <= |src|
  {
    forall p: nat :: off + lo <= p < off + hi ==> ByteAt(disk, din, p) == Some(src[p - off])
  }

  /** An allocating `bmap` that returns a block keeps every byte the file already had. */
  lemma BmapKeepsMapped(disk: Disk, din: Dinode, fblk: nat)
    requires Sound(disk, din) && fblk < MAX_FBLK && Bmap(disk, din, fblk, true).bno != 0
    ensures var r := Bmap(disk, din, fblk, true); KeepsMapped(disk, din, r.disk, r.din)
  {
    var r := Bmap(disk, din, fblk, true);
    forall p: nat | ByteAt(disk, din, p).Some? ensures ByteAt(r.disk, r.din, p) == ByteAt(disk, din, p) {
      BmapKeepsBytes(disk, din, fblk, p);
    }
  }

  /** Writing into a mapped block keeps the map sound and the inode table as it was. */
  lemma ChunkStep(disk: Disk, din: Dinode, pos: nat, data: seq<byte>)
    requires Sound(disk, din) && pos / BSIZE < MAX_FBLK && Lookup(disk, din, pos / BSIZE) != 0
    requires pos % BSIZE + |data| <= BSIZE
    ensures var b := Lookup(disk, din, pos / BSIZE);
      b < N_BLOCKS
      && var d' := Fill(disk, b, pos % BSIZE, data);
         Sound(d', din) && d'[..BITMAP_BLOCK] == disk[..BITMAP_BLOCK]
  {
    var b := Lookup(disk, din, pos / BSIZE);
    ChunkWrite(disk, din, pos / BSIZE, WriteChunk(disk[b], pos % BSIZE, data), 0);
  }

  /** Writing `data` at file position `pos`, inside the block under it, puts `data` there. */
  lemma ChunkBytes(disk: Disk, din: Dinode, pos: nat, data: seq<byte>)
    requires Sound(disk, din) && pos / BSIZE < MAX_FBLK && Lookup(disk, din, pos / BSIZE) != 0
    requires pos % BSIZE + |data| <= BSIZE
    ensures var b := Lookup(disk, din, pos / BSIZE);
      b < N_BLOCKS && BytesAt(Fill(disk, b, pos % BSIZE, data), din, pos, data)
  {
    var b := Lookup(disk, din, pos / BSIZE);
    assert b < N_BLOCKS;
    var d' := Fill(disk, b, pos % BSIZE, data);
    assert b != din.indirect;
    forall p: nat | pos <= p < pos + |data| ensures ByteAt(d', din, p) == Some(data[p - pos]) {
      FillByte(disk, din, pos, data, p - pos);
    }
  }

  /** Writing a block other than the indirect one changes no entry of the block map. */
  lemma FillLookup(disk: Disk, din: Dinode, b: nat, boff: nat, data: seq<byte>, g: nat)
    requires Fits(din) && b < N_BLOCKS && b != din.indirect && boff + |data| <= BSIZE
    ensures Lookup(Fill(disk, b, boff, data), din, g) == Lookup(disk, din, g)
  {
    assert din.indirect < N_BLOCKS ==> Fill(disk, b, boff, data)[din.indirect] == disk[din.indirect];
  }

  /** Byte `k` of `data` written at `pos` is the file's byte at `pos + k`, as long as the block is not the indirect one. */
  lemma FillByte(disk: Disk, din: Dinode, pos: nat, data: seq<byte>, k: nat)
    requires Fits(din) && 0 < Lookup(disk, din, pos / BSIZE) < N_BLOCKS && Lookup(disk, din, pos / BSIZE) != din.indirect
    requires pos % BSIZE + |data| <= BSIZE && k < |data|
    ensures ByteAt(Fill(disk, Lookup(disk, din, pos / BSIZE), pos % BSIZE, data), din, pos + k) == Some(data[k])
  {
    var fblk, boff := pos / BSIZE, pos % BSIZE;
    var b := Lookup(disk, din, fblk);
    DivModUnique(pos + k, BSIZE, fblk, boff + k);
    FillLookup(disk, din, b, boff, data, fblk);
  }

  /** Writing `data` at file position `pos` changes no byte of the file outside `[pos, hi)`, `hi` being `pos + |data|`. */
  lemma ChunkKeeps(disk: Disk, din: Dinode, pos: nat, data: seq<byte>, hi: nat)
    requires Sound(disk, din) && pos / BSIZE < MAX_FBLK && Lookup(disk, din, pos / BSIZE) != 0
    requires pos % BSIZE + |data| <= BSIZE && hi == pos + |data|
    ensures var b := Lookup(disk, din, pos / BSIZE);
      b < N_BLOCKS && KeepsOutside(disk, din, Fill(disk, b, pos % BSIZE, data), din, pos, hi)
  {
    var fblk, boff := pos / BSIZE, pos % BSIZE;
    var b := Lookup(disk, din, fblk);
    assert b < N_BLOCKS;
    var d' := Fill(disk, b, boff, data);
    forall p: nat | (p < pos || pos + |data| <= p) && ByteAt(disk, din, p).Some?
      ensures ByteAt(d', din, p) == ByteAt(disk, din, p)
    {
      ChunkWrite(disk, din, fblk, d'[b], p);
      if p / BSIZE == fblk {
        DivModUnique(p, BSIZE, fblk, p % BSIZE);
        assert p % BSIZE < boff || boff + |data| <= p % BSIZE;
      }
    }
  }

  lemma KeepsThen(disk: Disk, din: Dinode, d1: Disk, din1: Dinode, d2: Disk, din2: Dinode, lo: nat, mid: nat, hi: nat)
    requires Fits(din) && Fits(din1) && Fits(din2)
    requires lo <= mid <= hi
    requires KeepsOutside(disk, din, d1, din1, lo, mid) && KeepsOutside(d1, din1, d2, din2, mid, hi)
    ensures KeepsOutside(disk, din, d2, din2, lo, hi)
  {
  }

  /** Keeping every byte and then every byte outside a range keeps every byte outside that range. */
  lemma MappedThen(disk: Disk, din: Dinode, d1: Disk, din1: Dinode, d2: Disk, din2: Dinode, lo: nat, hi: nat)
    requires Fits(din) && Fits(din1) && Fits(din2)
    requires KeepsMapped(disk, din, d1, din1) && KeepsOutside(d1, din1, d2, din2, lo, hi)
    ensures KeepsOutside(disk, din, d2, din2, lo, hi)
  {
  }

  /** Blocks below the bitmap, and so the inode table, are among those `Keeps` preserves. */
  lemma KeepsMeta(disk: Disk, disk': Disk, din: Dinode)
    requires Sound(disk, din) && Keeps(disk, disk', din)
    ensures disk'[..BITMAP_BLOCK] == disk[..BITMAP_BLOCK]
  {
    forall c | 0 <= c < BITMAP_BLOCK ensures disk'[c] == disk[c] {
    }
  }

  /** A turn whose `bmap` yields a block keeps the map sound and the inode table as it was. */
  lemma WriteStepSound(disk: Disk, din: Dinode, pos: nat, mp: Mapped, data: seq<byte>)
    requires Sound(disk, din) && mp == Bmap(disk, din, pos / BSIZE, true) && mp.bno != 0
    requires pos % BSIZE + |data| <= BSIZE
    ensures mp.bno < N_BLOCKS
    ensures var d' := Fill(mp.disk, mp.bno, pos % BSIZE, data);
      Sound(d', mp.din) && d'[..BITMAP_BLOCK] == disk[..BITMAP_BLOCK]
  {
    BmapStep(disk, din, pos / BSIZE);
    KeepsMeta(disk, mp.disk, din);
    ChunkStep(mp.disk, mp.din, pos, data);
  }

  /** A turn whose `bmap` yields a block changes no byte of the file outside this turn's chunk `[pos, next)`. */
  lemma WriteStepKeeps(disk: Disk, din: Dinode, pos: nat, mp: Mapped, data: seq<byte>, next: nat)
    requires Sound(disk, din) && mp == Bmap(disk, din, pos / BSIZE, true) && mp.bno != 0
    requires pos % BSIZE + |data| <= BSIZE && next == pos + |data|
    ensures mp.bno < N_BLOCKS
    ensures KeepsOutside(disk, din, Fill(mp.disk, mp.bno, pos % BSIZE, data), mp.din, pos, next)
  {
    BmapStep(disk, din, pos / BSIZE);
    BmapKeepsMapped(disk, din, pos / BSIZE);
    ChunkKeeps(mp.disk, mp.din, pos, data, next);
    MappedThen(disk, din, mp.disk, mp.din, Fill(mp.disk, mp.bno, pos % BSIZE, data), mp.din, pos, next);
  }

  /** A turn whose `bmap` yields a block leaves this turn's chunk in the file. */
  lemma WriteStepBytes(disk: Disk, din: Dinode, pos: nat, mp: Mapped, data: seq<byte>)
    requires Sound(disk, din) && mp == Bmap(disk, din, pos / BSIZE, true) && mp.bno != 0
    requires pos % BSIZE + |data| <= BSIZE
    ensures mp.bno < N_BLOCKS
    ensures BytesAt(Fill(mp.disk, mp.bno, pos % BSIZE, data), mp.din, pos, data)
  {
    BmapStep(disk, din, pos / BSIZE);
    ChunkBytes(mp.disk, mp.din, pos, data);
  }

  /** `src[lo..hi]` at `off + lo` is the same fact as `SrcAt`. */
  lemma SrcFromBytes(disk: Disk, din: Dinode, off: nat, src: seq<byte>, lo: nat, hi: nat, pos: nat, data: seq<byte>)
    requires Fits(din) && lo <= hi <= |src| && pos == off + lo && data == src[lo..hi]
    requires BytesAt(disk, din, pos, data)
    ensures SrcAt(disk, din, off, src, lo, hi)
  {
    forall p: nat | off + lo <= p < off + hi ensures ByteAt(disk, din, p) == Some(src[p - off]) {
      assert data[p - pos] == src[p - off];
    }
  }

  /** Bytes of `src` already in the file at `[off + lo, off + mid)`, kept by a change that keeps everything outside `[off + mid, off + hi)`, join the bytes it leaves at `[off + mid, off + hi)`. */
  lemma SrcJoin(disk: Disk, din: Dinode, disk': Disk, din': Dinode, off: nat, src: seq<byte>, lo: nat, mid: nat, hi: nat)
    requires Fits(din) && Fits(din') && lo <= mid <= hi <= |src|
    requires SrcAt(disk, din, off, src, lo, mid) && KeepsOutside(disk, din, disk', din', off + mid, off + hi)
    requires SrcAt(disk', din', off, src, mid, hi)
    ensures SrcAt(disk', din', off, src, lo, hi)
  {
    forall p: nat | off + lo <= p < off + hi ensures ByteAt(disk', din', p) == Some(src[p - off]) {
      if p < off + mid {
        assert ByteAt(disk, din, p) == Some(src[p - off]);
      }
    }
  }



  /** What the copy loop keeps true of a sound inode after `tot` bytes: the map is sound, the inode table untouched, the bytes outside the written range kept and `src[..tot]` in place. */
  ghost predicate Progress(disk: Disk, din: Dinode, off: nat, src: seq<byte>, tot: nat, d: Disk, dn: Dinode)
    requires Fits(din) && Fits(dn) && tot <= |src|
  {
    Sound(d, dn) && d[..BITMAP_BLOCK] == disk[..BITMAP_BLOCK]
    && KeepsOutside(disk, din, d, dn, off, off + tot)
    && SrcAt(d, dn, off, src, 0, tot)
  }

  /** The loop's progress after `tot` bytes, and a turn that writes `data`, the next `src[tot..hi]`, at `pos`, give its progress after `hi` bytes. */
  lemma ProgressStep(disk: Disk, din: Dinode, off: nat, src: seq<byte>, tot: nat, hi: nat, d: Disk, dn: Dinode, d': Disk, dn': Dinode, pos: nat, data: seq<byte>)
    requires Fits(din) && Fits(dn) && Fits(dn') && tot <= hi <= |src| && pos == off + tot && data == src[tot..hi]
    requires Progress(disk, din, off, src, tot, d, dn)
    requires Sound(d', dn') && d'[..BITMAP_BLOCK] == d[..BITMAP_BLOCK]
    requires KeepsOutside(d, dn, d', dn', pos, pos + |data|) && BytesAt(d', dn', pos, data)
    ensures Progress(disk, din, off, src, hi, d', dn')
  {
    SrcFromBytes(d', dn', off, src, tot, hi, pos, data);
    KeepsThen(disk, din, d, dn, d', dn', off, off + tot, off + hi);
    SrcJoin(d, dn, d', dn', off, src, 0, tot, hi);
  }

  /** A turn whose `bmap` yields a block carries the loop's progress over its chunk. */
  lemma LoopStep(disk: Disk, din: Dinode, off: nat, src: seq<byte>, tot: nat, d: Disk, dn: Dinode, pos: nat, mp: Mapped, m: nat)
    requires Fits(din) && Fits(dn) && tot < |src| && off + |src| < U32
    requires Progress(disk, din, off, src, tot, d, dn)
    requires pos == off + tot && mp == Bmap(d, dn, pos / BSIZE, true) && mp.bno != 0
    requires m == Min(BSIZE - pos % BSIZE, |src| - tot)
    ensures mp.bno < N_BLOCKS && pos % BSIZE + m <= BSIZE
    ensures Progress(disk, din, off, src, tot + m, Fill(mp.disk, mp.bno, pos % BSIZE, src[tot..tot + m]), mp.din)
  {
    var data := src[tot..tot + m];
    WriteStepSound(d, dn, pos, mp, data);
    WriteStepKeeps(d, dn, pos, mp, data, pos + m);
    WriteStepBytes(d, dn, pos, mp, data);
    ProgressStep(disk, din, off, src, tot, tot + m, d, dn, Fill(mp.disk, mp.bno, pos % BSIZE, data), mp.din, pos, data);
  }

  /** A turn whose `bmap` yields no usable block leaves the map sound and every byte of the file as it was. */
  lemma LoopFail(disk: Disk, din: Dinode, off: nat, src: seq<byte>, tot: nat, d: Disk, dn: Dinode, pos: nat, mp: Mapped)
    requires Fits(din) && Fits(dn) && tot < |src| && off + |src| < U32
    requires Progress(disk, din, off, src, tot, d, dn)
    requires pos == (off + tot) % U32 && mp == Bmap(d, dn, pos / BSIZE, true) && (mp.bno == 0 || mp.bno >= N_BLOCKS)
    ensures Sound(mp.disk, mp.din) && mp.disk[..BITMAP_BLOCK] == disk[..BITMAP_BLOCK]
    ensures KeepsOutside(disk, din, mp.disk, mp.din, off, off + |src|)
  {
    if pos / BSIZE < MAX_FBLK {
      BmapStep(d, dn, pos / BSIZE);
    }
    BmapFailKeeps(d, dn, pos / BSIZE);
  }

  /** A chunk at `(off + tot) % U32`, free of wrap-around, that stays in a file block below `MAX_FBLK` ends inside the largest file. */
  lemma ChunkBound(off: nat, tot: nat, n: nat, pos: nat, m: nat)
    requires tot < n && off + n < U32 && pos == (off + tot) % U32
    requires pos / BSIZE < MAX_FBLK && pos % BSIZE + m <= BSIZE
    ensures off + (tot + m) <= MAX_FBLK * BSIZE
  {
    DivModUnique(off + tot, U32, 0, off + tot);
  }

  /** One completed turn of the copy loop keeps its invariant. */
  lemma LoopTurn(disk: Disk, din: Dinode, off: nat, src: seq<byte>, sound: bool, tot: nat, d: Disk, dn: Dinode, pos: nat, mp: Mapped, m: nat)
    requires Fits(din) && Fits(dn) && tot < |src| && pos == (off + tot) % U32
    requires mp == Bmap(d, dn, pos / BSIZE, true) && 0 < mp.bno < N_BLOCKS
    requires m == Min(BSIZE - pos % BSIZE, |src| - tot)
    requires sound ==> off + |src| < U32 && Progress(disk, din, off, src, tot, d, dn)
    ensures sound ==> Progress(disk, din, off, src, tot + m, Fill(mp.disk, mp.bno, pos % BSIZE, src[tot..tot + m]), mp.din)
    ensures off + |src| < U32 ==> off + (tot + m) <= MAX_FBLK * BSIZE
  {
    if sound {
      assert pos == off + tot by {
        DivModUnique(off + tot, U32, 0, off + tot);
      }
      LoopStep(disk, din, off, src, tot, d, dn, pos, mp, m);
    }
    if off + |src| < U32 {
      assert pos / BSIZE < MAX_FBLK by {
        MappedBelowLimit(d, dn, pos / BSIZE);
      }
      ChunkBound(off, tot, |src|, pos, m);
    }
  }

  /** Only file blocks below the largest file can be mapped. */
  lemma MappedBelowLimit(d: Disk, dn: Dinode, fblk: nat)
    requires Fits(dn) && Bmap(d, dn, fblk, true).bno != 0
    ensures fblk < MAX_FBLK
  {
  }

  /**
   * The copy loop of `inode_write`. Each turn maps the file block under the
   * position (computed in 32 bits) with an allocating `bmap`, and gives up,
   * keeping what it did to the disk so far, when that yields no block or one
   * that `b_read` refuses; otherwise it copies as much of `src` as fits in
   * the rest of that block.
   *
   * On a sound inode and a range free of wrap-around the loop keeps the map
   * sound and the inode table as it was, changes no byte the file already
   * had outside the range, and, when it completes, leaves `src` there.
   * A non-empty range reaching past the largest file always fails.
   */
  method WriteLoop(disk: Disk, din: Dinode, off: nat, src: seq<byte>) returns (w: Written)
    requires Fits(din)
    ensures Fits(w.din) && w.din == din.(addrs := w.din.addrs, indirect := w.din.indirect)
    ensures Sound(disk, din) && off + |src| < U32 ==>
      Sound(w.disk, w.din) && w.disk[..BITMAP_BLOCK] == disk[..BITMAP_BLOCK]
      && KeepsOutside(disk, din, w.disk, w.din, off, off + |src|)
      && (w.ok ==> SrcAt(w.disk, w.din, off, src, 0, |src|))
    ensures |src| > 0 && MAX_FBLK * BSIZE < off + |src| < U32 ==> !w.ok
  {
    ghost var sound := Sound(disk, din) && off + |src| < U32;
    var d, dn, tot := disk, din, 0;
    while tot < |src|
      invariant tot <= |src| && Fits(dn) && dn == din.(addrs := dn.addrs, indirect := dn.indirect)
      invariant sound ==> Progress(disk, din, off, src, tot, d, dn)
      invariant off + |src| < U32 && tot > 0 ==> off + tot <= MAX_FBLK * BSIZE
      decreases |src| - tot
    {
      var pos := (off + tot) % U32;
      var mp := Bmap(d, dn, pos / BSIZE, true);
      if mp.bno == 0 || mp.bno >= N_BLOCKS {
        if sound {
          LoopFail(disk, din, off, src, tot, d, dn, pos, mp);
        }
        return Written(mp.disk, mp.din, false);
      }
      var boff := pos % BSIZE;
      var m := Min(BSIZE - boff, |src| - tot);
      LoopTurn(disk, din, off, src, sound, tot, d, dn, pos, mp, m);
      d, dn, tot := Fill(mp.disk, mp.bno, boff, src[tot..tot + m]), mp.din, tot + m;
    }
    return Written(d, dn, true);
  }

  // ---------------------------------------------------------- inode_write

  /** The inode table lies below the bitmap: a disk that keeps those blocks keeps every inode. */
  lemma InodesKept(disk: Disk, d: Disk, j: nat)
    requires d[..BITMAP_BLOCK] == disk[..BITMAP_BLOCK]
    ensures ReadDinode(d, j) == ReadDinode(disk, j)
  {
    if ValidInum(j) {
      var b := InodeSlot(j).block;
      assert d[b] == d[..BITMAP_BLOCK][b];
    }
  }

  /** Writing the inode back touches only the inode table, so neither the map nor any byte of the file changes. */
  lemma WriteBackKeeps(wd: Disk, wdin: Dinode, inum: nat, nd: Dinode)
    requires Sound(wd, wdin) && ValidInum(inum) && Fits(nd)
    requires nd.addrs == wdin.addrs && nd.indirect == wdin.indirect
    ensures var d := WriteDinode(wd, inum, nd).value;
      Sound(d, nd) && forall p: nat :: ByteAt(d, nd, p) == ByteAt(wd, wdin, p)
  {
    var d := WriteDinode(wd, inum, nd).value;
    var b := InodeSlot(inum).block;
    assert d == wd[b := d[b]];
    forall g: nat ensures Lookup(d, nd, g) == Lookup(wd, wdin, g) {
    }
    forall p: nat ensures ByteAt(d, nd, p) == ByteAt(wd, wdin, p) {
      var f := p / BSIZE;
      if f < MAX_FBLK && Lookup(wd, wdin, f) != 0 {
        assert IsDataBlock(Lookup(wd, wdin, f));
      }
    }
  }

  /** A file holding two byte strings of the same length at the same place holds the same string. */
  lemma BytesAtUnique(disk: Disk, din: Dinode, lo: nat, a: seq<byte>, b: seq<byte>)
    requires Fits(din) && |a| == |b| && BytesAt(disk, din, lo, a) && BytesAt(disk, din, lo, b)
    ensures a == b
  {
    forall k | 0 <= k < |a| ensures a[k] == b[k] {
      assert ByteAt(disk, din, lo + k) == Some(a[k]);
    }
  }

  /** Reading `|s|` bytes at `off` from a file that holds `s` there yields `s`. */
  lemma ReadBack(disk: Disk, din: Dinode, off: nat, s: seq<byte>)
    requires Fits(din) && off + |s| < U32 && SrcAt(disk, din, off, s, 0, |s|)
    ensures ReadFrom(disk, din, off, |s|, 0) == Some(s)
  {
    assert BytesAt(disk, din, off, s);
    assert Readable(disk, din, off + 0, off + |s|) by {
      forall p | off <= p < off + |s| ensures ByteAt(disk, din, p).Some? {
        assert ByteAt(disk, din, p) == Some(s[p - off]);
      }
    }
    ReadFromFull(disk, din, off, |s|, 0);
    ReadFromBytes(disk, din, off, |s|, 0);
    BytesAtUnique(disk, din, off, ReadFrom(disk, din, off, |s|, 0).value, s);
  }

  /** `inode_read` of the range just written returns what was written, once the size covers it. */
  lemma InodeReadBack(d: Disk, inum: nat, off: nat, s: seq<byte>, nd: Dinode)
    requires off + |s| < U32 && ReadDinode(d, inum) == Some(nd) && nd.size >= off + |s|
    requires SrcAt(d, nd, off, s, 0, |s|)
    ensures InodeRead(d, inum, off, |s|) == Some(s)
  {
    if off < nd.size {
      DivModUnique(off + |s|, U32, 0, off + |s|);
      ReadBack(d, nd, off, s);
    }
  }

  /**
   * What `inode_write` promises for a sound inode and a range free of
   * wrap-around: no other inode changes; on failure the inode itself is not
   * written back; on success its size covers the range, its kind and link
   * count stay, its map stays sound, no byte outside the range changes and
   * `inode_read` of the range returns `src`.
   */
  ghost predicate WriteOutcome(disk: Disk, inum: nat, off: nat, src: seq<byte>, r: WriteResult)
    requires ValidInum(inum)
  {
    var din := ReadDinode(disk, inum).value;
    (forall j :: j != inum ==> ReadDinode(r.disk, j) == ReadDinode(disk, j))
    && (r.count.None? ==> ReadDinode(r.disk, inum) == Some(din))
    && (r.count.Some? ==>
          var nd := ReadDinode(r.disk, inum).value;
          nd == din.(size := nd.size, addrs := nd.addrs, indirect := nd.indirect)
          && nd.size == Max(din.size, off + |src|)
          && Sound(r.disk, nd)
          && KeepsOutside(disk, din, r.disk, nd, off, off + |src|)
          && InodeRead(r.disk, inum, off, |src|) == Some(src))
  }

  /** A completed copy loop followed by the write-back keeps the promise of `inode_write`. */
  lemma WriteBackFacts(disk: Disk, inum: nat, off: nat, src: seq<byte>, din: Dinode, w: Written, d: Disk)
    requires ValidInum(inum) && off + |src| < U32 && ReadDinode(disk, inum) == Some(din) && Sound(disk, din)
    requires Fits(w.din) && w.din == din.(addrs := w.din.addrs, indirect := w.din.indirect)
    requires Sound(w.disk, w.din) && w.disk[..BITMAP_BLOCK] == disk[..BITMAP_BLOCK]
    requires KeepsOutside(disk, din, w.disk, w.din, off, off + |src|) && SrcAt(w.disk, w.din, off, src, 0, |src|)
    requires d == WriteDinode(w.disk, inum, Grown(w.din, off, |src|)).value
    ensures WriteOutcome(disk, inum, off, src, WriteResult(d, Some(|src|)))
  {
    var nd := Grown(w.din, off, |src|);
    WriteBackKeeps(w.disk, w.din, inum, nd);
    forall j ensures ReadDinode(d, j) == if j == inum then Some(nd) else ReadDinode(disk, j) {
      ReadAfterWrite(w.disk, inum, nd, j);
      InodesKept(disk, w.disk, j);
    }
    assert SrcAt(d, nd, off, src, 0, |src|);
    InodeReadBack(d, inum, off, src, nd);
  }

  /**
   * `inode_write`: `src` at offset `off`, both 32-bit. The inode is written
   * back only when every chunk was written; a failure part way keeps the
   * blocks already allocated and filled but not the inode that names them.
   */
  method InodeWrite(disk: Disk, inum: nat, off: nat, src: seq<byte>) returns (r: WriteResult)
    requires off < U32 && |src| < U32
    ensures !ValidInum(inum) ==> r == WriteResult(disk, None)
    ensures r.count.Some? ==> ValidInum(inum) && r.count.value == |src|
    ensures ValidInum(inum) && |src| > 0 && MAX_FBLK * BSIZE < off + |src| < U32 ==> r.count.None?
    ensures ValidInum(inum) && off + |src| < U32 && Sound(disk, ReadDinode(disk, inum).value) ==>
      WriteOutcome(disk, inum, off, src, r)
  {
    var od := ReadDinode(disk, inum);
    if od.None? {
      return WriteResult(disk, None);
    }
    var din := od.value;
    ghost var sound := off + |src| < U32 && Sound(disk, din);
    var w := WriteLoop(disk, din, off, src);
    if !w.ok {
      if sound {
        forall j ensures ReadDinode(w.disk, j) == ReadDinode(disk, j) {
          InodesKept(disk, w.disk, j);
        }
      }
      return WriteResult(w.disk, None);
    }
    var d := WriteDinode(w.disk, inum, Grown(w.din, off, |src|)).value;
    if sound {
      WriteBackFacts(disk, inum, off, src, din, w, d);
    }
    return WriteResult(d, Some(|src|));
  }
}

=== FILE: kmem.dfy ===
/**
 * The physical page allocator: one descriptor per 4 KiB page of the heap,
 * the descriptor array itself stored in the first pages, and a LIFO list of
 * free pages threaded through the descriptors. The intrusive list is modelled
 * by the sequence of page indices it visits from its head.
 */
module Kmem {
  import opened Basics
  import Numerals

  const PageSize: nat := 4096
  /** `sizeof(Page)` on the 64-bit target: a flag byte padded to a pointer, then the pointer. */
  const DescriptorSize: nat := 16

  /** `uint32_t` arithmetic wraps modulo 2^32. */
  const Word: nat := 0x1_0000_0000

  datatype PageFlag = Free | Used

  /**
   * The allocator. `contents` holds the bytes of every page the allocator has
   * zeroed; other pages hold whatever they held before.
   */
  datatype Kmem = Kmem(
    memoryStart: nat,
    totalPages: nat,
    freePages: nat,
    flags: seq<PageFlag>,
    freeList: seq<nat>,
    contents: map<nat, seq<byte>>)

  predicate Distinct(s: seq<nat>) {
    forall i, j :: 0 <= i < j < |s| ==> s[i] != s[j]
  }

  /**
   * Descriptors, free list and counter agree: the list visits each free page
   * exactly once and nothing else, and the counter is both its length and the
   * number of free descriptors.
   */
  predicate Valid(k: Kmem) {
    && |k.flags| == k.totalPages
    && Distinct(k.freeList)
    && (forall i :: 0 <= i < |k.freeList| ==> k.freeList[i] < k.totalPages)
    && (forall p :: 0 <= p < k.totalPages ==> (k.flags[p] == Free <==> p in k.freeList))
    && k.freePages == |k.freeList|
    && k.freePages == Count(k.flags, Free)
  }

  /** Pages taken by the descriptor array: the array's size rounded up to whole pages. */
  function Reserved(total: nat): (r: nat)
    ensures r <= total
    ensures total > 0 ==> r >= 1
  {
    var r := (16 * total + 4095) / 4096;
    assert 16 * total + 4095 < 4096 * (total + 1);
    r
  }

  /** `lo, lo+1, ..., hi-1`. */
  function Range(lo: nat, hi: nat): (s: seq<nat>)
    requires lo <= hi
    ensures |s| == hi - lo
    ensures forall i :: 0 <= i < |s| ==> s[i] == lo + i
    decreases hi - lo
  {
    if lo == hi then [] else [lo] + Range(lo + 1, hi)
  }

  lemma RangeMembers(lo: nat, hi: nat)
    requires lo <= hi
    ensures Distinct(Range(lo, hi))
    ensures forall p :: p in Range(lo, hi) <==> lo <= p < hi
  {
    var r := Range(lo, hi);
    forall p | lo <= p < hi ensures p in r {
      assert r[p - lo] == p;
    }
  }

  lemma {:induction false} CountUpdate<T>(s: seq<T>, i: nat, y: T, x: T)
    requires i < |s|
    ensures Count(s[i := y], x) + (if s[i] == x then 1 else 0)
            == Count(s, x) + (if y == x then 1 else 0)
    decreases |s|
  {
    if i > 0 {
      assert s[i := y][1..] == s[1..][i - 1 := y];
      CountUpdate(s[1..], i - 1, y, x);
    }
  }

  lemma {:induction false} CountSplit<T>(s: seq<T>, n: nat, x: T)
    requires n <= |s|
    ensures Count(s, x) == Count(s[..n], x) + Count(s[n..], x)
  {
    CountAppend(s[..n], s[n..], x);
    TakeDrop(s, n);
  }

  lemma {:induction false} CountAll<T>(s: seq<T>, x: T)
    requires forall i :: 0 <= i < |s| ==> s[i] == x
    ensures Count(s, x) == |s|
    decreases |s|
  {
    if |s| > 0 {
      CountAll(s[1..], x);
    }
  }

  lemma {:induction false} CountNone<T>(s: seq<T>, x: T)
    requires forall i :: 0 <= i < |s| ==> s[i] != x
    ensures Count(s, x) == 0
    decreases |s|
  {
    if |s| > 0 {
      CountNone(s[1..], x);
    }
  }

  /** The descriptor flags after `kinit`'s first two loops: all free, then the reserved ones used. */
  method InitFlags(total: nat, reserved: nat) returns (flags: seq<PageFlag>, free: nat)
    requires reserved <= total
    ensures |flags| == total && free == total - reserved
    ensures forall p :: 0 <= p < total ==> (flags[p] == Used <==> p < reserved)
    ensures Count(flags, Free) == free
  {
    flags := [];
    var i := 0;
    while i < total
      invariant 0 <= i <= total
      invariant |flags| == i
      invariant forall p :: 0 <= p < i ==> flags[p] == Free
    {
      flags := flags + [Free];
      i := i + 1;
    }
    free := total;
    i := 0;
    while i < reserved
      invariant 0 <= i <= reserved
      invariant |flags| == total && free == total - i
      invariant forall p :: 0 <= p < total ==> (flags[p] == Used <==> p < i)
    {
      flags := flags[i := Used];
      free := free - 1;
      i := i + 1;
    }
    CountSplit(flags, reserved, Free);
    CountNone(flags[..reserved], Free);
    CountAll(flags[reserved..], Free);
  }

  /** `kinit`'s last loop: push the pages from the top down, so the list ascends from its head. */
  method BuildFreeList(total: nat, reserved: nat) returns (list: seq<nat>)
    requires reserved <= total
    ensures list == Range(reserved, total)
  {
    list := [];
    var i := total;
    while i > reserved
      invariant reserved <= i <= total
      invariant list == Range(i, total)
    {
      i := i - 1;
      list := [i] + list;
    }
  }

  /**
   * Set up the allocator over the heap `[heapStart, heapEnd)`: every page
   * free, then the descriptor pages used, then the free list built from the
   * top page down so that the lowest free page ends up at its head.
   */
  method Kinit(heapStart: nat, heapEnd: nat) returns (k: Kmem)
    requires heapStart <= heapEnd
    ensures Valid(k)
    ensures k.memoryStart == heapStart
    ensures k.totalPages == ((heapEnd - heapStart) / PageSize) % 0x1_0000_0000
    ensures k.freePages == k.totalPages - Reserved(k.totalPages)
    ensures k.freeList == Range(Reserved(k.totalPages), k.totalPages)
    ensures forall p :: 0 <= p < k.totalPages ==> (k.flags[p] == Used <==> p < Reserved(k.totalPages))
  {
    var total := ((heapEnd - heapStart) / PageSize) % 0x1_0000_0000;
    if total == 0 {
      return Kmem(heapStart, 0, 0, [], [], map[]);
    }
    var reserved := Reserved(total);
    var flags, free := InitFlags(total, reserved);
    var list := BuildFreeList(total, reserved);
    RangeMembers(reserved, total);
    k := Kmem(heapStart, total, free, flags, list, map[]);
  }

  /**
   * `page_index * PAGE_SIZE` and `total_pages * PAGE_SIZE`: both operands are
   * 32-bit unsigned, so the product wraps modulo 2^32.
   */
  function Bytes32(pages: nat): (r: nat)
    ensures r < Word
    ensures pages * PageSize < Word ==> r == pages * PageSize
  {
    (pages * PageSize) % Word
  }

  /**
   * The heap has fewer than 2^20 pages, so no page offset and not the heap's
   * size wraps in 32 bits.
   */
  predicate Addressable(k: Kmem) {
    k.totalPages * PageSize < Word
  }

  /** Where `kalloc` places page `idx`: the heap start plus the 32-bit product. */
  function PageAddr(k: Kmem, idx: nat): nat {
    k.memoryStart + Bytes32(idx)
  }

  /**
   * The page whose memory `kalloc` clears when it hands out page `idx`: the
   * one at the wrapped offset. It is `idx` itself below 2^20 pages and
   * `idx` modulo 2^20 from there on.
   */
  function ClearedPage(idx: nat): (p: nat)
    ensures p * PageSize == Bytes32(idx)
    ensures p == idx % 0x10_0000
  {
    var q, r := idx / 0x10_0000, idx % 0x10_0000;
    assert idx * PageSize == Word * q + r * PageSize;
    Numerals.DivModUnique(idx * PageSize, Word, q, r * PageSize);
    Numerals.DivModUnique(Bytes32(idx), PageSize, r, 0);
    Bytes32(idx) / PageSize
  }

  /** What `kalloc` yields: the new allocator and the page address, `None` for NULL. */
  datatype Allocation = Allocation(mem: Kmem, addr: Option<nat>)

  function Zeroed(): seq<byte> {
    seq(PageSize, _ => 0)
  }

  /** Take the page at the head of the free list, mark it used and zero it. */
  function Kalloc(k: Kmem): (a: Allocation)
    requires Valid(k)
    ensures Valid(a.mem)
    ensures a.mem.totalPages == k.totalPages && a.mem.memoryStart == k.memoryStart
    ensures a.addr.None? <==> |k.freeList| == 0
    ensures a.addr.None? ==> a.mem == k
    ensures a.addr.Some? ==>
      var idx := k.freeList[0];
      && a.addr.value == PageAddr(k, idx)
      && a.mem.flags[idx] == Used
      && a.mem.freeList == k.freeList[1..]
      && a.mem.freePages == k.freePages - 1
      && a.addr.value == k.memoryStart + ClearedPage(idx) * PageSize
      && ClearedPage(idx) in a.mem.contents && a.mem.contents[ClearedPage(idx)] == Zeroed()
      && (forall p :: p in k.contents && p != ClearedPage(idx) ==>
            p in a.mem.contents && a.mem.contents[p] == k.contents[p])
      && (forall p :: 0 <= p < k.totalPages && p != idx ==> a.mem.flags[p] == k.flags[p])
  {
    if |k.freeList| == 0 then Allocation(k, None)
    else
      var idx := k.freeList[0];
      var k' := k.(flags := k.flags[idx := Used], freeList := k.freeList[1..],
                   freePages := k.freePages - 1, contents := k.contents[ClearedPage(idx) := Zeroed()]);
      assert Valid(k') by {
        CountUpdate(k.flags, idx, Used, Free);
        forall p | 0 <= p < k.totalPages
          ensures k'.flags[p] == Free <==> p in k'.freeList
        {
          if p in k.freeList && p != idx {
            var j :| 0 <= j < |k.freeList| && k.freeList[j] == p;
            assert j > 0;
            assert k'.freeList[j - 1] == p;
          }
        }
      }
      Allocation(k', Some(PageAddr(k, idx)))
  }

  /** Why `kfree` ignores an address, or `Accepted` when it frees the page. */
  datatype FreeCheck = NullAddress | OutOfRange | Misaligned | AlreadyFree | Accepted

  /** The checks `kfree` makes, in the order it makes them. */
  function CheckFree(k: Kmem, addr: nat): FreeCheck
    requires Valid(k)
  {
    if addr == 0 then NullAddress
    else if addr < k.memoryStart || addr >= k.memoryStart + Bytes32(k.totalPages) then OutOfRange
    else if (addr - k.memoryStart) % PageSize != 0 then Misaligned
    else if k.flags[(addr - k.memoryStart) / PageSize] == Free then AlreadyFree
    else Accepted
  }

  /** An address below the 32-bit bound lies in a page of the heap, whose offset did not wrap. */
  lemma PageIndexInRange(k: Kmem, addr: nat)
    requires k.memoryStart <= addr < k.memoryStart + Bytes32(k.totalPages)
    ensures (addr - k.memoryStart) / PageSize < k.totalPages
    ensures addr - k.memoryStart < Word
  {
    assert Bytes32(k.totalPages) <= k.totalPages * PageSize;
  }

  /** An address `kfree` accepts is the address `kalloc` gives its page, and that page is in use. */
  lemma AcceptedPage(k: Kmem, addr: nat)
    requires Valid(k) && CheckFree(k, addr) == Accepted
    ensures var idx := (addr - k.memoryStart) / PageSize;
      idx < k.totalPages && k.flags[idx] == Used && PageAddr(k, idx) == addr
  {
    PageIndexInRange(k, addr);
    var idx := (addr - k.memoryStart) / PageSize;
    assert addr - k.memoryStart == idx * PageSize;
  }

  /** In a heap of fewer than 2^20 pages, page `idx`'s address passes `kfree`'s range and alignment checks and names `idx` again. */
  lemma PageAddrChecks(k: Kmem, idx: nat)
    requires Addressable(k) && idx < k.totalPages
    ensures var a := PageAddr(k, idx);
      k.memoryStart <= a < k.memoryStart + Bytes32(k.totalPages)
      && (a - k.memoryStart) % PageSize == 0 && (a - k.memoryStart) / PageSize == idx
  {
    assert idx * PageSize < k.totalPages * PageSize;
    assert PageAddr(k, idx) - k.memoryStart == idx * PageSize;
  }

  /** Return a used page to the head of the free list; any other address is ignored. */
  function Kfree(k: Kmem, addr: nat): (k': Kmem)
    requires Valid(k)
    ensures Valid(k')
    ensures k'.totalPages == k.totalPages && k'.memoryStart == k.memoryStart
    ensures CheckFree(k, addr) != Accepted ==> k' == k
    ensures CheckFree(k, addr) == Accepted ==>
      var idx := (addr - k.memoryStart) / PageSize;
      && idx < k.totalPages
      && PageAddr(k, idx) == addr
      && k'.flags[idx] == Free
      && k'.freeList == [idx] + k.freeList
      && k'.freePages == k.freePages + 1
      && (forall p :: 0 <= p < k.totalPages && p != idx ==> k'.flags[p] == k.flags[p])
  {
    if CheckFree(k, addr) != Accepted then k
    else
      AcceptedPage(k, addr);
      var idx := (addr - k.memoryStart) / PageSize;
      var k' := k.(flags := k.flags[idx := Free], freeList := [idx] + k.freeList,
                   freePages := k.freePages + 1);
      assert Valid(k') by {
        CountUpdate(k.flags, idx, Free, Free);
        assert idx !in k.freeList;
        forall i, j | 0 <= i < j < |k'.freeList| ensures k'.freeList[i] != k'.freeList[j] {
          if i == 0 {
            assert k'.freeList[j] == k.freeList[j - 1];
          } else {
            assert k'.freeList[i] == k.freeList[i - 1] && k'.freeList[j] == k.freeList[j - 1];
          }
        }
        forall p | 0 <= p < k.totalPages
          ensures k'.flags[p] == Free <==> p in k'.freeList
        {
          if p in k.freeList {
            var j :| 0 <= j < |k.freeList| && k.freeList[j] == p;
            assert k'.freeList[j + 1] == p;
          }
        }
      }
      k'
  }

  /** `kfree` ignores exactly the addresses its checks reject. */
  lemma KfreeIgnores(k: Kmem, addr: nat)
    requires Valid(k)
    ensures Kfree(k, addr) == k <==> CheckFree(k, addr) != Accepted
  {
    if CheckFree(k, addr) == Accepted {
      assert |Kfree(k, addr).freeList| == |k.freeList| + 1;
    }
  }

  /** After freeing a used page, the next allocation hands that same page out. */
  lemma FreeThenAlloc(k: Kmem, addr: nat)
    requires Valid(k) && CheckFree(k, addr) == Accepted
    ensures Kalloc(Kfree(k, addr)).addr == Some(addr)
  {
    AcceptedPage(k, addr);
  }

  /**
   * Allocating a page and freeing it again restores the descriptors and the
   * free list, in a heap of fewer than 2^20 pages.
   */
  lemma AllocThenFree(k: Kmem)
    requires Valid(k) && Addressable(k) && |k.freeList| > 0 && k.memoryStart > 0
    ensures var a := Kalloc(k);
      CheckFree(a.mem, a.addr.value) == Accepted
      && Kfree(a.mem, a.addr.value).flags == k.flags
      && Kfree(a.mem, a.addr.value).freeList == k.freeList
      && Kfree(a.mem, a.addr.value).freePages == k.freePages
  {
    var a := Kalloc(k);
    var idx := k.freeList[0];
    PageAddrChecks(k, idx);
    var k' := Kfree(a.mem, a.addr.value);
    assert k'.freeList == [idx] + k.freeList[1..] == k.freeList;
    assert k'.flags == k.flags by {
      assert forall p :: 0 <= p < k.totalPages ==> k'.flags[p] == k.flags[p];
    }
  }

  /**
   * An allocation leaves every page that could be freed still freeable. In a
   * heap of fewer than 2^20 pages it also hands out an address no such page
   * has, and that address is freeable afterwards unless it is 0.
   */
  lemma KallocKeepsAccepted(k: Kmem, p: nat)
    requires Valid(k) && |k.freeList| > 0
    ensures var a := Kalloc(k);
      && (CheckFree(k, p) == Accepted ==> CheckFree(a.mem, p) == Accepted)
      && (Addressable(k) && CheckFree(k, p) == Accepted ==> p != a.addr.value)
      && (Addressable(k) && a.addr.value != 0 ==> CheckFree(a.mem, a.addr.value) == Accepted)
  {
    var a := Kalloc(k);
    var idx := k.freeList[0];
    assert k.flags[idx] == Free;
    if CheckFree(k, p) == Accepted {
      AcceptedPage(k, p);
    }
    if Addressable(k) {
      PageAddrChecks(k, idx);
    }
  }

  /**
   * The wrap-around as written: in a heap of 2^20 + 1 pages the page with
   * index 2^20 gets the address of page 0, it is page 0's memory that is
   * cleared, and `kfree` refuses every address from the second page on.
   */
  lemma WideHeapAliases(k: Kmem, addr: nat)
    requires Valid(k) && k.totalPages == 0x10_0001 && |k.freeList| > 0 && k.freeList[0] == 0x10_0000
    requires addr >= k.memoryStart + PageSize
    ensures Kalloc(k).addr == Some(k.memoryStart) == Some(PageAddr(k, 0))
    ensures Kalloc(k).mem.contents[0] == Zeroed()
    ensures 0x10_0000 in k.contents ==> Kalloc(k).mem.contents[0x10_0000] == k.contents[0x10_0000]
    ensures CheckFree(k, addr) == OutOfRange || addr == 0
  {
    assert Bytes32(0x10_0000) == 0;
    assert Bytes32(k.totalPages) == PageSize;
  }

  /** Freeing one address leaves every other freeable address freeable. */
  lemma KfreeKeepsAccepted(k: Kmem, addr: nat, p: nat)
    requires Valid(k) && CheckFree(k, p) == Accepted && p != addr
    ensures CheckFree(Kfree(k, addr), p) == Accepted
  {
    AcceptedPage(k, p);
    if CheckFree(k, addr) == Accepted {
      AcceptedPage(k, addr);
    }
  }

  /** Pages in use: the total less the free ones; the subtraction never wraps. */
  function UsedPages(k: Kmem): (n: nat)
    requires Valid(k)
    ensures n == Count(k.flags, Used)
  {
    CountPartition(k.flags);
    k.totalPages - k.freePages
  }

  lemma {:induction false} CountPartition(s: seq<PageFlag>)
    ensures Count(s, Free) + Count(s, Used) == |s|
    decreases |s|
  {
    if |s| > 0 {
      CountPartition(s[1..]);
      assert Count(s, Free) == (if s[0] == Free then 1 else 0) + Count(s[1..], Free);
      assert Count(s, Used) == (if s[0] == Used then 1 else 0) + Count(s[1..], Used);
    }
  }
}

=== FILE: kstring.dfy ===
/**
 * The kernel's byte-block primitives (`memset`, `memcpy`, `memmove`,
 * `memcmp`) over one flat memory, a sequence of bytes addressed by offset.
 * Each writing primitive returns the new memory; the pointer it returns in C
 * is always its destination argument and is not modelled.
 */
module KString {
  import opened Basics

  /** The bytes `mem[at..at+n]`. */
  function Block(mem: seq<byte>, at: nat, n: nat): seq<byte>
    requires at + n <= |mem|
  {
    mem[at..at + n]
  }

  /** `m` and `mem` agree everywhere outside `[at, at+n)`. */
  predicate SameOutside(m: seq<byte>, mem: seq<byte>, at: nat, n: nat) {
    |m| == |mem| && forall p :: 0 <= p < |mem| && !(at <= p < at + n) ==> m[p] == mem[p]
  }

  /** `mem` with the bytes from `at` on replaced by `blk`. */
  function Overwrite(mem: seq<byte>, at: nat, blk: seq<byte>): seq<byte>
    requires at + |blk| <= |mem|
  {
    mem[..at] + blk + mem[at + |blk|..]
  }

  /** A memory is the overwrite of `mem` exactly when it differs only inside the block and holds it. */
  lemma OverwriteIff(m: seq<byte>, mem: seq<byte>, at: nat, blk: seq<byte>)
    requires at + |blk| <= |mem|
    ensures m == Overwrite(mem, at, blk)
            <==> SameOutside(m, mem, at, |blk|) && m[at..at + |blk|] == blk
  {
    var o := Overwrite(mem, at, blk);
    assert |o| == |mem|;
    assert o[at..at + |blk|] == blk;
    assert forall p :: 0 <= p < at ==> o[p] == mem[p];
    assert forall p :: at + |blk| <= p < |mem| ==> o[p] == mem[p];
    if SameOutside(m, mem, at, |blk|) && m[at..at + |blk|] == blk {
      assert forall p :: at <= p < at + |blk| ==> m[p] == m[at..at + |blk|][p - at];
      assert m == o;
    }
  }

  /** The conversion `(unsigned char)c` of an `int`: its value modulo 256. */
  function ToByte(c: int): (b: byte)
    ensures b as int % 256 == c % 256
  {
    (c % 256) as byte
  }

  /** Fill `n` bytes at `s` with the low byte of `c`. */
  method Memset(mem: seq<byte>, s: nat, c: int, n: nat) returns (m: seq<byte>)
    requires s + n <= |mem|
    ensures SameOutside(m, mem, s, n)
    ensures forall p :: s <= p < s + n ==> m[p] == ToByte(c)
    ensures m == Overwrite(mem, s, seq(n, _ => ToByte(c)))
  {
    m := mem;
    var i := 0;
    while i < n
      invariant 0 <= i <= n
      invariant SameOutside(m, mem, s, i)
      invariant forall p :: s <= p < s + i ==> m[p] == ToByte(c)
    {
      m := m[s + i := ToByte(c)];
      i := i + 1;
    }
    OverwriteIff(m, mem, s, seq(n, _ => ToByte(c)));
  }

  /**
   * Copy `n` bytes from `src` to `dst`, front to back. The copy is exact when
   * the destination does not start inside the source block; otherwise the
   * loop reads bytes it has already overwritten.
   */
  method Memcpy(mem: seq<byte>, dst: nat, src: nat, n: nat) returns (m: seq<byte>)
    requires dst + n <= |mem| && src + n <= |mem|
    ensures SameOutside(m, mem, dst, n)
    ensures dst <= src || src + n <= dst ==> Block(m, dst, n) == Block(mem, src, n)
    ensures dst <= src || src + n <= dst ==> m == Overwrite(mem, dst, Block(mem, src, n))
  {
    m := mem;
    var i := 0;
    while i < n
      invariant 0 <= i <= n
      invariant SameOutside(m, mem, dst, i)
      invariant dst <= src || src + n <= dst ==> forall p :: dst <= p < dst + i ==> m[p] == mem[p - dst + src]
    {
      m := m[dst + i := m[src + i]];
      i := i + 1;
    }
    OverwriteIff(m, mem, dst, Block(mem, src, n));
  }

  /**
   * Copy `n` bytes from `src` to `dst` as if through a temporary: front to back
   * when the destination lies below the source, back to front otherwise.
   */
  method Memmove(mem: seq<byte>, dst: nat, src: nat, n: nat) returns (m: seq<byte>)
    requires dst + n <= |mem| && src + n <= |mem|
    ensures SameOutside(m, mem, dst, n)
    ensures Block(m, dst, n) == Block(mem, src, n)
    ensures m == Overwrite(mem, dst, Block(mem, src, n))
  {
    m := mem;
    if dst < src {
      var i := 0;
      while i < n
        invariant 0 <= i <= n
        invariant SameOutside(m, mem, dst, i)
        invariant forall p :: dst <= p < dst + i ==> m[p] == mem[p - dst + src]
      {
        m := m[dst + i := m[src + i]];
        i := i + 1;
      }
    } else {
      var i := n;
      while i > 0
        invariant 0 <= i <= n
        invariant |m| == |mem|
        invariant forall p :: 0 <= p < |mem| && !(dst + i <= p < dst + n) ==> m[p] == mem[p]
        invariant forall p :: dst + i <= p < dst + n ==> m[p] == mem[p - dst + src]
      {
        i := i - 1;
        m := m[dst + i := m[src + i]];
      }
    }
    OverwriteIff(m, mem, dst, Block(mem, src, n));
  }

  /** The index of the first position below `n` where `a` and `b` differ, if any. */
  function FirstDiff(a: seq<byte>, b: seq<byte>, n: nat): (k: Option<nat>)
    requires n <= |a| && n <= |b|
    ensures k.None? <==> a[..n] == b[..n]
    ensures k.Some? ==> k.value < n && a[k.value] != b[k.value] && a[..k.value] == b[..k.value]
  {
    if n == 0 then None
    else
      match FirstDiff(a, b, n - 1)
      case Some(k) =>
        assert a[..k] == a[..n - 1][..k] && b[..k] == b[..n - 1][..k];
        Some(k)
      case None =>
        if a[n - 1] != b[n - 1] then
          assert a[..n - 1] == a[..n][..n - 1] && b[..n - 1] == b[..n][..n - 1];
          Some(n - 1)
        else
          assert a[..n] == a[..n - 1] + [a[n - 1]] && b[..n] == b[..n - 1] + [b[n - 1]];
          None
  }

  /** A difference at `i` after an equal prefix is the first difference below any `n > i`. */
  lemma {:induction false} FirstDiffAt(a: seq<byte>, b: seq<byte>, i: nat, n: nat)
    requires i < n <= |a| && n <= |b|
    requires a[..i] == b[..i] && a[i] != b[i]
    ensures FirstDiff(a, b, n) == Some(i)
    decreases n
  {
    if n > i + 1 {
      FirstDiffAt(a, b, i, n - 1);
    } else {
      assert FirstDiff(a, b, i).None?;
    }
  }

  /**
   * Compare `n` bytes: zero when they are equal, otherwise the difference of
   * the first differing pair, read as unsigned bytes.
   */
  method Memcmp(a: seq<byte>, b: seq<byte>, n: nat) returns (r: int)
    requires n <= |a| && n <= |b|
    ensures r == 0 <==> a[..n] == b[..n]
    ensures FirstDiff(a, b, n).Some? ==>
      r == a[FirstDiff(a, b, n).value] as int - b[FirstDiff(a, b, n).value] as int
  {
    var i := 0;
    while i < n
      invariant 0 <= i <= n
      invariant a[..i] == b[..i]
    {
      if a[i] != b[i] {
        FirstDiffAt(a, b, i, n);
        return a[i] as int - b[i] as int;
      }
      assert a[..i + 1] == a[..i] + [a[i]] && b[..i + 1] == b[..i] + [b[i]];
      i := i + 1;
    }
    return 0;
  }
}

=== FILE: numerals.dfy ===
/**
 * Decimal and hexadecimal numerals as the kernel, the shell and the README
 * embedder write and read them: digit characters, most significant digit
 * first, lower-case hex when rendering and either case when parsing.
 */
module Numerals {

  predicate IsDigit(c: char) {
    '0' <= c <= '9'
  }

  predicate IsHexDigit(c: char) {
    IsDigit(c) || 'a' <= c <= 'f' || 'A' <= c <= 'F'
  }

  predicate AllDigits(s: string) {
    forall i :: 0 <= i < |s| ==> IsDigit(s[i])
  }

  predicate AllHexDigits(s: string) {
    forall i :: 0 <= i < |s| ==> IsHexDigit(s[i])
  }

  function DigitChar(d: nat): (c: char)
    requires d < 10
    ensures IsDigit(c)
  {
    (48 + d) as char
  }

  function DigitValue(c: char): (d: nat)
    requires IsDigit(c)
    ensures d < 10
  {
    c as int - 48
  }

  /** The lower-case hex digit for `d`, as `'0' + d` or `'a' + d - 10`. */
  function HexDigitChar(d: nat): (c: char)
    requires d < 16
    ensures IsHexDigit(c)
    ensures !('A' <= c <= 'F')
  {
    if d < 10 then (48 + d) as char else (97 + d - 10) as char
  }

  /** The value of a hex digit of either case. */
  function HexValue(c: char): (d: nat)
    requires IsHexDigit(c)
    ensures d < 16
  {
    if IsDigit(c) then c as int - 48
    else if 'a' <= c <= 'f' then 10 + (c as int - 97)
    else 10 + (c as int - 65)
  }

  lemma HexValueOfDigitChar(d: nat)
    requires d < 16
    ensures HexValue(HexDigitChar(d)) == d
  {
  }

  function Pow16(k: nat): (p: nat)
    ensures p >= 1
  {
    if k == 0 then 1 else 16 * Pow16(k - 1)
  }

  // ---------------------------------------------------------------- decimal

  /** `n` in decimal, most significant digit first; zero is `"0"`. */
  function DecimalString(n: nat): (s: string)
    ensures |s| >= 1
    ensures AllDigits(s)
    decreases n
  {
    if n < 10 then [DigitChar(n)] else DecimalString(n / 10) + [DigitChar(n % 10)]
  }

  /** The value of a string of decimal digits, folded left: `v * 10 + d`. */
  function DecimalValue(s: string): nat
    requires AllDigits(s)
  {
    if |s| == 0 then 0 else DecimalValue(s[..|s| - 1]) * 10 + DigitValue(s[|s| - 1])
  }

  lemma {:induction false} DecimalRoundTrip(n: nat)
    ensures DecimalValue(DecimalString(n)) == n
    decreases n
  {
    if n >= 10 {
      var s := DecimalString(n);
      assert s[..|s| - 1] == DecimalString(n / 10);
      DecimalRoundTrip(n / 10);
    }
  }

  /** Rendering has no superfluous leading zero. */
  lemma {:induction false} DecimalNoLeadingZero(n: nat)
    ensures DecimalString(n)[0] == '0' <==> n == 0
    decreases n
  {
    if n >= 10 {
      DecimalNoLeadingZero(n / 10);
    }
  }

  lemma DecimalValueAppend(s: string, c: char)
    requires AllDigits(s) && IsDigit(c)
    ensures AllDigits(s + [c])
    ensures DecimalValue(s + [c]) == DecimalValue(s) * 10 + DigitValue(c)
  {
    assert (s + [c])[..|s|] == s;
  }

  // ------------------------------------------------------------ hexadecimal

  /** Exactly `width` lower-case hex digits of `n mod 16^width`. */
  function HexFixed(n: nat, width: nat): (s: string)
    ensures |s| == width
    ensures AllHexDigits(s)
    decreases width
  {
    if width == 0 then [] else HexFixed(n / 16, width - 1) + [HexDigitChar(n % 16)]
  }

  /** The value of a string of hex digits, folded left: `v * 16 + d`. */
  function HexStringValue(s: string): nat
    requires AllHexDigits(s)
  {
    if |s| == 0 then 0 else HexStringValue(s[..|s| - 1]) * 16 + HexValue(s[|s| - 1])
  }

  lemma HexStringValueAppend(s: string, c: char)
    requires AllHexDigits(s) && IsHexDigit(c)
    ensures AllHexDigits(s + [c])
    ensures HexStringValue(s + [c]) == HexStringValue(s) * 16 + HexValue(c)
  {
    assert (s + [c])[..|s|] == s;
  }

  lemma MulAtLeast(m: int, d: int)
    requires m > 0 && d >= 1
    ensures m * d >= m
  {
    assert m * d == m * (d - 1) + m;
    assert m * (d - 1) >= 0;
  }

  /** Division with remainder is unique. */
  lemma DivModUnique(n: int, m: int, k: int, t: int)
    requires m > 0 && 0 <= t < m && n == m * k + t
    ensures n / m == k && n % m == t
  {
    var q := n / m;
    var r := n % m;
    assert n == m * q + r;
    var d := q - k;
    assert m * q == m * k + m * d;
    assert m * d == t - r;
    if d >= 1 {
      MulAtLeast(m, d);
    } else if d <= -1 {
      MulAtLeast(m, -d);
    }
  }

  /** Reducing modulo `m` keeps the residue modulo every divisor `d` of `m`. */
  lemma ModOfMod(x: int, m: int, d: int)
    requires d > 0 && m > 0 && m % d == 0
    ensures (x % m) % d == x % d
  {
    var t, q, r := m / d, x / m, x % m;
    DivModUnique(m, d, t, 0);
    assert m * q == d * (t * q);
    DivModUnique(x, d, t * q + r / d, r % d);
  }

  lemma ModSixteen(n: nat, p: nat)
    requires p >= 1
    ensures ((n / 16) % p) * 16 + n % 16 == n % (16 * p)
  {
    var q := n / 16;
    var r := n % 16;
    var a := q / p;
    var b := q % p;
    assert q == p * a + b;
    assert n == 16 * q + r;
    assert n == (16 * p) * a + (16 * b + r) by {
      assert 16 * q == 16 * (p * a) + 16 * b;
      assert 16 * (p * a) == (16 * p) * a;
    }
    DivModUnique(n, 16 * p, a, 16 * b + r);
  }

  lemma {:induction false} HexFixedRoundTrip(n: nat, width: nat)
    ensures HexStringValue(HexFixed(n, width)) == n % Pow16(width)
    decreases width
  {
    if width > 0 {
      var s := HexFixed(n, width);
      assert s[..|s| - 1] == HexFixed(n / 16, width - 1);
      HexFixedRoundTrip(n / 16, width - 1);
      HexValueOfDigitChar(n % 16);
      ModSixteen(n, Pow16(width - 1));
    }
  }

  /** Lower-case hex with no leading zeros, but at least one digit. */
  function HexMinimal(n: nat): (s: string)
    ensures |s| >= 1
    ensures AllHexDigits(s)
    decreases n
  {
    if n < 16 then [HexDigitChar(n)] else HexMinimal(n / 16) + [HexDigitChar(n % 16)]
  }

  lemma {:induction false} HexMinimalRoundTrip(n: nat)
    ensures HexStringValue(HexMinimal(n)) == n
    decreases n
  {
    if n < 16 {
      HexValueOfDigitChar(n);
    } else {
      var s := HexMinimal(n);
      assert s[..|s| - 1] == HexMinimal(n / 16);
      HexMinimalRoundTrip(n / 16);
      HexValueOfDigitChar(n % 16);
    }
  }

  lemma {:induction false} HexMinimalNoLeadingZero(n: nat)
    ensures HexMinimal(n)[0] == '0' <==> n == 0
    decreases n
  {
    if n >= 16 {
      HexMinimalNoLeadingZero(n / 16);
    }
  }

  /**
   * Drop leading `'0'` characters while at least one character would remain,
   * as the `%x` conversion does with its eight-digit buffer.
   */
  function StripLeadingZeros(s: string): (r: string)
    requires |s| >= 1
    ensures 1 <= |r| <= |s|
    ensures |r| >= 2 ==> r[0] != '0'
  {
    if |s| >= 2 && s[0] == '0' then StripLeadingZeros(s[1..]) else s
  }

  /** What is stripped is a run of zeros, and what remains is the rest of the string. */
  lemma {:induction false} StripShape(s: string)
    requires |s| >= 1
    ensures var r := StripLeadingZeros(s);
      r == s[|s| - |r|..] && forall i :: 0 <= i < |s| - |r| ==> s[i] == '0'
    decreases |s|
  {
    if |s| >= 2 && s[0] == '0' {
      var t := s[1..];
      StripShape(t);
      var r := StripLeadingZeros(t);
      assert t[|t| - |r|..] == s[|s| - |r|..];
      forall i | 0 <= i < |s| - |r|
        ensures s[i] == '0'
      {
        if i > 0 {
          assert s[i] == t[i - 1];
        }
      }
    }
  }

  function Zeros(k: nat): (s: string)
    ensures |s| == k
    ensures forall i :: 0 <= i < k ==> s[i] == '0'
  {
    seq(k, _ => '0')
  }

  lemma {:induction false} HexFixedZero(width: nat)
    ensures HexFixed(0, width) == Zeros(width)
    decreases width
  {
    if width > 0 {
      HexFixedZero(width - 1);
    }
  }

  /** A fixed-width rendering is the minimal one padded with zeros on the left. */
  lemma {:induction false} HexFixedIsPaddedMinimal(n: nat, width: nat)
    requires width >= 1 && n < Pow16(width)
    ensures |HexMinimal(n)| <= width
    ensures HexFixed(n, width) == Zeros(width - |HexMinimal(n)|) + HexMinimal(n)
    decreases width
  {
    if n < 16 {
      HexFixedZero(width - 1);
      assert HexFixed(n, width) == Zeros(width - 1) + [HexDigitChar(n)];
    } else {
      HexFixedIsPaddedMinimal(n / 16, width - 1);
      var h := HexMinimal(n / 16);
      assert HexFixed(n, width) == Zeros(width - 1 - |h|) + h + [HexDigitChar(n % 16)];
    }
  }

  lemma {:induction false} StripZerosOfPadded(k: nat, h: string)
    requires |h| >= 1 && (|h| == 1 || h[0] != '0')
    ensures StripLeadingZeros(Zeros(k) + h) == h
    decreases k
  {
    if k > 0 {
      assert (Zeros(k) + h)[1..] == Zeros(k - 1) + h;
      StripZerosOfPadded(k - 1, h);
    }
  }

  /** Stripping the zeros of a fixed-width rendering yields the minimal rendering. */
  lemma StrippedFixedIsMinimal(n: nat, width: nat)
    requires width >= 1 && n < Pow16(width)
    ensures StripLeadingZeros(HexFixed(n, width)) == HexMinimal(n)
  {
    HexFixedIsPaddedMinimal(n, width);
    HexMinimalNoLeadingZero(n);
    StripZerosOfPadded(width - |HexMinimal(n)|, HexMinimal(n));
  }
}

=== FILE: old_uart.dfy ===
/**
 * The earlier console driver kept beside the current one. Its `puts` is the
 * same line-feed expansion; its `printk` knows only `%d %s %x %c` and copies
 * every other character after `%`, `p` and `l` included, without consuming
 * an argument. The conversions themselves render exactly as in the current
 * driver, so they are shared with `Uart`.
 */
module OldUart {
  import opened Basics
  import opened Uart

  /** The conversion characters the older `printk` knows. */
  predicate OldTakesArg(c: char) {
    c == 'd' || c == 's' || c == 'x' || c == 'c'
  }

  /** The buffer the older `printk` fills for `fmt`, or `None` where C leaves it undefined. */
  function OldFormat(fmt: string, args: seq<Arg>): (r: Option<string>)
    decreases |fmt|
  {
    if |fmt| == 0 then Some("")
    else if fmt[0] != '%' then Cat(Some([fmt[0]]), OldFormat(fmt[1..], args))
    else if |fmt| == 1 then None
    else
      var c := fmt[1];
      if OldTakesArg(c) then
        if |args| == 0 then None else Cat(Convert(c, args[0]), OldFormat(fmt[2..], args[1..]))
      else Cat(Some([c]), OldFormat(fmt[2..], args))
  }

  /** `fmt` uses neither `%p` nor `%l`, the two conversions only the current driver has. */
  predicate OnlyOldConversions(fmt: string)
    decreases |fmt|
  {
    if |fmt| < 2 then true
    else if fmt[0] != '%' then OnlyOldConversions(fmt[1..])
    else fmt[1] != 'p' && fmt[1] != 'l' && OnlyOldConversions(fmt[2..])
  }

  /** On formats without `%p` and `%l` the two drivers fill the same buffer. */
  lemma {:induction false} OldAgrees(fmt: string, args: seq<Arg>)
    requires OnlyOldConversions(fmt)
    ensures OldFormat(fmt, args) == Format(fmt, args)
    decreases |fmt|
  {
    if |fmt| >= 2 && fmt[0] == '%' {
      if OldTakesArg(fmt[1]) {
        if |args| > 0 {
          OldAgrees(fmt[2..], args[1..]);
        }
      } else {
        OldAgrees(fmt[2..], args);
      }
    } else if |fmt| >= 1 && fmt[0] != '%' {
      OldAgrees(fmt[1..], args);
    }
  }

  /**
   * `%p` is copied as the letter `p` and leaves the argument for the next
   * conversion, where the current driver renders the argument as a pointer
   * and goes on with the arguments after it.
   */
  lemma OldEchoesPointer(rest: string, args: seq<Arg>)
    ensures OldFormat("%p" + rest, args) == Cat(Some("p"), OldFormat(rest, args))
    ensures |args| > 0 && args[0].Num? ==> Format("%p" + rest, args) == Cat(Some(Pointer(args[0].n)), Format(rest, args[1..]))
    ensures |args| == 0 ==> Format("%p" + rest, args).None?
  {
    var f := "%p" + rest;
    assert f[0] == '%' && f[1] == 'p' && f[2..] == rest;
  }

  /** What the UART receives from the older `printk`: the buffer up to its first NUL, through `puts`. */
  function OldPrintk(fmt: string, args: seq<Arg>): (out: Option<string>)
    ensures out.Some? <==> OldFormat(CString(fmt), args).Some?
    ensures out.Some? ==> '\0' !in out.value
    ensures out.Some? ==> Uncrlf(out.value) == CString(OldFormat(CString(fmt), args).value)
    ensures OnlyOldConversions(CString(fmt)) ==> out == Printk(fmt, args)
  {
    match OldFormat(CString(fmt), args)
    case None =>
      if OnlyOldConversions(CString(fmt)) then OldAgrees(CString(fmt), args); None else None
    case Some(buf) =>
      PutsInverse(CString(buf));
      PutsNoNul(CString(buf));
      if OnlyOldConversions(CString(fmt)) then OldAgrees(CString(fmt), args); Some(Puts(CString(buf)))
      else Some(Puts(CString(buf)))
  }
}

=== FILE: printk.dfy ===
/**
 * The kernel console's output side: `puts`, which turns every line feed
 * into a carriage return and line feed, and `printk`, which renders a
 * format string and its variadic arguments into a buffer and hands the
 * buffer to `puts`.
 *
 * Arguments are modelled as they sit in the variadic slots: an integer or
 * a string pointer. Each conversion reads its slot at the C type it names
 * (`int`, `unsigned int`, `unsigned long`, `uintptr_t`), so the integer is
 * reduced to that width here. Behaviour C leaves undefined (a missing
 * argument, a slot of the wrong kind, `%d` of INT_MIN, a `%` at the very
 * end of the format) makes the model return `None`.
 */
module Uart {
  import opened Basics
  import opened Numerals

  const Two32: nat := 0x1_0000_0000
  const Two64: nat := 0x1_0000_0000_0000_0000
  /** INT_MIN, the one `int` whose negation overflows. */
  const IntMin: int := -0x8000_0000

  /** A variadic argument slot: an integer of some C type, or a `char *`. */
  datatype Arg = Num(n: int) | Str(s: Option<string>)

  lemma Pow16Widths()
    ensures Pow16(8) == Two32 && Pow16(16) == Two64
  {
    assert Pow16(2) == 0x100;
    assert Pow16(4) == 0x1_0000;
    assert Pow16(6) == 0x100_0000;
    assert Pow16(8) == 0x1_0000_0000;
    assert Pow16(10) == 0x100_0000_0000;
    assert Pow16(12) == 0x1_0000_0000_0000;
    assert Pow16(14) == 0x100_0000_0000_0000;
  }

  // ------------------------------------------------------------------ puts

  /** What `puts` sends to the UART for the C string `s`. */
  function Puts(s: string): (out: string)
    ensures |out| == |s| + Count(s, '\n')
    ensures |s| > 0 ==> out[0] == (if s[0] == '\n' then '\r' else s[0])
  {
    if |s| == 0 then ""
    else (if s[0] == '\n' then "\r\n" else [s[0]]) + Puts(s[1..])
  }

  /** A terminal's reading of console output: each `"\r\n"` pair counts as one line feed. */
  function Uncrlf(t: string): (s: string)
    ensures |s| <= |t|
  {
    if |t| == 0 then ""
    else if |t| >= 2 && t[0] == '\r' && t[1] == '\n' then "\n" + Uncrlf(t[2..])
    else [t[0]] + Uncrlf(t[1..])
  }

  /** Removing the inserted carriage returns gives back exactly the string `puts` was given. */
  lemma {:induction false} PutsInverse(s: string)
    ensures Uncrlf(Puts(s)) == s
  {
    if |s| > 0 {
      PutsInverse(s[1..]);
      var rest := Puts(s[1..]);
      if s[0] == '\n' {
        assert ("\r\n" + rest)[2..] == rest;
      } else {
        assert ([s[0]] + rest)[1..] == rest;
      }
    }
  }

  /** Every line feed `puts` sends is immediately preceded by a carriage return. */
  lemma {:induction false} PutsCrBeforeLf(s: string)
    ensures forall i :: 0 <= i < |Puts(s)| && Puts(s)[i] == '\n' ==> i > 0 && Puts(s)[i - 1] == '\r'
  {
    if |s| > 0 {
      PutsCrBeforeLf(s[1..]);
      var head := if s[0] == '\n' then "\r\n" else [s[0]];
      var rest := Puts(s[1..]);
      assert Puts(s) == head + rest;
      forall i | 0 <= i < |Puts(s)| && Puts(s)[i] == '\n'
        ensures i > 0 && Puts(s)[i - 1] == '\r'
      {
        if i >= |head| {
          assert Puts(s)[i] == rest[i - |head|];
          assert i - |head| > 0;
          assert Puts(s)[i - 1] == rest[i - 1 - |head|];
        }
      }
    }
  }

  /** `puts` works character by character, so it distributes over concatenation. */
  lemma {:induction false} PutsAppend(a: string, b: string)
    ensures Puts(a + b) == Puts(a) + Puts(b)
  {
    if |a| > 0 {
      assert (a + b)[1..] == a[1..] + b;
      PutsAppend(a[1..], b);
    } else {
      assert a + b == b;
    }
  }

  // ----------------------------------------------------------- conversions

  /** The `int` a slot holds when read with `va_arg(args, int)`: its low 32 bits in two's complement. */
  function ToInt32(n: int): (i: int)
    ensures IntMin <= i < -IntMin
    ensures 0 <= n < -IntMin ==> i == n
  {
    var u := n % Two32;
    if u < 0x8000_0000 then u else u - Two32
  }

  /** `%d`: an optional minus sign, then the magnitude in decimal with no superfluous leading zero. */
  function Signed(n: int): (s: string)
    ensures |s| >= 1 && (s[0] == '-' <==> n < 0)
    ensures var digits := if n < 0 then s[1..] else s;
      |digits| >= 1 && AllDigits(digits)
      && DecimalValue(digits) == (if n < 0 then -n else n)
      && (digits[0] == '0' <==> n == 0)
  {
    var m := if n < 0 then -n else n;
    DecimalRoundTrip(m);
    DecimalNoLeadingZero(m);
    if n < 0 then "-" + DecimalString(m) else DecimalString(m)
  }

  lemma {:induction false} HexFixedLower(n: nat, width: nat)
    ensures forall i :: 0 <= i < width ==> !('A' <= HexFixed(n, width)[i] <= 'F')
    decreases width
  {
    if width > 0 {
      HexFixedLower(n / 16, width - 1);
    }
  }

  /**
   * `%x`: the `unsigned int` in eight lower-case hex digits with the leading
   * zeros stripped, keeping at least one digit.
   */
  function HexWord(n: int): (s: string)
    ensures 1 <= |s| <= 8 && AllHexDigits(s)
    ensures HexStringValue(s) == n % Two32
    ensures s[0] == '0' <==> n % Two32 == 0
    ensures s[0] == '0' ==> |s| == 1
    ensures forall i :: 0 <= i < |s| ==> !('A' <= s[i] <= 'F')
  {
    var u := n % Two32;
    var f := HexFixed(u, 8);
    Pow16Widths();
    StrippedFixedIsMinimal(u, 8);
    HexMinimalRoundTrip(u);
    HexMinimalNoLeadingZero(u);
    HexFixedLower(u, 8);
    StripShape(f);
    var s := StripLeadingZeros(f);
    assert forall i :: 0 <= i < |s| ==> s[i] == f[8 - |s| + i];
    s
  }

  /** `%p`: `0x` and then all sixteen lower-case hex digits of the 64-bit pointer. */
  function Pointer(n: int): (s: string)
    ensures |s| == 18 && s[..2] == "0x"
    ensures AllHexDigits(s[2..]) && HexStringValue(s[2..]) == n % Two64
    ensures forall i :: 2 <= i < 18 ==> !('A' <= s[i] <= 'F')
  {
    var u := n % Two64;
    PointerDigits(u);
    var h := HexFixed(u, 16);
    assert ("0x" + h)[2..] == h;
    "0x" + h
  }

  lemma PointerDigits(u: nat)
    requires u < Two64
    ensures HexStringValue(HexFixed(u, 16)) == u
    ensures forall i :: 0 <= i < 16 ==> !('A' <= HexFixed(u, 16)[i] <= 'F')
  {
    Pow16Widths();
    DivModUnique(u, Pow16(16), 0, u);
    HexFixedRoundTrip(u, 16);
    HexFixedLower(u, 16);
  }

  /** `%lu`: the `unsigned long` in decimal with no superfluous leading zero. */
  function Unsigned(n: int): (s: string)
    ensures |s| >= 1 && AllDigits(s)
    ensures DecimalValue(s) == n % Two64
    ensures s[0] == '0' <==> n % Two64 == 0
  {
    DecimalRoundTrip(n % Two64);
    DecimalNoLeadingZero(n % Two64);
    DecimalString(n % Two64)
  }

  /** `%s`: the string, or `(null)` for a NULL pointer. */
  function Text(s: Option<string>): (t: string)
    ensures '\0' !in t
    ensures s.None? ==> t == "(null)"
    ensures s.Some? ==> t <= s.value && (|t| < |s.value| ==> s.value[|t|] == '\0')
    ensures s.Some? ==> t == CString(s.value)
  {
    if s.None? then "(null)" else CString(s.value)
  }

  /** A conversion character that consumes one argument (`%lu` is spelled `u` here). */
  predicate TakesArg(c: char) {
    c == 'd' || c == 's' || c == 'p' || c == 'x' || c == 'c' || c == 'u'
  }

  /** The text one argument-consuming conversion writes, or `None` for an unusable slot. */
  function Convert(c: char, a: Arg): (r: Option<string>)
    requires TakesArg(c)
    ensures r.Some? <==> (c == 's' <==> a.Str?) && !(c == 'd' && a.Num? && ToInt32(a.n) == IntMin)
    ensures r.Some? && c == 'c' ==> |r.value| == 1 && r.value[0] as int == a.n % 256
  {
    match a
    case Str(s) => if c == 's' then Some(Text(s)) else None
    case Num(n) =>
      if c == 'd' then (if ToInt32(n) == IntMin then None else Some(Signed(ToInt32(n))))
      else if c == 'p' then Some(Pointer(n))
      else if c == 'x' then Some(HexWord(n))
      else if c == 'u' then Some(Unsigned(n))
      else if c == 'c' then Some([(n % 256) as char])
      else None
  }

  /** Concatenation of two optional texts; undefined if either part is. */
  function Cat(a: Option<string>, b: Option<string>): (r: Option<string>)
    ensures r.Some? <==> a.Some? && b.Some?
    ensures r.Some? ==> |r.value| == |a.value| + |b.value|
    ensures r.Some? ==> r.value[..|a.value|] == a.value && r.value[|a.value|..] == b.value
  {
    if a.Some? && b.Some? then Some(a.value + b.value) else None
  }

  // ---------------------------------------------------------------- printk

  /** The number of arguments the conversions of `fmt` consume. */
  function Needed(fmt: string): nat
    decreases |fmt|
  {
    if |fmt| < 2 then 0
    else if fmt[0] != '%' then Needed(fmt[1..])
    else if fmt[1] == 'l' then
      if |fmt| >= 3 && fmt[2] == 'u' then 1 + Needed(fmt[3..]) else Needed(fmt[2..])
    else if TakesArg(fmt[1]) && fmt[1] != 'u' then 1 + Needed(fmt[2..])
    else Needed(fmt[2..])
  }

  /**
   * The characters `printk` places in its buffer for the format `fmt`.
   * Ordinary characters are copied; `%d %s %p %x %c` and `%lu` convert the
   * next argument; `%l` before anything but `u` writes nothing; any other
   * character after `%` is copied.
   */
  function Format(fmt: string, args: seq<Arg>): (r: Option<string>)
    ensures r.Some? ==> Needed(fmt) <= |args|
    decreases |fmt|
  {
    if |fmt| == 0 then Some("")
    else if fmt[0] != '%' then Cat(Some([fmt[0]]), Format(fmt[1..], args))
    else if |fmt| == 1 then None
    else
      var c := fmt[1];
      if c == 'l' then
        if |fmt| >= 3 && fmt[2] == 'u' then
          if |args| == 0 then None else Cat(Convert('u', args[0]), Format(fmt[3..], args[1..]))
        else Format(fmt[2..], args)
      else if TakesArg(c) && c != 'u' then
        if |args| == 0 then None else Cat(Convert(c, args[0]), Format(fmt[2..], args[1..]))
      else Cat(Some([c]), Format(fmt[2..], args))
  }

  /** A format without `%` is copied to the buffer unchanged, whatever the arguments. */
  lemma {:induction false} PlainCopied(fmt: string, args: seq<Arg>)
    requires '%' !in fmt
    ensures Format(fmt, args) == Some(fmt)
    decreases |fmt|
  {
    if |fmt| > 0 {
      PlainCopied(fmt[1..], args);
      assert [fmt[0]] + fmt[1..] == fmt;
    }
  }

  /** Arguments beyond those the conversions consume do not affect the output. */
  lemma {:induction false} ExtraArgsIgnored(fmt: string, args: seq<Arg>, more: seq<Arg>)
    requires Format(fmt, args).Some?
    ensures Format(fmt, args + more) == Format(fmt, args)
    decreases |fmt|
  {
    if |fmt| >= 2 && fmt[0] == '%' {
      var c := fmt[1];
      if c == 'l' && |fmt| >= 3 && fmt[2] == 'u' {
        assert (args + more)[1..] == args[1..] + more;
        ExtraArgsIgnored(fmt[3..], args[1..], more);
      } else if c == 'l' {
        ExtraArgsIgnored(fmt[2..], args, more);
      } else if TakesArg(c) && c != 'u' {
        assert (args + more)[1..] == args[1..] + more;
        ExtraArgsIgnored(fmt[2..], args[1..], more);
      } else {
        ExtraArgsIgnored(fmt[2..], args, more);
      }
    } else if |fmt| >= 1 && fmt[0] != '%' {
      ExtraArgsIgnored(fmt[1..], args, more);
    }
  }

  /**
   * `%` followed by a character that is neither a conversion nor `l` copies
   * that character and consumes no argument; `%%` writes one `%`.
   */
  lemma OtherCopied(c: char, rest: string, args: seq<Arg>)
    requires c != 'l' && (!TakesArg(c) || c == 'u')
    ensures Format(['%', c] + rest, args) == Cat(Some([c]), Format(rest, args))
  {
    assert (['%', c] + rest)[2..] == rest;
  }

  lemma LiteralStep(c: char, rest: string, args: seq<Arg>)
    requires c != '%'
    ensures Format([c] + rest, args) == Cat(Some([c]), Format(rest, args))
  {
    assert ([c] + rest)[1..] == rest;
  }

  lemma CatAssoc(a: string, b: string, c: Option<string>)
    ensures Cat(Some(a), Cat(Some(b), c)) == Cat(Some(a + b), c)
  {
    if c.Some? {
      assert a + (b + c.value) == (a + b) + c.value;
    }
  }

  /** A literal prefix is copied ahead of whatever the rest of the format produces. */
  lemma {:induction false} LiteralPrefix(lit: string, fmt: string, args: seq<Arg>)
    requires '%' !in lit
    ensures Format(lit + fmt, args) == Cat(Some(lit), Format(fmt, args))
    decreases |lit|
  {
    if |lit| > 0 {
      assert lit + fmt == [lit[0]] + (lit[1..] + fmt);
      LiteralStep(lit[0], lit[1..] + fmt, args);
      LiteralPrefix(lit[1..], fmt, args);
      CatAssoc([lit[0]], lit[1..], Format(fmt, args));
      assert [lit[0]] + lit[1..] == lit;
    } else {
      assert lit + fmt == fmt;
    }
  }

  /**
   * What the UART receives: the buffer up to its first NUL (a `%c` of zero
   * ends the output early), passed through `puts`.
   */
  function Printk(fmt: string, args: seq<Arg>): (out: Option<string>)
    ensures out.Some? ==> '\0' !in out.value
    ensures out.Some? <==> Format(CString(fmt), args).Some?
    ensures out.Some? ==> Uncrlf(out.value) == CString(Format(CString(fmt), args).value)
  {
    match Format(CString(fmt), args)
    case None => None
    case Some(buf) =>
      PutsInverse(CString(buf));
      PutsNoNul(CString(buf));
      Some(Puts(CString(buf)))
  }

  lemma {:induction false} PutsNoNul(s: string)
    requires '\0' !in s
    ensures '\0' !in Puts(s)
  {
    if |s| > 0 {
      PutsNoNul(s[1..]);
    }
  }
}

=== FILE: proc.dfy ===
/**
 * The ready queue and the scheduling rule. PCBs are addressed by pointer. A
 * PCB's `next` field is kept apart from its other fields, in a map of links,
 * because only the queue operations touch it; a queue is a head, a tail and
 * a count over those links, and `Represents` ties such a linked queue to the
 * sequence of PCBs it holds, head first. A NULL pointer is `None`.
 * The context switch, interrupt masking and zombie reaping are not modelled.
 */
module Proc {
  import opened Basics
  import Kmem

  /** The address of a PCB. */
  type Ptr = nat

  datatype ProcState = Ready | Running | Blocked | Terminated

  /** The saved registers a new process starts from: the resume pc, the stack pointer, `mstatus`. */
  datatype Regs = Regs(sepc: nat, sp: nat, mstatus: nat)

  /** `mstatus` for a new process: MPP (bits 11-12) is machine mode, MPIE (bit 7) is set. */
  const InitialMstatus: nat := 0x1880

  /** The PCB fields other than the queue link. */
  datatype Pcb = Pcb(pid: int, state: ProcState, name: string, prior: int, entry: nat, stackTop: nat, regs: Regs)

  datatype Queue = Queue(head: Option<Ptr>, tail: Option<Ptr>, count: int)

  /** The `next` field of every PCB. */
  type Links = map<Ptr, Option<Ptr>>

  /** A queue (or NULL) together with the links it runs through. */
  datatype Linked = Linked(queue: Option<Queue>, links: Links)

  predicate Distinct(s: seq<Ptr>) {
    forall i, j :: 0 <= i < j < |s| ==> s[i] != s[j]
  }

  predicate InLinks(links: Links, s: seq<Ptr>) {
    forall i :: 0 <= i < |s| ==> s[i] in links
  }

  /** Each element of `s` but the last links to its successor. */
  predicate Chained(links: Links, s: seq<Ptr>)
    requires InLinks(links, s)
  {
    forall i :: 0 <= i < |s| - 1 ==> links[s[i]] == Some(s[i + 1])
  }

  /**
   * `q` over `links` is the queue `s`: the head is `s[0]`, each element links
   * to the next, the tail is the last and links to nothing, and `count` is `|s|`.
   */
  predicate Represents(q: Queue, links: Links, s: seq<Ptr>) {
    && q.count == |s|
    && Distinct(s)
    && InLinks(links, s)
    && Chained(links, s)
    && (|s| == 0 ==> q.head.None? && q.tail.None?)
    && (|s| > 0 ==> q.head == Some(s[0]) && q.tail == Some(s[|s| - 1]) && links[s[|s| - 1]].None?)
  }

  /** The linked state holds `s`: a NULL queue holds nothing. */
  predicate Holds(l: Linked, s: seq<Ptr>) {
    if l.queue.None? then s == [] else Represents(l.queue.value, l.links, s)
  }

  /** Every link and both ends of the queue point at PCBs that exist. */
  predicate Wf(l: Linked) {
    && (forall p :: p in l.links && l.links[p].Some? ==> l.links[p].value in l.links)
    && (l.queue.Some? && l.queue.value.head.Some? ==> l.queue.value.head.value in l.links)
    && (l.queue.Some? && l.queue.value.tail.Some? ==> l.queue.value.tail.value in l.links)
  }

  /** `init_procqueue`'s result: no head, no tail, count 0. */
  function EmptyQueue(): (q: Queue)
    ensures forall links :: Represents(q, links, [])
  {
    Queue(None, None, 0)
  }

  /** `enqueue`: clear the PCB's link and append it at the tail; NULL for either argument is a no-op. */
  function Enqueue(l: Linked, pcb: Option<Ptr>): (r: Linked)
    requires Wf(l) && (pcb.Some? ==> pcb.value in l.links)
    ensures Wf(r)
    ensures l.queue.None? || pcb.None? ==> r == l
    ensures r.links.Keys == l.links.Keys && r.queue.Some? == l.queue.Some?
  {
    if l.queue.None? || pcb.None? then l
    else
      var q := l.queue.value;
      var p := pcb.value;
      var links := l.links[p := None];
      if q.tail.None? then Linked(Some(Queue(Some(p), Some(p), q.count + 1)), links)
      else Linked(Some(Queue(q.head, Some(p), q.count + 1)), links[q.tail.value := Some(p)])
  }

  /** What `dequeue` leaves behind and the PCB it returns, `None` for NULL. */
  datatype Taken = Taken(linked: Linked, pcb: Option<Ptr>)

  /** `dequeue`: unlink and return the head; NULL, with nothing changed, for a NULL or empty queue. */
  function Dequeue(l: Linked): (r: Taken)
    requires Wf(l)
    ensures Wf(r.linked)
    ensures r.pcb.None? <==> l.queue.None? || l.queue.value.head.None?
    ensures r.pcb.None? ==> r.linked == l
    ensures r.pcb.Some? ==> r.pcb.value in l.links
    ensures r.linked.links.Keys == l.links.Keys && r.linked.queue.Some? == l.queue.Some?
  {
    if l.queue.None? || l.queue.value.head.None? then Taken(l, None)
    else
      var q := l.queue.value;
      var p := q.head.value;
      var head := l.links[p];
      var q' := Queue(head, if head.None? then None else q.tail, q.count - 1);
      Taken(Linked(Some(q'), l.links[p := None]), Some(p))
  }

  // ------------------------------------------------------------ queue refinement

  /** Linking a new last element after the old last one extends the chain. */
  lemma ChainAppend(links: Links, s: seq<Ptr>, p: Ptr)
    requires |s| > 0 && Distinct(s) && InLinks(links, s) && Chained(links, s) && p in links && p !in s
    ensures var l2 := links[p := None][s[|s| - 1] := Some(p)];
      && Distinct(s + [p]) && InLinks(l2, s + [p]) && Chained(l2, s + [p]) && l2[p].None?
  {
    var t := s[|s| - 1];
    var l2 := links[p := None][t := Some(p)];
    var s' := s + [p];
    assert forall i :: 0 <= i < |s| ==> s'[i] == s[i];
    assert forall i :: 0 <= i < |s| - 1 ==> s[i] != t && s[i] != p && l2[s[i]] == links[s[i]];
    assert forall i :: 0 <= i < |s'| - 1 ==> l2[s'[i]] == Some(s'[i + 1]);
  }

  /** Appending a PCB that is not queued yields the queue with that PCB at the end. */
  lemma EnqueueAppends(l: Linked, s: seq<Ptr>, p: Ptr)
    requires Wf(l) && Holds(l, s) && p in l.links && p !in s
    ensures Holds(Enqueue(l, Some(p)), if l.queue.None? then s else s + [p])
  {
    if l.queue.Some? {
      if |s| > 0 {
        ChainAppend(l.links, s, p);
        assert Enqueue(l, Some(p)).links == l.links[p := None][s[|s| - 1] := Some(p)];
      } else {
        assert [] + [p] == [p];
      }
    }
  }

  /** Taking from a queue: nothing from an empty one, otherwise its first PCB, leaving the rest. */
  lemma DequeueTakesHead(l: Linked, s: seq<Ptr>)
    requires Wf(l) && Holds(l, s)
    ensures var r := Dequeue(l);
      && (|s| == 0 ==> r.pcb.None? && r.linked == l)
      && (|s| > 0 ==> r.pcb == Some(s[0]) && Holds(r.linked, s[1..]))
      && (|s| == 1 ==> r.linked.queue == Some(Queue(None, None, 0)))
  {
    if |s| > 0 {
      var r := Dequeue(l);
      var p := s[0];
      var s' := s[1..];
      var links := l.links[p := None];
      assert r.linked.links == links;
      assert |s| > 1 ==> l.links[p] == Some(s[1]);
      assert |s'| > 0 ==> s'[|s'| - 1] == s[|s| - 1];
      assert forall i :: 0 <= i < |s'| ==> s'[i] == s[i + 1] && s[i + 1] != p;
      assert forall i :: 0 <= i < |s'| - 1 ==> links[s'[i]] == Some(s'[i + 1]);
      assert Represents(r.linked.queue.value, links, s');
    }
  }

  /** The queue is first in, first out: an appended PCB comes out after everything queued before it. */
  lemma {:induction false} FirstInFirstOut(l: Linked, s: seq<Ptr>, p: Ptr)
    requires Wf(l) && Holds(l, s) && l.queue.Some? && p in l.links && p !in s
    ensures Dequeue(Enqueue(l, Some(p))).pcb == Some(if |s| == 0 then p else s[0])
  {
    EnqueueAppends(l, s, p);
    DequeueTakesHead(Enqueue(l, Some(p)), s + [p]);
  }

  /** Adding a PCB that does not exist yet leaves every queue over the links intact. */
  lemma HoldsFrame(l: Linked, s: seq<Ptr>, p: Ptr, next: Option<Ptr>)
    requires Holds(l, s) && p !in l.links
    ensures Holds(Linked(l.queue, l.links[p := next]), s)
  {
    assert forall i :: 0 <= i < |s| ==> s[i] != p;
  }

  // ------------------------------------------------------------ creation

  /**
   * The scheduler's globals: the ready queue and the links, the PCBs, the
   * current and idle processes, and the next pid to hand out.
   */
  datatype Scheduler = Scheduler(ready: Option<Queue>, links: Links, pcbs: map<Ptr, Pcb>,
                                 current: Option<Ptr>, idle: Option<Ptr>, nextPid: int)

  function LinkedOf(st: Scheduler): Linked {
    Linked(st.ready, st.links)
  }

  /** Every PCB sits in a page the allocator has handed out. */
  predicate Owned(ptrs: set<Ptr>, k: Kmem.Kmem)
    requires Kmem.Valid(k)
  {
    forall p :: p in ptrs ==> Kmem.CheckFree(k, p) == Kmem.Accepted
  }

  /**
   * Allocating a page keeps every owned page owned, and in a heap whose page
   * offsets do not wrap it hands out a page not owned before.
   */
  lemma OwnedAfterKalloc(ptrs: set<Ptr>, k: Kmem.Kmem)
    requires Kmem.Valid(k) && Kmem.Addressable(k) && |k.freeList| > 0 && Owned(ptrs, k)
    ensures var a := Kmem.Kalloc(k);
      && Owned(ptrs, a.mem)
      && a.addr.value !in ptrs
      && (a.addr.value != 0 ==> Kmem.CheckFree(a.mem, a.addr.value) == Kmem.Accepted)
      && (a.addr.value != 0 ==> Owned(ptrs + {a.addr.value}, a.mem))
  {
    var a := Kmem.Kalloc(k);
    forall p | p in ptrs ensures Kmem.CheckFree(a.mem, p) == Kmem.Accepted && p != a.addr.value {
      Kmem.KallocKeepsAccepted(k, p);
    }
    Kmem.KallocKeepsAccepted(k, a.addr.value);
  }

  /** Freeing a page that is not owned keeps every owned page owned. */
  lemma OwnedAfterKfree(ptrs: set<Ptr>, k: Kmem.Kmem, addr: nat)
    requires Kmem.Valid(k) && Owned(ptrs, k) && addr !in ptrs
    ensures Owned(ptrs, Kmem.Kfree(k, addr))
  {
    forall p | p in ptrs ensures Kmem.CheckFree(Kmem.Kfree(k, addr), p) == Kmem.Accepted {
      Kmem.KfreeKeepsAccepted(k, addr, p);
    }
  }

  /** The name `proc_create` stores: at most 19 characters of the given C string, none for NULL. */
  function StoredName(name: Option<string>): (n: string)
    ensures |n| <= 19
    ensures name.None? ==> n == ""
    ensures name.Some? ==> n <= name.value && |n| == Min(|name.value|, 19)
  {
    if name.None? then "" else Take(name.value, 19)
  }

  /** The scheduler's globals name PCBs that exist, with one link per PCB. */
  predicate SchedWf(st: Scheduler) {
    && Wf(LinkedOf(st))
    && st.links.Keys == st.pcbs.Keys
    && (st.idle.Some? ==> st.idle.value in st.pcbs)
    && (st.current.Some? ==> st.current.value in st.pcbs)
  }

  /** What `proc_create` yields: the new globals and allocator, and the new PCB or `None` for NULL. */
  datatype Created = Created(sched: Scheduler, mem: Kmem.Kmem, pcb: Option<Ptr>)

  /** The PCB `proc_create` builds once both of its pages are allocated. */
  function NewPcb(pid: int, name: Option<string>, prior: int, entry: nat, stack: nat): (pcb: Pcb)
    ensures pcb.state == Ready && pcb.stackTop == stack + Kmem.PageSize
    ensures pcb.regs == Regs(entry, pcb.stackTop, InitialMstatus)
  {
    var top := stack + Kmem.PageSize;
    Pcb(pid, Ready, StoredName(name), prior, entry, top, Regs(entry, top, InitialMstatus))
  }

  /**
   * `proc_create`: allocate a PCB and a stack page, fill in the PCB and append
   * it to the ready queue. The pid is consumed as soon as the PCB page is
   * allocated, even when the stack allocation then fails and the PCB page is
   * given back.
   */
  method ProcCreate(st: Scheduler, k: Kmem.Kmem, ghost s: seq<Ptr>, name: Option<string>, entry: nat, prior: int)
    returns (r: Created)
    requires Kmem.Valid(k) && Kmem.Addressable(k) && Owned(st.pcbs.Keys, k) && SchedWf(st) && Holds(LinkedOf(st), s)
    ensures Kmem.Valid(r.mem) && Owned(r.sched.pcbs.Keys, r.mem) && SchedWf(r.sched)
    ensures r.sched.current == st.current && r.sched.idle == st.idle
    ensures st.ready.None? || |k.freeList| == 0 ==> r == Created(st, k, None)
    ensures r.sched.nextPid == st.nextPid || r.sched.nextPid == st.nextPid + 1
    ensures r.pcb.None? ==> r.sched == st.(nextPid := r.sched.nextPid)
    ensures r.pcb.Some? ==> Accepted(st, s, r, name, entry, prior)
  {
    if st.ready.None? || |k.freeList| == 0 {
      return Created(st, k, None);
    }
    var a := Kmem.Kalloc(k);
    OwnedAfterKalloc(st.pcbs.Keys, k);
    if a.addr.value == 0 {
      return Created(st, a.mem, None);
    }
    r := CreateWithPage(st, a.mem, s, a.addr.value, name, entry, prior);
  }

  /** What a successful `proc_create` promises about the PCB it returns. */
  predicate Accepted(st: Scheduler, s: seq<Ptr>, r: Created, name: Option<string>, entry: nat, prior: int)
    requires Kmem.Valid(r.mem) && r.pcb.Some?
  {
    var p := r.pcb.value;
    && st.ready.Some?
    && p !in st.pcbs
    && r.sched.nextPid == st.nextPid + 1
    && p in r.sched.pcbs
    && r.sched.pcbs[p].stackTop >= Kmem.PageSize
    && r.sched.pcbs == st.pcbs[p := NewPcb(st.nextPid, name, prior, entry, r.sched.pcbs[p].stackTop - Kmem.PageSize)]
    && Kmem.CheckFree(r.mem, r.sched.pcbs[p].stackTop - Kmem.PageSize) == Kmem.Accepted
    && Holds(LinkedOf(r.sched), s + [p])
  }

  /** The rest of `proc_create` once the PCB page `p` is allocated: take the pid, allocate the stack, admit. */
  method CreateWithPage(st: Scheduler, m: Kmem.Kmem, ghost s: seq<Ptr>, p: Ptr, name: Option<string>, entry: nat, prior: int)
    returns (r: Created)
    requires Kmem.Valid(m) && Kmem.Addressable(m) && Owned(st.pcbs.Keys, m) && SchedWf(st) && Holds(LinkedOf(st), s)
    requires st.ready.Some? && p !in st.pcbs && p != 0 && Kmem.CheckFree(m, p) == Kmem.Accepted
    ensures Kmem.Valid(r.mem) && Owned(r.sched.pcbs.Keys, r.mem) && SchedWf(r.sched)
    ensures r.sched.current == st.current && r.sched.idle == st.idle && r.sched.nextPid == st.nextPid + 1
    ensures r.pcb.None? ==> r.sched == st.(nextPid := st.nextPid + 1)
    ensures r.pcb.Some? ==> r.pcb == Some(p) && Accepted(st, s, r, name, entry, prior)
  {
    var ptrs := st.pcbs.Keys + {p};
    if |m.freeList| == 0 {
      r := GiveBack(st, m, p);
      return;
    }
    var b := Kmem.Kalloc(m);
    OwnedAfterKalloc(ptrs, m);
    if b.addr.value == 0 {
      r := GiveBack(st, b.mem, p);
      return;
    }
    r := Finish(st, b.mem, s, p, b.addr.value, name, entry, prior);
  }

  /** The failure path once the pid is taken: free the PCB page and return NULL. */
  method GiveBack(st: Scheduler, m: Kmem.Kmem, p: Ptr) returns (r: Created)
    requires Kmem.Valid(m) && Owned(st.pcbs.Keys, m) && SchedWf(st) && p !in st.pcbs
    ensures Kmem.Valid(r.mem) && Owned(r.sched.pcbs.Keys, r.mem) && SchedWf(r.sched)
    ensures r == Created(st.(nextPid := st.nextPid + 1), Kmem.Kfree(m, p), None)
  {
    OwnedAfterKfree(st.pcbs.Keys, m, p);
    r := Created(st.(nextPid := st.nextPid + 1), Kmem.Kfree(m, p), None);
  }

  /** The success path: fill in the PCB with the stack page `stack` and admit it. */
  method Finish(st: Scheduler, m: Kmem.Kmem, ghost s: seq<Ptr>, p: Ptr, stack: nat, name: Option<string>,
                entry: nat, prior: int)
    returns (r: Created)
    requires Kmem.Valid(m) && Owned(st.pcbs.Keys + {p}, m) && SchedWf(st) && Holds(LinkedOf(st), s)
    requires st.ready.Some? && p !in st.pcbs && Kmem.CheckFree(m, stack) == Kmem.Accepted
    ensures Kmem.Valid(r.mem) && Owned(r.sched.pcbs.Keys, r.mem) && SchedWf(r.sched)
    ensures r.sched.current == st.current && r.sched.idle == st.idle
    ensures r.pcb == Some(p) && Accepted(st, s, r, name, entry, prior)
  {
    var pcb := NewPcb(st.nextPid, name, prior, entry, stack);
    var next := Admit(st, p, pcb).(nextPid := st.nextPid + 1);
    AdmitNext(st, s, p, pcb);
    assert next.pcbs[p].stackTop - Kmem.PageSize == stack;
    r := Created(next, m, Some(p));
  }

  /** Add a new PCB and append it to the ready queue, the tail of `proc_create`. */
  function Admit(st: Scheduler, p: Ptr, pcb: Pcb): (r: Scheduler)
    requires SchedWf(st) && p !in st.pcbs
    ensures SchedWf(r)
    ensures r.pcbs == st.pcbs[p := pcb] && r == r.(current := st.current, idle := st.idle, nextPid := st.nextPid)
  {
    var l := Enqueue(Linked(st.ready, st.links[p := None]), Some(p));
    st.(ready := l.queue, links := l.links, pcbs := st.pcbs[p := pcb])
  }

  /** A PCB added by `Admit` joins the end of the ready queue, if there is one. */
  lemma AdmitAppends(st: Scheduler, s: seq<Ptr>, p: Ptr, pcb: Pcb)
    requires SchedWf(st) && p !in st.pcbs && Holds(LinkedOf(st), s)
    ensures Holds(LinkedOf(Admit(st, p, pcb)), if st.ready.None? then s else s + [p])
  {
    HoldsFrame(LinkedOf(st), s, p, None);
    EnqueueAppends(Linked(st.ready, st.links[p := None]), s, p);
  }

  /** The scheduler `proc_create` leaves: the PCB admitted at the end of the ready queue, and the pid taken. */
  lemma AdmitNext(st: Scheduler, s: seq<Ptr>, p: Ptr, pcb: Pcb)
    requires SchedWf(st) && p !in st.pcbs && Holds(LinkedOf(st), s) && st.ready.Some?
    ensures var next := Admit(st, p, pcb).(nextPid := st.nextPid + 1);
      && SchedWf(next) && next.pcbs == st.pcbs[p := pcb] && next.pcbs.Keys == st.pcbs.Keys + {p}
      && Holds(LinkedOf(next), s + [p])
  {
    var admitted := Admit(st, p, pcb);
    AdmitAppends(st, s, p, pcb);
    assert LinkedOf(admitted.(nextPid := st.nextPid + 1)) == LinkedOf(admitted);
  }

  // ------------------------------------------------------------ scheduling

  /** Set one PCB's state. */
  function SetState(pcbs: map<Ptr, Pcb>, p: Ptr, state: ProcState): (r: map<Ptr, Pcb>)
    requires p in pcbs
    ensures r.Keys == pcbs.Keys && r[p].state == state
    ensures forall x :: x in pcbs && x != p ==> r[x] == pcbs[x]
  {
    pcbs[p := pcbs[p].(state := state)]
  }

  /** `next` for an empty queue: the current process if it is running and not idle, else idle. */
  function Fallback(st: Scheduler): (p: Ptr)
    requires SchedWf(st) && st.idle.Some?
    ensures p in st.pcbs
    ensures p == st.idle.value || Some(p) == st.current
  {
    if st.current.Some? && st.pcbs[st.current.value].state == Running && st.current != st.idle
    then st.current.value
    else st.idle.value
  }

  /**
   * `schedule`: take the head of the ready queue, or fall back when it is
   * empty. If that is the running current process nothing else happens.
   * Otherwise a running old process becomes READY and, unless it is idle,
   * goes back on the queue, and the chosen process becomes RUNNING and current.
   */
  function Schedule(st: Scheduler): (r: Scheduler)
    requires SchedWf(st) && st.idle.Some?
    ensures SchedWf(r)
    ensures r.pcbs.Keys == st.pcbs.Keys && r.idle == st.idle && r.nextPid == st.nextPid
    ensures r.current.Some? && r.pcbs[r.current.value].state == Running
  {
    var t := Dequeue(LinkedOf(st));
    var next := if t.pcb.Some? then t.pcb.value else Fallback(st);
    if st.current == Some(next) && st.pcbs[next].state == Running then
      st.(ready := t.linked.queue, links := t.linked.links)
    else if st.current.None? then
      st.(ready := t.linked.queue, links := t.linked.links, pcbs := SetState(st.pcbs, next, Running),
          current := Some(next))
    else
      var prev := st.current.value;
      var running := st.pcbs[prev].state == Running;
      var pcbs := if running then SetState(st.pcbs, prev, Ready) else st.pcbs;
      var l := if running && Some(prev) != st.idle then Enqueue(t.linked, Some(prev)) else t.linked;
      st.(ready := l.queue, links := l.links, pcbs := SetState(pcbs, next, Running), current := Some(next))
  }

  /**
   * The invariant the scheduler relies on: the queue holds `s`, and neither
   * the current nor the idle process is queued.
   */
  predicate Queued(st: Scheduler, s: seq<Ptr>) {
    && Holds(LinkedOf(st), s)
    && (st.idle.Some? ==> st.idle.value !in s)
    && (st.current.Some? ==> st.current.value !in s)
  }

  /** Whether `current` is a running process other than idle, the one an empty queue falls back to. */
  predicate KeepsRunning(st: Scheduler)
    requires SchedWf(st)
  {
    st.current.Some? && st.pcbs[st.current.value].state == Running && st.current != st.idle
  }

  /** The process `schedule` picks: the queue head, else the running non-idle current one, else idle. */
  lemma ScheduleChooses(st: Scheduler, s: seq<Ptr>)
    requires SchedWf(st) && st.idle.Some? && Queued(st, s)
    ensures |s| > 0 ==> Schedule(st).current == Some(s[0])
    ensures |s| == 0 && KeepsRunning(st) ==> Schedule(st) == st
    ensures |s| == 0 && !KeepsRunning(st) ==> Schedule(st).current == st.idle
  {
    DequeueTakesHead(LinkedOf(st), s);
  }

  /**
   * The queue after `schedule`: the rest of the old queue, followed by the old
   * process when it was running, is not idle and was not chosen again; the
   * invariant holds again afterwards.
   */
  lemma ScheduleRequeues(st: Scheduler, s: seq<Ptr>)
    requires SchedWf(st) && st.idle.Some? && Queued(st, s)
    ensures var r := Schedule(st);
      var rest := if |s| > 0 then s[1..] else [];
      var back := KeepsRunning(st) && st.current != r.current && st.ready.Some?;
      Queued(r, if back then rest + [st.current.value] else rest)
  {
    var t := Dequeue(LinkedOf(st));
    DequeueTakesHead(LinkedOf(st), s);
    var rest := if |s| > 0 then s[1..] else [];
    assert Holds(t.linked, rest);
    var next := if t.pcb.Some? then t.pcb.value else Fallback(st);
    assert next !in rest by {
      if |s| > 0 {
        assert forall i :: 0 <= i < |rest| ==> rest[i] == s[i + 1] && s[i + 1] != s[0];
      }
    }
    assert forall x :: x in rest ==> x in s;
    if st.current.Some? && !(st.current == Some(next) && st.pcbs[next].state == Running) {
      var prev := st.current.value;
      if st.pcbs[prev].state == Running && Some(prev) != st.idle {
        EnqueueAppends(t.linked, rest, prev);
      }
    }
  }

  /**
   * Only the old and the new process change state. An old process that is
   * switched away from becomes READY if it was RUNNING, idle included, and
   * keeps its state otherwise (a blocked or terminated one); a running
   * current process that is picked again is left as it is.
   */
  lemma ScheduleStates(st: Scheduler)
    requires SchedWf(st) && st.idle.Some?
    ensures var r := Schedule(st);
      && (st.current.Some? && st.current != r.current ==>
            var prev := st.current.value;
            r.pcbs[prev] == if st.pcbs[prev].state == Running then st.pcbs[prev].(state := Ready) else st.pcbs[prev])
      && (st.current == r.current && st.pcbs[st.current.value].state == Running ==> r.pcbs == st.pcbs)
      && (forall x :: x in st.pcbs && Some(x) != st.current && Some(x) != r.current ==> r.pcbs[x] == st.pcbs[x])
  {
  }
}

=== FILE: readme_embed.dfy ===
/**
 * The README embedder: a build helper that turns the bytes of the top-level
 * README into a C translation unit holding a size constant and a byte array.
 *
 * `Render` is the reference layout (one physical line per chunk of sixteen
 * bytes); `RenderArtifact` is the generator's byte-at-a-time loop, proved to
 * produce exactly that layout; `Unrender` reads an artifact back, and
 * `RoundTrip` shows it recovers the size constant and every byte.
 */
module ReadmeEmbed {
  import opened Basics
  import opened Numerals

  const LicenseBanner: string :=
    "/*\n"
    + " * Lrix\n"
    + " * Copyright (C) 2025 lrisguan <lrisguan@outlook.com>\n"
    + " * \n"
    + " * This program is released under the terms of the GNU General Public License version 2(GPLv2). \n"
    + " * See https://opensource.org/licenses/GPL-2.0 for more information. \n"
    + " * \n"
    + " * Project homepage: https://github.com/lrisguan/Lrix \n"
    + " * Description: A scratch implemention of OS based on RISC-V \n"
    + " */\n\n"

  const GeneratedNotice: string :=
    "/*\n * Auto-generated from README.md, do not edit manually.\n */\n\n"

  const IncludeLine: string := "#include <stdint.h>\n\n"
  const SizeOpen: string := "const unsigned int README_MD_SIZE = "
  const SizeClose: string := ";\n\n"
  const ArrayOpen: string := "const uint8_t README_MD[] = {\n"
  const ArrayClose: string := "};\n"
  const Indent: string := "    "

  /** Everything before the size constant's digits: fixed text. */
  const Head: string := LicenseBanner + GeneratedNotice + IncludeLine + SizeOpen

  /** The text before the first array entry, after a fixed `head`. */
  function Prologue(head: string, n: nat): string {
    head + DecimalString(n) + SizeClose + ArrayOpen
  }

  /** The two lower-case hex digits of a byte, high nibble first. */
  function HexByte(b: byte): string {
    [HexDigitChar(b as nat / 16), HexDigitChar(b as nat % 16)]
  }

  /** One array entry: `0x`, two lower-case hex digits, then `", "`. */
  function Entry(b: byte): string {
    "0x" + HexByte(b) + ", "
  }

  /** The entries for `bytes`, in order, with nothing between them. */
  function Entries(bytes: seq<byte>): string {
    if |bytes| == 0 then "" else Entry(bytes[0]) + Entries(bytes[1..])
  }

  /** One physical line of the array body. */
  function Line(chunk: seq<byte>): string {
    Indent + Entries(chunk) + "\n"
  }

  /** The array body: one `Line` per chunk of sixteen bytes, the last possibly shorter. */
  function Lines(data: seq<byte>): string
    decreases |data|
  {
    if |data| == 0 then ""
    else if |data| <= 16 then Line(data)
    else Line(data[..16]) + Lines(data[16..])
  }

  /** An artifact for `data` after the fixed text `head`. */
  function Artifact(head: string, data: seq<byte>): string {
    Prologue(head, |data|) + Lines(data) + ArrayClose
  }

  /** The generated artifact for `data`. */
  function Render(data: seq<byte>): string {
    Artifact(Head, data)
  }

  // ------------------------------------------------------------ the generator

  /**
   * The body emitted once `i` bytes have been written, when the bytes before
   * `j` form complete lines and those from `j` to `i` an unfinished one.
   */
  function PartialBody(data: seq<byte>, j: nat, i: nat): string
    requires j <= i <= |data|
  {
    Lines(data[..j]) + (if i == j then "" else Indent + Entries(data[j..i]))
  }

  lemma {:induction false} EntriesAppend(bytes: seq<byte>, b: byte)
    ensures Entries(bytes + [b]) == Entries(bytes) + Entry(b)
    decreases |bytes|
  {
    if |bytes| == 0 {
      assert Entries([b]) == Entry(b) + Entries([]);
    } else {
      assert (bytes + [b])[1..] == bytes[1..] + [b];
      EntriesAppend(bytes[1..], b);
    }
  }

  lemma {:induction false} LinesAppend(a: seq<byte>, c: seq<byte>)
    requires |a| % 16 == 0
    requires 1 <= |c| <= 16
    ensures Lines(a + c) == Lines(a) + Line(c)
    decreases |a|
  {
    if |a| == 0 {
      assert a + c == c;
    } else {
      assert (a + c)[..16] == a[..16];
      assert (a + c)[16..] == a[16..] + c;
      LinesAppend(a[16..], c);
    }
  }

  /** What the generator writes for byte `i`: indent, entry, newline as the index dictates. */
  function StepText(data: seq<byte>, i: nat): string
    requires i < |data|
  {
    (if i % 16 == 0 then Indent else "")
    + Entry(data[i])
    + (if i % 16 == 15 then "\n" else "")
  }

  lemma ModStep(i: nat)
    ensures (i + 1) % 16 == (if i % 16 == 15 then 0 else i % 16 + 1)
  {
    var q := i / 16;
    var r := i % 16;
    assert i == 16 * q + r;
    if r == 15 {
      DivModUnique(i + 1, 16, q + 1, 0);
    } else {
      DivModUnique(i + 1, 16, q, r + 1);
    }
  }

  /** The byte that opens a line: indent and entry. */
  lemma PartialBodyOpen(data: seq<byte>, i: nat)
    requires i < |data|
    ensures PartialBody(data, i, i + 1) == PartialBody(data, i, i) + Indent + Entry(data[i])
  {
    assert data[i..i + 1] == [] + [data[i]];
    EntriesAppend([], data[i]);
  }

  /** A byte inside an open line: one more entry. */
  lemma PartialBodyExtend(data: seq<byte>, j: nat, i: nat)
    requires j < i < |data|
    ensures PartialBody(data, j, i + 1) == PartialBody(data, j, i) + Entry(data[i])
  {
    assert data[j..i + 1] == data[j..i] + [data[i]];
    EntriesAppend(data[j..i], data[i]);
  }

  /** Closing a line of bytes `j` to `i`: the newline completes it. */
  lemma PartialBodyClose(data: seq<byte>, j: nat, i: nat)
    requires j < i <= |data| && j % 16 == 0 && i - j <= 16
    ensures PartialBody(data, i, i) == PartialBody(data, j, i) + "\n"
  {
    LinesAppend(data[..j], data[j..i]);
    TakeSplit(data, j, i);
  }

  /**
   * The generator's loop, byte by byte: an indent before entries whose index is
   * a multiple of sixteen, a newline after those at position fifteen, and one
   * more newline after a partial last line.
   */
  method GenerateBody(data: seq<byte>) returns (body: string)
    ensures body == Lines(data)
  {
    body := "";
    var i := 0;
    ghost var j := 0;
    while i < |data|
      invariant j <= i <= |data|
      invariant j % 16 == 0 && i % 16 == i - j
      invariant body == PartialBody(data, j, i)
    {
      ModStep(i);
      if i % 16 == 0 {
        PartialBodyOpen(data, i);
        body := body + Indent;
      } else {
        PartialBodyExtend(data, j, i);
      }
      body := body + Entry(data[i]);
      if i % 16 == 15 {
        PartialBodyClose(data, j, i + 1);
        body := body + "\n";
        j := i + 1;
      }
      i := i + 1;
    }
    if |data| % 16 != 0 {
      PartialBodyClose(data, j, i);
      body := body + "\n";
    }
    assert data[..i] == data;
  }

  /** The whole generator: fixed text, size constant, array body, closing brace. */
  method RenderArtifact(data: seq<byte>) returns (out: string)
    ensures out == Render(data)
  {
    var body := GenerateBody(data);
    out := Prologue(Head, |data|) + body + ArrayClose;
  }

  // ------------------------------------------------------------ reading back

  /** The length of the run of decimal digits at the front of `s`. */
  function DigitRun(s: string): (k: nat)
    ensures k <= |s|
    ensures AllDigits(s[..k])
    ensures k < |s| ==> !IsDigit(s[k])
  {
    if |s| == 0 || !IsDigit(s[0]) then 0
    else
      var k := 1 + DigitRun(s[1..]);
      assert s[..k] == [s[0]] + s[1..][..k - 1];
      k
  }

  /**
   * The entries of an array body, skipping the layout's spaces and newlines;
   * `None` for any other text.
   */
  function ParseEntries(s: string): Option<seq<byte>>
    decreases |s|
  {
    if |s| == 0 then Some([])
    else if s[0] == ' ' || s[0] == '\n' then ParseEntries(s[1..])
    else if |s| >= 6 && s[0] == '0' && s[1] == 'x' && IsHexDigit(s[2]) && IsHexDigit(s[3])
            && s[4] == ',' && s[5] == ' ' then
      match ParseEntries(s[6..])
      case None => None
      case Some(rest) => Some([(HexValue(s[2]) * 16 + HexValue(s[3])) as byte] + rest)
    else None
  }

  /** An embedded resource as read back from an artifact. */
  datatype Embedded = Embedded(size: nat, bytes: seq<byte>)

  /** Read back an artifact written after `head`: its size constant and array bytes. */
  function ReadBack(head: string, text: string): Option<Embedded> {
    if |text| < |head| || text[..|head|] != head then None
    else
      var rest := text[|head|..];
      var k := DigitRun(rest);
      var mid := SizeClose + ArrayOpen;
      var tail := rest[k..];
      if k == 0 || |tail| < |mid| + |ArrayClose| || tail[..|mid|] != mid
         || tail[|tail| - |ArrayClose|..] != ArrayClose then None
      else
        match ParseEntries(tail[|mid|..|tail| - |ArrayClose|])
        case None => None
        case Some(bytes) => Some(Embedded(DecimalValue(rest[..k]), bytes))
  }

  /** Read a generated artifact back. */
  function Unrender(text: string): Option<Embedded> {
    ReadBack(Head, text)
  }

  /** A byte's digits are its two-digit zero-padded hex rendering. */
  lemma HexByteIsFixed(b: byte)
    ensures HexByte(b) == HexFixed(b as nat, 2)
  {
    var n := b as nat;
    assert HexFixed(n / 16, 1) == [HexDigitChar((n / 16) % 16)];
    assert (n / 16) % 16 == n / 16;
  }

  /** The two digits of an entry read back as the byte they render. */
  lemma EntryDigits(b: byte)
    ensures var h := HexByte(b);
      IsHexDigit(h[0]) && IsHexDigit(h[1]) && (HexValue(h[0]) * 16 + HexValue(h[1])) as byte == b
  {
    var n := b as nat;
    HexValueOfDigitChar(n / 16);
    HexValueOfDigitChar(n % 16);
    assert HexValue(HexByte(b)[0]) * 16 + HexValue(HexByte(b)[1]) == n;
  }

  lemma EntryParses(b: byte, rest: string)
    ensures ParseEntries(Entry(b) + rest) ==
      match ParseEntries(rest)
      case None => None
      case Some(r) => Some([b] + r)
  {
    var h := HexByte(b);
    EntryDigits(b);
    var s := Entry(b) + rest;
    assert s == ['0', 'x', h[0], h[1], ',', ' '] + rest;
    assert s[6..] == rest;
  }

  lemma IndentParses(rest: string)
    ensures ParseEntries(Indent + rest) == ParseEntries(rest)
  {
    var s := Indent + rest;
    assert s[4..] == rest;
    assert ParseEntries(s[3..]) == ParseEntries(rest);
    assert ParseEntries(s[2..]) == ParseEntries(s[3..]);
    assert ParseEntries(s[1..]) == ParseEntries(s[2..]);
  }

  lemma {:induction false} EntriesParse(bytes: seq<byte>, rest: string)
    requires ParseEntries(rest).Some?
    ensures ParseEntries(Entries(bytes) + rest) == Some(bytes + ParseEntries(rest).value)
    decreases |bytes|
  {
    if |bytes| == 0 {
      EmptyAppend(Entries(bytes), rest);
      EmptyAppend(bytes, ParseEntries(rest).value);
    } else {
      EntriesParse(bytes[1..], rest);
      EntriesConsParse(bytes, rest, ParseEntries(rest).value);
    }
  }

  /** The inductive step of `EntriesParse`: one more entry in front. */
  lemma EntriesConsParse(bytes: seq<byte>, rest: string, v: seq<byte>)
    requires |bytes| > 0
    requires ParseEntries(Entries(bytes[1..]) + rest) == Some(bytes[1..] + v)
    ensures ParseEntries(Entries(bytes) + rest) == Some(bytes + v)
  {
    var tail := Entries(bytes[1..]) + rest;
    assert Entries(bytes) + rest == Entry(bytes[0]) + tail;
    EntryParses(bytes[0], tail);
    assert ParseEntries(Entry(bytes[0]) + tail) == Some([bytes[0]] + (bytes[1..] + v));
    assert [bytes[0]] + (bytes[1..] + v) == bytes + v;
  }

  lemma LineParses(chunk: seq<byte>, rest: string)
    requires ParseEntries(rest).Some?
    ensures ParseEntries(Line(chunk) + rest) == Some(chunk + ParseEntries(rest).value)
  {
    var nl := "\n" + rest;
    assert ParseEntries(nl) == ParseEntries(rest) by {
      assert nl[1..] == rest;
    }
    EntriesParse(chunk, nl);
    assert Line(chunk) + rest == Indent + (Entries(chunk) + nl);
    IndentParses(Entries(chunk) + nl);
  }

  lemma {:induction false} LinesParse(data: seq<byte>)
    ensures ParseEntries(Lines(data)) == Some(data)
    decreases |data|
  {
    if |data| == 0 {
    } else if |data| <= 16 {
      LineParses(data, "");
      assert Line(data) + "" == Line(data);
      assert data + [] == data;
    } else {
      LinesParse(data[16..]);
      LineParses(data[..16], Lines(data[16..]));
      assert data[..16] + data[16..] == data;
    }
  }

  lemma DigitRunOfDecimal(n: nat, rest: string)
    requires |rest| >= 1 && !IsDigit(rest[0])
    ensures DigitRun(DecimalString(n) + rest) == |DecimalString(n)|
  {
    var d := DecimalString(n);
    DigitRunPrefix(d, rest);
  }

  lemma {:induction false} DigitRunPrefix(d: string, rest: string)
    requires AllDigits(d)
    requires |rest| >= 1 && !IsDigit(rest[0])
    ensures DigitRun(d + rest) == |d|
    decreases |d|
  {
    if |d| == 0 {
      assert d + rest == rest;
    } else {
      assert (d + rest)[1..] == d[1..] + rest;
      DigitRunPrefix(d[1..], rest);
    }
  }

  /** Reading back text of the artifact's shape: head, size digits, array text. */
  lemma ReadBackShape(head: string, n: nat, body: string, bytes: seq<byte>)
    requires ParseEntries(body) == Some(bytes)
    ensures ReadBack(head, head + DecimalString(n) + (SizeClose + ArrayOpen) + body + ArrayClose)
            == Some(Embedded(n, bytes))
  {
    var d := DecimalString(n);
    var mid := SizeClose + ArrayOpen;
    var tail := mid + body + ArrayClose;
    var text := head + d + mid + body + ArrayClose;
    assert text == head + (d + tail);
    SplitAppend(head, d + tail);
    assert tail[0] == ';';
    DigitRunOfDecimal(n, tail);
    SplitAppend(d, tail);
    DecimalRoundTrip(n);
    Frame(mid, body, ArrayClose);
  }

  lemma ReadBackArtifact(head: string, data: seq<byte>)
    ensures ReadBack(head, Artifact(head, data)) == Some(Embedded(|data|, data))
  {
    var d := DecimalString(|data|);
    var body := Lines(data);
    assert Artifact(head, data) == head + d + (SizeClose + ArrayOpen) + body + ArrayClose;
    LinesParse(data);
    ReadBackShape(head, |data|, body, data);
  }

  /**
   * Reading an artifact back recovers the data: the size constant is the
   * number of bytes and the array holds every byte, in order.
   */
  lemma RoundTrip(data: seq<byte>)
    ensures Unrender(Render(data)) == Some(Embedded(|data|, data))
  {
    ReadBackArtifact(Head, data);
  }

  // ------------------------------------------------------------ layout facts

  /** Each line ends in exactly one newline: there are ⌈n/16⌉ of them in the body. */
  lemma {:induction false} LineCount(data: seq<byte>)
    ensures Count(Lines(data), '\n') == (|data| + 15) / 16
    decreases |data|
  {
    if |data| == 0 {
    } else if |data| <= 16 {
      LinesNeeded(|data|);
      LineNewlines(data);
    } else {
      LinesNeeded(|data|);
      LineNewlines(data[..16]);
      LineCount(data[16..]);
      CountAppend(Line(data[..16]), Lines(data[16..]), '\n');
    }
  }

  lemma {:induction false} EntriesHaveNoNewline(bytes: seq<byte>)
    ensures Count(Entries(bytes), '\n') == 0
    decreases |bytes|
  {
    if |bytes| > 0 {
      EntriesHaveNoNewline(bytes[1..]);
      var e := Entry(bytes[0]);
      assert '\n' !in e;
      NoOccurrence(e);
      CountAppend(e, Entries(bytes[1..]), '\n');
    }
  }

  lemma {:induction false} NoOccurrence(s: string)
    requires '\n' !in s
    ensures Count(s, '\n') == 0
    decreases |s|
  {
    if |s| > 0 {
      assert s[0] != '\n';
      assert forall c :: c in s[1..] ==> c in s;
      NoOccurrence(s[1..]);
    }
  }

  lemma LineNewlines(chunk: seq<byte>)
    ensures Count(Line(chunk), '\n') == 1
  {
    EntriesHaveNoNewline(chunk);
    NoOccurrence(Indent);
    CountAppend(Indent, Entries(chunk), '\n');
    CountAppend(Indent + Entries(chunk), "\n", '\n');
  }

  /** Whole lines needed for `n` entries: one for up to sixteen, one more per further sixteen. */
  lemma LinesNeeded(n: nat)
    requires n > 0
    ensures n <= 16 ==> (n + 15) / 16 == 1
    ensures n > 16 ==> (n + 15) / 16 == (n - 16 + 15) / 16 + 1
  {
    if n > 16 {
      var m := n - 16 + 15;
      DivModUnique(m + 16, 16, m / 16 + 1, m % 16);
    } else {
      DivModUnique(n + 15, 16, 1, n - 1);
    }
  }

  /** The length of the body: six characters per entry plus five per line. */
  lemma {:induction false} BodyLength(data: seq<byte>)
    ensures |Lines(data)| == 6 * |data| + 5 * ((|data| + 15) / 16)
    decreases |data|
  {
    if |data| == 0 {
    } else if |data| <= 16 {
      LinesNeeded(|data|);
      EntriesLength(data);
    } else {
      LinesNeeded(|data|);
      EntriesLength(data[..16]);
      BodyLength(data[16..]);
    }
  }

  lemma {:induction false} EntriesLength(bytes: seq<byte>)
    ensures |Entries(bytes)| == 6 * |bytes|
    decreases |bytes|
  {
    if |bytes| > 0 {
      EntriesLength(bytes[1..]);
    }
  }

  /**
   * The last line holds the `n mod 16` trailing entries (all sixteen when the
   * count divides evenly), followed by exactly one newline.
   */
  lemma {:induction false} LastLine(data: seq<byte>)
    requires |data| > 0
    ensures var k := if |data| % 16 == 0 then 16 else |data| % 16;
            var j := |data| - k;
            Lines(data) == Lines(data[..j]) + Indent + Entries(data[j..]) + "\n"
    decreases |data|
  {
    var n := |data|;
    var k := if n % 16 == 0 then 16 else n % 16;
    var j := n - k;
    assert j % 16 == 0 by {
      if n % 16 == 0 {
        DivModUnique(j, 16, n / 16 - 1, 0);
      } else {
        DivModUnique(j, 16, n / 16, 0);
      }
    }
    LinesAppend(data[..j], data[j..]);
    TakeDrop(data, j);
  }

  /** No bytes: no entry lines, the array closes right after it opens. */
  lemma EmptyArtifact()
    ensures Render([]) == Prologue(Head, 0) + ArrayClose
    ensures Render([])[|Render([])| - 5..] == "{\n};\n"
  {
    var p := Prologue(Head, 0);
    assert Render([]) == p + ArrayClose;
    assert p == (Head + "0" + SizeClose) + ArrayOpen;
    SplitAppend(Head + "0" + SizeClose, ArrayOpen);
  }

  lemma EntriesAbc()
    ensures Entries([0x41, 0x42, 0x43]) == "0x41, 0x42, 0x43, "
  {
    var abc: seq<byte> := [0x41, 0x42, 0x43];
    assert abc[1..] == [0x42, 0x43];
    assert abc[1..][1..] == [0x43];
    assert Entries([0x43]) == "0x43, " by {
      assert Entry(0x43) == "0x43, ";
    }
    assert Entries([0x42, 0x43]) == "0x42, 0x43, " by {
      assert Entry(0x42) == "0x42, ";
    }
    assert Entry(0x41) == "0x41, ";
  }

  /** "ABC" renders as size 3 and one line of three entries. */
  lemma ExampleAbc()
    ensures Lines([0x41, 0x42, 0x43]) == "    0x41, 0x42, 0x43, \n"
    ensures DecimalString(3) == "3"
  {
    var abc: seq<byte> := [0x41, 0x42, 0x43];
    assert Lines(abc) == Indent + Entries(abc) + "\n";
    EntriesAbc();
  }
}

=== FILE: scan.dfy ===
/**
 * The kernel console's input side: `uart_getline` and the readers behind
 * `scank`. Input is the sequence of characters the UART delivers, consumed
 * from the front one character at a time. The hardware read blocks until a
 * character arrives; where a reader would still want a character after the
 * given input is used up, the model answers `Starved`.
 *
 * Every reader reads one character past the text it accepts (the
 * terminator) and cannot put it back; the models keep that behaviour.
 */
module UartScan {
  import opened Basics
  import opened Numerals
  import opened Uart

  /** A reader's outcome: a value and the input after it, a rejection, or a wait for more input. */
  datatype Scanned<T> = Got(value: T, rest: string) | NoMatch(rest: string) | Starved

  predicate AllSpace(s: string) {
    forall i :: 0 <= i < |s| ==> IsSpace(s[i])
  }

  // -------------------------------------------------------------- getline

  predicate IsEnd(c: char) {
    c == '\r' || c == '\n'
  }

  /**
   * `uart_getline`: store characters until a carriage return or line feed
   * (which is consumed and not stored) or until `maxlen - 1` are stored.
   * Erase characters are stored like any other.
   */
  method GetLine(input: string, maxlen: int) returns (r: Scanned<string>)
    ensures !r.NoMatch?
    ensures maxlen <= 1 ==> r == Got("", input)
    ensures r.Got? ==> |r.value| <= Max(maxlen - 1, 0)
    ensures r.Got? ==> forall i :: 0 <= i < |r.value| ==> !IsEnd(r.value[i])
    ensures r.Got? && maxlen > 1 ==> |r.value| <= |input| && r.value == input[..|r.value|]
    ensures r.Got? && maxlen > 1 && |r.value| == maxlen - 1 ==> r.rest == input[maxlen - 1..]
    ensures r.Got? && maxlen > 1 && |r.value| < maxlen - 1 ==>
      |r.value| < |input| && IsEnd(input[|r.value|]) && r.rest == input[|r.value| + 1..]
    ensures r.Starved? <==>
      maxlen > 1 && |input| < maxlen - 1 && forall i :: 0 <= i < |input| ==> !IsEnd(input[i])
  {
    if maxlen <= 1 {
      return Got("", input);
    }
    var i := 0;
    while i < maxlen - 1
      invariant 0 <= i <= maxlen - 1 && i <= |input|
      invariant forall j :: 0 <= j < i ==> !IsEnd(input[j])
    {
      if i == |input| {
        return Starved;
      }
      if IsEnd(input[i]) {
        return Got(input[..i], input[i + 1..]);
      }
      i := i + 1;
    }
    return Got(input[..i], input[i..]);
  }

  // ------------------------------------------------------ shared scanning

  /** `c = getc(); while (is_space(c)) c = getc();`: the first non-space character and the input after it. */
  function SkipSpace(input: string): (r: Scanned<char>)
    ensures !r.NoMatch?
    ensures r.Got? ==> !IsSpace(r.value) && |r.rest| < |input|
  {
    if |input| == 0 then Starved
    else if IsSpace(input[0]) then SkipSpace(input[1..])
    else Got(input[0], input[1..])
  }

  /** Skipping whitespace waits for more input exactly when everything left is whitespace. */
  lemma {:induction false} SkipSpaceStarved(input: string)
    ensures SkipSpace(input).Starved? <==> AllSpace(input)
  {
    if |input| > 0 && IsSpace(input[0]) {
      SkipSpaceStarved(input[1..]);
      assert AllSpace(input) <==> AllSpace(input[1..]);
    }
  }

  /** Digits of radix 10 or 16 (hex digits of either case). */
  predicate IsDigitIn(radix: nat, c: char) {
    if radix == 16 then IsHexDigit(c) else IsDigit(c)
  }

  predicate AllDigitsIn(radix: nat, s: string) {
    forall i :: 0 <= i < |s| ==> IsDigitIn(radix, s[i])
  }

  function DigitIn(radix: nat, c: char): (d: nat)
    requires IsDigitIn(radix, c)
    ensures d < 16
  {
    if radix == 16 then HexValue(c) else DigitValue(c)
  }

  /** The value of a digit string in the radix, most significant digit first. */
  function RadixValue(radix: nat, s: string): nat
    requires AllDigitsIn(radix, s)
  {
    if radix == 16 then HexStringValue(s) else DecimalValue(s)
  }

  /** `x` in `m`-bit unsigned arithmetic (`m` is the modulus); `m == 0` stands for no reduction. */
  function Wrap(x: nat, m: nat): (r: nat)
    ensures m > 0 ==> r < m
    ensures x < m ==> r == x
  {
    if m == 0 then x else x % m
  }

  /**
   * The loop every numeric reader ends with: while `c` is a digit, set
   * `val = val * radix + d` and read the next character. The first
   * non-digit read ends the number and is consumed with it.
   */
  function Digits(radix: nat, m: nat, val: nat, c: char, s: string): (r: Scanned<nat>)
    ensures !r.NoMatch?
    ensures r.Got? ==> |r.rest| <= |s|
    ensures r.Got? && 0 < m && val < m ==> r.value < m
    decreases |s|
  {
    if !IsDigitIn(radix, c) then Got(val, s)
    else if |s| == 0 then Starved
    else Digits(radix, m, Wrap(val * radix + DigitIn(radix, c), m), s[0], s[1..])
  }

  /** The left fold of a digit string onto `val`, reduced after each step as the loop is. */
  function Fold(radix: nat, m: nat, val: nat, ds: string): nat
    requires AllDigitsIn(radix, ds)
    decreases |ds|
  {
    if |ds| == 0 then val else Fold(radix, m, Wrap(val * radix + DigitIn(radix, ds[0]), m), ds[1..])
  }

  /** Reading a digit string and a non-digit yields the fold of the digits and the input after the non-digit. */
  lemma {:induction false} DigitsRead(radix: nat, m: nat, val: nat, ds: string, t: char, rest: string)
    requires |ds| >= 1 && AllDigitsIn(radix, ds) && !IsDigitIn(radix, t)
    ensures Digits(radix, m, val, ds[0], ds[1..] + [t] + rest) == Got(Fold(radix, m, val, ds), rest)
    decreases |ds|
  {
    var next := Wrap(val * radix + DigitIn(radix, ds[0]), m);
    if |ds| == 1 {
      assert ds[1..] + [t] + rest == [t] + rest;
      assert Fold(radix, m, next, ds[1..]) == next;
    } else {
      assert (ds[1..] + [t] + rest)[1..] == ds[2..] + [t] + rest;
      assert ds[1..][1..] == ds[2..];
      DigitsRead(radix, m, next, ds[1..], t, rest);
    }
  }

  lemma ModMultiple(x: int, t: int, m: int)
    requires m > 0
    ensures (x + m * t) % m == x % m
  {
    DivModUnique(x + m * t, m, x / m + t, x % m);
  }

  /** Reducing before a multiply-and-add step does not change the reduced result. */
  lemma ModFold(a: nat, k: nat, d: nat, m: nat)
    requires m > 0
    ensures ((a % m) * k + d) % m == (a * k + d) % m
  {
    var q := a / m;
    assert a == m * q + a % m;
    assert a * k + d == ((a % m) * k + d) + m * (q * k);
    ModMultiple((a % m) * k + d, q * k, m);
  }

  lemma {:induction false} FoldSnoc(radix: nat, m: nat, val: nat, ds: string, c: char)
    requires AllDigitsIn(radix, ds) && IsDigitIn(radix, c)
    ensures AllDigitsIn(radix, ds + [c])
    ensures Fold(radix, m, val, ds + [c]) == Wrap(Fold(radix, m, val, ds) * radix + DigitIn(radix, c), m)
    decreases |ds|
  {
    assert AllDigitsIn(radix, ds + [c]);
    if |ds| > 0 {
      var v := Wrap(val * radix + DigitIn(radix, ds[0]), m);
      assert (ds + [c])[0] == ds[0] && (ds + [c])[1..] == ds[1..] + [c];
      assert AllDigitsIn(radix, ds[1..]);
      FoldSnoc(radix, m, v, ds[1..], c);
      assert Fold(radix, m, val, ds + [c]) == Fold(radix, m, v, ds[1..] + [c]);
    } else {
      assert ds + [c] == [c];
    }
  }

  /** The loop computes the value of the digits, reduced modulo `m` when the arithmetic wraps. */
  lemma {:induction false} FoldIsValue(radix: nat, m: nat, ds: string)
    requires radix == 10 || radix == 16
    requires AllDigitsIn(radix, ds)
    ensures Fold(radix, m, 0, ds) == Wrap(RadixValue(radix, ds), m)
    decreases |ds|
  {
    if |ds| > 0 {
      var init := ds[..|ds| - 1];
      var c := ds[|ds| - 1];
      assert ds == init + [c];
      assert AllDigitsIn(radix, init);
      FoldIsValue(radix, m, init);
      FoldSnoc(radix, m, 0, init, c);
      if radix == 16 {
        HexStringValueAppend(init, c);
      } else {
        DecimalValueAppend(init, c);
      }
      if m > 0 {
        ModFold(RadixValue(radix, init), radix, DigitIn(radix, c), m);
      }
    }
  }

  // --------------------------------------------------------------- readers

  /** The digits after the sign of `uart_read_int`: at least one is needed; the result carries the sign. */
  function SignedDigits(sign: int, c: char, s: string): (r: Scanned<int>)
    ensures r.NoMatch? <==> !IsDigit(c)
    ensures r.NoMatch? ==> r.rest == s
    ensures r.Got? ==> |r.rest| <= |s|
  {
    if !IsDigit(c) then NoMatch(s)
    else match Digits(10, 0, 0, c, s)
      case Got(v, rest) => Got(sign * v, rest)
      case _ => Starved
  }

  /**
   * `uart_read_int`: skip whitespace, take an optional `+` or `-`, then one
   * or more decimal digits. The `int` arithmetic is not reduced (its
   * overflow is undefined in C).
   */
  function ReadInt(input: string): (r: Scanned<int>)
    ensures r.Got? || r.NoMatch? ==> |r.rest| < |input|
  {
    match SkipSpace(input)
    case Got(c, s) =>
      if c == '+' || c == '-' then
        if |s| == 0 then Starved else SignedDigits(if c == '-' then -1 else 1, s[0], s[1..])
      else SignedDigits(1, c, s)
    case _ => Starved
  }

  /** `uart_read_ulong`: skip whitespace, then one or more decimal digits in 64-bit unsigned arithmetic. */
  function ReadUlong(input: string): (r: Scanned<nat>)
    ensures r.Got? ==> r.value < Two64
    ensures r.Got? || r.NoMatch? ==> |r.rest| < |input|
  {
    match SkipSpace(input)
    case Got(c, s) =>
      if !IsDigit(c) then NoMatch(s) else Digits(10, Two64, 0, c, s)
    case _ => Starved
  }

  /** At least one hex digit, then the hex loop in 64-bit unsigned arithmetic (`(val << 4) | d`). */
  function HexDigits(c: char, s: string): (r: Scanned<nat>)
    ensures r.NoMatch? <==> !IsHexDigit(c)
    ensures r.NoMatch? ==> r.rest == s
    ensures r.Got? ==> |r.rest| <= |s| && r.value < Two64
  {
    if !IsHexDigit(c) then NoMatch(s) else Digits(16, Two64, 0, c, s)
  }

  /**
   * `uart_read_hex` as written: skip whitespace; a `0` is followed by one
   * more read, and on `x`/`X` the digits start after it; otherwise that
   * second character replaces the `0` and must itself be a hex digit.
   */
  function ReadHexAsWritten(input: string): (r: Scanned<nat>)
    ensures r.Got? ==> r.value < Two64
    ensures r.Got? || r.NoMatch? ==> |r.rest| < |input|
  {
    match SkipSpace(input)
    case Got(c, s) =>
      if c == '0' then
        if |s| == 0 then Starved
        else if s[0] == 'x' || s[0] == 'X' then (if |s| == 1 then Starved else HexDigits(s[1], s[2..]))
        else HexDigits(s[0], s[1..])
      else HexDigits(c, s)
    case _ => Starved
  }

  /**
   * `uart_read_hex` with the leading `0` counted as a digit: when no `x`
   * follows it, the number is `0` continued by whatever hex digits come next.
   */
  function ReadHex(input: string): (r: Scanned<nat>)
    ensures r.Got? ==> r.value < Two64
    ensures r.Got? || r.NoMatch? ==> |r.rest| < |input|
  {
    match SkipSpace(input)
    case Got(c, s) =>
      if c == '0' then
        if |s| == 0 then Starved
        else if s[0] == 'x' || s[0] == 'X' then (if |s| == 1 then Starved else HexDigits(s[1], s[2..]))
        else Digits(16, Two64, 0, s[0], s[1..])
      else HexDigits(c, s)
    case _ => Starved
  }

  /** `while (c && !is_space(c)) { buf[i++] = c; c = getc(); }`: the word up to a space or NUL, which is consumed. */
  function Word(c: char, s: string): (r: Scanned<string>)
    ensures !r.NoMatch?
    ensures r.Got? ==> |r.rest| <= |s| && '\0' !in r.value && forall i :: 0 <= i < |r.value| ==> !IsSpace(r.value[i])
    decreases |s|
  {
    if c == '\0' || IsSpace(c) then Got("", s)
    else if |s| == 0 then Starved
    else match Word(s[0], s[1..])
      case Got(w, rest) => Got([c] + w, rest)
      case _ => Starved
  }

  /** `uart_read_string`: skip whitespace, then one word; it never rejects. */
  function ReadString(input: string): (r: Scanned<string>)
    ensures !r.NoMatch?
    ensures r.Got? ==> |r.rest| < |input|
  {
    match SkipSpace(input)
    case Got(c, s) => Word(c, s)
    case _ => Starved
  }

  // ----------------------------------------------- what printk wrote, read back

  /** The digits of a number and a non-digit after them: the signed value of the digits. */
  lemma SignedDigitsRead(sign: int, ds: string, t: char, rest: string)
    requires |ds| >= 1 && AllDigits(ds) && !IsDigit(t)
    ensures SignedDigits(sign, ds[0], ds[1..] + [t] + rest) == Got(sign * DecimalValue(ds), rest)
  {
    assert AllDigitsIn(10, ds);
    DigitsRead(10, 0, 0, ds, t, rest);
    FoldIsValue(10, 0, ds);
  }

  lemma {:induction false} SkipSpacePrefix(sp: string, x: string)
    requires AllSpace(sp)
    ensures SkipSpace(sp + x) == SkipSpace(x)
    decreases |sp|
  {
    if |sp| > 0 {
      assert (sp + x)[1..] == sp[1..] + x;
      SkipSpacePrefix(sp[1..], x);
    } else {
      assert sp + x == x;
    }
  }

  /** Whitespace ahead of the input changes no reader's outcome. */
  lemma SpacesIgnored(sp: string, x: string)
    requires AllSpace(sp)
    ensures ReadInt(sp + x) == ReadInt(x)
    ensures ReadUlong(sp + x) == ReadUlong(x)
    ensures ReadHexAsWritten(sp + x) == ReadHexAsWritten(x)
    ensures ReadHex(sp + x) == ReadHex(x)
    ensures ReadString(sp + x) == ReadString(x)
  {
    SkipSpacePrefix(sp, x);
  }

  lemma SkipFirst(c: char, s: string)
    requires !IsSpace(c)
    ensures SkipSpace([c] + s) == Got(c, s)
  {
    assert ([c] + s)[1..] == s;
  }

  /** Whitespace skipping stops at the first character of a token that starts with a non-space. */
  lemma FirstOf(ds: string, t: char, rest: string)
    requires |ds| >= 1 && !IsSpace(ds[0])
    ensures SkipSpace(ds + [t] + rest) == Got(ds[0], ds[1..] + [t] + rest)
  {
    assert ds + [t] + rest == [ds[0]] + (ds[1..] + [t] + rest);
    SkipFirst(ds[0], ds[1..] + [t] + rest);
  }

  /** `uart_read_int` on digits and a non-digit: the value of the digits and the input after the non-digit. */
  lemma ReadIntShape(ds: string, t: char, rest: string)
    requires |ds| >= 1 && AllDigits(ds) && !IsDigit(t)
    ensures ReadInt(ds + [t] + rest) == Got(DecimalValue(ds), rest)
  {
    assert IsDigit(ds[0]);
    FirstOf(ds, t, rest);
    assert SignedDigits(1, ds[0], ds[1..] + [t] + rest) == Got(DecimalValue(ds), rest) by {
      SignedDigitsRead(1, ds, t, rest);
    }
  }

  /** `uart_read_int` on a sign, digits and a non-digit: the signed value of the digits. */
  lemma ReadIntSignedShape(sign: char, ds: string, t: char, rest: string)
    requires sign == '+' || sign == '-'
    requires |ds| >= 1 && AllDigits(ds) && !IsDigit(t)
    ensures ReadInt([sign] + ds + [t] + rest) == Got((if sign == '-' then -1 else 1) * DecimalValue(ds), rest)
  {
    var s := ds + [t] + rest;
    var k := if sign == '-' then -1 else 1;
    SignedStart(sign, ds, t, rest);
    SkipFirst(sign, s);
    SignedDigitsRead(k, ds, t, rest);
  }

  /** A sign before a token: the input is the sign and then the token, whose first character is the first digit. */
  lemma SignedStart(sign: char, ds: string, t: char, rest: string)
    requires |ds| >= 1
    ensures var s := ds + [t] + rest;
      [sign] + ds + [t] + rest == [sign] + s && s[0] == ds[0] && s[1..] == ds[1..] + [t] + rest
  {
    var s := ds + [t] + rest;
    assert ([sign] + ds + [t] + rest)[1..] == s;
    assert s[1..] == ds[1..] + [t] + rest;
  }

  /** `%d` text followed by any non-digit reads back as the same `int`. */
  lemma IntRoundTrip(n: int, t: char, rest: string)
    requires !IsDigit(t)
    ensures ReadInt(Signed(n) + [t] + rest) == Got(n, rest)
  {
    var s := Signed(n);
    if n < 0 {
      ReadIntSignedShape('-', s[1..], t, rest);
      assert [s[0]] + s[1..] == s;
    } else {
      ReadIntShape(s, t, rest);
    }
  }

  /** The decimal loop of `uart_read_ulong` on digits and a non-digit: their value modulo 2^64. */
  lemma UlongDigitsRead(ds: string, t: char, rest: string)
    requires |ds| >= 1 && AllDigits(ds) && !IsDigit(t)
    ensures Digits(10, Two64, 0, ds[0], ds[1..] + [t] + rest) == Got(DecimalValue(ds) % Two64, rest)
  {
    assert AllDigitsIn(10, ds);
    DigitsRead(10, Two64, 0, ds, t, rest);
    FoldIsValue(10, Two64, ds);
  }

  /** `uart_read_ulong` on digits and a non-digit: the value of the digits modulo 2^64. */
  lemma ReadUlongShape(ds: string, t: char, rest: string)
    requires |ds| >= 1 && AllDigits(ds) && !IsDigit(t)
    ensures ReadUlong(ds + [t] + rest) == Got(DecimalValue(ds) % Two64, rest)
  {
    assert IsDigit(ds[0]);
    FirstOf(ds, t, rest);
    UlongDigitsRead(ds, t, rest);
  }

  /** `%lu` text followed by any non-digit reads back as the same 64-bit value. */
  lemma UlongRoundTrip(n: int, t: char, rest: string)
    requires !IsDigit(t)
    ensures ReadUlong(Unsigned(n) + [t] + rest) == Got(n % Two64, rest)
  {
    ReadUlongShape(Unsigned(n), t, rest);
  }

  /** Hex digits and a non-hex character: the hex loop's value modulo 2^64. */
  lemma HexDigitsRead(ds: string, t: char, rest: string)
    requires |ds| >= 1 && AllHexDigits(ds) && !IsHexDigit(t)
    ensures HexDigits(ds[0], ds[1..] + [t] + rest) == Got(HexStringValue(ds) % Two64, rest)
  {
    assert AllDigitsIn(16, ds);
    DigitsRead(16, Two64, 0, ds, t, rest);
    FoldIsValue(16, Two64, ds);
  }

  /** After whitespace, a `0` followed by a character that is neither `x` nor a hex digit. */
  predicate LoneZero(input: string) {
    var r := SkipSpace(input);
    r.Got? && r.value == '0' && |r.rest| >= 1
    && r.rest[0] != 'x' && r.rest[0] != 'X' && !IsHexDigit(r.rest[0])
  }

  /**
   * The two hex readers disagree exactly on a lone `0`, which the reader as
   * written rejects and the corrected one reads as zero.
   */
  lemma HexReadersDiffer(input: string)
    ensures ReadHexAsWritten(input) != ReadHex(input) <==> LoneZero(input)
    ensures LoneZero(input) ==>
      ReadHexAsWritten(input).NoMatch? && ReadHex(input) == Got(0, ReadHexAsWritten(input).rest)
  {
  }

  /** The hex reader on `0x`, hex digits and a non-hex character: the digits' value modulo 2^64. */
  lemma ReadHexPrefixed(input: string, ds: string, t: char, rest: string)
    requires |input| >= 2 && input[0] == '0' && (input[1] == 'x' || input[1] == 'X')
    requires input[2..] == ds + [t] + rest
    requires |ds| >= 1 && AllHexDigits(ds) && !IsHexDigit(t)
    ensures ReadHex(input) == Got(HexStringValue(ds) % Two64, rest)
  {
    var after := input[1..];
    assert SkipSpace(input) == Got('0', after);
    assert ReadHex(input) == HexDigits(after[1], after[2..]);
    assert after[1] == ds[0] by {
      assert after[1] == input[2..][0];
    }
    assert after[2..] == ds[1..] + [t] + rest by {
      assert after[2..] == input[2..][1..];
    }
    HexDigitsRead(ds, t, rest);
  }

  /**
   * The hex reader on hex digits without a superfluous leading zero and a
   * character that is neither a hex digit nor `x`: the digits' value.
   */
  lemma ReadHexPlain(ds: string, t: char, rest: string)
    requires |ds| >= 1 && AllHexDigits(ds) && (ds[0] == '0' ==> |ds| == 1)
    requires !IsHexDigit(t) && t != 'x' && t != 'X'
    ensures ReadHex(ds + [t] + rest) == Got(HexStringValue(ds) % Two64, rest)
  {
    assert IsHexDigit(ds[0]);
    FirstOf(ds, t, rest);
    if ds[0] == '0' {
      assert ds[1..] + [t] + rest == [t] + rest;
      assert HexStringValue(ds) == 0 by {
        assert ds == "" + [ds[0]];
        HexStringValueAppend("", ds[0]);
      }
    } else {
      HexDigitsRead(ds, t, rest);
    }
  }

  /** `%p` text followed by any non-hex character reads back as the pointer, with either reader. */
  lemma PointerRoundTrip(n: int, t: char, rest: string)
    requires !IsHexDigit(t)
    ensures ReadHex(Pointer(n) + [t] + rest) == Got(n % Two64, rest)
    ensures ReadHexAsWritten(Pointer(n) + [t] + rest) == Got(n % Two64, rest)
  {
    var s := Pointer(n);
    assert ReadHex(s + [t] + rest) == Got(n % Two64, rest) by {
      var input := s + [t] + rest;
      assert input[0] == s[..2][0] && input[1] == s[..2][1];
      assert input[2..] == s[2..] + [t] + rest;
      ReadHexPrefixed(input, s[2..], t, rest);
      DivModUnique(n % Two64, Two64, 0, n % Two64);
    }
    assert !LoneZero(s + [t] + rest) by {
      FirstOf(s, t, rest);
    }
    HexReadersDiffer(s + [t] + rest);
  }

  /**
   * `%x` text followed by a character that is neither a hex digit nor `x`
   * reads back as the 32-bit value; the reader as written fails on zero.
   */
  lemma HexWordRoundTrip(n: int, t: char, rest: string)
    requires !IsHexDigit(t) && t != 'x' && t != 'X'
    ensures ReadHex(HexWord(n) + [t] + rest) == Got(n % Two32, rest)
    ensures ReadHexAsWritten(HexWord(n) + [t] + rest)
      == if n % Two32 == 0 then NoMatch(rest) else Got(n % Two32, rest)
  {
    var s := HexWord(n);
    var input := s + [t] + rest;
    var v := n % Two32;
    assert ReadHex(input) == Got(v, rest) by {
      assert HexStringValue(s) == v && v < Two64;
      DivModUnique(v, Two64, 0, v);
      ReadHexPlain(s, t, rest);
    }
    if v == 0 {
      assert LoneZero(input) by {
        assert s == "0";
        FirstOf(s, t, rest);
        assert s[1..] + [t] + rest == [t] + rest;
      }
      HexReadersDiffer(input);
    } else {
      assert !LoneZero(input) by {
        FirstOf(s, t, rest);
        assert s[0] != '0';
      }
      HexReadersDiffer(input);
    }
  }

  /** The as-written reader rejects the `%x` rendering of zero followed by a line feed. */
  lemma HexZeroRejected()
    ensures HexWord(0) == "0"
    ensures ReadHexAsWritten(HexWord(0) + "\n") == NoMatch("")
    ensures ReadHex(HexWord(0) + "\n") == Got(0, "")
  {
    HexWordRoundTrip(0, '\n', "");
    assert HexWord(0) + "\n" == HexWord(0) + ['\n'] + "";
  }

  /** A word without spaces or NUL followed by a space reads back as itself. */
  lemma {:induction false} WordRead(w: string, t: char, rest: string)
    requires '\0' !in w && forall i :: 0 <= i < |w| ==> !IsSpace(w[i])
    requires |w| >= 1 && (t == '\0' || IsSpace(t))
    ensures Word(w[0], w[1..] + [t] + rest) == Got(w, rest)
    decreases |w|
  {
    if |w| == 1 {
      var s := w[1..] + [t] + rest;
      assert s[0] == t && s[1..] == rest;
      assert Word(t, rest) == Got("", rest);
      assert [w[0]] + "" == w;
    } else {
      assert (w[1..] + [t] + rest)[1..] == w[2..] + [t] + rest;
      assert w[1..][1..] == w[2..];
      WordRead(w[1..], t, rest);
      assert [w[0]] + w[1..] == w;
    }
  }

  /** `%s` text that is a non-empty word reads back as itself. */
  lemma StringRoundTrip(s: Option<string>, t: char, rest: string)
    requires |Text(s)| >= 1 && forall i :: 0 <= i < |Text(s)| ==> !IsSpace(Text(s)[i])
    requires t == '\0' || IsSpace(t)
    ensures ReadString(Text(s) + [t] + rest) == Got(Text(s), rest)
  {
    var w := Text(s);
    assert w + [t] + rest == [w[0]] + (w[1..] + [t] + rest);
    SkipFirst(w[0], w[1..] + [t] + rest);
    WordRead(w, t, rest);
  }

  // ----------------------------------------------------------------- scank

  /** What a conversion stores through its pointer argument. */
  datatype Value = IntV(i: int) | UlongV(u: nat) | UintV(x: nat) | PtrV(p: nat) | StrV(s: string) | CharV(c: char)

  /**
   * The outcome of `scank`: for each pointer argument consumed, the value
   * stored through it or `None` when its reader rejected the input, and the
   * unread input; or a wait for more input; or undefined behaviour.
   */
  datatype Scan = Done(slots: seq<Option<Value>>, rest: string) | Blocked | Undefined

  /** `scank`'s return value: the number of conversions that stored a value. */
  function Assigned(slots: seq<Option<Value>>): (n: nat)
    ensures n <= |slots|
  {
    if |slots| == 0 then 0 else (if slots[0].Some? then 1 else 0) + Assigned(slots[1..])
  }

  function MapGot<A, B>(x: Scanned<A>, f: A -> B): (r: Scanned<B>)
    ensures r.Starved? <==> x.Starved?
    ensures r.NoMatch? <==> x.NoMatch?
    ensures !x.Starved? ==> r.rest == x.rest
    ensures x.Got? ==> r.Got? && r.value == f(x.value)
  {
    match x
    case Got(v, rest) => Got(f(v), rest)
    case NoMatch(rest) => NoMatch(rest)
    case Starved => Starved
  }

  /** One step of `scank` on a conversion: a reader's outcome, or nothing read and no argument consumed. */
  datatype Step = Skip | Read(x: Scanned<Value>)

  /** A reader for the hex conversions: the corrected one, or the one as written. */
  function Hex(fixed: bool, input: string): (r: Scanned<nat>)
    ensures r.Got? ==> r.value < Two64
    ensures r.Got? || r.NoMatch? ==> |r.rest| < |input|
  {
    if fixed then ReadHex(input) else ReadHexAsWritten(input)
  }

  /** The conversion `%c1` (and `%lc2`), read from `input`. */
  function Conversion(fixed: bool, c1: char, c2: char, input: string): (r: Step)
    ensures r.Read? && (r.x.Got? || r.x.NoMatch?) ==> |r.x.rest| < |input|
    ensures r.Skip? <==> !(c1 in "dxpsc" || (c1 == 'l' && c2 == 'u'))
  {
    if c1 == 'd' then Read(MapGot(ReadInt(input), (i: int) => IntV(i)))
    else if c1 == 'l' then (if c2 == 'u' then Read(MapGot(ReadUlong(input), (u: nat) => UlongV(u))) else Skip)
    else if c1 == 'x' then Read(MapGot(Hex(fixed, input), (v: nat) => UintV(v % Two32)))
    else if c1 == 'p' then Read(MapGot(Hex(fixed, input), (v: nat) => PtrV(v)))
    else if c1 == 's' then Read(MapGot(ReadString(input), (w: string) => StrV(w)))
    else if c1 == 'c' then Read(if |input| == 0 then Starved else Got(CharV(input[0]), input[1..]))
    else Skip
  }

  /**
   * A whitespace character in the format. As written, it reads characters
   * until a non-space one and discards that one too; corrected, it skips
   * whitespace and leaves the next non-space character unread.
   */
  function SkipDirective(fixed: bool, input: string): (r: Option<string>)
    ensures r.Some? ==> |r.value| <= |input|
    ensures fixed && r.Some? ==> |r.value| >= 1 && !IsSpace(r.value[0])
  {
    match SkipSpace(input)
    case Got(c, s) => if fixed then Some([c] + s) else Some(s)
    case _ => None
  }

  function Prepend(slot: Option<Value>, r: Scan): (q: Scan)
    ensures q.Done? <==> r.Done?
    ensures q.Done? ==> q.rest == r.rest && q.slots == [slot] + r.slots
  {
    if r.Done? then Done([slot] + r.slots, r.rest) else r
  }

  /**
   * `scank`'s loop over the format. Ordinary characters other than
   * whitespace are passed over without reading input; a `%` at the end of
   * the format stops the scan; `%l` followed by anything but `u` passes over
   * that character as well and consumes nothing.
   */
  function ScanWith(fixed: bool, fmt: string, input: string): (r: Scan)
    ensures r.Done? ==> |r.rest| <= |input|
    ensures r.Done? ==> 2 * |r.slots| <= |fmt|
    decreases |fmt|
  {
    if |fmt| == 0 then Done([], input)
    else if fmt[0] != '%' then
      if !IsSpace(fmt[0]) then ScanWith(fixed, fmt[1..], input)
      else match SkipDirective(fixed, input)
        case None => Blocked
        case Some(after) =>
          var r := ScanWith(fixed, fmt[1..], after);
          r
    else if |fmt| == 1 then Done([], input)
    else if fmt[1] == 'l' && |fmt| == 2 then Undefined
    else
      var skip := if fmt[1] == 'l' then 3 else 2;
      match Conversion(fixed, fmt[1], if |fmt| > 2 then fmt[2] else '\0', input)
      case Skip => ScanWith(fixed, fmt[skip..], input)
      case Read(x) =>
        match x
        case Starved => Blocked
        case Got(v, rest) =>
          var r := ScanWith(fixed, fmt[skip..], rest);
          Prepend(Some(v), r)
        case NoMatch(rest) =>
          var r := ScanWith(fixed, fmt[skip..], rest);
          Prepend(None, r)
  }

  /**
   * A format on which the corrections make no difference: no whitespace
   * directive and no character that could name a hex conversion.
   */
  predicate PlainFormat(fmt: string) {
    forall i :: 0 <= i < |fmt| ==> !IsSpace(fmt[i]) && fmt[i] != 'x' && fmt[i] != 'p'
  }

  /** `scank` as written: one pointer argument per conversion at most, read from the format up to its NUL. */
  function ScankAsWritten(fmt: string, input: string): (r: Scan)
    ensures r.Done? ==> |r.rest| <= |input|
    ensures r.Done? ==> 2 * |r.slots| <= |CString(fmt)| && Assigned(r.slots) <= |r.slots|
  {
    ScanWith(false, CString(fmt), input)
  }

  /**
   * `scank` with both corrections: whitespace directives and the hex readers.
   * It behaves exactly as written on a format the corrections do not touch.
   */
  function Scank(fmt: string, input: string): (r: Scan)
    ensures r.Done? ==> |r.rest| <= |input|
    ensures r.Done? ==> 2 * |r.slots| <= |CString(fmt)| && Assigned(r.slots) <= |r.slots|
    ensures PlainFormat(fmt) ==> r == ScankAsWritten(fmt, input)
  {
    if PlainFormat(fmt) then
      assert PlainFormat(CString(fmt)) by {
        forall i | 0 <= i < |CString(fmt)| ensures CString(fmt)[i] == fmt[i] { }
      }
      ReadersAgree(CString(fmt), input);
      ScanWith(true, CString(fmt), input)
    else
      ScanWith(true, CString(fmt), input)
  }

  /** On a plain format the corrected and the as-written loop give the same scan. */
  lemma {:induction false} ReadersAgree(fmt: string, input: string)
    requires PlainFormat(fmt)
    ensures ScanWith(true, fmt, input) == ScanWith(false, fmt, input)
    decreases |fmt|
  {
    if |fmt| == 0 {
    } else if fmt[0] != '%' {
      assert PlainFormat(fmt[1..]) by {
        forall i | 0 <= i < |fmt[1..]| ensures fmt[1..][i] == fmt[i + 1] { }
      }
      ReadersAgree(fmt[1..], input);
    } else if |fmt| == 1 || (fmt[1] == 'l' && |fmt| == 2) {
    } else {
      var skip := if fmt[1] == 'l' then 3 else 2;
      var tail := fmt[skip..];
      assert PlainFormat(tail) by {
        forall i | 0 <= i < |tail| ensures tail[i] == fmt[i + skip] { }
      }
      var c2 := if |fmt| > 2 then fmt[2] else '\0';
      assert fmt[1] != 'x' && fmt[1] != 'p';
      assert Conversion(true, fmt[1], c2, input) == Conversion(false, fmt[1], c2, input);
      match Conversion(true, fmt[1], c2, input)
      case Skip => ReadersAgree(tail, input);
      case Read(x) =>
        match x
        case Starved =>
        case Got(v, rest) => ReadersAgree(tail, rest);
        case NoMatch(rest) => ReadersAgree(tail, rest);
    }
  }

  /** Ordinary characters in the format other than whitespace never consume input. */
  lemma {:induction false} LiteralsReadNothing(fixed: bool, lit: string, input: string)
    requires forall i :: 0 <= i < |lit| ==> lit[i] != '%' && !IsSpace(lit[i])
    ensures ScanWith(fixed, lit, input) == Done([], input)
    decreases |lit|
  {
    if |lit| > 0 {
      LiteralsReadNothing(fixed, lit[1..], input);
    }
  }

  /** A `%d` conversion stores what `uart_read_int` reads and scans on from where it stopped. */
  lemma ScanInt(fixed: bool, more: string, input: string)
    requires ReadInt(input).Got?
    ensures ScanWith(fixed, "%d" + more, input)
      == Prepend(Some(IntV(ReadInt(input).value)), ScanWith(fixed, more, ReadInt(input).rest))
  {
    assert ("%d" + more)[2..] == more;
  }

  /** A space in the format hands the scan on to the input the directive leaves. */
  lemma ScanSpace(fixed: bool, more: string, input: string)
    requires SkipDirective(fixed, input).Some?
    ensures ScanWith(fixed, " " + more, input) == ScanWith(fixed, more, SkipDirective(fixed, input).value)
  {
    assert (" " + more)[1..] == more;
  }

  /** The C string of a NUL-free text is the text itself. */
  lemma {:induction false} CStringOfPlain(t: string)
    requires '\0' !in t
    ensures CString(t) == t
  {
    if |t| > 0 {
      CStringOfPlain(t[1..]);
    }
  }

  /** A `%d` conversion on printed `%d` text stores the same integer and scans on after the character that ended it. */
  lemma ScanPrintedInt(fixed: bool, more: string, a: int, t: char, rest: string)
    requires !IsDigit(t)
    ensures ScanWith(fixed, "%d" + more, Signed(a) + [t] + rest) == Prepend(Some(IntV(a)), ScanWith(fixed, more, rest))
  {
    IntRoundTrip(a, t, rest);
    ScanInt(fixed, more, Signed(a) + [t] + rest);
  }

  /** A corrected whitespace directive leaves printed `%d` text untouched. */
  lemma SkipBeforeInt(b: int, rest: string)
    ensures SkipDirective(true, Signed(b) + rest) == Some(Signed(b) + rest)
  {
    var sb := Signed(b);
    assert sb + rest == [sb[0]] + (sb[1..] + rest);
    SkipFirst(sb[0], sb[1..] + rest);
  }

  /** With the corrected directive, ` %d` reads back one printed integer. */
  lemma ScanSpacedInt(b: int)
    ensures ScanWith(true, " %d", Signed(b) + "\n") == Done([Some(IntV(b))], "")
  {
    var tail := Signed(b) + "\n";
    assert ScanWith(true, " %d", tail) == ScanWith(true, "%d", tail) by {
      SkipBeforeInt(b, "\n");
      assert " %d" == " " + "%d";
      ScanSpace(true, "%d", tail);
    }
    assert ScanWith(true, "%d", tail) == Prepend(Some(IntV(b)), Done([], "")) by {
      assert "%d" == "%d" + "";
      assert tail == Signed(b) + ['\n'] + "";
      ScanPrintedInt(true, "", b, '\n', "");
    }
  }

  /** Two `%d` fields separated by a space read back two integers printed the same way. */
  lemma ScankTwoInts(a: int, b: int)
    ensures Scank("%d %d", Signed(a) + " " + Signed(b) + "\n") == Done([Some(IntV(a)), Some(IntV(b))], "")
  {
    var tail := Signed(b) + "\n";
    assert Scank("%d %d", Signed(a) + " " + Signed(b) + "\n") == Prepend(Some(IntV(a)), ScanWith(true, " %d", tail)) by {
      assert Signed(a) + " " + Signed(b) + "\n" == Signed(a) + [' '] + tail;
      TwoIntsFirst(a, tail);
    }
    ScanSpacedInt(b);
  }

  lemma TwoIntsFirst(a: int, tail: string)
    ensures Scank("%d %d", Signed(a) + [' '] + tail) == Prepend(Some(IntV(a)), ScanWith(true, " %d", tail))
  {
    CStringOfPlain("%d %d");
    assert "%d %d" == "%d" + " %d";
    ScanPrintedInt(true, " %d", a, ' ', tail);
  }

  /** As written, the space in the same format swallows the first digit of the second number. */
  lemma ScankAsWrittenDropsDigit()
    ensures ScankAsWritten("%d %d", "12 34\n") == Done([Some(IntV(12)), Some(IntV(4))], "")
  {
    DropsDigitFirst();
    DropsDigitSpace();
    DropsDigitSecond();
  }

  lemma DropsDigitFirst()
    ensures ScankAsWritten("%d %d", "12 34\n") == Prepend(Some(IntV(12)), ScanWith(false, " %d", "34\n"))
  {
    assert Signed(12) == "12";
    CStringOfPlain("%d %d");
    assert "%d %d" == "%d" + " %d";
    assert "12 34\n" == Signed(12) + [' '] + "34\n";
    ScanPrintedInt(false, " %d", 12, ' ', "34\n");
  }

  lemma DropsDigitSpace()
    ensures ScanWith(false, " %d", "34\n") == ScanWith(false, "%d", "4\n")
  {
    assert SkipDirective(false, "34\n") == Some("4\n") by {
      SkipFirst('3', "4\n");
      assert ['3'] + "4\n" == "34\n";
    }
    assert " %d" == " " + "%d";
    ScanSpace(false, "%d", "34\n");
  }

  lemma DropsDigitSecond()
    ensures ScanWith(false, "%d", "4\n") == Done([Some(IntV(4))], "")
  {
    assert Signed(4) == "4";
    assert "%d" == "%d" + "";
    assert "4\n" == Signed(4) + ['\n'] + "";
    ScanPrintedInt(false, "", 4, '\n', "");
  }
}

=== FILE: shell.dfy ===
/**
 * The user shell's text handling: line editing, splitting a line into
 * arguments, trimming, `echo`, the pipe split, the decimal pid printer,
 * `kill`'s pid parser and the text `write` stores. Strings are the contents
 * of C strings, so they hold no NUL; the system calls the shell makes are
 * not modelled.
 */
module Shell {
  import opened Basics
  import opened Numerals

  /** `MAX_ARGS`: the most arguments a command line is split into. */
  const MaxArgs := 8

  // ------------------------------------------------------------ readline

  /** The character `(char)ch` of a `sys_getc` result; `char` is unsigned on RISC-V. */
  function CharOf(ch: int): char {
    (ch % 256) as char
  }

  /** Carriage return and line feed end a line. */
  predicate IsEnd(c: char) {
    c == '\r' || c == '\n'
  }

  /** DEL (127) and backspace erase the last character. */
  predicate IsErase(c: char) {
    c == '\U{007F}' || c == '\U{0008}'
  }

  /** A key that stops `readline`: a failed read or an end of line. */
  predicate Stops(ch: int) {
    ch < 0 || IsEnd(CharOf(ch))
  }

  /** The buffer after one key: erase drops the last character if any, a stopping key changes nothing, anything else is appended. */
  function Key(buf: string, ch: int): string {
    if Stops(ch) then buf
    else if IsErase(CharOf(ch)) then (if |buf| > 0 then buf[..|buf| - 1] else buf)
    else buf + [CharOf(ch)]
  }

  /** The line a sequence of keys leaves in the buffer. */
  function Edited(keys: seq<int>): (line: string)
    ensures |line| <= |keys|
    ensures forall i :: 0 <= i < |line| ==> !IsEnd(line[i]) && !IsErase(line[i])
  {
    if |keys| == 0 then "" else Key(Edited(keys[..|keys| - 1]), keys[|keys| - 1])
  }

  /** What `readline` leaves: the line it returns and how many keys it read. */
  datatype Read = Read(line: string, consumed: nat)

  /**
   * `readline`'s contract: nothing for `maxlen <= 1`; otherwise the line is
   * the edit of the keys read, at most `maxlen - 1` long, and reading stops
   * exactly at the first stopping key, at the end of the input, or when the
   * buffer is full.
   */
  predicate ReadSpec(input: seq<int>, maxlen: int, r: Read) {
    if maxlen <= 1 then r == Read("", 0)
    else
      && r.consumed <= |input|
      && |r.line| <= maxlen - 1
      && r.line == Edited(input[..r.consumed])
      && (forall i :: 0 <= i < r.consumed - 1 ==> !Stops(input[i]))
      && (r.consumed == |input| || (r.consumed > 0 && Stops(input[r.consumed - 1])) || |r.line| == maxlen - 1)
  }

  /** `readline`: read keys into a buffer of `maxlen` bytes with backspace editing. Input that runs out ends the line like a failed read. */
  method ReadLine(input: seq<int>, maxlen: int) returns (r: Read)
    ensures ReadSpec(input, maxlen, r)
  {
    if maxlen <= 1 {
      return Read("", 0);
    }
    var buf := "";
    var pos := 0;
    while |buf| < maxlen - 1
      invariant pos <= |input|
      invariant buf == Edited(input[..pos])
      invariant |buf| <= maxlen - 1
      invariant forall i :: 0 <= i < pos ==> !Stops(input[i])
      decreases |input| - pos
    {
      if pos == |input| {
        break;
      }
      var ch := input[pos];
      assert input[..pos + 1][..pos] == input[..pos];
      pos := pos + 1;
      if Stops(ch) {
        return Read(buf, pos);
      }
      buf := Key(buf, ch);
    }
    return Read(buf, pos);
  }

  /** The key codes of typing `s`. */
  function Codes(s: string): (keys: seq<int>)
    ensures |keys| == |s|
  {
    seq(|s|, i requires 0 <= i < |s| => s[i] as int)
  }

  /** A character typed as itself: below 256 and neither an end nor an erase key. */
  predicate Plain(c: char) {
    c as int < 256 && !IsEnd(c) && !IsErase(c)
  }

  lemma {:induction false} EditedPlain(s: string)
    requires forall i :: 0 <= i < |s| ==> Plain(s[i])
    ensures Edited(Codes(s)) == s
  {
    if |s| > 0 {
      var n := |s| - 1;
      assert Codes(s)[..n] == Codes(s[..n]);
      EditedPlain(s[..n]);
      assert CharOf(Codes(s)[n]) == s[n];
      assert s == s[..n] + [s[n]];
    }
  }

  /** Typing a plain line shorter than the buffer and pressing Enter reads back exactly that line. */
  lemma TypedLine(s: string, maxlen: int, r: Read)
    requires forall i :: 0 <= i < |s| ==> Plain(s[i])
    requires |s| < maxlen - 1
    requires ReadSpec(Codes(s) + [10], maxlen, r)
    ensures r.line == s && r.consumed == |s| + 1
  {
    var input := Codes(s) + [10];
    assert forall i :: 0 <= i < |s| ==> input[i] == s[i] as int && CharOf(input[i]) == s[i];
    var c := if r.consumed <= |s| then r.consumed else |s|;
    assert input[..c] == Codes(s[..c]);
    EditedPlain(s[..c]);
    assert input[..r.consumed] == input;
    assert input[..|s|] == Codes(s);
    EditedPlain(s);
  }

  // ------------------------------------------------------------ words

  /** A command-line argument: non-empty and free of blanks. */
  predicate Token(w: string) {
    |w| > 0 && forall i :: 0 <= i < |w| ==> !IsBlank(w[i])
  }

  /** The longest prefix of `s` without blanks. */
  function WordAt(s: string): (w: string)
    ensures w <= s
    ensures forall i :: 0 <= i < |w| ==> !IsBlank(w[i])
    ensures |w| == |s| || IsBlank(s[|w|])
  {
    if |s| == 0 || IsBlank(s[0]) then "" else [s[0]] + WordAt(s[1..])
  }

  /** The maximal blank-free runs of `s`, in order: what the shell means by arguments. */
  function Words(s: string): (ws: seq<string>)
    ensures forall i :: 0 <= i < |ws| ==> Token(ws[i])
    decreases |s|
  {
    if |s| == 0 then []
    else if IsBlank(s[0]) then Words(s[1..])
    else
      var w := WordAt(s);
      [w] + Words(s[|w|..])
  }

  /** A blank-free prefix ended by a blank or the end of `s` is `WordAt(s)`. */
  lemma {:induction false} WordAtIs(s: string, k: nat)
    requires k <= |s|
    requires forall i :: 0 <= i < k ==> !IsBlank(s[i])
    requires k == |s| || IsBlank(s[k])
    ensures WordAt(s) == s[..k]
    decreases k
  {
    if k > 0 {
      WordAtIs(s[1..], k - 1);
      assert s[..k] == [s[0]] + s[1..][..k - 1];
    }
  }

  lemma SkipBlank(s: string, p: nat)
    requires p < |s| && IsBlank(s[p])
    ensures Words(s[p..]) == Words(s[p + 1..])
  {
    assert s[p..][1..] == s[p + 1..];
  }

  lemma WordsStep(s: string, start: nat, p: nat)
    requires start < p <= |s|
    requires forall i :: start <= i < p ==> !IsBlank(s[i])
    requires p == |s| || IsBlank(s[p])
    ensures Words(s[start..]) == [s[start..p]] + Words(s[p..])
  {
    var t := s[start..];
    WordAtIs(t, p - start);
    assert t[..p - start] == s[start..p];
    assert t[p - start..] == s[p..];
  }

  /** Advance past blanks from `p`; the words from there on do not change. */
  method SkipBlanks(s: string, p: nat) returns (q: nat)
    requires p <= |s|
    ensures p <= q <= |s| && (q == |s| || !IsBlank(s[q]))
    ensures Words(s[q..]) == Words(s[p..])
  {
    q := p;
    while q < |s| && IsBlank(s[q])
      invariant p <= q <= |s|
      invariant Words(s[q..]) == Words(s[p..])
    {
      SkipBlank(s, q);
      q := q + 1;
    }
  }

  /** Advance past the word starting at `p`, which is not blank: that word is the first of the words from `p`. */
  method ScanWord(s: string, p: nat) returns (q: nat)
    requires p < |s| && !IsBlank(s[p])
    ensures p < q <= |s| && (q == |s| || IsBlank(s[q]))
    ensures Words(s[p..]) == [s[p..q]] + Words(s[q..])
  {
    q := p;
    while q < |s| && !IsBlank(s[q])
      invariant p <= q <= |s|
      invariant forall i :: p <= i < q ==> !IsBlank(s[i])
    {
      q := q + 1;
    }
    WordsStep(s, p, q);
  }

  /**
   * One round of `parse_args`' loop from `p`: skip blanks, take the word there
   * and step over the blank after it. `None` when only blanks are left.
   */
  method NextArg(line: string, p: nat) returns (arg: Option<string>, q: nat)
    requires p <= |line|
    ensures p <= q <= |line|
    ensures arg.None? ==> q == |line| && Words(line[p..]) == []
    ensures arg.Some? ==> p < q && Words(line[p..]) == [arg.value] + Words(line[q..])
  {
    var start := SkipBlanks(line, p);
    if start == |line| {
      assert line[start..] == [];
      return None, start;
    }
    q := ScanWord(line, start);
    arg := Some(line[start..q]);
    if q < |line| {
      SkipBlank(line, q);
      q := q + 1;
    }
  }

  /**
   * `parse_args`: split a line at blanks into at most `maxArgs` arguments,
   * in order. The C code writes NULs into the line to end each argument;
   * here the arguments are returned as strings.
   */
  method ParseArgs(line: string, maxArgs: int) returns (argv: seq<string>)
    ensures argv == Take(Words(line), if maxArgs < 0 then 0 else maxArgs)
  {
    argv := [];
    var p := 0;
    assert line[0..] == line;
    while p < |line| && |argv| < maxArgs
      invariant p <= |line|
      invariant argv + Words(line[p..]) == Words(line)
      invariant maxArgs >= 0 ==> |argv| <= maxArgs
      invariant maxArgs < 0 ==> argv == []
      decreases |line| - p
    {
      var arg, q := NextArg(line, p);
      if arg.None? {
        assert argv + Words(line[q..]) == argv + Words(line[p..]);
        p := q;
        break;
      }
      assert (argv + [arg.value]) + Words(line[q..]) == argv + Words(line[p..]);
      argv := argv + [arg.value];
      p := q;
    }
    var rest := Words(line[p..]);
    if p == |line| {
      assert line[p..] == [];
      assert argv + rest == argv;
    } else {
      assert (argv + rest)[..|argv|] == argv;
    }
  }

  /** Joining arguments with single spaces and splitting again gives them back. */
  lemma {:induction false} WordsOfJoin(ws: seq<string>)
    requires forall i :: 0 <= i < |ws| ==> Token(ws[i])
    ensures Words(Join(ws, " ")) == ws
  {
    if |ws| == 1 {
      var w := ws[0];
      WordAtIs(w, |w|);
      assert w[..|w|] == w;
      assert w[|w|..] == [];
      assert Words(w) == [w] + Words(w[|w|..]);
    } else if |ws| > 1 {
      var w := ws[0];
      var rest := Join(ws[1..], " ");
      var s := w + " " + rest;
      assert forall i :: 0 <= i < |w| ==> s[i] == w[i];
      WordAtIs(s, |w|);
      assert s[..|w|] == w;
      assert s[|w|..][1..] == rest;
      WordsOfJoin(ws[1..]);
      assert ws == [w] + ws[1..];
    }
  }

  /** What `echo` prints: its arguments after the command name, separated by single spaces, then a newline. */
  function EchoText(argv: seq<string>): string {
    (if |argv| <= 1 then "" else Join(argv[1..], " ")) + "\n"
  }

  /** Splitting what `echo` printed, without its newline, gives back the echoed arguments. */
  lemma EchoThenParse(argv: seq<string>)
    requires forall i :: 0 <= i < |argv| ==> Token(argv[i])
    ensures var out := EchoText(argv);
      && out[|out| - 1] == '\n'
      && Words(out[..|out| - 1]) == (if |argv| <= 1 then [] else argv[1..])
  {
    var out := EchoText(argv);
    if |argv| > 1 {
      assert out[..|out| - 1] == Join(argv[1..], " ");
      WordsOfJoin(argv[1..]);
    } else {
      assert out[..|out| - 1] == "";
    }
  }

  // ------------------------------------------------------------ trimming

  predicate AllBlank(s: string) {
    forall i :: 0 <= i < |s| ==> IsBlank(s[i])
  }

  /**
   * `s[start..start+len]` is `s` with its leading and trailing blanks removed:
   * only blanks lie outside it, and a non-empty result starts and ends with a
   * non-blank. An all-blank `s` trims to the empty string at its end.
   */
  predicate TrimmedAt(s: string, start: nat, len: nat) {
    && start + len <= |s|
    && (forall i :: 0 <= i < start ==> IsBlank(s[i]))
    && (forall i :: start + len <= i < |s| ==> IsBlank(s[i]))
    && (len > 0 ==> !IsBlank(s[start]) && !IsBlank(s[start + len - 1]))
    && (len == 0 ==> start == |s|)
  }

  /** `trim_spaces`: skip leading blanks, then cut trailing ones; returns where the result starts and its length. */
  method TrimSpaces(s: string) returns (start: nat, len: nat)
    ensures TrimmedAt(s, start, len)
  {
    start := 0;
    while start < |s| && IsBlank(s[start])
      invariant start <= |s|
      invariant forall i :: 0 <= i < start ==> IsBlank(s[i])
    {
      start := start + 1;
    }
    if start == |s| {
      return start, 0;
    }
    var end := |s| - 1;
    while end > start && IsBlank(s[end])
      invariant start <= end < |s|
      invariant forall i :: end < i < |s| ==> IsBlank(s[i])
    {
      end := end - 1;
    }
    len := end - start + 1;
  }

  /** There is only one way to trim a string. */
  lemma TrimUnique(s: string, a: nat, m: nat, b: nat, n: nat)
    requires TrimmedAt(s, a, m) && TrimmedAt(s, b, n)
    ensures a == b && m == n
  {
  }

  /** Trimming is idempotent: a trimmed string trims to itself. */
  lemma TrimIdempotent(s: string, start: nat, len: nat)
    requires TrimmedAt(s, start, len)
    ensures TrimmedAt(s[start..start + len], 0, len) || (len == 0 && TrimmedAt(s[start..start + len], 0, 0))
  {
  }

  /** A string trims to the empty string exactly when it is all blanks. */
  lemma TrimEmptyIff(s: string, start: nat, len: nat)
    requires TrimmedAt(s, start, len)
    ensures len == 0 <==> AllBlank(s)
  {
    if len > 0 {
      assert !IsBlank(s[start]);
    }
  }

  lemma {:induction false} WordsOfBlanks(s: string)
    requires AllBlank(s)
    ensures Words(s) == []
    decreases |s|
  {
    if |s| > 0 {
      WordsOfBlanks(s[1..]);
    }
  }

  lemma {:induction false} WordsLeadingBlanks(s: string, k: nat)
    requires k <= |s| && forall i :: 0 <= i < k ==> IsBlank(s[i])
    ensures Words(s) == Words(s[k..])
    decreases k
  {
    if k > 0 {
      assert s[1..][k - 1..] == s[k..];
      WordsLeadingBlanks(s[1..], k - 1);
    }
  }

  lemma {:induction false} WordsTrailingBlanks(t: string, b: string)
    requires AllBlank(b)
    ensures Words(t + b) == Words(t)
    decreases |t|
  {
    var s := t + b;
    if |t| == 0 {
      assert s == b;
      WordsOfBlanks(b);
    } else if IsBlank(t[0]) {
      assert s[1..] == t[1..] + b;
      WordsTrailingBlanks(t[1..], b);
    } else {
      var w := WordAt(t);
      var k := |w|;
      assert forall i :: 0 <= i < k ==> s[i] == t[i];
      assert k < |s| ==> IsBlank(s[k]) by {
        if k < |t| {
          assert s[k] == t[k];
        } else if k < |s| {
          assert s[k] == b[0];
        }
      }
      WordAtIs(s, k);
      WordAtIs(t, k);
      assert s[..k] == w;
      assert s[k..] == t[k..] + b;
      WordsTrailingBlanks(t[k..], b);
      assert Words(s) == [w] + Words(s[k..]);
    }
  }

  /** Trimming does not change the words of a string. */
  lemma TrimKeepsWords(s: string, start: nat, len: nat)
    requires TrimmedAt(s, start, len)
    ensures Words(s[start..start + len]) == Words(s)
  {
    WordsLeadingBlanks(s, start);
    var t := s[start..start + len];
    assert s[start..] == t + s[start + len..];
    WordsTrailingBlanks(t, s[start + len..]);
  }

  lemma {:induction false} WordsNonEmpty(s: string, i: nat)
    requires i < |s| && !IsBlank(s[i])
    ensures |Words(s)| > 0
    decreases |s|
  {
    if IsBlank(s[0]) {
      WordsNonEmpty(s[1..], i - 1);
    }
  }

  // ------------------------------------------------------------ the pipe split

  /** The index of the first `|` in `s`, or `|s|` when there is none. */
  function FirstBar(s: string): (k: nat)
    ensures k <= |s|
    ensures forall i :: 0 <= i < k ==> s[i] != '|'
    ensures k < |s| ==> s[k] == '|'
  {
    if |s| == 0 then 0 else if s[0] == '|' then 0 else 1 + FirstBar(s[1..])
  }

  lemma {:induction false} FirstBarIs(s: string, k: nat)
    requires k <= |s| && (forall i :: 0 <= i < k ==> s[i] != '|') && (k < |s| ==> s[k] == '|')
    ensures FirstBar(s) == k
    decreases k
  {
    if k > 0 {
      FirstBarIs(s[1..], k - 1);
    }
  }

  /** What the shell makes of an input line. */
  datatype Command =
    | Simple(argv: seq<string>)
    | Pipeline(left: seq<string>, right: seq<string>)
    | InvalidSyntax
    | InvalidCommands

  /**
   * The main loop's split of a line: without a `|` the line is one command;
   * otherwise it is cut at the first `|`, both sides are trimmed, an empty side
   * is invalid syntax, and each side is split into arguments.
   */
  method SplitLine(line: string) returns (c: Command)
    ensures var k := FirstBar(line);
      && (c.Simple? <==> k == |line|)
      && (c.Simple? ==> c.argv == Take(Words(line), MaxArgs))
      && (c == InvalidSyntax <==> k < |line| && (AllBlank(line[..k]) || AllBlank(line[k + 1..])))
      && (c.Pipeline? ==> c.left == Take(Words(line[..k]), MaxArgs) && c.right == Take(Words(line[k + 1..]), MaxArgs))
      && (c.Pipeline? ==> |c.left| > 0 && |c.right| > 0)
      && !c.InvalidCommands?
  {
    var k := 0;
    while k < |line| && line[k] != '|'
      invariant k <= |line|
      invariant forall i :: 0 <= i < k ==> line[i] != '|'
    {
      k := k + 1;
    }
    FirstBarIs(line, k);
    if k == |line| {
      var argv := ParseArgs(line, MaxArgs);
      return Simple(argv);
    }
    var left := line[..k];
    var right := line[k + 1..];
    var ls, ll := TrimSpaces(left);
    var rs, rl := TrimSpaces(right);
    TrimEmptyIff(left, ls, ll);
    TrimEmptyIff(right, rs, rl);
    if ll == 0 || rl == 0 {
      return InvalidSyntax;
    }
    var argv1 := ParseArgs(left[ls..ls + ll], MaxArgs);
    var argv2 := ParseArgs(right[rs..rs + rl], MaxArgs);
    TrimKeepsWords(left, ls, ll);
    TrimKeepsWords(right, rs, rl);
    WordsNonEmpty(left, ls);
    WordsNonEmpty(right, rs);
    if |argv1| == 0 || |argv2| == 0 {
      return InvalidCommands;
    }
    return Pipeline(argv1, argv2);
  }

  // ------------------------------------------------------------ numbers

  /** The characters of `s` in the opposite order. */
  function Reverse(s: string): (r: string)
    ensures |r| == |s|
    ensures forall i :: 0 <= i < |s| ==> r[i] == s[|s| - 1 - i]
  {
    if |s| == 0 then "" else Reverse(s[1..]) + [s[0]]
  }

  lemma ReverseSnoc(s: string, c: char)
    ensures Reverse(s + [c]) == [c] + Reverse(s)
  {
    if |s| > 0 {
      assert (s + [c])[1..] == s[1..] + [c];
      ReverseSnoc(s[1..], c);
    } else {
      assert (s + [c])[1..] == [];
    }
  }

  /** Every positive C `int` has at most ten decimal digits. */
  lemma {:induction false} DecimalLength(n: nat, k: nat, bound: nat)
    requires n < bound && bound == Pow10(k) && k >= 1
    ensures |DecimalString(n)| <= k
    decreases k
  {
    if n >= 10 {
      assert k >= 2;
      DecimalLength(n / 10, k - 1, Pow10(k - 1));
    }
  }

  function Pow10(k: nat): (p: nat)
    ensures p >= 1
  {
    if k == 0 then 1 else 10 * Pow10(k - 1)
  }

  /**
   * The shell's pid printer: `"0"` for zero; otherwise the remainders by ten
   * are collected least significant first, at most 32 of them, and written out
   * reversed. A negative pid gives the empty string.
   */
  method PidString(n: int) returns (s: string)
    requires -0x8000_0000 <= n < 0x8000_0000
    ensures n >= 0 ==> s == DecimalString(n)
    ensures n < 0 ==> s == ""
  {
    if n == 0 {
      return "0";
    }
    var tmp := "";
    var m := n;
    if n > 0 {
      DecimalLength(n, 10, Pow10(10));
    }
    while m > 0 && |tmp| < 32
      invariant n < 0 ==> m == n && tmp == ""
      invariant n > 0 ==> 0 <= m && m < 0x8000_0000
      invariant n > 0 && m > 0 ==> DecimalString(n) == DecimalString(m) + Reverse(tmp)
      invariant n > 0 && m == 0 ==> DecimalString(n) == Reverse(tmp)
      invariant n > 0 && m > 0 ==> |DecimalString(m)| + |tmp| <= 10
      decreases m
    {
      var d := m % 10;
      ReverseSnoc(tmp, DigitChar(d));
      tmp := tmp + [DigitChar(d)];
      m := m / 10;
    }
    s := Reverse(tmp);
  }

  /** The pid `kill` means by `s`: an optional `-` and then only digits, read as a decimal number. */
  function PidValue(s: string): Option<int> {
    var neg := |s| > 0 && s[0] == '-';
    var digits := if neg then s[1..] else s;
    if AllDigits(digits) then Some(if neg then 0 - DecimalValue(digits) else DecimalValue(digits)) else None
  }

  /** `kill`'s parser: optional `-`, then digits folded as `pid * 10 + d`; `None` at the first other character. */
  method ParseKill(s: string) returns (r: Option<int>)
    ensures r == PidValue(s)
  {
    var i := 0;
    var neg := false;
    if |s| > 0 && s[0] == '-' {
      neg := true;
      i := 1;
    }
    var start := i;
    var pid := 0;
    while i < |s|
      invariant start <= i <= |s|
      invariant AllDigits(s[start..i]) && pid == DecimalValue(s[start..i])
    {
      if !IsDigit(s[i]) {
        assert !AllDigits(s[start..]) by { assert s[start..][i - start] == s[i]; }
        return None;
      }
      DecimalValueAppend(s[start..i], s[i]);
      assert s[start..i + 1] == s[start..i] + [s[i]];
      pid := pid * 10 + DigitValue(s[i]);
      i := i + 1;
    }
    assert s[start..] == s[start..i];
    if neg {
      pid := -pid;
    }
    return Some(pid);
  }

  /** The pid printer and `kill`'s parser agree: a printed pid reads back, and so does its negation. */
  lemma PidRoundTrip(n: nat)
    ensures PidValue(DecimalString(n)) == Some(n)
    ensures PidValue("-" + DecimalString(n)) == Some(0 - n)
  {
    DecimalRoundTrip(n);
    assert ("-" + DecimalString(n))[1..] == DecimalString(n);
  }

  // ------------------------------------------------------------ write

  lemma {:induction false} JoinSnoc(ws: seq<string>, w: string, sep: string)
    requires |ws| > 0
    ensures Join(ws + [w], sep) == Join(ws, sep) + sep + w
    decreases |ws|
  {
    if |ws| > 1 {
      assert (ws + [w])[1..] == ws[1..] + [w];
      JoinSnoc(ws[1..], w, sep);
    } else {
      assert (ws + [w])[1..] == [w];
    }
  }

  lemma {:induction false} JoinPrefix(ws: seq<string>, i: nat, sep: string)
    requires i <= |ws|
    ensures Join(ws[..i], sep) <= Join(ws, sep)
    decreases |ws| - i
  {
    if i < |ws| {
      JoinPrefix(ws, i + 1, sep);
      assert ws[..i + 1] == ws[..i] + [ws[i]];
      if i > 0 {
        JoinSnoc(ws[..i], ws[i], sep);
      } else {
        assert ws[..0] == [];
      }
    } else {
      assert ws[..i] == ws;
    }
  }

  /**
   * The text `write FILE TEXT...` stores: the arguments after the file name
   * joined by single spaces in a 256-byte buffer, so at most 255 characters.
   */
  method WriteText(args: seq<string>) returns (text: string)
    ensures text == Take(Join(args, " "), 255)
  {
    text := "";
    var i := 0;
    while i < |args|
      invariant i <= |args|
      invariant text == Join(args[..i], " ")
      invariant |text| < 255
    {
      var joined := Join(args[..i + 1], " ");
      assert args[..i + 1] == args[..i] + [args[i]];
      if i > 0 {
        JoinSnoc(args[..i], args[i], " ");
        text := text + " ";
      } else {
        assert args[..0] == [];
      }
      var slen := |args[i]|;
      if |text| + slen >= 256 {
        slen := 255 - |text|;
      }
      text := text + args[i][..slen];
      if |text| >= 255 {
        JoinPrefix(args, i + 1, " ");
        assert text == joined[..255];
        assert Join(args, " ")[..255] == joined[..255];
        return;
      }
      assert text == joined;
      i := i + 1;
    }
    assert args[..i] == args;
  }
}

=== FILE: syscall.dfy ===
// The system-call layer: the numbers user programs pass, the dispatcher
// that routes them to handlers, the handlers that unpack their 64-bit
// arguments for the file system and the console, the program break
// (`sbrk`), and the table `exec` looks program names up in.
//
// User memory is one byte sequence indexed by address; address 0 is NULL.
// Every argument and every return value is a 64-bit word.

module Syscall {
  import opened Basics
  import opened FsLayout
  import FsDisk
  import FsFile
  import FsDir
  import FsApi
  import Uart
  import Kmem
  import Vmm
  import KString
  import Numerals

  // --------------------------------------------------------------- numbers

  const SYS_EXIT: nat := 1
  const SYS_GETPID: nat := 2
  const SYS_FORK: nat := 3
  const SYS_WAIT: nat := 4
  const SYS_SBRK: nat := 5
  const SYS_SLEEP: nat := 6
  const SYS_KILL: nat := 7
  const SYS_UPTIME: nat := 8
  const SYS_WRITE: nat := 9
  const SYS_OPEN: nat := 10
  const SYS_READ: nat := 11
  const SYS_CLOSE: nat := 12
  const SYS_LS: nat := 13
  const SYS_GETC: nat := 14
  const SYS_UNLINK: nat := 15
  const SYS_EXEC: nat := 16
  const SYS_TRUNC: nat := 17
  const SYS_PS: nat := 18

  const U64: nat := 0x1_0000_0000_0000_0000

  /** `(uint64_t)-1`, the failure value of every handler. */
  const MinusOne: nat := U64 - 1

  /** The conversion `(uint64_t)x`: two's complement modulo 2^64. */
  function U64Of(x: int): (r: nat)
    ensures r < U64
    ensures 0 <= x < U64 ==> r == x
    ensures x == -1 ==> r == MinusOne
  {
    x % U64
  }

  /** The handlers of `syscall_dispatch`. */
  datatype Service =
    | Getpid | Exit | Uptime | Sleep | Write | Open | Read | Close
    | Fork | Wait | Sbrk | Ls | Getc | Unlink | Trunc | Ps
    | Unsupported

  /**
   * `syscall_dispatch`'s switch. Only the numbers it lists have a handler:
   * 0, `SYS_KILL`, `SYS_EXEC` (which the trap handler deals with before the
   * dispatcher) and everything past `SYS_PS` fall to the default.
   */
  function Route(num: nat): (s: Service)
    ensures s == Unsupported <==> num == 0 || num == SYS_KILL || num == SYS_EXEC || num > SYS_PS
  {
    if num == SYS_GETPID then Getpid
    else if num == SYS_EXIT then Exit
    else if num == SYS_UPTIME then Uptime
    else if num == SYS_SLEEP then Sleep
    else if num == SYS_WRITE then Write
    else if num == SYS_OPEN then Open
    else if num == SYS_READ then Read
    else if num == SYS_CLOSE then Close
    else if num == SYS_FORK then Fork
    else if num == SYS_WAIT then Wait
    else if num == SYS_SBRK then Sbrk
    else if num == SYS_LS then Ls
    else if num == SYS_GETC then Getc
    else if num == SYS_UNLINK then Unlink
    else if num == SYS_TRUNC then Trunc
    else if num == SYS_PS then Ps
    else Unsupported
  }

  /** The number each handler is registered under in the system-call header. */
  function Number(s: Service): (num: nat)
    requires s != Unsupported
    ensures 0 < num <= SYS_PS
  {
    match s
    case Exit => SYS_EXIT
    case Getpid => SYS_GETPID
    case Fork => SYS_FORK
    case Wait => SYS_WAIT
    case Sbrk => SYS_SBRK
    case Sleep => SYS_SLEEP
    case Uptime => SYS_UPTIME
    case Write => SYS_WRITE
    case Open => SYS_OPEN
    case Read => SYS_READ
    case Close => SYS_CLOSE
    case Ls => SYS_LS
    case Getc => SYS_GETC
    case Unlink => SYS_UNLINK
    case Trunc => SYS_TRUNC
    case Ps => SYS_PS
  }

  /** Every handler is reached through its own number, and every routed number is that handler's. */
  lemma RouteNumber(s: Service, num: nat)
    ensures s != Unsupported ==> Route(Number(s)) == s
    ensures Route(num) != Unsupported ==> Number(Route(num)) == num
  {
  }

  /** Handlers whose work is the scheduler's, the clock's or the console input's, outside this model. */
  predicate Elsewhere(s: Service) {
    s == Exit || s == Uptime || s == Sleep || s == Fork || s == Wait || s == Getc || s == Ps
  }

  // ------------------------------------------------------------ the kernel

  /** The running process as `sbrk` sees it; a `brkBase` of 0 means the break is not set up yet. */
  datatype Proc = Proc(pid: int, brkBase: nat, brkSize: nat)

  /**
   * The state the handlers share: the file system, what the console has
   * printed, the current process (if any), the page tables and the frame
   * allocator.
   */
  datatype Kernel = Kernel(fs: FsApi.Fs, console: string, current: Option<Proc>, vmm: Vmm.Vmm, frames: Kmem.Kmem)

  /** The descriptor table is whole, the page tables and allocator agree, and the break fits its 64-bit fields. */
  predicate Valid(k: Kernel) {
    && FsApi.FdsOk(k.fs.fds)
    && Vmm.Coupled(k.vmm, k.frames)
    && (k.current.Some? ==> k.current.value.brkBase < U64 && k.current.value.brkSize < U64)
  }

  /** A handler's new state, user memory and return value. */
  datatype Trap = Trap(k: Kernel, user: seq<byte>, ret: nat)

  /** The six argument registers, each a 64-bit word. */
  predicate Words(args: seq<nat>) {
    |args| == 6 && forall i :: 0 <= i < 6 ==> args[i] < U64
  }

  // ---------------------------------------------------------- user memory

  /** `p` is NULL or the start of a NUL-terminated string. */
  predicate StringAt(user: seq<byte>, p: nat) {
    p == 0 || (p < |user| && 0 in user[p..])
  }

  /** The bytes from `p` up to the first NUL. */
  function Terminated(user: seq<byte>, p: nat): (s: seq<byte>)
    requires p < |user| && 0 in user[p..]
    ensures 0 !in s && p + |s| < |user| && user[p + |s|] == 0 && user[p..p + |s|] == s
    decreases |user| - p
  {
    if user[p] == 0 then []
    else
      assert user[p..] == [user[p]] + user[p + 1..];
      [user[p]] + Terminated(user, p + 1)
  }

  /** The C string a pointer argument names; `None` for NULL. */
  function Str(user: seq<byte>, p: nat): (s: Option<seq<byte>>)
    requires StringAt(user, p)
    ensures s.None? <==> p == 0
    ensures s.Some? ==> 0 !in s.value && p + |s.value| < |user| && user[p + |s.value|] == 0 && user[p..p + |s.value|] == s.value
  {
    if p == 0 then None else Some(Terminated(user, p))
  }

  /** `p` is NULL or has `n` bytes of memory behind it (none when `n` is negative). */
  predicate Fits(user: seq<byte>, p: nat, n: int) {
    p == 0 || p + Max(n, 0) <= |user|
  }

  /** The buffer a pointer argument names, as much of it as a non-negative `n` covers; `None` for NULL. */
  function Region(user: seq<byte>, p: nat, n: int): (b: Option<seq<byte>>)
    requires Fits(user, p, n)
    ensures b.None? <==> p == 0
    ensures b.Some? ==> |b.value| == Max(n, 0) && b.value == user[p..p + Max(n, 0)]
  {
    if p == 0 then None else Some(user[p..p + Max(n, 0)])
  }

  // ------------------------------------------------------------- sys_write

  /** A byte sent through `printk("%c", c)`. */
  function PrintChar(b: byte): (out: string)
    ensures b == 0 <==> out == ""
    ensures '\0' !in out && |out| <= 2
  {
    CharPrinted(b);
    var c := b as int as char;
    assert b != 0 ==> Uart.Puts([c]) == if c == '\n' then "\r\n" else [c];
    Uart.Printk("%c", [Uart.Num(b as int)]).value
  }

  /** `printk("%c", c)` prints nothing for a NUL and otherwise the character, with `puts`' line-feed expansion. */
  lemma CharPrinted(b: byte)
    ensures Uart.Printk("%c", [Uart.Num(b as int)]) == Some(if b == 0 then "" else Uart.Puts([b as int as char]))
  {
    var c := (b as int % 256) as char;
    assert CString("%c") == "%c" by {
      assert CString("c") == ['c'] + CString("");
    }
    assert Uart.Format("%c", [Uart.Num(b as int)]) == Some([c]) by {
      assert "%c"[2..] == "" && "%c"[0] == '%' && "%c"[1] == 'c';
      assert [Uart.Num(b as int)][1..] == [];
      assert Uart.Convert('c', Uart.Num(b as int)) == Some([c]);
      assert Uart.Format("", []) == Some("");
      assert Uart.TakesArg('c');
      assert [c] + "" == [c];
    }
    assert CString([c]) == if b == 0 then "" else [c] by {
      assert [c][1..] == [];
    }
  }

  /** The console output of `sys_write`'s loop: every byte of the buffer printed on its own. */
  function Echo(bs: seq<byte>): (out: string)
    ensures '\0' !in out && |out| <= 2 * |bs|
  {
    if |bs| == 0 then "" else PrintChar(bs[0]) + Echo(bs[1..])
  }

  /** The characters of a byte string, NULs dropped. */
  function Shown(bs: seq<byte>): (s: string)
    ensures '\0' !in s
  {
    if |bs| == 0 then ""
    else (if bs[0] == 0 then "" else [bs[0] as int as char]) + Shown(bs[1..])
  }

  /** The echo is the bytes' visible characters put through `puts`. */
  lemma {:induction false} EchoPuts(bs: seq<byte>)
    ensures Echo(bs) == Uart.Puts(Shown(bs))
  {
    if |bs| > 0 {
      EchoPuts(bs[1..]);
      CharPrinted(bs[0]);
      var head: string := if bs[0] == 0 then "" else [bs[0] as int as char];
      Uart.PutsAppend(head, Shown(bs[1..]));
    }
  }

  /**
   * A terminal that reads each `"\r\n"` as a line feed shows exactly the
   * written buffer, less its NUL bytes.
   */
  lemma EchoShows(bs: seq<byte>)
    ensures Uart.Uncrlf(Echo(bs)) == Shown(bs)
  {
    EchoPuts(bs);
    Uart.PutsInverse(Shown(bs));
  }

  /** The bytes `sys_write` prints for the console descriptors. */
  function Written(user: seq<byte>, buf: nat, len: nat): (bs: seq<byte>)
    requires len == 0 || buf + len <= |user|
    ensures |bs| == len
  {
    if len == 0 then [] else user[buf..buf + len]
  }

  /** What `sys_write` needs of its caller: the console loop reads `len` bytes, the file system `(int)len`. */
  predicate WriteDemands(user: seq<byte>, fd: nat, buf: nat, len: nat) {
    && ((fd == 1 || fd == 2) ==> len == 0 || buf + len <= |user|)
    && (FsApi.InRange(fd) ==> Fits(user, buf, Uart.ToInt32(len)))
  }

  /**
   * `sys_write`: descriptors 1 and 2 print the buffer and return `len`;
   * the file-system descriptors write `(int)len` bytes through `fs_write`;
   * any other descriptor is refused. The descriptor is compared as a
   * 64-bit word.
   */
  method SysWrite(k: Kernel, user: seq<byte>, fd: nat, buf: nat, len: nat) returns (r: Trap)
    requires Valid(k) && len < U64 && WriteDemands(user, fd, buf, len)
    ensures Valid(r.k) && r.user == user
    ensures r.k.current == k.current && r.k.vmm == k.vmm && r.k.frames == k.frames && r.k.fs.root == k.fs.root
    ensures fd == 1 || fd == 2 ==> r == Trap(k.(console := k.console + Echo(Written(user, buf, len))), user, len)
    ensures fd != 1 && fd != 2 && !FsApi.InRange(fd) ==> r == Trap(k, user, MinusOne)
    ensures FsApi.InRange(fd) ==> r.k.console == k.console
    ensures FsApi.InRange(fd) && !(FsApi.IsOpen(k.fs.fds, fd) && buf != 0 && Uart.ToInt32(len) >= 0) ==> r == Trap(k, user, MinusOne)
    ensures FsApi.InRange(fd) && r.ret == MinusOne ==> r.k.fs.fds == k.fs.fds
    ensures FsApi.InRange(fd) && r.ret != MinusOne ==>
      var n := Uart.ToInt32(len); var i := fd - FS_FD_BASE;
      r.ret == n && r.k.fs.fds == k.fs.fds[i := k.fs.fds[i].(offset := FsApi.Advance(k.fs.fds[i].offset, n))]
    ensures FsApi.InRange(fd) && FsApi.IsOpen(k.fs.fds, fd) && buf != 0 && Uart.ToInt32(len) >= 0 ==>
      var n := Uart.ToInt32(len); var d := k.fs.fds[fd - FS_FD_BASE];
      ValidInum(d.inum) && d.offset + n < U32 && FsFile.Sound(k.fs.disk, FsDisk.ReadDinode(k.fs.disk, d.inum).value) ==>
        FsApi.Wrote(k.fs.disk, r.k.fs.disk, d.inum, d.offset, user[buf..buf + n], r.ret != MinusOne)
  {
    if fd == 1 || fd == 2 {
      return Trap(k.(console := k.console + Echo(Written(user, buf, len))), user, len);
    }
    if !FsApi.InRange(fd) {
      return Trap(k, user, MinusOne);
    }
    r := WriteFile(k, user, fd, buf, len);
  }

  /** The file-system branch of `sys_write`: `fs_write` of `(int)len` bytes at the buffer. */
  method WriteFile(k: Kernel, user: seq<byte>, fd: nat, buf: nat, len: nat) returns (r: Trap)
    requires Valid(k) && FsApi.InRange(fd) && Fits(user, buf, Uart.ToInt32(len))
    ensures Valid(r.k) && r.user == user && r.k.fs.root == k.fs.root
    ensures r.k.console == k.console && r.k.current == k.current && r.k.vmm == k.vmm && r.k.frames == k.frames
    ensures !(FsApi.IsOpen(k.fs.fds, fd) && buf != 0 && Uart.ToInt32(len) >= 0) ==> r == Trap(k, user, MinusOne)
    ensures r.ret == MinusOne ==> r.k.fs.fds == k.fs.fds
    ensures r.ret != MinusOne ==>
      var n := Uart.ToInt32(len); var i := fd - FS_FD_BASE;
      r.ret == n && r.k.fs.fds == k.fs.fds[i := k.fs.fds[i].(offset := FsApi.Advance(k.fs.fds[i].offset, n))]
    ensures FsApi.IsOpen(k.fs.fds, fd) && buf != 0 && Uart.ToInt32(len) >= 0 ==>
      var n := Uart.ToInt32(len); var d := k.fs.fds[fd - FS_FD_BASE];
      ValidInum(d.inum) && d.offset + n < U32 && FsFile.Sound(k.fs.disk, FsDisk.ReadDinode(k.fs.disk, d.inum).value) ==>
        FsApi.Wrote(k.fs.disk, r.k.fs.disk, d.inum, d.offset, user[buf..buf + n], r.ret != MinusOne)
  {
    var fs, ret := WriteRegion(k.fs, user, fd, buf, Uart.ToInt32(len));
    r := Trap(k.(fs := fs), user, ret);
  }

  /** `fs_write` of `n` bytes of user memory at `buf`, its result widened to 64 bits. */
  method WriteRegion(fs: FsApi.Fs, user: seq<byte>, fd: nat, buf: nat, n: int) returns (fs': FsApi.Fs, ret: nat)
    requires FsApi.FdsOk(fs.fds) && FsApi.InRange(fd) && Fits(user, buf, n) && n < 0x8000_0000
    ensures FsApi.FdsOk(fs'.fds) && fs'.root == fs.root
    ensures !(FsApi.IsOpen(fs.fds, fd) && buf != 0 && n >= 0) ==> fs' == fs && ret == MinusOne
    ensures ret == MinusOne ==> fs'.fds == fs.fds
    ensures ret != MinusOne ==>
      var i := fd - FS_FD_BASE;
      ret == n && fs'.fds == fs.fds[i := fs.fds[i].(offset := FsApi.Advance(fs.fds[i].offset, n))]
    ensures FsApi.IsOpen(fs.fds, fd) && buf != 0 && n >= 0 ==>
      var d := fs.fds[fd - FS_FD_BASE];
      ValidInum(d.inum) && d.offset + n < U32 && FsFile.Sound(fs.disk, FsDisk.ReadDinode(fs.disk, d.inum).value) ==>
        FsApi.Wrote(fs.disk, fs'.disk, d.inum, d.offset, user[buf..buf + n], ret != MinusOne)
  {
    var b := Region(user, buf, n);
    if buf != 0 && n >= 0 {
      assert b.value[..n] == b.value == user[buf..buf + n];
    }
    var c := FsApi.Write(fs, fd, b, n);
    fs', ret := c.fs, U64Of(c.ret);
    assert c.ret == -1 || c.ret == n;
    assert ret != MinusOne <==> c.ret != -1;
  }

  // -------------------------------------------------------------- sys_open

  /**
   * `sys_open`: `fs_create` when the flag, taken as an `int`, is non-zero,
   * and `fs_open` otherwise. A flag whose low 32 bits are all zero opens.
   * The create path uses `fs_create` with the inode given back when the
   * directory entry cannot be added.
   */
  method SysOpen(k: Kernel, user: seq<byte>, name: nat, create: nat) returns (r: Trap)
    requires Valid(k) && StringAt(user, name)
    ensures Valid(r.k) && r.user == user
    ensures r.k.console == k.console && r.k.current == k.current && r.k.vmm == k.vmm && r.k.frames == k.frames
    ensures Uart.ToInt32(create) == 0 ==>
      var c := FsApi.Open(k.fs, Str(user, name)); r == Trap(k.(fs := c.fs), user, U64Of(c.ret))
    ensures Uart.ToInt32(create) != 0 ==>
      var s := Str(user, name);
      && (s.None? || FsDir.DirLookup(k.fs.disk, k.fs.root, s.value).Some? || FsApi.Ialloc(k.fs.disk, 1).None? ==>
            r == Trap(k, user, MinusOne))
      && (r.ret == MinusOne ==> r.k.fs.fds == k.fs.fds)
      && (r.ret != MinusOne ==>
            s.Some? && FsApi.Ialloc(k.fs.disk, 1).Some?
            && FsApi.Opened(k.fs.fds, r.k.fs.fds, r.ret, FsApi.Ialloc(k.fs.disk, 1).value.inum))
  {
    var s := Str(user, name);
    if Uart.ToInt32(create) != 0 {
      var c := FsApi.CreateReleasing(k.fs, s);
      r := Trap(k.(fs := c.fs), user, U64Of(c.ret));
    } else {
      var c := FsApi.Open(k.fs, s);
      r := Trap(k.(fs := c.fs), user, U64Of(c.ret));
    }
  }

  // -------------------------------------------------------------- sys_read

  /** What `sys_read` needs of its caller: `(int)n` bytes of memory behind the buffer. */
  predicate ReadDemands(user: seq<byte>, fd: nat, buf: nat, n: nat) {
    FsApi.InRange(Uart.ToInt32(fd)) ==> Fits(user, buf, Uart.ToInt32(n))
  }

  /**
   * `sys_read`: the descriptor and count taken as `int`s; a descriptor in
   * the file-system range reads through `fs_read` into the buffer. What
   * `fs_read` copied reaches the buffer also when it then fails.
   */
  function SysRead(k: Kernel, user: seq<byte>, fd: nat, buf: nat, n: nat): (r: Trap)
    requires Valid(k) && ReadDemands(user, fd, buf, n)
    ensures Valid(r.k) && r.k.fs.disk == k.fs.disk && r.k.fs.root == k.fs.root
    ensures r.k.console == k.console && r.k.current == k.current && r.k.vmm == k.vmm && r.k.frames == k.frames
    ensures !FsApi.InRange(Uart.ToInt32(fd)) ==> r == Trap(k, user, MinusOne)
    ensures r.ret == MinusOne ==> r.k == k
    ensures FsApi.InRange(Uart.ToInt32(fd)) ==>
      var c := FsApi.Read(k.fs, Uart.ToInt32(fd), buf != 0, Uart.ToInt32(n));
      && buf + |c.data| <= |user|
      && KString.SameOutside(r.user, user, buf, |c.data|)
      && r.user[buf..buf + |c.data|] == c.data
    ensures r.ret != MinusOne ==>
      && buf != 0 && r.ret <= Uart.ToInt32(n) && buf + r.ret <= |user|
      && KString.SameOutside(r.user, user, buf, r.ret)
      && r.user[buf..buf + r.ret] == FsApi.Read(k.fs, Uart.ToInt32(fd), true, Uart.ToInt32(n)).data
  {
    var f := Uart.ToInt32(fd);
    var m := Uart.ToInt32(n);
    if !FsApi.InRange(f) then Trap(k, user, MinusOne)
    else
      var c := FsApi.Read(k.fs, f, buf != 0, m);
      KString.OverwriteIff(KString.Overwrite(user, buf, c.data), user, buf, c.data);
      if c.ret == -1 then Trap(k, KString.Overwrite(user, buf, c.data), MinusOne)
      else Trap(k.(fs := c.fs), KString.Overwrite(user, buf, c.data), c.ret)
  }

  /**
   * The bytes `sys_read` copies into the buffer are the file's own, from
   * the descriptor's offset, whether it returns their number or fails part
   * way; an invalid inode makes it fail.
   */
  lemma SysReadGivesFile(k: Kernel, user: seq<byte>, fd: nat, buf: nat, n: nat)
    requires Valid(k) && ReadDemands(user, fd, buf, n)
    requires FsApi.IsOpen(k.fs.fds, Uart.ToInt32(fd)) && buf != 0 && Uart.ToInt32(n) >= 0
    requires k.fs.fds[Uart.ToInt32(fd) - FS_FD_BASE].offset + Uart.ToInt32(n) < U32
    ensures var d := k.fs.fds[Uart.ToInt32(fd) - FS_FD_BASE]; var r := SysRead(k, user, fd, buf, n);
      var w := |FsApi.Read(k.fs, Uart.ToInt32(fd), true, Uart.ToInt32(n)).data|;
      && buf + w <= |r.user|
      && (r.ret != MinusOne ==> r.ret == w)
      && (!ValidInum(d.inum) ==> r.ret == MinusOne)
      && (ValidInum(d.inum) ==>
            FsFile.BytesAt(k.fs.disk, FsDisk.ReadDinode(k.fs.disk, d.inum).value, d.offset, r.user[buf..buf + w]))
  {
    FsApi.ReadGivesFile(k.fs, Uart.ToInt32(fd), Uart.ToInt32(n));
  }

  // ------------------------------------------------------------- sys_close

  /** `sys_close`: the descriptor taken as an `int`; one in the file-system range goes to `fs_close`. */
  function SysClose(k: Kernel, user: seq<byte>, fd: nat): (r: Trap)
    requires Valid(k)
    ensures Valid(r.k) && r.user == user && r.k.fs.disk == k.fs.disk && r.k.fs.root == k.fs.root
    ensures r.k.console == k.console && r.k.current == k.current && r.k.vmm == k.vmm && r.k.frames == k.frames
    ensures r.ret == 0 <==> FsApi.IsOpen(k.fs.fds, Uart.ToInt32(fd))
    ensures r.ret != 0 ==> r == Trap(k, user, MinusOne)
    ensures r.ret == 0 ==> !FsApi.IsOpen(r.k.fs.fds, Uart.ToInt32(fd))
  {
    var f := Uart.ToInt32(fd);
    if !FsApi.InRange(f) then Trap(k, user, MinusOne)
    else
      var c := FsApi.Close(k.fs, f);
      Trap(k.(fs := c.fs), user, U64Of(c.ret))
  }

  /**
   * `sys_read` and `sys_close` look only at the low 32 bits of the
   * descriptor word, so a descriptor plus 2^32 reaches the same file;
   * `sys_write` compares the whole word and refuses it.
   */
  lemma DescriptorLow32(k: Kernel, user: seq<byte>, fd: nat, buf: nat, n: nat)
    requires Valid(k) && fd < U32 && ReadDemands(user, fd, buf, n)
    ensures SysClose(k, user, fd + U32) == SysClose(k, user, fd)
    ensures ReadDemands(user, fd + U32, buf, n) && SysRead(k, user, fd + U32, buf, n) == SysRead(k, user, fd, buf, n)
    ensures !FsApi.InRange(fd + U32)
  {
    assert (fd + U32) % U32 == fd % U32;
  }

  // ---------------------------------------------------------------- sys_ls

  /** The bytes of an array of `struct dirent`. */
  function DirentBytes(es: seq<Dirent>): (bs: seq<byte>)
    requires forall k :: 0 <= k < |es| ==> Whole(es[k])
    ensures |bs| == DIRENT_SIZE * |es|
  {
    if |es| == 0 then []
    else
      assert Whole(es[0]);
      EncodeDirent(es[0]) + DirentBytes(es[1..])
  }

  /** Entry `i` of the array occupies bytes `20 i` to `20 i + 20`. */
  lemma {:induction false} DirentBytesAt(es: seq<Dirent>, i: nat)
    requires forall k :: 0 <= k < |es| ==> Whole(es[k])
    requires i < |es|
    ensures DIRENT_SIZE * i + DIRENT_SIZE <= |DirentBytes(es)|
    ensures DirentBytes(es)[DIRENT_SIZE * i..DIRENT_SIZE * i + DIRENT_SIZE] == EncodeDirent(es[i])
  {
    var bs := DirentBytes(es);
    if i > 0 {
      DirentBytesAt(es[1..], i - 1);
      var tail := DirentBytes(es[1..]);
      assert bs == EncodeDirent(es[0]) + tail;
      var at := DIRENT_SIZE * (i - 1);
      assert DIRENT_SIZE * i == DIRENT_SIZE + at;
      SliceOfTail(EncodeDirent(es[0]), tail, at, DIRENT_SIZE);
    } else {
      assert bs == EncodeDirent(es[0]) + DirentBytes(es[1..]);
    }
  }

  /** The bytes an array of `n` entries of `struct dirent` takes. */
  function ArraySize(n: nat): nat {
    DIRENT_SIZE * n
  }

  /** A slice of the second part of a concatenation. */
  lemma SliceOfTail<T>(a: seq<T>, t: seq<T>, x: nat, n: nat)
    requires x + n <= |t|
    ensures (a + t)[|a| + x..|a| + x + n] == t[x..x + n]
  {
    var s := (a + t)[|a| + x..|a| + x + n];
    assert forall j :: 0 <= j < n ==> s[j] == t[x + j];
  }

  /** What `sys_ls` needs of its caller: room for `(int)max` entries behind the array. */
  predicate LsDemands(user: seq<byte>, ents: nat, max: nat) {
    ents != 0 && Uart.ToInt32(max) > 0 ==> ents + DIRENT_SIZE * Uart.ToInt32(max) <= |user|
  }

  /**
   * `sys_ls`: a NULL array or a count that is not positive as an `int` is
   * refused; otherwise `fs_list_root` fills the array, and the entries it
   * stored stay there also when it then fails.
   */
  function SysLs(k: Kernel, user: seq<byte>, ents: nat, max: nat): (r: Trap)
    requires LsDemands(user, ents, max)
    ensures r.k == k
    ensures ents == 0 || Uart.ToInt32(max) <= 0 ==> r == Trap(k, user, MinusOne)
    ensures ents != 0 && Uart.ToInt32(max) > 0 ==>
      var es := FsApi.ListRootCall(k.fs, true, Uart.ToInt32(max)).ents;
      && ents + ArraySize(|es|) <= |user|
      && KString.SameOutside(r.user, user, ents, ArraySize(|es|))
      && forall i :: 0 <= i < |es| ==> EntryIn(r.user, ents, |es|, i) == es[i]
    ensures r.ret != MinusOne ==>
      && r.ret <= Uart.ToInt32(max) && ents + ArraySize(r.ret) <= |user|
      && KString.SameOutside(r.user, user, ents, ArraySize(r.ret))
  {
    var m := Uart.ToInt32(max);
    if ents == 0 || m <= 0 then Trap(k, user, MinusOne)
    else
      var c := FsApi.ListRootCall(k.fs, true, m);
      Scaled(|c.ents|, m);
      ArrayHolds(user, ents, c.ents);
      Trap(k, KString.Overwrite(user, ents, DirentBytes(c.ents)), if c.ret == -1 then MinusOne else c.ret)
  }

  /**
   * Through a listing of the root directory: `sys_ls` returns the number of
   * its first `max` live entries and the array, decoded, holds them in order.
   */
  lemma SysLsLists(k: Kernel, user: seq<byte>, ents: nat, max: nat, es: seq<Dirent>)
    requires LsDemands(user, ents, max) && ents != 0 && Uart.ToInt32(max) > 0
    requires FsDir.Lists(k.fs.disk, k.fs.root, es)
    ensures var r := SysLs(k, user, ents, max); var listed := Take(FsDir.LiveOf(es), Uart.ToInt32(max));
      && r.ret == |listed| && ents + DIRENT_SIZE * |listed| <= |r.user|
      && forall i :: 0 <= i < |listed| ==> EntryIn(r.user, ents, |listed|, i) == listed[i]
  {
    var m := Uart.ToInt32(max);
    FsApi.ListRootCallLists(k.fs, es, m);
    var c := FsApi.ListRootCall(k.fs, true, m);
    ArrayHolds(user, ents, c.ents);
  }

  /**
   * Whether `fs_list_root` succeeds or stops at a failed read, the array
   * `sys_ls` filled holds, decoded, the first `max` live entries of the
   * root directory among those that could be read, in order.
   */
  lemma SysLsStores(k: Kernel, user: seq<byte>, ents: nat, max: nat)
    requires LsDemands(user, ents, max) && ents != 0 && Uart.ToInt32(max) > 0 && ValidInum(k.fs.root)
    ensures var r := SysLs(k, user, ents, max);
      var stored := Take(FsDir.LiveOf(FsDir.ReadableFrom(FsDir.Directory(k.fs.disk, k.fs.root).value, 0)), Uart.ToInt32(max));
      && ents + DIRENT_SIZE * |stored| <= |r.user|
      && forall i :: 0 <= i < |stored| ==> EntryIn(r.user, ents, |stored|, i) == stored[i]
  {
    FsApi.ListRootCallStores(k.fs, Uart.ToInt32(max));
  }

  /** An array of fewer entries takes fewer bytes. */
  lemma Scaled(a: nat, b: nat)
    requires a <= b
    ensures DIRENT_SIZE * a <= DIRENT_SIZE * b
  {
  }

  /** Entry `i` of `n` fits in an array of `n`. */
  lemma Within(n: nat, i: nat)
    requires i < n
    ensures DIRENT_SIZE * i + DIRENT_SIZE <= DIRENT_SIZE * n
  {
  }

  /** Entry `i` of an array of `n` entries of `struct dirent` at address `at`. */
  function EntryIn(u: seq<byte>, at: nat, n: nat, i: nat): Dirent
    requires i < n && at + DIRENT_SIZE * n <= |u|
  {
    Within(n, i);
    DecodeDirent(u[at + DIRENT_SIZE * i..at + DIRENT_SIZE * i + DIRENT_SIZE])
  }

  /** An array of entries copied into memory decodes, entry by entry, to those entries. */
  lemma ArrayHolds(user: seq<byte>, ents: nat, es: seq<Dirent>)
    requires forall k :: 0 <= k < |es| ==> Whole(es[k])
    requires ents + DIRENT_SIZE * |es| <= |user|
    ensures var u := KString.Overwrite(user, ents, DirentBytes(es));
      && KString.SameOutside(u, user, ents, DIRENT_SIZE * |es|)
      && forall i :: 0 <= i < |es| ==> EntryIn(u, ents, |es|, i) == es[i]
  {
    var bs := DirentBytes(es);
    var u := KString.Overwrite(user, ents, bs);
    KString.OverwriteIff(u, user, ents, bs);
    assert u[ents..ents + |bs|] == bs;
    forall i: nat | i < |es|
      ensures EntryIn(u, ents, |es|, i) == es[i]
    {
      EntryCopied(u, ents, es, bs, i);
    }
  }

  /** Entry `i` of a memory that holds the array's bytes at `ents` decodes to `es[i]`. */
  lemma EntryCopied(u: seq<byte>, ents: nat, es: seq<Dirent>, bs: seq<byte>, i: nat)
    requires forall k :: 0 <= k < |es| ==> Whole(es[k])
    requires bs == DirentBytes(es) && i < |es| && ents + |bs| <= |u| && u[ents..ents + |bs|] == bs
    ensures EntryIn(u, ents, |es|, i) == es[i]
  {
    var e := es[i];
    DirentBytesAt(es, i);
    EntryBytes(u, ents, bs, i);
    DirentRoundTrip(e, EncodeDirent(e));
  }

  /** Entry `i` of an array held at `ents` is the same 20 bytes of the array itself. */
  lemma EntryBytes(u: seq<byte>, ents: nat, bs: seq<byte>, i: nat)
    requires ents + |bs| <= |u| && u[ents..ents + |bs|] == bs && DIRENT_SIZE * i + DIRENT_SIZE <= |bs|
    ensures u[ents + DIRENT_SIZE * i..ents + DIRENT_SIZE * i + DIRENT_SIZE] == bs[DIRENT_SIZE * i..DIRENT_SIZE * i + DIRENT_SIZE]
  {
    var off: nat := FsDir.EntryOffset(i);
    SliceOfSlice(u, ents, |bs|, off, DIRENT_SIZE);
  }

  /** A slice of a slice is a slice of the whole. */
  lemma SliceOfSlice(u: seq<byte>, a: nat, n: nat, b: nat, m: nat)
    requires a + n <= |u| && b + m <= n
    ensures u[a..a + n][b..b + m] == u[a + b..a + b + m]
  {
    var w := u[a..a + n][b..b + m];
    assert forall j :: 0 <= j < m ==> w[j] == u[a + b + j];
  }

  // ------------------------------------------------- sys_unlink, sys_trunc

  /** `sys_unlink`: a NULL name is refused; any other goes to `fs_unlink`. */
  method SysUnlink(k: Kernel, user: seq<byte>, name: nat) returns (r: Trap)
    requires Valid(k) && StringAt(user, name)
    ensures Valid(r.k) && r.user == user && r.k.fs.fds == k.fs.fds && r.k.fs.root == k.fs.root
    ensures r.k.console == k.console && r.k.current == k.current && r.k.vmm == k.vmm && r.k.frames == k.frames
    ensures r.ret == 0 || r.ret == MinusOne
    ensures name == 0 || FsDir.DirLookup(k.fs.disk, k.fs.root, Str(user, name).value).None? ==> r == Trap(k, user, MinusOne)
    ensures name != 0 && FsDir.DirLookup(k.fs.disk, k.fs.root, Str(user, name).value).Some? ==>
      var inum := FsDir.DirLookup(k.fs.disk, k.fs.root, Str(user, name).value).value;
      ValidInum(inum) && inum != k.fs.root && FsApi.UnlinkSafe(k.fs.disk, k.fs.root, inum) ==>
        FsApi.UnlinkedFile(k.fs, inum, FsApi.Call(r.k.fs, if r.ret == 0 then 0 else -1))
  {
    if name == 0 {
      return Trap(k, user, MinusOne);
    }
    var c := FsApi.Unlink(k.fs, Str(user, name));
    r := Trap(k.(fs := c.fs), user, U64Of(c.ret));
  }

  /** `sys_trunc`: a NULL name is refused; any other goes to `fs_trunc`. */
  function SysTrunc(k: Kernel, user: seq<byte>, name: nat): (r: Trap)
    requires StringAt(user, name)
    ensures r.user == user && r.k.fs.fds == k.fs.fds && r.k.fs.root == k.fs.root
    ensures r.k.console == k.console && r.k.current == k.current && r.k.vmm == k.vmm && r.k.frames == k.frames
    ensures r.ret == 0 <==>
      name != 0 && FsDir.DirLookup(k.fs.disk, k.fs.root, Str(user, name).value).Some?
      && ValidInum(FsDir.DirLookup(k.fs.disk, k.fs.root, Str(user, name).value).value)
    ensures r.ret != 0 ==> r == Trap(k, user, MinusOne)
  {
    if name == 0 then Trap(k, user, MinusOne)
    else
      var c := FsApi.Trunc(k.fs, Str(user, name));
      Trap(k.(fs := c.fs), user, U64Of(c.ret))
  }

  /** After a successful `sys_trunc` every read of the named file returns no bytes. */
  lemma SysTruncEmpties(k: Kernel, user: seq<byte>, name: nat)
    requires StringAt(user, name) && SysTrunc(k, user, name).ret == 0
    ensures var inum := FsDir.DirLookup(k.fs.disk, k.fs.root, Str(user, name).value).value;
      forall off: nat, n: nat :: off < U32 && n < U32 ==> FsFile.InodeRead(SysTrunc(k, user, name).k.fs.disk, inum, off, n) == Some([])
  {
    FsApi.TruncEmpties(k.fs, Str(user, name).value);
  }

  // -------------------------------------------------------------- sys_sbrk

  const HEAP_USER_BASE: nat := 0x8040_0000
  const PER_PROC_HEAP: nat := 8 * 1024

  /** The start of a process's heap region: `HEAP_USER_BASE + pid * PER_PROC_HEAP` in 64-bit arithmetic. */
  function HeapBase(pid: int): (b: nat)
    ensures b < U64
    ensures 0 <= pid < 0x8000_0000 ==> b == HEAP_USER_BASE + pid * PER_PROC_HEAP
  {
    U64Of(HEAP_USER_BASE + U64Of(pid) * PER_PROC_HEAP)
  }

  /** Different processes get regions that do not overlap. */
  lemma HeapsApart(a: int, b: int)
    requires 0 <= a < b < 0x8000_0000
    ensures HeapBase(a) + PER_PROC_HEAP <= HeapBase(b)
  {
  }

  /** The process after `sbrk`'s first step: a break not yet set up starts empty at its region. */
  function Started(p: Proc): (q: Proc)
    ensures q.pid == p.pid
    ensures p.brkBase != 0 ==> q == p
    ensures p.brkBase == 0 ==> q.brkSize == 0 && q.brkBase < U64
  {
    if p.brkBase != 0 then p else p.(brkBase := HeapBase(p.pid), brkSize := 0)
  }

  /** The current break `brk_base + brk_size`. */
  function Break(p: Proc): (b: nat)
    ensures b < U64
  {
    U64Of(p.brkBase + p.brkSize)
  }

  /** `(incr + PAGE_SIZE - 1) / PAGE_SIZE` in 64-bit arithmetic. */
  function Pages(incr: nat): (n: nat)
    requires incr < U64
  {
    U64Of(incr + Kmem.PageSize - 1) / Kmem.PageSize
  }

  /** Without wrap-around the page count is the least whose pages cover `incr` bytes. */
  lemma PagesCover(incr: nat)
    requires 0 < incr && incr + Kmem.PageSize - 1 < U64
    ensures incr <= Pages(incr) * Kmem.PageSize < incr + Kmem.PageSize
    ensures Pages(incr) > 0
  {
  }

  /**
   * An increment within a page of 2^64 — a negative `intptr_t`, as a
   * shrinking `sbrk` would pass — wraps the rounding to zero pages.
   */
  lemma PagesWrap(incr: nat)
    requires U64 - Kmem.PageSize < incr < U64
    ensures Pages(incr) == 0
  {
  }

  /** The process after a growth by `incr` bytes' worth of pages. */
  function Grown(p: Proc, incr: nat): (q: Proc)
    requires incr < U64
    ensures q.pid == p.pid && q.brkBase == p.brkBase && q.brkSize < U64
  {
    p.(brkSize := U64Of(p.brkSize + U64Of(Pages(incr) * Kmem.PageSize)))
  }

  /** The break moves up by whole pages: the new break is the old one plus the pages' bytes. */
  lemma GrownBreak(p: Proc, incr: nat)
    requires incr < U64
    ensures Break(Grown(p, incr)) == U64Of(Break(p) + Pages(incr) * Kmem.PageSize)
  {
    SumMod(p.brkBase, p.brkSize, Pages(incr) * Kmem.PageSize);
  }

  /** `b + ((z + s mod 2^64) mod 2^64)` and `((b + z) mod 2^64) + s` agree modulo 2^64. */
  lemma SumMod(b: nat, z: nat, s: nat)
    ensures (b + (z + s % U64) % U64) % U64 == ((b + z) % U64 + s) % U64
  {
    ModAdd(b, z + s % U64);
    ModAdd(b + z, s);
    ModAdd(s, b + z);
  }

  /** Adding inside and outside a reduction modulo 2^64 agree. */
  lemma ModAdd(x: nat, y: nat)
    ensures (x + y % U64) % U64 == (x + y) % U64
    ensures (y % U64 + x) % U64 == (x + y) % U64
  {
    var q := y / U64;
    assert y == q * U64 + y % U64;
    assert x + y == (x + y % U64) + q * U64;
  }

  /** The address of page `i` above the current break. */
  function PageVa(p: Proc, i: nat): (a: nat)
    ensures a < U64
  {
    U64Of(p.brkBase + p.brkSize + U64Of(i * Kmem.PageSize))
  }

  /** Above a page-aligned break every page address is page aligned, also once cut to 32 bits. */
  lemma PageVaAligned(p: Proc, i: nat)
    requires Break(p) % Kmem.PageSize == 0
    ensures Vmm.Trunc32(PageVa(p, i)) % Kmem.PageSize == 0
  {
    var s := p.brkBase + p.brkSize;
    Numerals.ModOfMod(s, U64, Kmem.PageSize);
    var y := U64Of(i * Kmem.PageSize);
    Numerals.DivModUnique(i * Kmem.PageSize, Kmem.PageSize, i, 0);
    Numerals.ModOfMod(i * Kmem.PageSize, U64, Kmem.PageSize);
    Numerals.DivModUnique(s, Kmem.PageSize, s / Kmem.PageSize, 0);
    Numerals.DivModUnique(y, Kmem.PageSize, y / Kmem.PageSize, 0);
    Numerals.DivModUnique(s + y, Kmem.PageSize, s / Kmem.PageSize + y / Kmem.PageSize, 0);
    Numerals.ModOfMod(s + y, U64, Kmem.PageSize);
    Numerals.ModOfMod(PageVa(p, i), Vmm.Word, Kmem.PageSize);
  }

  /**
   * The break `sbrk` sets up is page aligned, and growing by whole pages
   * keeps it aligned.
   */
  lemma BreakAligned(p: Proc, incr: nat)
    requires incr < U64
    ensures p.brkBase == 0 ==> Break(Started(p)) % Kmem.PageSize == 0
    ensures Break(p) % Kmem.PageSize == 0 ==> Break(Grown(p, incr)) % Kmem.PageSize == 0
  {
    var x := HEAP_USER_BASE + U64Of(p.pid) * PER_PROC_HEAP;
    Numerals.DivModUnique(x, Kmem.PageSize, HEAP_USER_BASE / Kmem.PageSize + U64Of(p.pid) * 2, 0);
    Numerals.ModOfMod(x, U64, Kmem.PageSize);
    GrownBreak(p, incr);
    var g := Pages(incr) * Kmem.PageSize;
    if Break(p) % Kmem.PageSize == 0 {
      Numerals.DivModUnique(Break(p) + g, Kmem.PageSize, Break(p) / Kmem.PageSize + Pages(incr), 0);
      Numerals.ModOfMod(Break(p) + g, U64, Kmem.PageSize);
    }
  }

  /** A mapping of `va` by `vmm_map_page` leaves every translated address translated, and `va` too. */
  lemma MappedStays(w: Vmm.Vmm, v: Vmm.Vmm, va: nat, f: nat, x: nat)
    requires Vmm.Valid(w) && Vmm.Valid(v)
    requires Vmm.Retranslated(w, v, Vmm.Trunc32(va), Some(f))
    requires x == va || Vmm.Translate(v, x).Some?
    ensures Vmm.Translate(w, x).Some?
  {
    var a := Vmm.Trunc32(x);
    assert a < Vmm.Word;
    assert Vmm.Translate32(w, a) ==
      if a / 4096 != Vmm.Trunc32(va) / 4096 then Vmm.Translate32(v, a)
      else Some(f + Vmm.PageOffset(a));
  }

  /** Mapping page `i` keeps the pages below it translated and adds page `i`. */
  lemma PagesStay(w: Vmm.Vmm, v: Vmm.Vmm, p: Proc, i: nat, f: nat)
    requires Vmm.Valid(w) && Vmm.Valid(v)
    requires Vmm.Retranslated(w, v, Vmm.Trunc32(PageVa(p, i)), Some(f))
    requires forall j :: 0 <= j < i ==> Vmm.Translate(v, PageVa(p, j)).Some?
    ensures forall j :: 0 <= j <= i ==> Vmm.Translate(w, PageVa(p, j)).Some?
  {
    forall j | 0 <= j <= i
      ensures Vmm.Translate(w, PageVa(p, j)).Some?
    {
      MappedStays(w, v, PageVa(p, i), f, PageVa(p, j));
    }
  }

  /**
   * `sys_sbrk`: with no current process it fails; otherwise it sets up the
   * break on first use, returns it unchanged for an increment of 0, and
   * else maps `Pages(incr)` fresh pages above it one by one. The first
   * mapping that fails ends the call with -1 and the break where it was
   * (pages mapped before it stay mapped); when all succeed the break moves
   * up by those pages and the old break is returned.
   */
  method SysSbrk(k: Kernel, incr: nat) returns (r: Kernel, ret: nat)
    requires Valid(k) && incr < U64
    ensures Valid(r) && r.fs == k.fs && r.console == k.console
    ensures k.current.None? ==> r == k && ret == MinusOne
    ensures k.current.Some? ==>
      var p := Started(k.current.value);
      && (incr == 0 ==> r == k.(current := Some(p)) && ret == Break(p))
      && (|k.frames.freeList| == 0 && Pages(incr) > 0 ==> r == k.(current := Some(p)) && ret == MinusOne)
      && (k.vmm.pd.Some? && Break(p) % Kmem.PageSize == 0 && |k.frames.freeList| >= 2 * Pages(incr) ==>
            r.current == Some(Grown(p, incr)) && ret == Break(p))
      && ((r.current == Some(p) && ret == MinusOne)
          || (r.current == Some(Grown(p, incr)) && ret == Break(p)
              && forall i :: 0 <= i < Pages(incr) ==> Vmm.Translate(r.vmm, PageVa(p, i)).Some?))
  {
    if k.current.None? {
      return k, MinusOne;
    }
    var p := Started(k.current.value);
    var base := k.(current := Some(p));
    if incr == 0 {
      return base, Break(p);
    }
    var v, m, ok := MapPages(k.vmm, k.frames, p, Pages(incr));
    if !ok {
      return base.(vmm := v, frames := m), MinusOne;
    }
    return base.(vmm := v, frames := m, current := Some(Grown(p, incr))), Break(p);
  }

  /**
   * `sys_sbrk`'s loop: `vmm_map_page` for each of the `need` pages above the
   * break, stopping at the first failure. Pages mapped before a failure
   * stay mapped; when every mapping succeeds, each page translates.
   */
  method MapPages(v: Vmm.Vmm, m: Kmem.Kmem, p: Proc, need: nat) returns (v': Vmm.Vmm, m': Kmem.Kmem, ok: bool)
    requires Vmm.Coupled(v, m)
    ensures Vmm.Coupled(v', m')
    ensures ok ==> forall i :: 0 <= i < need ==> Vmm.Translate(v', PageVa(p, i)).Some?
    ensures |m.freeList| == 0 && need > 0 ==> !ok && v' == v && m' == m
    ensures v.pd.Some? && Break(p) % Kmem.PageSize == 0 && |m.freeList| >= 2 * need ==> ok
  {
    v', m' := v, m;
    var i := 0;
    while i < need
      invariant i <= need
      invariant Vmm.Coupled(v', m')
      invariant i == 0 ==> v' == v && m' == m
      invariant |m.freeList| == 0 ==> i == 0
      invariant forall j :: 0 <= j < i ==> Vmm.Translate(v', PageVa(p, j)).Some?
      invariant v.pd.Some? ==> v'.pd.Some?
      invariant |m'.freeList| + 2 * i >= |m.freeList|
    {
      if Break(p) % Kmem.PageSize == 0 {
        PageVaAligned(p, i);
      }
      var o := Vmm.MapPage(v', m', PageVa(p, i), Vmm.Writable + Vmm.User);
      if o.status != 0 {
        return o.vmm, o.mem, false;
      }
      PagesStay(o.vmm, v', p, i, Vmm.NextFrame(m'));
      v', m' := o.vmm, o.mem;
      i := i + 1;
    }
    ok := true;
  }

  // -------------------------------------------------------------- sys_exec

  /** The user programs linked into the kernel image. */
  datatype Program = UserShell | HelloMain

  /** The name a program is registered under: `"sh"` and `"hello"` in ASCII. */
  function ProgramName(p: Program): seq<byte> {
    match p
    case UserShell => [0x73, 0x68]
    case HelloMain => [0x68, 0x65, 0x6c, 0x6c, 0x6f]
  }

  /** `exec_table`: each program under its name. */
  const ExecTable: seq<(seq<byte>, Program)> :=
    [(ProgramName(UserShell), UserShell), (ProgramName(HelloMain), HelloMain)]

  /** Byte `i` of a C string, its terminating NUL at `|s|`. */
  function At(s: seq<byte>, i: nat): int {
    if i < |s| then s[i] as int else 0
  }

  /**
   * The comparison `kstrcmp` computes: the difference, as unsigned bytes,
   * at the first position where the strings (with their terminating NULs)
   * differ, or 0.
   */
  function Compare(a: seq<byte>, b: seq<byte>): (r: int)
    ensures -255 <= r <= 255
  {
    if |a| == 0 || |b| == 0 || a[0] != b[0] then At(a, 0) - At(b, 0)
    else Compare(a[1..], b[1..])
  }

  /** Two NUL-free strings compare equal exactly when they are the same string. */
  lemma {:induction false} CompareZero(a: seq<byte>, b: seq<byte>)
    requires 0 !in a && 0 !in b
    ensures Compare(a, b) == 0 <==> a == b
  {
    if |a| > 0 && |b| > 0 && a[0] == b[0] {
      CompareZero(a[1..], b[1..]);
      assert a == [a[0]] + a[1..] && b == [b[0]] + b[1..];
    } else if |a| > 0 && |b| > 0 {
      assert a[0] != b[0];
    } else if |a| > 0 {
      assert a[0] != 0;
    } else if |b| > 0 {
      assert b[0] != 0;
    }
  }

  /** Swapping the operands negates the result. */
  lemma {:induction false} CompareSwap(a: seq<byte>, b: seq<byte>)
    ensures Compare(b, a) == -Compare(a, b)
  {
    if |a| > 0 && |b| > 0 && a[0] == b[0] {
      CompareSwap(a[1..], b[1..]);
    }
  }

  /** `kstrcmp`: walk both strings while the first has not ended and they agree. */
  method Kstrcmp(a: seq<byte>, b: seq<byte>) returns (r: int)
    requires 0 !in a && 0 !in b
    ensures r == Compare(a, b)
    ensures r == 0 <==> a == b
  {
    var i := 0;
    while At(a, i) != 0 && At(a, i) == At(b, i)
      invariant i <= |a| && i <= |b|
      invariant Compare(a[i..], b[i..]) == Compare(a, b)
      decreases |a| - i
    {
      assert a[i..][1..] == a[i + 1..] && b[i..][1..] == b[i + 1..];
      i := i + 1;
    }
    r := At(a, i) - At(b, i);
    CompareZero(a, b);
  }

  /**
   * `sys_exec_lookup`: the program whose table name equals the given name;
   * `None` (the -1) for a NULL name or one the table lacks.
   */
  method ExecLookup(name: Option<seq<byte>>) returns (entry: Option<Program>)
    requires name.Some? ==> 0 !in name.value
    ensures entry.Some? ==> name.Some? && ProgramName(entry.value) == name.value
    ensures entry.None? ==> name.None? || forall p :: ProgramName(p) != name.value
  {
    if name.None? {
      return None;
    }
    var i := 0;
    while i < |ExecTable|
      invariant i <= |ExecTable|
      invariant forall j :: 0 <= j < i ==> ExecTable[j].0 != name.value
    {
      var c := Kstrcmp(ExecTable[i].0, name.value);
      if c == 0 {
        return Some(ExecTable[i].1);
      }
      i := i + 1;
    }
    assert ExecTable[0].0 == ProgramName(UserShell) && ExecTable[1].0 == ProgramName(HelloMain);
    return None;
  }

  // ------------------------------------------------------ syscall_dispatch

  /** What a file or console handler needs of its caller's memory. */
  predicate Demands(s: Service, args: seq<nat>, user: seq<byte>)
    requires Words(args)
  {
    match s
    case Write => WriteDemands(user, args[0], args[1], args[2])
    case Open => StringAt(user, args[0])
    case Unlink => StringAt(user, args[0])
    case Trunc => StringAt(user, args[0])
    case Read => ReadDemands(user, args[0], args[1], args[2])
    case Ls => LsDemands(user, args[0], args[1])
    case _ => true
  }

  /** The handlers that work on the file system or print. */
  predicate FileService(s: Service) {
    s == Write || s == Open || s == Read || s == Close || s == Ls || s == Unlink || s == Trunc
  }

  /** `sys_getpid`: the current process's id as a 64-bit word, 0 with none. */
  function Pid(k: Kernel): (w: nat)
    ensures w < U64
  {
    if k.current.None? then 0 else U64Of(k.current.value.pid)
  }

  /**
   * The file and console handlers: each keeps the kernel valid and leaves
   * the process and the page tables alone; only `sys_write` prints, and
   * only `sys_read` and `sys_ls` write user memory.
   */
  method ServeFiles(k: Kernel, user: seq<byte>, s: Service, args: seq<nat>) returns (r: Trap)
    requires Valid(k) && Words(args) && FileService(s) && Demands(s, args, user)
    ensures Valid(r.k)
    ensures r.k.current == k.current && r.k.vmm == k.vmm && r.k.frames == k.frames
    ensures s != Write ==> r.k.console == k.console
    ensures s != Read && s != Ls ==> r.user == user
    ensures s == Read ==> r == SysRead(k, user, args[0], args[1], args[2])
    ensures s == Close ==> r == SysClose(k, user, args[0])
    ensures s == Ls ==> r == SysLs(k, user, args[0], args[1])
    ensures s == Trunc ==> r == SysTrunc(k, user, args[0])
    ensures s == Write && (args[0] == 1 || args[0] == 2) ==>
      r == Trap(k.(console := k.console + Echo(Written(user, args[1], args[2]))), user, args[2])
    ensures s == Write && args[0] != 1 && args[0] != 2 && !FsApi.InRange(args[0]) ==> r == Trap(k, user, MinusOne)
    ensures s == Open && Uart.ToInt32(args[1]) == 0 ==>
      var c := FsApi.Open(k.fs, Str(user, args[0])); r == Trap(k.(fs := c.fs), user, U64Of(c.ret))
    ensures s == Open && Uart.ToInt32(args[1]) != 0 && r.ret != MinusOne ==>
      FsApi.Ialloc(k.fs.disk, 1).Some? && FsApi.Opened(k.fs.fds, r.k.fs.fds, r.ret, FsApi.Ialloc(k.fs.disk, 1).value.inum)
    ensures s == Unlink && (args[0] == 0 || FsDir.DirLookup(k.fs.disk, k.fs.root, Str(user, args[0]).value).None?) ==>
      r == Trap(k, user, MinusOne)
    ensures s == Unlink ==> r.ret == 0 || r.ret == MinusOne
  {
    match s {
      case Write => r := SysWrite(k, user, args[0], args[1], args[2]);
      case Open => r := SysOpen(k, user, args[0], args[1]);
      case Unlink => r := SysUnlink(k, user, args[0]);
      case Read => r := SysRead(k, user, args[0], args[1], args[2]);
      case Close => r := SysClose(k, user, args[0]);
      case Ls => r := SysLs(k, user, args[0], args[1]);
      case Trunc =>
        r := SysTrunc(k, user, args[0]);
        assert Valid(r.k);
    }
  }

  /** The outcome of a trap: the handler's result, or the handler left to code outside this model. */
  datatype Outcome = Done(trap: Trap) | Handed(service: Service)

  /**
   * `syscall_dispatch`: the handler for `num`, or -1 with nothing changed
   * for a number without one. Every handler keeps the kernel valid, and
   * only `sys_sbrk` touches the process and the page tables, which it does
   * without touching the file system, the console or user memory.
   */
  method Dispatch(k: Kernel, user: seq<byte>, num: nat, args: seq<nat>) returns (o: Outcome)
    requires Valid(k) && Words(args) && Demands(Route(num), args, user)
    ensures o.Done? ==> Valid(o.trap.k)
    ensures Route(num) == Unsupported ==> o == Done(Trap(k, user, MinusOne))
    ensures Elsewhere(Route(num)) <==> o.Handed?
    ensures o.Handed? ==> o.service == Route(num)
    ensures Route(num) == Getpid ==> o == Done(Trap(k, user, Pid(k)))
    ensures Route(num) == Sbrk ==> o.Done? && o.trap.k.fs == k.fs && o.trap.k.console == k.console && o.trap.user == user
    ensures Route(num) == Sbrk && k.current.None? ==> o == Done(Trap(k, user, MinusOne))
    ensures Route(num) == Sbrk && k.current.Some? ==>
      var p := Started(k.current.value);
      && ((o.trap.k.current == Some(p) && o.trap.ret == MinusOne)
          || (o.trap.k.current == Some(Grown(p, args[0])) && o.trap.ret == Break(p)))
      && (k.vmm.pd.Some? && Break(p) % Kmem.PageSize == 0 && |k.frames.freeList| >= 2 * Pages(args[0]) ==>
            o.trap.k.current == Some(Grown(p, args[0])) && o.trap.ret == Break(p))
    ensures FileService(Route(num)) ==>
      o.Done? && o.trap.k.current == k.current && o.trap.k.vmm == k.vmm && o.trap.k.frames == k.frames
    ensures Route(num) == Read ==> o == Done(SysRead(k, user, args[0], args[1], args[2]))
    ensures Route(num) == Close ==> o == Done(SysClose(k, user, args[0]))
    ensures Route(num) == Ls ==> o == Done(SysLs(k, user, args[0], args[1]))
    ensures Route(num) == Trunc ==> o == Done(SysTrunc(k, user, args[0]))
    ensures Route(num) == Write && (args[0] == 1 || args[0] == 2) ==>
      o == Done(Trap(k.(console := k.console + Echo(Written(user, args[1], args[2]))), user, args[2]))
    ensures Route(num) == Write && args[0] != 1 && args[0] != 2 && !FsApi.InRange(args[0]) ==> o == Done(Trap(k, user, MinusOne))
    ensures Route(num) == Open && Uart.ToInt32(args[1]) != 0 && o.trap.ret != MinusOne ==>
      FsApi.Ialloc(k.fs.disk, 1).Some? && FsApi.Opened(k.fs.fds, o.trap.k.fs.fds, o.trap.ret, FsApi.Ialloc(k.fs.disk, 1).value.inum)
    ensures Route(num) == Unlink && (args[0] == 0 || FsDir.DirLookup(k.fs.disk, k.fs.root, Str(user, args[0]).value).None?) ==>
      o == Done(Trap(k, user, MinusOne))
  {
    var s := Route(num);
    if s == Unsupported {
      o := Done(Trap(k, user, MinusOne));
    } else if Elsewhere(s) {
      o := Handed(s);
    } else if s == Getpid {
      o := Done(Trap(k, user, Pid(k)));
    } else if s == Sbrk {
      var k', ret := SysSbrk(k, args[0]);
      o := Done(Trap(k', user, ret));
    } else {
      var r := ServeFiles(k, user, s, args);
      o := Done(r);
    }
  }
}

=== FILE: vmm.dfy ===
/**
 * The two-level page table: a page directory of 1024 entries, each naming a
 * page table of 1024 entries, each naming a 4 KiB frame. Entries are 32-bit
 * words whose high 20 bits hold a frame address and whose low 12 bits hold
 * flags; addresses are cut to 32 bits before use. Table pages come from the
 * page allocator and are named by their frame number. The operations that
 * change the tables are methods whose contracts state the effect on
 * translation; the kernel's globals `kernel_pd` and the tables are the `Vmm`
 * value passed in and returned.
 *
 * The bit-field macros are modelled arithmetically on values below 2^32:
 * `x >> k & m` is `(x / 2^k) % (m + 1)`, `x & 0xFFFFF000` is `(x / 4096) * 4096`
 * and an OR of disjoint bit ranges is a sum.
 */
module Vmm {
  import opened Basics
  import opened Numerals
  import Kmem

  const Entries: nat := 1024
  const Word: nat := 0x1_0000_0000

  const Present: nat := 1
  const Writable: nat := 2
  const User: nat := 4

  /** The conversion `(uint32_t)x`. */
  function Trunc32(x: nat): (r: nat)
    ensures r < Word
  {
    x % 0x1_0000_0000
  }

  /** Bits 22..31: the page-directory slot. */
  function PdeIndex(a: nat): (i: nat)
    ensures i < Entries
  {
    (a / 0x40_0000) % 1024
  }

  /** Bits 12..21: the page-table slot. */
  function PteIndex(a: nat): (i: nat)
    ensures i < Entries
  {
    (a / 4096) % 1024
  }

  /** Bits 0..11: the offset within the page. */
  function PageOffset(a: nat): (o: nat)
    ensures o < 4096
  {
    a % 4096
  }

  /**
   * A directory or table entry: the frame number held in bits 12..31 and the
   * flags held in bits 0..11.
   */
  datatype Entry = Entry(frame: nat, flags: nat)

  /** The 32-bit word that holds an entry. */
  function EntryWord(e: Entry): nat {
    e.frame * 4096 + e.flags
  }

  /** `e & VMM_P_PRESENT`. */
  predicate IsPresent(e: Entry) {
    e.flags % 2 == 1
  }

  /** `make_entry`: the frame bits of the address and the low twelve bits of the flags. */
  function MakeEntry(paddr: nat, flags: nat): Entry {
    Entry((paddr / 4096) % 0x10_0000, flags % 4096)
  }

  /** `flags | VMM_P_PRESENT`. */
  function WithPresent(flags: nat): (f: nat)
    ensures f % 2 == 1
  {
    if flags % 2 == 1 then flags else flags + 1
  }

  // ------------------------------------------------------------ bit fields

  /**
   * The word of a made entry is `(paddr & 0xFFFFF000) | (flags & 0xFFF)`: the
   * address's frame bits and the flags' low twelve bits, which a present bit
   * in the flags survives.
   */
  lemma MakeEntryWord(paddr: nat, flags: nat)
    requires paddr < Word
    ensures EntryWord(MakeEntry(paddr, flags)) == (paddr / 4096) * 4096 + flags % 4096
    ensures EntryWord(MakeEntry(paddr, flags)) < Word
    ensures EntryWord(MakeEntry(paddr, flags)) % 4096 == flags % 4096
    ensures flags % 2 == 1 ==> IsPresent(MakeEntry(paddr, flags))
  {
    var e := MakeEntry(paddr, flags);
    DivModUnique(paddr / 4096, 0x10_0000, 0, paddr / 4096);
    DivModUnique(EntryWord(e), 4096, e.frame, e.flags);
    DivModUnique(flags, 2, (flags / 4096) * 2048 + (flags % 4096) / 2, (flags % 4096) % 2);
  }

  /** A 32-bit address is the sum of its three fields. */
  lemma Decompose(a: nat)
    requires a < Word
    ensures a == PdeIndex(a) * 0x40_0000 + PteIndex(a) * 4096 + PageOffset(a)
    ensures a / 4096 == PdeIndex(a) * 1024 + PteIndex(a)
  {
    var q := a / 4096;
    DivModUnique(q, 1024, a / 0x40_0000, q % 1024);
  }

  /** Addresses in one page share both indices and differ only in the offset. */
  lemma SamePage(va: nat, off: nat)
    requires va < Word && va % 4096 == 0 && off < 4096
    ensures va + off < Word
    ensures PdeIndex(va + off) == PdeIndex(va)
    ensures PteIndex(va + off) == PteIndex(va)
    ensures PageOffset(va + off) == off
    ensures (va + off) / 4096 == va / 4096
  {
    DivModUnique(va, 4096, va / 4096, 0);
    DivModUnique(va + off, 4096, va / 4096, off);
    DivModUnique(va + off, 0x40_0000, va / 0x40_0000, va % 0x40_0000 + off);
  }

  /** Two addresses lie in the same page exactly when both their indices agree. */
  lemma PageNumberIff(a: nat, b: nat)
    requires a < Word && b < Word
    ensures a / 4096 == b / 4096 <==> PdeIndex(a) == PdeIndex(b) && PteIndex(a) == PteIndex(b)
  {
    Decompose(a);
    Decompose(b);
  }

  // ------------------------------------------------------------ the state

  /**
   * The page directory (`None` before `vmm_init`), the page tables indexed
   * by the frame number of the page that holds them, and the frame of the
   * page that holds the directory (`kernel_pd_phys / 4096`, meaningful once
   * the directory exists).
   */
  datatype Vmm = Vmm(pd: Option<seq<Entry>>, tables: map<nat, seq<Entry>>, pdFrame: nat)

  /** Frame `f` holds the directory or one of the tables. */
  predicate HoldsPaging(v: Vmm, f: nat) {
    f in v.tables || (v.pd.Some? && f == v.pdFrame)
  }

  /** 1024 entries, each with a 20-bit frame number and 12 bits of flags. */
  predicate WellFormedTable(t: seq<Entry>) {
    |t| == Entries && forall i :: 0 <= i < |t| ==> t[i].frame < 0x10_0000 && t[i].flags < 4096
  }

  /**
   * The directory and tables are well formed: every present directory entry
   * names a table, and no two present entries name the same one.
   */
  predicate Valid(v: Vmm) {
    && (forall f :: f in v.tables ==> WellFormedTable(v.tables[f]))
    && (v.pd.None? ==> v.tables == map[])
    && (v.pd.Some? ==>
          && WellFormedTable(v.pd.value)
          && (forall i :: 0 <= i < Entries && IsPresent(v.pd.value[i]) ==> v.pd.value[i].frame in v.tables)
          && (forall i, j :: 0 <= i < j < Entries && IsPresent(v.pd.value[i]) && IsPresent(v.pd.value[j])
                ==> v.pd.value[i].frame != v.pd.value[j].frame))
  }

  /**
   * The heap is page aligned, does not start at address 0 and lies below
   * 4 GiB, so its addresses are never NULL and survive the cast to 32 bits.
   */
  predicate HeapFits(k: Kmem.Kmem) {
    0 < k.memoryStart && k.memoryStart % 4096 == 0 && k.memoryStart + k.totalPages * 4096 <= Word
  }

  /** Frame `f` is a page of the heap that the allocator has handed out. */
  predicate UsedFrame(k: Kmem.Kmem, f: nat)
    requires Kmem.Valid(k)
  {
    var base := k.memoryStart / 4096;
    base <= f < base + k.totalPages && k.flags[f - base] == Kmem.Used
  }

  /**
   * The tables and the allocator agree: every table page and the directory
   * page are allocated, and the directory page holds no table.
   */
  predicate Coupled(v: Vmm, k: Kmem.Kmem) {
    && Valid(v)
    && Kmem.Valid(k)
    && HeapFits(k)
    && (forall f :: f in v.tables ==> UsedFrame(k, f))
    && (v.pd.Some? ==> UsedFrame(k, v.pdFrame) && v.pdFrame !in v.tables)
  }

  function ZeroTable(): (t: seq<Entry>)
    ensures WellFormedTable(t)
    ensures forall i :: 0 <= i < |t| ==> !IsPresent(t[i])
  {
    seq(Entries, _ => Entry(0, 0))
  }

  /** `v` with entry `i` of the table held in frame `f` replaced by `e`. */
  function SetEntry(v: Vmm, f: nat, i: nat, e: Entry): (w: Vmm)
    requires Valid(v) && f in v.tables && i < Entries
    requires e.frame < 0x10_0000 && e.flags < 4096
    ensures Valid(w) && w.pd == v.pd && w.tables.Keys == v.tables.Keys
  {
    v.(tables := v.tables[f := v.tables[f][i := e]])
  }

  /** `v` with directory slot `i` naming a new, cleared table in frame `f`, present, writable and user. */
  function AddTable(v: Vmm, i: nat, f: nat): (w: Vmm)
    requires Valid(v) && v.pd.Some? && i < Entries && !IsPresent(v.pd.value[i])
    requires f < 0x10_0000 && f !in v.tables
    ensures Valid(w) && w.pd.Some? && w.tables.Keys == v.tables.Keys + {f}
    ensures w.pd.value[i] == Entry(f, Present + Writable + User) && IsPresent(w.pd.value[i])
  {
    var pd := v.pd.value[i := Entry(f, Present + Writable + User)];
    var w := v.(pd := Some(pd), tables := v.tables[f := ZeroTable()]);
    assert forall j :: 0 <= j < Entries && j != i && IsPresent(pd[j]) ==> pd[j].frame in v.tables;
    w
  }

  // ------------------------------------------------------------ translation

  /** The table entry a 32-bit address resolves to, if its directory slot is present. */
  function PteOf(v: Vmm, va: nat): (e: Option<Entry>)
    requires Valid(v) && v.pd.Some? && va < Word
  {
    var pde := v.pd.value[PdeIndex(va)];
    if !IsPresent(pde) then None
    else Some(v.tables[pde.frame][PteIndex(va)])
  }

  /** Translation of a 32-bit address: its present entry's frame with the address's offset. */
  function Translate32(v: Vmm, va: nat): Option<nat>
    requires Valid(v) && va < Word
  {
    if v.pd.None? then None
    else
      match PteOf(v, va)
      case None => None
      case Some(pte) => if IsPresent(pte) then Some(pte.frame * 4096 + PageOffset(va)) else None
  }

  /** `vmm_translate`: `None` (NULL) when uninitialised or unmapped. */
  function Translate(v: Vmm, va: nat): Option<nat>
    requires Valid(v)
  {
    Translate32(v, Trunc32(va))
  }

  /** `w` and `v` translate every 32-bit address alike. */
  predicate SameTranslation(w: Vmm, v: Vmm)
    requires Valid(w) && Valid(v)
  {
    forall a: nat :: a < Word ==> Translate32(w, a) == Translate32(v, a)
  }

  /**
   * `w` translates like `v` except on the page of `va`, whose addresses go to
   * the same offset in the frame at `frame`, or nowhere when `frame` is `None`.
   */
  predicate Retranslated(w: Vmm, v: Vmm, va: nat, frame: Option<nat>)
    requires Valid(w) && Valid(v)
  {
    forall a: nat :: a < Word ==>
      Translate32(w, a) ==
        if a / 4096 != va / 4096 then Translate32(v, a)
        else if frame.Some? then Some(frame.value + PageOffset(a))
        else None
  }

  /** Replacing one table entry changes the translation of that entry's page and of no other. */
  lemma SetEntryTranslate(v: Vmm, va: nat, e: Entry, a: nat)
    requires Valid(v) && v.pd.Some? && va < Word && a < Word
    requires IsPresent(v.pd.value[PdeIndex(va)])
    requires e.frame < 0x10_0000 && e.flags < 4096
    ensures var w := SetEntry(v, v.pd.value[PdeIndex(va)].frame, PteIndex(va), e);
      Translate32(w, a) ==
        if a / 4096 != va / 4096 then Translate32(v, a)
        else if IsPresent(e) then Some(e.frame * 4096 + PageOffset(a))
        else None
  {
    PageNumberIff(va, a);
    var pd := v.pd.value;
    if PdeIndex(a) != PdeIndex(va) && IsPresent(pd[PdeIndex(a)]) {
      assert pd[PdeIndex(a)].frame != pd[PdeIndex(va)].frame;
    }
  }

  /** `SetEntryTranslate` for every address at once. */
  lemma SetEntryTranslateAll(v: Vmm, va: nat, e: Entry)
    requires Valid(v) && v.pd.Some? && va < Word
    requires IsPresent(v.pd.value[PdeIndex(va)])
    requires e.frame < 0x10_0000 && e.flags < 4096
    ensures Retranslated(SetEntry(v, v.pd.value[PdeIndex(va)].frame, PteIndex(va), e), v, va,
                         if IsPresent(e) then Some(e.frame * 4096) else None)
  {
    forall a: nat | a < Word {
      SetEntryTranslate(v, va, e, a);
    }
  }

  /** Installing a cleared table changes no translation. */
  lemma AddTableTranslate(v: Vmm, i: nat, f: nat, a: nat)
    requires Valid(v) && v.pd.Some? && i < Entries && !IsPresent(v.pd.value[i])
    requires f < 0x10_0000 && f !in v.tables && a < Word
    ensures Translate32(AddTable(v, i, f), a) == Translate32(v, a)
  {
    var pd := v.pd.value;
    if PdeIndex(a) != i && IsPresent(pd[PdeIndex(a)]) {
      assert pd[PdeIndex(a)].frame != f;
    }
  }

  // ------------------------------------------------------------ operations

  /** The state after an operation and its C return value. */
  datatype Outcome = Outcome(vmm: Vmm, mem: Kmem.Kmem, status: int)

  /** The address `kalloc` hands out next: the page at the head of the free list. */
  function NextFrame(k: Kmem.Kmem): nat
    requires |k.freeList| > 0
  {
    k.memoryStart + k.freeList[0] * 4096
  }

  /** A freshly allocated page is an aligned, non-NULL frame below 4 GiB that was not in use. */
  lemma FreshFrame(k: Kmem.Kmem)
    requires Kmem.Valid(k) && HeapFits(k) && |k.freeList| > 0
    ensures var a := Kmem.Kalloc(k);
      && a.addr.Some?
      && 0 < a.addr.value < Word && a.addr.value % 4096 == 0
      && a.addr.value == k.memoryStart + k.freeList[0] * 4096
      && a.addr.value / 4096 == k.memoryStart / 4096 + k.freeList[0]
      && a.addr.value / 4096 < 0x10_0000
      && !UsedFrame(k, a.addr.value / 4096)
  {
    var a := Kmem.Kalloc(k);
    var idx := k.freeList[0];
    var base := k.memoryStart / 4096;
    DivModUnique(k.memoryStart, 4096, base, 0);
    assert idx * 4096 < k.totalPages * 4096;
    assert a.addr.value == k.memoryStart + idx * 4096 == (base + idx) * 4096;
    DivModUnique(a.addr.value, 4096, base + idx, 0);
    assert k.flags[idx] == Kmem.Free;
  }

  /** A freshly allocated page holds neither the directory nor a table, and the tables stay coupled. */
  lemma AllocatedFrame(v: Vmm, k: Kmem.Kmem)
    requires Coupled(v, k) && |k.freeList| > 0
    ensures var a := Kmem.Kalloc(k);
      && a.addr.Some?
      && 0 < a.addr.value < Word && a.addr.value % 4096 == 0
      && a.addr.value == k.memoryStart + k.freeList[0] * 4096
      && a.addr.value / 4096 == k.memoryStart / 4096 + k.freeList[0]
      && a.addr.value / 4096 < 0x10_0000
      && !HoldsPaging(v, a.addr.value / 4096)
      && Coupled(v, a.mem)
  {
    FreshFrame(k);
    var a := Kmem.Kalloc(k);
    var base := k.memoryStart / 4096;
    forall f | f in v.tables || (v.pd.Some? && f == v.pdFrame)
      ensures UsedFrame(a.mem, f)
    {
      assert UsedFrame(k, f);
      assert f - base != k.freeList[0];
    }
  }

  /**
   * `vmm_init`: allocate and clear the directory once, in the page the
   * allocator hands out; a second call changes nothing.
   */
  function VmmInit(v: Vmm, k: Kmem.Kmem): (o: Outcome)
    requires Coupled(v, k)
    ensures Coupled(o.vmm, o.mem)
    ensures v.pd.Some? ==> o.vmm == v && o.mem == k
    ensures v.pd.None? ==> (o.vmm.pd.Some? <==> |k.freeList| > 0)
    ensures v.pd.None? && o.vmm.pd.Some? ==>
      o.mem == Kmem.Kalloc(k).mem && o.vmm.pdFrame * 4096 == Kmem.Kalloc(k).addr.value
    ensures v.pd.None? ==> forall a: nat :: a < Word ==> Translate32(o.vmm, a).None?
  {
    if v.pd.Some? then Outcome(v, k, 0)
    else
      var a := Kmem.Kalloc(k);
      if a.addr.None? then Outcome(v, k, 0)
      else
        AllocatedFrame(v, k);
        Outcome(Vmm(Some(ZeroTable()), map[], a.addr.value / 4096), a.mem, 0)
  }

  /** What `get_or_create_pte_table` yields: the new state and the table's frame, `None` for NULL. */
  datatype TableResult = TableResult(vmm: Vmm, mem: Kmem.Kmem, frame: Option<nat>)

  /**
   * `get_or_create_pte_table`: the table for `va`'s directory slot, allocating,
   * clearing and installing a new one with PRESENT, RW and USER when the slot
   * is not present. No translation changes.
   */
  method GetOrCreateTable(v: Vmm, k: Kmem.Kmem, va: nat) returns (r: TableResult)
    requires Coupled(v, k) && v.pd.Some? && va < Word
    ensures Coupled(r.vmm, r.mem) && r.vmm.pd.Some?
    ensures r.frame.None? <==> !IsPresent(v.pd.value[PdeIndex(va)]) && |k.freeList| == 0
    ensures r.frame.None? || IsPresent(v.pd.value[PdeIndex(va)]) ==> r.vmm == v && r.mem == k
    ensures r.frame.Some? ==>
      && IsPresent(r.vmm.pd.value[PdeIndex(va)])
      && r.vmm.pd.value[PdeIndex(va)].frame == r.frame.value
    ensures r.frame.Some? && !IsPresent(v.pd.value[PdeIndex(va)]) ==>
      && r.mem == Kmem.Kalloc(k).mem
      && r.frame.value * 4096 == Kmem.Kalloc(k).addr.value
      && r.vmm.pd.value[PdeIndex(va)].flags == Present + Writable + User
      && r.vmm.tables[r.frame.value] == ZeroTable()
    ensures SameTranslation(r.vmm, v)
  {
    var pd := v.pd.value;
    var i := PdeIndex(va);
    if IsPresent(pd[i]) {
      return TableResult(v, k, Some(pd[i].frame));
    }
    var a := Kmem.Kalloc(k);
    if a.addr.None? {
      return TableResult(v, k, None);
    }
    AllocatedFrame(v, k);
    var f := a.addr.value / 4096;
    assert MakeEntry(a.addr.value, Present + Writable + User) == Entry(f, Present + Writable + User);
    var w := AddTable(v, i, f);
    forall x: nat | x < Word
      ensures Translate32(w, x) == Translate32(v, x)
    {
      AddTableTranslate(v, i, f, x);
    }
    r := TableResult(w, a.mem, Some(f));
  }

  /** Why `vmm_map` fails before looking at any table. */
  predicate MapRejects(v: Vmm, va: nat, pa: nat) {
    v.pd.None? || Trunc32(va) % 4096 != 0 || Trunc32(pa) % 4096 != 0
  }

  /** A made entry of an aligned 32-bit address names that address's frame. */
  lemma MakeEntryFrame(pa: nat, flags: nat)
    requires pa < Word && pa % 4096 == 0
    ensures MakeEntry(pa, flags).frame * 4096 == pa
    ensures MakeEntry(pa, flags).frame < 0x10_0000 && MakeEntry(pa, flags).flags < 4096
  {
    DivModUnique(pa, 4096, pa / 4096, 0);
    DivModUnique(pa / 4096, 0x10_0000, 0, pa / 4096);
  }

  /**
   * Writing the entry `vmm_map` makes into a table of `w`, whose translations
   * agree with `v`'s, sends the page to the frame and leaves the rest as in `v`.
   */
  lemma MapEntryTranslate(w: Vmm, v: Vmm, va: nat, pa: nat, flags: nat)
    requires Valid(w) && Valid(v) && w.pd.Some? && va < Word
    requires IsPresent(w.pd.value[PdeIndex(va)])
    requires pa < Word && pa % 4096 == 0
    requires SameTranslation(w, v)
    ensures MakeEntry(pa, WithPresent(flags)).frame < 0x10_0000
    ensures MakeEntry(pa, WithPresent(flags)).flags < 4096
    ensures Retranslated(SetEntry(w, w.pd.value[PdeIndex(va)].frame, PteIndex(va), MakeEntry(pa, WithPresent(flags))),
                         v, va, Some(pa))
  {
    var e := MakeEntry(pa, WithPresent(flags));
    MakeEntryFrame(pa, WithPresent(flags));
    MakeEntryWord(pa, WithPresent(flags));
    SetEntryTranslateAll(w, va, e);
  }

  /**
   * `vmm_map`: install an entry for the frame `pa` with `flags` plus PRESENT in
   * `va`'s table, creating the table if needed. 0 on success, -1 on failure.
   * On success every address of the page translates to the frame plus its
   * offset and every other address translates as before.
   */
  method Map(v: Vmm, k: Kmem.Kmem, va: nat, pa: nat, flags: nat) returns (o: Outcome)
    requires Coupled(v, k)
    ensures Coupled(o.vmm, o.mem)
    ensures o.status == 0 || o.status == -1
    ensures o.status == -1 <==>
      MapRejects(v, va, pa) || (!IsPresent(v.pd.value[PdeIndex(Trunc32(va))]) && |k.freeList| == 0)
    ensures o.status == -1 ==> o.vmm == v && o.mem == k
    ensures o.status == 0 && IsPresent(v.pd.value[PdeIndex(Trunc32(va))]) ==> o.mem == k
    ensures o.status == 0 && !IsPresent(v.pd.value[PdeIndex(Trunc32(va))]) ==> o.mem == Kmem.Kalloc(k).mem
    ensures o.status == 0 ==> o.vmm.pd.Some?
    ensures o.status == 0 ==> Retranslated(o.vmm, v, Trunc32(va), Some(Trunc32(pa)))
  {
    if MapRejects(v, va, pa) {
      return Outcome(v, k, -1);
    }
    var va32 := Trunc32(va);
    var r := GetOrCreateTable(v, k, va32);
    if r.frame.None? {
      return Outcome(v, k, -1);
    }
    var pa32 := Trunc32(pa);
    MapEntryTranslate(r.vmm, v, va32, pa32, flags);
    o := Outcome(SetEntry(r.vmm, r.frame.value, PteIndex(va32), MakeEntry(pa32, WithPresent(flags))), r.mem, 0);
  }

  /** Freeing a frame that holds neither the directory nor a table keeps every paging frame allocated. */
  lemma FreeKeepsTables(v: Vmm, k: Kmem.Kmem, phys: nat)
    requires Coupled(v, k) && phys % 4096 == 0
    ensures Kmem.Valid(Kmem.Kfree(k, phys))
    ensures !HoldsPaging(v, phys / 4096) ==> Coupled(v, Kmem.Kfree(k, phys))
  {
    var k' := Kmem.Kfree(k, phys);
    if !HoldsPaging(v, phys / 4096) && Kmem.CheckFree(k, phys) == Kmem.Accepted {
      var base := k.memoryStart / 4096;
      var pi := (phys - k.memoryStart) / 4096;
      DivModUnique(phys - k.memoryStart, 4096, phys / 4096 - base, 0);
      forall g | g in v.tables ensures UsedFrame(k', g) {
        assert g - base != pi;
      }
      if v.pd.Some? {
        assert v.pdFrame - base != pi;
      }
    }
  }

  /**
   * Why the coupling excludes the paging frames: once the directory's page is
   * freed, the allocator no longer holds it, and the next page it hands out,
   * the one a new table would take and clear, is that very page.
   */
  lemma FreedDirectoryReused(v: Vmm, k: Kmem.Kmem)
    requires Coupled(v, k) && v.pd.Some?
    ensures Kmem.CheckFree(k, v.pdFrame * 4096) == Kmem.Accepted
    ensures !Coupled(v, Kmem.Kfree(k, v.pdFrame * 4096))
    ensures Kmem.Kalloc(Kmem.Kfree(k, v.pdFrame * 4096)).addr == Some(v.pdFrame * 4096)
  {
    var base := k.memoryStart / 4096;
    var addr := v.pdFrame * 4096;
    DivModUnique(k.memoryStart, 4096, base, 0);
    var idx := v.pdFrame - base;
    assert addr - k.memoryStart == idx * 4096;
    DivModUnique(addr - k.memoryStart, 4096, idx, 0);
    assert idx * 4096 < k.totalPages * 4096;
    assert Kmem.Bytes32(k.totalPages) == k.totalPages * 4096;
    assert Kmem.CheckFree(k, addr) == Kmem.Accepted;
    Kmem.FreeThenAlloc(k, addr);
  }

  /**
   * `vmm_unmap`: clear the present entry for the page-aligned `va`, and when
   * `freePhys` is set return its frame to the allocator. Table pages are never
   * released. 0 on success, -1 on failure. On success the page translates to
   * nothing and every other address translates as before. The tables stay
   * coupled to the allocator unless the freed frame is the directory's or a
   * table's own page, which the next table allocation would then clear.
   */
  method Unmap(v: Vmm, k: Kmem.Kmem, va: nat, freePhys: bool) returns (o: Outcome)
    requires Coupled(v, k)
    ensures Valid(o.vmm) && Kmem.Valid(o.mem)
    ensures o.status == 0 || o.status == -1
    ensures o.status == -1 <==> v.pd.None? || Trunc32(va) % 4096 != 0 || Translate(v, va).None?
    ensures o.status == -1 ==> o.vmm == v && o.mem == k
    ensures o.status == 0 && !freePhys ==> o.mem == k && Coupled(o.vmm, o.mem)
    ensures o.status == 0 && freePhys ==>
      && o.mem == Kmem.Kfree(k, Translate(v, va).value)
      && (!HoldsPaging(v, Translate(v, va).value / 4096) ==> Coupled(o.vmm, o.mem))
    ensures o.status == 0 ==> Retranslated(o.vmm, v, Trunc32(va), None)
  {
    if v.pd.None? || Trunc32(va) % 4096 != 0 {
      return Outcome(v, k, -1);
    }
    var va32 := Trunc32(va);
    var pte := PteOf(v, va32);
    if pte.None? || !IsPresent(pte.value) {
      return Outcome(v, k, -1);
    }
    var w := SetEntry(v, v.pd.value[PdeIndex(va32)].frame, PteIndex(va32), Entry(0, 0));
    SetEntryTranslateAll(v, va32, Entry(0, 0));
    var phys := pte.value.frame * 4096;
    assert Translate(v, va) == Some(phys);
    if freePhys {
      FreeKeepsTables(v, k, phys);
      o := Outcome(w, Kmem.Kfree(k, phys), 0);
    } else {
      o := Outcome(w, k, 0);
    }
  }

  /**
   * `vmm_map_page`: allocate a frame and map it at `va`; if the mapping fails,
   * the frame goes back to the allocator. 0 on success, -1 on failure, which
   * happens exactly when no page is free, the directory is missing, `va` is
   * not page aligned, or a table is needed and the frame took the last free
   * page. On success the page translates into the frame the allocator
   * handed out.
   */
  method MapPage(v: Vmm, k: Kmem.Kmem, va: nat, flags: nat) returns (o: Outcome)
    requires Coupled(v, k)
    ensures Coupled(o.vmm, o.mem)
    ensures o.status == 0 || o.status == -1
    ensures |k.freeList| == 0 ==> o.status == -1 && o.mem == k
    ensures o.status == -1 <==>
      || |k.freeList| == 0 || v.pd.None? || Trunc32(va) % 4096 != 0
      || (!IsPresent(v.pd.value[PdeIndex(Trunc32(va))]) && |k.freeList| == 1)
    ensures o.status == -1 ==> o.vmm == v && o.mem.freeList == k.freeList && o.mem.flags == k.flags
    ensures o.status == 0 ==> |k.freeList| > 0 && o.vmm.pd.Some?
    ensures o.status == 0 ==>
      o.mem.freeList == k.freeList[if IsPresent(v.pd.value[PdeIndex(Trunc32(va))]) then 1 else 2..]
    ensures o.status == 0 ==> Retranslated(o.vmm, v, Trunc32(va), Some(NextFrame(k)))
  {
    var a := Kmem.Kalloc(k);
    if a.addr.None? {
      return Outcome(v, k, -1);
    }
    AllocatedFrame(v, k);
    var phys := a.addr.value;
    DivModUnique(phys, Word, 0, phys);
    assert Trunc32(phys) == phys == k.memoryStart + k.freeList[0] * 4096 == NextFrame(k);
    assert MapRejects(v, va, phys) <==> v.pd.None? || Trunc32(va) % 4096 != 0;
    var m := Map(v, a.mem, va, phys, flags);
    if m.status != 0 {
      FrameGivenBack(v, k);
      return Outcome(v, Kmem.Kfree(a.mem, phys), -1);
    }
    if !IsPresent(v.pd.value[PdeIndex(Trunc32(va))]) {
      SecondAlloc(k);
    }
    o := m;
  }

  /** A frame allocated and freed again leaves the allocator as it was and the tables coupled to it. */
  lemma FrameGivenBack(v: Vmm, k: Kmem.Kmem)
    requires Coupled(v, k) && |k.freeList| > 0
    ensures var a := Kmem.Kalloc(k);
      var k' := Kmem.Kfree(a.mem, a.addr.value);
      Coupled(v, k') && k'.freeList == k.freeList && k'.flags == k.flags
  {
    var a := Kmem.Kalloc(k);
    AllocatedFrame(v, k);
    FreeKeepsTables(v, a.mem, a.addr.value);
    Kmem.AllocThenFree(k);
  }

  /** Two allocations in a row take the first two pages of the free list. */
  lemma SecondAlloc(k: Kmem.Kmem)
    requires Kmem.Valid(k) && |k.freeList| >= 2
    ensures var m := Kmem.Kalloc(k).mem;
      |m.freeList| == |k.freeList| - 1 && m.freeList[1..] == k.freeList[2..]
  {
    assert k.freeList[1..][1..] == k.freeList[2..];
  }
}
